=== FILE: README.md ===
# plp document pipeline — a Dafny model

This project models the core of plp, a Python library that turns text documents into
training data. A `Document` is a token stream plus a list of lazily applied stages:
toggling between words and ids, converting to embeddings, stripping, skipping and
transforming tokens, and masking unknown words. Every stage may look at a window of
neighbouring tokens (the context-window dispatch engine of `token.py`), and flag tokens
mark positions in the stream. A `SeqDocument` cuts a document into chunks: slid,
separated by length, or split at flag tokens. It carries its own stages over pairs of
chunk and flag. Transformers turn documents into examples:

- word2vec and sca2word word pairs;
- question-answering arrays;
- sentiment batches, interleaved round-robin.

Each transformer describes its output with a `ListStat` schema. Serializers write the
examples as TFRecord features or as text files. Small utilities pad batches (NumPy and
Torch flavours), combine iterators and extend file names.

Modelling conventions:

- **Exceptions.** An exception the source raises is the error arm of a `Result` or
  `Outcome` value, named after the Python exception (`ValueError`, `TypeError`,
  `AssertionError`, `IndexError`, `NotImplementedError`, `RuntimeError`). A Python
  `assert` on an internal helper's arguments becomes a `requires`. On a public entry
  point it is an `AssertionError` result.
- **Generators.** Each generator is the finite sequence it yields. A generator loop is a
  method with a `while`/`for` loop, proved equal to a specification function of its
  inputs.
- **Tokens.** A token is a word or flag (`Str`), an id or length (`Int`) or an
  embedding (`Vec`).
- **Vocabulary.** The vocabulary is abstract: a value holding the lookups and the
  special tokens, passed as a parameter.
- **Objects.** Objects whose fields the source updates are classes: `Document`,
  `SeqDocument`, the dispatch buffers, the out-of-vocabulary table. Batches padded in
  place are arrays.

Modules: `Wrappers` (results), `Arith`, `PyStrings` (the Python string operations used),
`Tokens` and `ContextWindow` (token.py), `Dispatch` (the stage loops of doc.py and
seq.py), `Documents` (doc.py), `SeqDocs` (seq.py), `Iterators` (utils/iterator.py),
`TransformerInterface`, `Word2vec`, `Sca2word`, `Qa`, `Sentiment` (transformers/),
`TfRecords`, `Txt` (serializers/), `NpWrap`, `TorchWrap`, `FileUtils` (utils/).

## Model

| member | source | states |
|---|---|---|
| Tokens.ParseTokenType | token.py:3-6 | a parsed type name is one of the six names the type check accepts |
| Tokens.ParseTypeName | token.py:3-6 | each of the six token types has a name that parses back to it, so the names are distinct |
| Tokens.AssertTypeValid | token.py:3-6 | the type check passes exactly for the six names word, id, value_int, embed, value_float and list type |
| Tokens.AssertTypeDocValid | token.py:9-11 | the document type check passes exactly for the word, id and embed type names |
| Tokens.IsNumSound | token.py:14-15 | a token `is_num` accepts is made of '-', '.' and digits, holds a digit, has at most one '.', and all its '-' come first |
| Tokens.IsNumComplete | token.py:14-15 | conversely, any run of '-' followed by digits with an optional single '.' and at least one digit is accepted |
| Tokens.MapNonFlag | token.py:18-55 | the shared converter: one output per input in order, flag tokens unchanged, every other token through the lookup |
| Tokens.Word2IdGen | token.py:18-25 | `word2id_gen`: flag tokens pass, each other word becomes its id, one output per input |
| Tokens.Id2WordGen | token.py:28-35 | `id2word_gen`: flag tokens pass, each other id becomes its word |
| Tokens.Word2EmbedGen | token.py:38-45 | `word2embed_gen`: flag tokens pass, each other word becomes its embedding |
| Tokens.Id2EmbedGen | token.py:48-55 | `id2embed_gen`: flag tokens pass, each other id becomes its embedding |
| Tokens.Word2IdRoundTrip | token.py:18-35 | words to ids and back gives the stream again when the vocabulary's lookups invert each other off the flag tokens |
| ContextWindow.PySliceFrom | token.py:79 | `s[i:]` under Python's rules: a suffix of `s`, of length `len(s) - i` for a non-negative start, `-i` for a negative one, all of `s` below `-len(s)` |
| ContextWindow.GetItem | token.py:75-81 | `__getitem__` asserts both buffer lengths and calls the function on the left buffer sliced from `len(left) - num_left - 1` and the first `num_right` right tokens |
| ContextWindow.MaxLeft | token.py:89-97 | the result bounds every transformer's left width and is one of them, or 0 |
| ContextWindow.MaxRight | token.py:89-97 | the result bounds every transformer's right width and is one of them, or 0 |
| ContextWindow.GetTransformersMaxNumTokens | token.py:89-97 | the loop returns the componentwise maxima; every transformer fits them; no transformers give (0, 0) |
| ContextWindow.ShiftRight | token.py:146-157 | the new center is the head of the right buffer, else the next stream token, else None; nothing is lost: right buffer plus stream equals center plus new right buffer plus stream; the right buffer keeps its length while the stream lasts |
| ContextWindow.LeftWindow | token.py:141-144 | the left buffer after a run of centers: empty when the largest left width is 0, else the newest `min(n, m + 1)` centers |
| ContextWindow.ShiftLeftWindow | token.py:141-144 | appending a center and dropping the oldest when the buffer held more than `m` gives the window of one more center |
| ContextWindow.LeftAfterIsWindow | token.py:141-144 | repeated left shifts from an empty buffer keep exactly that window (so the buffer holds `m + 1` tokens, one more than any transformer asks for) |
| ContextWindow.TokenStream.Next | token.py:147-150 | `next(token_gen)`: the head of the stream and the stream advanced, or None at StopIteration with the stream unchanged |
| ContextWindow.ShiftContextCenterTokens | token.py:133-157 | `shift_context_center_tokens` updates the left buffer, the right buffer and the stream in place exactly as the left and right shift functions say |
| ContextWindow.ShiftContextCenterListTokens | token.py:100-130 | the parallel shift keeps all lists the same length and moves each component exactly as the scalar shift moves it over that component's stream |
| ContextWindow.ShiftLeftLists | token.py:110-115 | each left list gains its center component and loses its oldest one under the scalar rule; the right lists are untouched |
| ContextWindow.ShiftRightLists | token.py:117-129 | the new center row comes from the heads of the right lists, refilled from the stream, or from the stream when they are empty, componentwise as the scalar shift |
| Dispatch.DecideNone | doc.py:149-160 | no decision exactly when every transformer consulted (all of them on a full window, the applicable ones otherwise) answers None |
| Dispatch.DecideIsFirst | doc.py:151-154 | the decision is the answer of the first transformer that gives one |
| Dispatch.FirstMatch | doc.py:156-160 | the `for transformer ... break` loop returns exactly that first answer |
| Dispatch.RunShape | doc.py:148-171 | from a reachable state, every later token is the center of exactly one step, in order, with the left window and a contiguous run of the following tokens as its buffers |
| Dispatch.TraceShape | doc.py:142-171 | a whole stream gives one step per token, in order, each with the buffers above |
| Dispatch.SilentAfterWarmUp | doc.py:150-160 | with a widest left width m > 0, from the center at index m + 1 on every decision is None: the left buffer then holds m + 1 tokens, which passes neither the full-window test nor any applicability test |
| Dispatch.Annotated | doc.py:168 | the yielded pairs: one per step, its center with its annotation |
| Dispatch.CentersOfTrace | doc.py:142-171 | the centers of a stream's steps are the stream itself: no token is lost or repeated |
| Dispatch.EmitStep | doc.py:168-171 | a state that does not pull yields its step, then the steps from the shifted state follow |
| Dispatch.PullStep | doc.py:161-165 | pulling a token into a short right buffer moves it from the stream and leaves the remaining steps unchanged |
| Dispatch.Consult | doc.py:148-167 | the consult part of a loop turn: the left buffer is untouched, tokens only move from the stream to the right buffer, the remaining steps are unchanged, the decision is the first answer, and it stops only when no pull is allowed |
| Dispatch.Advance | doc.py:168-171 | the emitted step is the next step of the run and the shift reaches the state of the following token |
| Dispatch.Turn | doc.py:148-171 | one loop turn emits exactly one more step, with its center and decision, and the buffered-plus-pending token count drops |
| Dispatch.GetItersWithAnnotations | doc.py:138-171 | `get_iters_with_annotations` yields each center with the first answer for its window |
| Dispatch.SkipTokens | doc.py:216-254 | `skip_tokens` yields the centers for which no transformer answered truthily |
| Dispatch.SkipWith | doc.py:222-253 | the generator loop of `skip_tokens` yields the kept centers of the run |
| Dispatch.TransformTokens | doc.py:256-297 | `transform_tokens` yields every center, or the tokens its first answer replaces it with, in order |
| Dispatch.SkipIsSubsequence | doc.py:222-253 | `skip_tokens` yields an order-preserving subsequence of its input |
| Dispatch.SkipDropsIffTruthy | doc.py:229-243 | token k is dropped exactly when some consulted transformer answers truthily for its window |
| Dispatch.SkipNothing | doc.py:228-250 | when no transformer ever answers, every token is kept |
| Dispatch.TransformSplices | doc.py:288-292 | the output is the output for the tokens before k, then token k or its replacement, then the output for the rest |
| Dispatch.TransformNothing | doc.py:288-289 | when no transformer ever answers, `transform_tokens` is the identity |
| Dispatch.AnnotationsPerToken | doc.py:148-168 | one pair per input token, in order, carrying the first answer given for that token's window |
| Dispatch.LiftWidths | seq.py:124-126 | the transformers lifted to (sequence, flag) pairs keep the widths, so the buffers are sized as for the flag transformers |
| Dispatch.LiftAsk | seq.py:139 | a lifted transformer answers as the flag transformer does on the flag buffers |
| Dispatch.LiftDecide | seq.py:137-149 | the decision over the paired buffers is the flag transformers' decision over the flag buffers |
| Dispatch.FlagsOut | seq.py:161-164 | each pair's sequence with the replacement flag, or its own flag when none was given |
| Dispatch.TransformFlags | seq.py:123-174 | `transform_flags`, with the two buffers shifted together, yields `FlagsOut` of the run over the lifted transformers |
| Dispatch.TransformFlagsWith | seq.py:128-172 | its generator loop over the paired buffers |
| Dispatch.TransformFlagsPerPair | seq.py:135-164 | one pair per input pair: the sequence unchanged and the flag replaced by the first answer over the flag buffers, or kept |
| Dispatch.TransformFlagsAsWritten | seq.py:165-172 | the loop as written yields its first pair, then hands `[seqs, flags]` lists to the scalar shift and unpacks what comes back |
| Dispatch.TransformFlagsAsWrittenRaises | seq.py:165-172 | with no flag transformer reading more than one flag to the right, that unpacking raises ValueError after the first pair, while the paired shift yields a pair per input |
| Documents.StripAllFails | doc.py:208-213 | stripping succeeds exactly on streams whose non-flag tokens are strings; otherwise `token.strip()` raises AttributeError |
| Documents.StripAllValues | doc.py:208-213 | a successful strip maps every token in place, one for one: flag tokens unchanged, others stripped |
| Documents.MaskUnk | doc.py:303-313 | one output per token: a word the vocabulary knows stays, any other becomes UNK |
| Documents.RunStagesSplit | doc.py:64-68 | iterating a document runs its stages in order: a list of stages is its first part, then the rest on the result, stopping at the first error |
| Documents.AddNewSpec | doc.py:113-119 | recording keeps the flag list free of duplicates, keeps the old list as a prefix, and holds exactly the old and the new tokens |
| Documents.RemoveOneNoDup | doc.py:124 | `list.remove` on a duplicate-free list leaves it duplicate-free and holding exactly the other elements |
| Documents.DelAllSpec | doc.py:121-127 | deleting leaves the flag list duplicate-free and holding exactly the recorded tokens that were not named |
| Documents.ToggledType | doc.py:179-188 | toggling is defined exactly for word and id type, and swaps them; any other type raises ValueError |
| Documents.ToggleTwice | doc.py:176-188 | toggling twice gives the type back |
| Documents.EmbeddedType | doc.py:193-202 | embedding is defined exactly for word and id type and gives embed type; any other raises ValueError |
| Documents.EmbeddedIsFinal | doc.py:190-202 | an embedded document can be neither toggled nor embedded again |
| Documents.Document.constructor | doc.py:51-62 | a new document has no stages, the given flag list (empty for none), no labels, no cached length, is unlocked, and its file name is the basename of a non-empty path |
| Documents.Document.Lock | doc.py:106-107 | the document becomes locked and nothing else changes |
| Documents.Document.RecordNewFlagTokens | doc.py:113-119 | the flag list becomes the old one with the new tokens not yet in it appended in order; nothing else changes |
| Documents.Document.DelPrevFlagTokens | doc.py:121-127 | the flag list loses each named token it holds; nothing else changes |
| Documents.Document.SetVocabReader | doc.py:129-130 | only the vocabulary changes |
| Documents.Document.SetLabel | doc.py:132-133 | the label map gains or overwrites one key; nothing else changes |
| Documents.Document.GetLabel | doc.py:135-136 | the label stored under a key, None exactly for a key never set |
| Documents.Document.ToggleWordId | doc.py:176-188 | AssertionError without a vocabulary, then ValueError when locked or for a type other than word or id; on success one conversion stage is appended and the type swaps; a failure changes nothing |
| Documents.Document.ConvertEmbed | doc.py:190-202 | the same checks in the same order; on success a word-to-embedding or id-to-embedding stage is appended and the type becomes embed type |
| Documents.Document.StripTokens | doc.py:204-214 | AssertionError unless word type, then ValueError when locked; otherwise the strip stage is appended |
| Documents.Document.SkipTokens | doc.py:216-254 | ValueError when locked, otherwise the skip stage with these transformers is appended |
| Documents.Document.TransformTokens | doc.py:256-297 | ValueError when locked, otherwise the transform stage is appended |
| Documents.Document.MaskUnkTokens | doc.py:299-314 | AssertionError without a vocabulary, ValueError when locked, otherwise the UNK-masking stage is appended (its type check waits for iteration) |
| Documents.Document.GetItersWithAnnotations | doc.py:138-171 | the error of the document's stream, or each of its tokens with the first annotation for its window |
| Documents.Document.CachedLen | doc.py:70-73 | `len(doc)`: the cached length unless it is None or 0, otherwise the number of tokens one iteration yields |
| Documents.Document.Len | doc.py:70-73 | `__len__` returns that length and caches a counted one; what `len(doc)` gives does not change |
| Documents.FloorDiv | doc.py:336 | Python's `//`: the floor of the quotient for either sign of the divisor |
| Documents.SortByLenSpec | doc.py:317-319 | `sorted(..., key=len)` is ascending and stable: for every length, the documents of that length come out in their input order, so the result is a permutation |
| Documents.Consume | doc.py:328-344 | one loop turn keeps the grouping invariant: the yielded groups cover the consumed prefix in order, each is non-empty, within one length bucket and at most `batch_size` long, and a group is cut short only where the bucket changes |
| Documents.GroupSorted | doc.py:325-344 | after the loop the groups cover all but a held remainder of fewer than `batch_size` documents of one bucket, which is dropped |
| Documents.BatchDocsByLen | doc.py:322-344 | `batch_docs_by_len`: ZeroDivisionError exactly when `batch_seq_len` is 0 and there is a document; otherwise the groups of the length-sorted documents as above |
| SeqDocs.SlidedShifts | seq.py:11-24 | `len(ts) - L + 1` windows: the first is the first L tokens, each next one drops the oldest token and takes the next, the last ends the stream |
| SeqDocs.Gather | seq.py:13-17 | the `for _ in range(n): append(next(...))` loop takes the next n tokens, or reports that the stream ended first after taking all it held; for n of zero or less it takes nothing and leaves the stream as it was |
| SeqDocs.SlidedSegments | seq.py:11-24 | `fixed_len_gen` of the sliding constructor yields exactly the windows above, each flagged with L |
| SeqDocs.Pads | seq.py:44-45 | `[pad] * n`: n pad tokens, none for a non-positive n |
| SeqDocs.SeparatedShape | seq.py:31-47 | N tokens give N // L full chunks flagged L and one last chunk flagged N % L, every chunk of length L (a last chunk of only padding, flagged 0, when L divides N) |
| SeqDocs.SeparatedTokens | seq.py:31-47 | the chunks together are the tokens followed by the padding of the last chunk |
| SeqDocs.SeparatedSegments | seq.py:31-47 | `fixed_len_gen` of the separating constructor yields exactly those chunks |
| SeqDocs.NextChunk | seq.py:32-39 | one pass of its loop appends a full chunk and consumes L tokens, or finds the stream short and leaves the padded last chunk |
| SeqDocs.FlagSplitLabels | seq.py:54-67 | one pair per flag token, carrying it, and a final "<final>" pair exactly when tokens are left after the last flag |
| SeqDocs.FlagSplitTokens | seq.py:54-67 | the sequences together are the non-flag tokens, in order |
| SeqDocs.FlagSegments | seq.py:54-67 | the loop of `flag_gen` yields exactly that split |
| SeqDocs.MergedLabels | seq.py:108-114 | merging yields one pair per flag that is in `flag_tokens`, carrying it |
| SeqDocs.MergedTokens | seq.py:108-114 | the merged sequences, followed by the tail after the last such flag (which is dropped), are all the sequences in order |
| SeqDocs.MergeSeqGen | seq.py:108-114 | the loop of `merge_seq_gen` yields exactly that merge |
| SeqDocs.ReplacedSpec | seq.py:118-120 | `zip` keeps the sequences and takes the new flags, position by position, as far as the shorter stream goes |
| SeqDocs.ReplacedFlagGen | seq.py:118-120 | the loop of `replaced_flag_gen` yields exactly that |
| SeqDocs.LengthsOfSpec | seq.py:83-84 | `max_length` maps each flag to the length of its longest sequence; flags with only empty sequences are absent |
| SeqDocs.RunsOfOpen | seq.py:86-96 | after n pairs the open run is the last `label_cont_count` flags, all equal to `prev_label` |
| SeqDocs.RunsOfClosed | seq.py:86-96 | after n pairs every run closed before the open one is recorded at its longest |
| SeqDocs.MaxContsSpec | seq.py:80-98 | `max_cont` maps each flag to its longest run of consecutive pairs |
| SeqDocs.MaxLenDict | seq.py:79-99 | `get_max_len_dict`: both maps as above; an empty stream leaves the counter None and the final comparison raises TypeError |
| SeqDocs.PadFor | seq.py:40-43 | the pad of the last chunk: the word PAD for a word-typed document, the PAD id otherwise |
| SeqDocs.SeqDocument.constructor | seq.py:73-77 | construction locks the document, changes nothing else in it, and starts with no pair stages |
| SeqDocs.SeqDocument.CreateLenSlidedSeqDoc | seq.py:7-25 | AssertionError, with the document untouched, exactly when flag tokens were applied; otherwise a new sliding sequence document over the now locked document |
| SeqDocs.SeqDocument.CreateLenSeparatedSeqDoc | seq.py:27-48 | AssertionError exactly when flag tokens were applied; otherwise a new separating sequence document |
| SeqDocs.SeqDocument.CreateFlagSeparatedSeqDoc | seq.py:50-68 | AssertionError exactly when no flag token was applied; otherwise a new flag-splitting sequence document |
| SeqDocs.SeqDocument.Pairs | seq.py:101-105 | `__iter__` runs the segmenter over the document's tokens, then each pair stage in turn, a flag-transforming stage with the corrected paired shift of the Findings row (as written it raises ValueError after the first pair unless some flag transformer reads two or more flags to the right); with a separating length of zero or less it passes the endless stream of empty chunks through the stages, which is Endless unless a replacement stage cuts it short |
| SeqDocs.SeqDocument.MergeSeqByFlagTokens | seq.py:107-115 | appends the merge stage and nothing else |
| SeqDocs.SeqDocument.ReplaceFlagTokens | seq.py:117-121 | appends the replacement stage and nothing else |
| SeqDocs.SeqDocument.TransformFlagsOfPairs | seq.py:123-174 | appends the flag-transforming stage and nothing else |
| SeqDocs.SeqDocument.GetMaxLenDict | seq.py:79-99 | the stream's error (Endless for a stream without end), TypeError exactly for an empty stream, otherwise the two maps of its pairs |
| SeqDocs.ApplyFlow | seq.py:107-121 | one pair stage on a stream of empty chunks without end: a merge passes it on when its repeated flag is one of the flag tokens and otherwise never yields, a replacement turns it into one empty sequence per new flag, a flag transform, with the corrected paired shift of the Findings row, keeps it endless (as written it raises ValueError after the first pair unless some flag transformer reads two or more flags to the right); a finite stream goes through the stage as before and a stream that never yields stays so |
| SeqDocs.EmptyChunks | seq.py:118-120 | one empty sequence per new flag, carrying that flag |
| SeqDocs.RunFlowEnds | seq.py:101-105 | a finite stream goes through the stages exactly as the finite pipeline does |
| SeqDocs.EndsOnlyByReplace | seq.py:101-121 | a stream without end becomes finite only if some stage is a replacement |
| SeqDocs.EndlessWithoutReplace | seq.py:31-39 | with a separating length of zero or less the inner loop takes no token and the empty chunk is yielded forever, so without a replacement stage iterating the document never ends, when a flag-transforming stage runs the corrected paired shift of the Findings row (as written such a stage may end it with ValueError after one pair) |
| SeqDocs.PairsThrough | seq.py:101-105 | the loop over the appended generators rewrites a finite stream of pairs by each stage in turn, first appended first |
| SeqDocs.FlowThrough | seq.py:101-105 | the same loop carries a stream without end through each stage in turn |
| Iterators.Batched | utils/iterator.py:1-7 | every yielded batch holds exactly `batch_size` items (nothing at all for a non-positive size) |
| Iterators.ChunksShape | utils/iterator.py:1-7 | a batch size b >= 1 gives `n // b` batches of exactly b items |
| Iterators.ChunksConcat | utils/iterator.py:1-7 | the batches together are the items in order without the last `n % b`, which are dropped |
| Iterators.BatchedItemsIter | utils/iterator.py:1-7 | the loop yields exactly those batches |
| Iterators.Tails | utils/iterator.py:12-20 | after a round, one item is consumed from each live iterator and exhausted ones are dropped |
| Iterators.RoundShift | utils/iterator.py:11-20 | round k of what is left after a round is round k + 1 of before |
| Iterators.MaxLenTails | utils/iterator.py:11-20 | a round consumes one item of the longest iterator |
| Iterators.MergedRounds | utils/iterator.py:10-20 | the merge is round 0, round 1, ... up to the longest iterator, round k holding the k-th item of every iterator that has one, in iterator order |
| Iterators.RoundTailsConcat | utils/iterator.py:13-20 | a round takes the first item of each live iterator and the rest stays |
| Iterators.MergedComplete | utils/iterator.py:10-20 | every item of every iterator is yielded exactly once (as multisets) |
| Iterators.MergedLength | utils/iterator.py:10-20 | the merge is as long as all the iterators together |
| Iterators.NextRound | utils/iterator.py:12-19 | one pass of the inner loop yields round 0 and keeps exactly the iterators that yielded, one item further on |
| Iterators.MergedRoundIter | utils/iterator.py:10-20 | `merged_round_iter` yields exactly the merge |
| Iterators.Tagged | utils/iterator.py:27 | `zip(iters, labels)`: as long as the shorter, each iterator's items paired with its label |
| Iterators.MergedLabelled | utils/iterator.py:23-36 | every labelled item carries the label of an iterator that holds it |
| Iterators.LabelStep | utils/iterator.py:27-34 | one turn of the labelled loop: iterator j yields its head with its label and stays, or drops out with its label |
| Iterators.NextRoundWithLabel | utils/iterator.py:25-36 | one pass yields round 0 of the tagged iterators and keeps iterators and labels in step |
| Iterators.MergedRoundIterWithLabel | utils/iterator.py:23-36 | `merged_round_iter_with_label` is the merge of the iterators zipped with their labels |
| Iterators.LimitIter | utils/iterator.py:40-49 | `limit_iter`: the first `max` items for a positive limit; the first item alone for a non-positive one, since the count is tested after each yield; the warning exactly when fewer than `max` items were found |
| TransformerInterface.NewListStat | transformers/interface.py:46-57 | the node is refused with AssertionError exactly when a sub-node is given for a non-list type or missing for "list_type"; otherwise it holds the given fields, and a well-formed sub-node gives a well-formed node |
| TransformerInterface.PlainListStat | transformers/interface.py:47-48 | with the defaults `is_seq=False` and no sub-node, only "list_type" is refused |
| TransformerInterface.AssertDocsTokenType | transformers/interface.py:33-36 | passes exactly when every document has the given type, AssertionError otherwise |
| TransformerInterface.DocsConsistCheck | transformers/interface.py:28-31 | passes exactly when all documents share one type (the first one's), AssertionError otherwise |
| NpWrap.Longest | utils/np_wrap.py:11 | the longest row length: no row is longer, some row reaches it |
| NpWrap.Target | utils/np_wrap.py:10-12 | the given length, or the longest row's; ValueError for `max` of no rows or `np.ones` of a negative size |
| NpWrap.TargetIsLongest | utils/np_wrap.py:10-11 | without a given length no row is longer than the target and some row reaches it |
| NpWrap.Fitted | utils/np_wrap.py:13-19 | a fitted row has exactly n tokens: the row's own where it has one, the pad token after |
| NpWrap.FittedTwice | utils/np_wrap.py:13-19 | fitting is idempotent |
| NpWrap.FittedKeepsShort | utils/np_wrap.py:14-16 | a row no longer than the target keeps all its tokens as a prefix |
| NpWrap.MaskRow | utils/np_wrap.py:12-15 | a mask row has n entries: 1 at the real positions and 0 at the padding |
| NpWrap.MaskRowSum | utils/np_wrap.py:12-15 | a mask row sums to the number of real tokens kept |
| NpWrap.MaskMarksTokens | utils/np_wrap.py:12-19 | the mask is 1 exactly where the fitted row holds its own token and 0 where it holds padding |
| NpWrap.PopTo | utils/np_wrap.py:18-19 | the `pop` loop cuts row i back to n tokens and changes no other row |
| NpWrap.FitRow | utils/np_wrap.py:14-19 | one turn of the loop: row i fitted in place and its mask row zeroed after the real tokens |
| NpWrap.BatchPad | utils/np_wrap.py:5-20 | `batch_pad_`: ValueError with nothing changed, or every row fitted in place to the target and the mask of the original lengths returned |
| NpWrap.IdRow | utils/np_wrap.py:35-37 | one id per token, `vocab[x]`, in order |
| NpWrap.LookupRow | utils/np_wrap.py:34-37 | the inner loop builds exactly the ids of one row |
| NpWrap.LookupRows | utils/np_wrap.py:33-37 | the outer loop builds a row of ids per row of tokens |
| NpWrap.IdsAreGrid | utils/np_wrap.py:39 | after fitting, the ids form an m by n grid, as `np.array` needs |
| NpWrap.BatchPadLookup | utils/np_wrap.py:23-40 | `batch_pad_lookup_`: the padding error, or the rows fitted in place with the vocabulary's pad token, their ids and the mask |
| NpWrap.OovTable.constructor | utils/np_wrap.py:43 | the table `oov2randidx_dict` starts empty |
| NpWrap.Numbered | utils/np_wrap.py:70-72 | a new unknown token gets the next index, the table's size; a known one keeps its entry; no other entry changes |
| NpWrap.NumberedDense | utils/np_wrap.py:70-72 | numbering keeps the indices exactly 0..k-1 |
| NpWrap.OovMaskRow | utils/np_wrap.py:64-69 | the out-of-vocabulary mask row is 1 exactly where the token's id is the unknown id, 0 elsewhere |
| NpWrap.Oovs | utils/np_wrap.py:64-73 | the out-of-vocabulary tokens of a row, in order, are tokens of the row whose id is the unknown id |
| NpWrap.OovsHas | utils/np_wrap.py:64-73 | every unknown token of a row is among the row's out-of-vocabulary tokens |
| NpWrap.RowIdxsKeeps | utils/np_wrap.py:70-73 | a row never changes an entry of the table |
| NpWrap.RowIdxsKeys | utils/np_wrap.py:70-73 | a row adds exactly its unknown tokens to the table |
| NpWrap.RowIdxsDense | utils/np_wrap.py:70-73 | a row keeps the table's indices exactly 0..k-1 |
| NpWrap.RowIdxsOrder | utils/np_wrap.py:70-73 | a row records, for each of its unknown tokens in order, that token's index |
| NpWrap.BatchIdxsKeeps | utils/np_wrap.py:57-73 | the batch never changes an entry the table had |
| NpWrap.BatchIdxsKeys | utils/np_wrap.py:57-73 | the batch adds exactly the unknown tokens of its rows to the table |
| NpWrap.BatchIdxsDense | utils/np_wrap.py:57-73 | the table's indices stay exactly 0..k-1, so equal unknown tokens share an index and different ones do not |
| NpWrap.BatchIdxsRows | utils/np_wrap.py:57-73 | row i's recorded indices are its unknown tokens' indices in the final table, in order, since entries never change once made |
| NpWrap.BatchIdxsNext | utils/np_wrap.py:57-73 | the numbering of the first i+1 rows is that of the first i rows followed by row i, numbered against the table so far |
| NpWrap.OovRow | utils/np_wrap.py:61-73 | the inner loop over one row builds its ids, its out-of-vocabulary mask row and indices, and numbers new unknown tokens in the table |
| NpWrap.OovTurn | utils/np_wrap.py:57-73 | one turn of the outer loop appends row i's results |
| NpWrap.OovPass | utils/np_wrap.py:57-73 | the outer loop gives the ids, masks, indices and table of all rows |
| NpWrap.BatchPadOovLookup | utils/np_wrap.py:43-79 | `batch_pad_oov_lookup_`: the padding error with nothing changed, or the rows fitted in place and the table updated in place (a fresh table when none is given), then ValueError when the rows hold different numbers of unknown tokens, otherwise their ids, the mask, the out-of-vocabulary mask and indices |
| NpWrap.OovIdsGrid | utils/np_wrap.py:77-78 | the out-of-vocabulary indices form an array exactly when every row holds the same number of unknown tokens |
| NpWrap.BatchIdxsAsWritten | utils/np_wrap.py:43-73 | as written the table defaults to None and is used as a table: with a table the numbering is the one above |
| NpWrap.NoTableAsWrittenFails | utils/np_wrap.py:70 | without a table one unknown token anywhere makes `x not in None` raise TypeError, where numbering from an empty table gives that token an index in 0..k-1 |
| TorchWrap.Target | utils/torch_wrap.py:9-11 | the given length or the longest row's; ValueError for `max` of no rows, RuntimeError for a negative size |
| TorchWrap.Grown | utils/torch_wrap.py:12-15 | a grown row keeps all its tokens and is padded up to n; a row already n long or longer is unchanged |
| TorchWrap.GrownFitted | utils/torch_wrap.py:12-15 | growing agrees with the NumPy fitting exactly when the row is not longer than the target |
| TorchWrap.GrownRows | utils/torch_wrap.py:12-15 | every row grown to n |
| TorchWrap.GrowRow | utils/torch_wrap.py:13-15 | one loop turn grows row i in place and zeroes its mask row after the real tokens |
| TorchWrap.BatchPad | utils/torch_wrap.py:5-16 | `batch_pad_`: the error with nothing changed, or every row grown in place and the mask returned |
| TorchWrap.GrownToLongest | utils/torch_wrap.py:9-15 | without a given length every grown row has the target length, so the ids form a tensor |
| TorchWrap.GrownWithinTarget | utils/torch_wrap.py:12-15 | with a length no row exceeds, the grown rows are the NumPy-fitted rows, all of that length |
| TorchWrap.BatchPadLookup | utils/torch_wrap.py:19-31 | `batch_pad_lookup_`: the padding error, or the rows grown in place, then their ids and the mask when all rows have one length, and ValueError from the tensor constructor when they do not |
| FileUtils.ExtendFileBasename | utils/file.py:73-80 | the new name is the old root, "_", the signature and the old extension: its length adds the signature and one character, it starts with the root followed by "_" and ends with the extension |
| FileUtils.ExtendFileParts | utils/file.py:79-80 | the new name spelled out from the `splitext` parts of the old one |
| FileUtils.SplitExtAt | utils/file.py:67 | `splitext` splits at the last '.' when it comes after the last '/' with a non-dot character between them |
| FileUtils.SplitExtNone | utils/file.py:67 | `splitext` gives no extension when only dots lie between the last '/' and the last '.' (a hidden file such as ".bashrc") |
| FileUtils.SplitExtDotted | utils/file.py:67 | a slash-free name with one '.' splits at that dot |
| FileUtils.SplitExtInsert | utils/file.py:67-68 | text without '.' or '/' put between a root and its extension leaves the extension where it was |
| FileUtils.SplitExtAppend | utils/file.py:67-68 | text without '.' or '/' appended to a name without extension gives a name without extension |
| FileUtils.ExtendFileSplitsBack | utils/file.py:73-80 | when the signature has no '.' or '/', the new name splits back into the extended root and the old extension |
| FileUtils.ExtendFileDotted | utils/file.py:73-78 | the documented example's shape: "path_name.json" becomes "path_name_" + signature + ".json" |
| FileUtils.ReplaceAtEnd | utils/file.py:69 | `str.replace` of a pattern that can only match at the very end replaces just that end |
| FileUtils.ReplaceAtStart | utils/file.py:69 | `str.replace` of a pattern at the start replaces it and goes on with the rest |
| FileUtils.ReplaceAround | utils/file.py:69 | `str.replace` replaces both occurrences in `b + c + b` |
| FileUtils.ExtendPathAtEnd | utils/file.py:61-70 | when the base name occurs only at the end of the path, `extend_path_basename` changes only the last component |
| FileUtils.ExtendPathDotted | utils/file.py:61-65 | the documented example's shape: "/data/hello/path_name.json" becomes "/data/hello/path_name_" + signature + ".json" |
| FileUtils.ExtendPathRenamesDirectory | utils/file.py:66-70 | as written, a directory named like the file is renamed too: "b/b" becomes "e/e", not "b/e" |
| FileUtils.ExtendLastComponent | utils/file.py:61-65 | the corrected operation: only the last component is extended, so the path grows by the signature and one character |
| FileUtils.ExtendLastComponentParts | utils/file.py:61-65 | the corrected operation keeps the directory part and its base name is the extended base name |
| FileUtils.ExtendLastComponentAgrees | utils/file.py:61-70 | where the base name occurs only at the end, the code as written and the corrected operation agree |
| PyStrings.LStrip | doc.py:211 | `lstrip()`: a suffix of the input, not starting with whitespace, with only whitespace removed before it |
| PyStrings.RStrip | doc.py:211 | `rstrip()`: a prefix of the input, not ending with whitespace, with only whitespace removed after it |
| PyStrings.Strip | serializers/txt.py:60 | `strip()`: the result neither starts nor ends with whitespace, is no longer than the input and keeps every non-whitespace character of it; that it is the input with exactly its leading and trailing whitespace removed is StripInfix |
| PyStrings.StripInfix | serializers/txt.py:60 | `strip()` removes exactly the leading and the trailing whitespace: the result is the infix of the input that starts where the leading whitespace ends and is followed by whitespace only |
| PyStrings.StripSlice | serializers/txt.py:60 | stripping the leading whitespace and then the trailing whitespace leaves an infix of the input with whitespace only before and after it, holding every non-whitespace character |
| PyStrings.LStripChar | token.py:15 | `lstrip('-')`: a suffix of the input not starting with the character, with only that character removed |
| PyStrings.Find | token.py:15 | `find(c)`: the first index of the character, or -1 exactly when it does not occur |
| PyStrings.RFind | utils/file.py:66-67 | `rfind(c)`: the last index of the character, or -1 exactly when it does not occur |
| PyStrings.RFindAt | utils/file.py:66-67 | an index holding the character with none after it is the one `rfind` returns |
| PyStrings.RFindAppend | utils/file.py:66-67 | appending text without the character does not move its last occurrence |
| PyStrings.Basename | utils/file.py:66 | `os.path.basename`: a slash-free suffix of the path |
| PyStrings.BasenameAfterDir | utils/file.py:66 | the base name of a directory part ending in '/' followed by a slash-free name is that name |
| PyStrings.NoSlashAfter | utils/file.py:66 | nothing after the last '/' is a '/' |
| PyStrings.SplitExtParts | utils/file.py:67 | `os.path.splitext`: root and extension give the name back; an extension is one '.' and a dot-free, slash-free tail; a dot-free name has none |
| PyStrings.ReplaceAllAbsent | utils/file.py:69 | `replace` of a pattern that does not occur changes nothing |
| PyStrings.ReplaceCharAbsent | serializers/txt.py:39 | replacing a character that does not occur changes nothing |
| PyStrings.ReplaceCharConcat | serializers/txt.py:39 | replacing a character works piece by piece over a concatenation |
| PyStrings.Split | serializers/txt.py:60 | `split(" ")`: at least one piece, none containing the separator |
| PyStrings.JoinSplit | serializers/txt.py:60 | joining the pieces of a split with the separator gives the string back |
| PyStrings.SplitJoin | serializers/txt.py:114 | splitting a join of separator-free pieces gives the pieces back |
| PyStrings.SplitNoSep | serializers/txt.py:60 | a string without the separator splits into itself alone |
| PyStrings.SplitAround | serializers/txt.py:60 | splitting around one separator splits each side on its own |
| PyStrings.RStripSpaces | serializers/txt.py:60 | trailing whitespace is exactly what `rstrip` removes |
| PyStrings.StripTrailing | serializers/txt.py:60 | a string that starts and ends with non-whitespace, followed by whitespace, strips to itself |
| PyStrings.DigitChar | serializers/txt.py:114 | the character of a digit value is a digit |
| PyStrings.ShowNat | serializers/txt.py:114 | `str(n)` of a natural number is all digits |
| PyStrings.ShowInt | serializers/txt.py:114 | `str(n)` of an integer is non-empty and holds no space, tab or newline, so a joined line splits back into the same tokens |
| PyStrings.ParseShowNat | serializers/txt.py:74 | printing a number and reading it back gives the number |
| Word2vec.RightWindow | transformers/embeddings.py:47-51 | the right buffer while token i is the center holds the next w tokens, fewer near the end of the stream |
| Word2vec.ContextPairsSpec | transformers/embeddings.py:53-57 | a pair of one center holds that center and one of its context words that is not unk, and every such context word gives a pair |
| Word2vec.PairsUpToOrigin | transformers/embeddings.py:52-62 | every pair of the first n centers is a center of the stream with one of its context words, neither being unk |
| Word2vec.NoUnkPairs | transformers/embeddings.py:39-62 | no pair `_word2vec_gen` yields has unk on either side, and each is a center with one of its context words |
| Word2vec.PairsComplete | transformers/embeddings.py:52-62 | conversely, a center that is not unk is paired with each of its context words that is not unk |
| Word2vec.ZeroWindowNoPairs | transformers/embeddings.py:47-62 | a window size of 0 yields no pair at all |
| Word2vec.W2VShift | transformers/embeddings.py:58-62 | one shift moves the buffers from center k to center k+1, or ends the stream exactly after the last token |
| Word2vec.EmitContextPairs | transformers/embeddings.py:53-57 | the inner loop yields exactly the center's pairs |
| Word2vec.FillRight | transformers/embeddings.py:45-51 | the prefill loop gives the buffers of center 0 |
| Word2vec.W2VRound | transformers/embeddings.py:52-62 | one pass of the main loop: center k's pairs appended, then the next center, or the end exactly after the last token |
| Word2vec.Word2VecGen | transformers/embeddings.py:39-62 | `_word2vec_gen`: no pairs for an empty stream; with a negative window IndexError from the first shift; otherwise exactly the pairs of every center with its context words, unk excluded |
| Word2vec.UnkFor | transformers/embeddings.py:23-26 | the unk of the type, UNK for words and UNK_ID for ids; NotImplementedError for other types |
| Word2vec.GetListsStats | transformers/embeddings.py:12-20 | `get_lists_stats`: NotImplementedError for types other than word and id, AssertionError unless all documents share the type, else the "center" and "context" fields of that type |
| Word2vec.PairStreams | transformers/embeddings.py:30 | one pair stream per document, each `_word2vec_gen` of its tokens |
| Word2vec.CheckDocs | transformers/embeddings.py:23-27 | the checks `transform_docs` makes before reading: passes exactly when the type is word or id and shared by all, and gives the type's unk |
| Word2vec.DocStreams | transformers/embeddings.py:28-35 | the token streams of all documents, or an error some document raises |
| Word2vec.PerDocPairs | transformers/embeddings.py:30 | the pair streams of all documents in order, or IndexError with a negative window when some token exists |
| Word2vec.TransformDocs | transformers/embeddings.py:22-36 | `transform_docs`: the type errors first, then the documents' errors; otherwise the pairs of every document one after another, or round by round with `round_iter` |
| Word2vec.PairsOfStreams | transformers/embeddings.py:29-36 | once the streams are read, the yielded pairs are the per-document pairs interleaved by rounds or concatenated |
| Word2vec.ConcatOf | transformers/embeddings.py:34-36 | the sequential loop yields the concatenation of the per-document pairs |
| Word2vec.TransformSeqDocs | transformers/embeddings.py:64-74 | `transform_seq_docs`: the type errors, then the pairs of every sequence of every sequence document, one sequence after another, flag-transforming stages running the corrected paired shift of the Findings row |
| Word2vec.EstimateDocsTransformedSize | transformers/embeddings.py:76-81 | the estimate is 2w(n-1) summed over the documents |
| Word2vec.EstimateBelowPairCount | transformers/embeddings.py:76-81 | the estimate is not an upper bound on the pairs: "a b c" with window 1 yields 5 pairs and is estimated as 4, because the left buffer settles one wider than the window |
| Word2vec.ModesSamePairs | transformers/embeddings.py:29-36 | both modes yield the same pairs, each as often, only in another order |
| Sca2word.ContextOkMeaning | transformers/embeddings.py:235-241 | the side words pass exactly when the left and right side words at the same index, as `zip(u, w)` pairs them, are words the vocabulary knows and not numbers |
| Sca2word.IsUvwMeaning | transformers/embeddings.py:231-241 | `is_u_v_w` holds exactly when the center is a number and the side words paired by index pass |
| Sca2word.Win | transformers/embeddings.py:142-145 | the window at position p: w words, the center, w words |
| Sca2word.FirstFrom | transformers/embeddings.py:148-159 | the first position from p on whose window is an example, inside the stream |
| Sca2word.FirstFromSpec | transformers/embeddings.py:148-159 | the position found is an example and no earlier one from p is; None only when no window from p on is an example |
| Sca2word.FindNext | transformers/embeddings.py:140-159 | `find_next_u_v_w` on a stream: on None the stream is used up; on a window the stream has shrunk |
| Sca2word.FindNextIsFirst | transformers/embeddings.py:140-159 | the window returned is the first window of the stream that is an example; None only when no window is one |
| Sca2word.WinShift | transformers/embeddings.py:154-157 | one slide step moves the window by one token |
| Sca2word.TakeN | transformers/embeddings.py:142-147 | reading n tokens gives exactly the next n, or None with the stream used up when fewer remain |
| Sca2word.FindNextUvw | transformers/embeddings.py:140-159 | the method returns what `FindNext` gives and leaves the stream where it says |
| Sca2word.Slide | transformers/embeddings.py:148-159 | the sliding loop from the first full window ends as `FindNext` says |
| Sca2word.SlideFound | transformers/embeddings.py:151-152 | the slide stops at the first example window |
| Sca2word.SlideExhausted | transformers/embeddings.py:157-159 | a slide that reaches the end without an example finds none |
| Sca2word.FoundsAreExamples | transformers/embeddings.py:199-225 | every window the calls find is an example |
| Sca2word.EmptyStaysEmpty | transformers/embeddings.py:140-147 | an exhausted stream keeps answering None |
| Sca2word.Upcoming | transformers/embeddings.py:205-225 | the `comparisons` queue holds the next E calls' answers in order, None past the last found window |
| Sca2word.AnchorPairs | transformers/embeddings.py:211-222 | anchor j is paired with each of the next E found windows that exist, in order |
| Sca2word.PairsUpToSpec | transformers/embeddings.py:207-225 | found window a is paired with every found window b, a < b <= a + E |
| Sca2word.PairsUpToOrigin | transformers/embeddings.py:207-225 | every pair is found windows a < b <= a + E |
| Sca2word.LeadingSome | transformers/embeddings.py:211-213 | the windows before the first None in the queue |
| Sca2word.EmitComparisons | transformers/embeddings.py:211-222 | the inner loop pairs the anchor with the queue up to its first None, or raises ValueError for an unsupported value type once a pair is due |
| Sca2word.AnchorMatches | transformers/embeddings.py:211-222 | what the inner loop yields for anchor j is exactly anchor j's pairs |
| Sca2word.CallStep | transformers/embeddings.py:225 | one more call on what n calls left gives call n's answer and the stream after n+1 calls |
| Sca2word.Call | transformers/embeddings.py:201-225 | call n returns the answer of the n-th search and leaves the stream after it |
| Sca2word.Prefetch | transformers/embeddings.py:205 | filling the queue gives the E answers after the first, or the first error among them |
| Sca2word.Advance | transformers/embeddings.py:224-225 | the front of the queue becomes the anchor and one more answer joins the queue |
| Sca2word.AnchorRound | transformers/embeddings.py:208-222 | the pairs of anchor j, or the error the first of them raises |
| Sca2word.RoundFails | transformers/embeddings.py:217-225 | a round fails on the value type in round 0, else on the error that ended the search |
| Sca2word.RoundAdvance | transformers/embeddings.py:224-225 | pop and append carry the queue invariant from anchor j to anchor j+1 |
| Sca2word.PairRounds | transformers/embeddings.py:207-225 | the main loop gives the pairs after the first anchor as the specification function says |
| Sca2word.Sca2WordGen | transformers/embeddings.py:199-225 | `_sca2word_gen` yields what the specification says |
| Sca2word.Sca2WordSound | transformers/embeddings.py:199-225 | every pair yielded is two found windows, both examples, the second among the E found after the first |
| Sca2word.PairsAfterFirstOrigin | transformers/embeddings.py:207-225 | a pair of a successful outcome pairs found window a with one of the E after it |
| Sca2word.Sca2WordComplete | transformers/embeddings.py:199-225 | every two found windows at most E apart are yielded as a pair |
| Sca2word.Ids | transformers/embeddings.py:119-122 | one id per word, in order |
| Sca2word.ToExamples | transformers/embeddings.py:118-123 | each pair turned into its id form |
| Sca2word.DocsExamplesSound | transformers/embeddings.py:117-123 | every example is the id form of a pair of windows that pass the test |
| Sca2word.GenSound | transformers/embeddings.py:199-225 | every pair the generator yields is two windows passing the test |
| Sca2word.DocsExamplesStep | transformers/embeddings.py:117-123 | one more document appends its examples or ends with its error |
| Sca2word.DocsExamplesErrStays | transformers/embeddings.py:117-123 | once a document fails, the result stays that failure |
| Sca2word.TransformDocs | transformers/embeddings.py:109-123 | `transform_docs`: NotImplementedError for non-word documents, AssertionError unless all are words, else the examples of every document in order |
| Sca2word.ExamplesOfDocs | transformers/embeddings.py:117-123 | the document loop gives the examples of all documents |
| Sca2word.DocStep | transformers/embeddings.py:118-123 | one document's examples |
| Sca2word.EstimateDocsTransformedSize | transformers/embeddings.py:243-247 | the estimate is the number of examples `transform_docs` yields, or its error: NotImplementedError when the first document is not a word document, AssertionError when the documents mix token types |
| Sca2word.GetListsStats | transformers/embeddings.py:95-107 | NotImplementedError for non-word documents; otherwise the six fields u, v, w twice, the sides id lists of the window size and the values of the value type, refused when that type is "list_type" or a document is not words |
| Qa.Overwritten | transformers/qa.py:101-114 | the buffer keeps its length, with its first positions taken from the sequence |
| Qa.Assign | transformers/qa.py:101-114 | the NumPy slice assignment `buf[:len(s)] = s` succeeds exactly when the sequence fits the buffer (or broadcasts from one element) and then overwrites its front; ValueError otherwise |
| Qa.Fresh | transformers/qa.py:91-95 | the fresh accumulators: grids of the configured shapes full of padding, counter 0, no lengths |
| Qa.Feed | transformers/qa.py:96-123 | one turn of the pairs loop keeps the grid shapes, and the example it yields for an answer counts as many context lengths as contexts |
| Qa.QaRun | transformers/qa.py:96-123 | the accumulators after the first pairs of a document keep the grid shapes |
| Qa.QaPairs | transformers/qa.py:96-123 | the pairs loop of one document gives the examples `QaRun` gives, or its error |
| Qa.QaRunSnoc | transformers/qa.py:96-123 | one more pair: its error ends the document, or its example is appended |
| Qa.QaRunErrStays | transformers/qa.py:96-123 | a failing prefix fails the document with the same error |
| Qa.Grid | transformers/qa.py:92-101 | the context grid after some contexts has one row per allowed context |
| Qa.Lengths | transformers/qa.py:103 | the length of each sequence, in order |
| Qa.GatheredEmpty | transformers/qa.py:91-95 | the accumulators of no pairs are the fresh ones |
| Qa.GatheredSnoc | transformers/qa.py:97-123 | a pair that is not an answer fails exactly when its assignment breaks, and otherwise is gathered with the others |
| Qa.GatheredSnocContext | transformers/qa.py:97-103 | a context fails exactly when there is no row left for it or it does not fit a row; otherwise it fills the next row and its length is recorded |
| Qa.GatheredSnocQuestion | transformers/qa.py:104-109 | a question fails exactly when it does not fit; otherwise it overwrites the question buffer and sets its length |
| Qa.GridSnoc | transformers/qa.py:101-102 | a context fills the next row, padding before |
| Qa.FeedGathered | transformers/qa.py:96-123 | a pair fails exactly when it breaks an assignment; an answer yields the example built from the pairs since the last answer and starts afresh; another pair is gathered |
| Qa.CleanSnoc | transformers/qa.py:96-123 | the pairs so far have never failed exactly when the earlier ones never failed and the last does not break an assignment |
| Qa.QaRunState | transformers/qa.py:96-123 | the accumulators at any point are those gathered since the last answer, and the document fails exactly when some pair breaks an assignment |
| Qa.QaRunStateStep | transformers/qa.py:96-123 | the state invariant carried over one more pair |
| Qa.ExamplesMatchSnoc | transformers/qa.py:110-121 | one more pair adds an example exactly when it is an answer, built from the pairs since the previous answer |
| Qa.QaRunExamples | transformers/qa.py:110-121 | exactly one example per answer, in order, each built from the pairs since the answer before it: the question, the context grid, the answer, their lengths and the context count |
| Qa.Iters | transformers/qa.py:96 | each sequence document's pairs, or the error it raises (Endless for a stream without end) |
| Qa.QaDocsOk | transformers/qa.py:90-123 | the documents succeed together: the result is an error exactly when some document gives one |
| Qa.QaDocsPrefix | transformers/qa.py:90-123 | the examples of fewer documents are a prefix of those of more |
| Qa.QaDocsStep | transformers/qa.py:90-123 | one more document appends its examples or ends with its error |
| Qa.QaDocsErrStays | transformers/qa.py:90-123 | once a document fails, the result stays that failure |
| Qa.QaPad | transformers/qa.py:48-73 | the pad of the grids is PAD_ID for id documents and PAD for word documents |
| Qa.TransformSeqDocs | transformers/qa.py:45-123 | `transform_seq_docs`: AssertionError unless all documents share the type; ValueError for negative sizes; otherwise the examples of the documents one after another, flag-transforming stages running the corrected paired shift of the Findings row |
| Qa.QaDocsLoop | transformers/qa.py:90-123 | the document loop gives the examples of all documents |
| Qa.QaDocRound | transformers/qa.py:90-123 | one turn of the document loop appends the next document's examples |
| Qa.QaDocStep | transformers/qa.py:91-123 | one document's examples |
| Qa.GetListsStats | transformers/qa.py:15-40 | AssertionError unless all documents share the type; otherwise the seven fields in order with their widths and types, the contexts field a list of context rows, those rows themselves lists of embeddings exactly for embedding documents |
| Sentiment.Ends | transformers/sentiment.py:45-53 | slot k finds its stream exhausted just after the position of its last chunk, `n_k * B + k` |
| Sentiment.RoundRobin | transformers/sentiment.py:39-62 | the group yields one item per position until every slot has found its stream exhausted: as many items as the largest end |
| Sentiment.RoundRobinSlots | transformers/sentiment.py:41-49 | chunk r of slot k is yielded at position r * B + k with its own length and its document's label |
| Sentiment.RoundRobinPads | transformers/sentiment.py:50-52 | once its stream has run out, a slot yields pad sequences of length 0 with its label |
| Sentiment.RoundRobinEnd | transformers/sentiment.py:53-62 | exactly the last item of a group carries the end flag 1, and the group lasts until the last chunk of every slot is yielded |
| Sentiment.RoundRobinAt | transformers/sentiment.py:44-62 | the item at position r * B + i is slot i's r-th chunk, or padding once it has run out, flagged 1 only at the last position |
| Sentiment.AllEod | transformers/sentiment.py:54-57 | the `all_eod` loop gives true exactly when no slot flag is 0 |
| Sentiment.AllEndsPassed | transformers/sentiment.py:53-58 | every slot has found its stream exhausted exactly when the position has reached the largest end |
| Sentiment.TransformGroup | transformers/sentiment.py:36-62 | the loop over one group yields exactly the round robin of its streams |
| Sentiment.RRStart | transformers/sentiment.py:39-42 | the state before the loop: all flags 0, the first chunk of slot 0 fetched |
| Sentiment.RRRound | transformers/sentiment.py:43-62 | one turn yields the round robin's item at the position and either ends with the whole round robin or moves on to the next position |
| Sentiment.RRYield | transformers/sentiment.py:49-62 | the yielded item extends the output by the round robin's entry, and the last position completes it |
| Sentiment.FetchedNext | transformers/sentiment.py:45-49 | a successful fetch carries the loop state to the next position, which is not the last |
| Sentiment.ExhaustedNext | transformers/sentiment.py:50-53 | a failed fetch sets the slot's flag, so a flag is set exactly when its slot's end has been reached |
| Sentiment.Step | transformers/sentiment.py:84-87 | step t is the t-th chunk of every document with its length flag |
| Sentiment.BatchesLag | transformers/sentiment.py:99-101 | without a document length limit the count plays no part in when the group ends |
| Sentiment.AsWrittenRepeatsFirst | transformers/sentiment.py:79-117 | as written, a group whose first chunk is not empty yields its first batch twice, flagged 0, and then exactly the intended batches |
| Sentiment.AsWrittenDuplicate | transformers/sentiment.py:79-117 | one document of chunks "a", "b" and an empty last chunk yields "a" twice as written |
| Sentiment.BatchesEnd | transformers/sentiment.py:99-112 | the batches end at the first step whose end test holds: no next step, the length limit reached, or an empty next chunk in the first document |
| Sentiment.BatchesSteps | transformers/sentiment.py:78-117 | the batches are consecutive steps, each once, the end flag on the last only |
| Sentiment.BatchYieldsSpec | transformers/sentiment.py:78-117 | the intended output of a group: batch m holds chunk m of every document with its lengths and the group's labels; only the last batch ends the group, at the first batch whose end test holds |
| Sentiment.FetchAll | transformers/sentiment.py:83-88 | the fetch loop succeeds exactly when every slot has a chunk left, and then takes the next chunk of each |
| Sentiment.FetchStep | transformers/sentiment.py:83-88 | a fetch after t chunks succeeds exactly when step t exists, and then gives step t |
| Sentiment.BatchGroup | transformers/sentiment.py:71-117 | one group yields the intended batches, each step once |
| Sentiment.BatchRound | transformers/sentiment.py:78-117 | one turn fetches the next step and yields the current one, flagged 1 and stopping when the end test holds |
| Sentiment.Validate | transformers/sentiment.py:119-129 | `_validate`: AssertionError without a sequence length, NotImplementedError for types other than word and id, AssertionError unless all documents share the type; otherwise PAD for words and PAD_ID for ids |
| Sentiment.GetListsStats | transformers/sentiment.py:22-30 | AssertionError unless all documents share a type that is not "list_type"; otherwise the four fields src, src_len, label and eod_flag |
| Sentiment.DocLabels | transformers/sentiment.py:138 | the "label" label of every document |
| Sentiment.EstimateDocsTransformedSize | transformers/sentiment.py:135-143 | the count dictionary holds exactly the labels present, each with the number of documents carrying it |
| Sentiment.Streams | transformers/sentiment.py:36-37 | the chunk streams of a group, each padded with its type's pad; AssertionError first when a document has flag tokens, then the first read error |
| Sentiment.Read | transformers/sentiment.py:36-37 | reading the documents one after another: each document's chunks, or an error some document raises |
| Sentiment.RoundRobinOuts | transformers/sentiment.py:35-62 | for each group, the round robin of its streams, or its error |
| Sentiment.BatchOuts | transformers/sentiment.py:67-117 | for each group, its intended batches, or its error |
| Sentiment.TransformDocs | transformers/sentiment.py:32-62 | `transform_docs`: the validation error, or the round robin of every complete group of `batch_size` documents, stopping at the first failure; nothing for a batch size below 1 |
| Sentiment.TransformGroups | transformers/sentiment.py:35-62 | the group loop joins the groups' outputs up to the first failure |
| Sentiment.TransformDocsRound | transformers/sentiment.py:35-62 | one group's output appended |
| Sentiment.WithLens | doc.py:317-319 | every document paired with its length, or the first length error |
| Sentiment.BatchTransformDocs | transformers/sentiment.py:64-117 | `batch_transform_docs`: the validation error, or the documents sorted by length and grouped as `batch_docs_by_len` groups them, each group's intended batches joined up to the first failure |
| Sentiment.BatchViews | transformers/sentiment.py:66-117 | the same once validation has passed |
| Sentiment.GroupByLen | transformers/sentiment.py:67 | the groups are a valid `batch_docs_by_len` grouping of the sorted documents, none empty |
| Sentiment.BatchGroups | transformers/sentiment.py:67-117 | the group loop joins the groups' batches up to the first failure |
| Sentiment.BatchTransformDocsRound | transformers/sentiment.py:67-117 | one group's batches appended |
| TfRecords.SingleFeature | serializers/tfrecords.py:8-45 | `_bytes_feature`, `_int64_feature`, `_float64_feature`: the value wrapped in a one-element list of the builder's kind |
| TfRecords.Features | serializers/tfrecords.py:16-53 | the plural builders keep the list as it is, in order; a lone token is refused with TypeError |
| TfRecords.SingleIsPlural | serializers/tfrecords.py:8-53 | a singular builder gives what the plural builder gives on the one-element list |
| TfRecords.FeaturesOf | serializers/tfrecords.py:58 | one feature per value, in order, refused exactly when some value is, with the first refusal |
| TfRecords.FeatureListOf | serializers/tfrecords.py:56-59 | `_feature_list`: one feature per element, same length and order; refused when the value is not a list or an element is refused |
| TfRecords.KindOfTypes | serializers/tfrecords.py:153-191 | words are bytes, ids and integer values int64, float values floats; embeddings and lists have no kind |
| TfRecords.SubEncoderAsWritten | serializers/tfrecords.py:153-160 | as written, the inner-list encoder is always a feature list of plural features |
| TfRecords.SubEncoder | serializers/tfrecords.py:153-160 | the inner-list encoder with the inner type tested throughout: accepted exactly when the inner type has a kind, then a feature list of plural features of that kind; ValueError otherwise |
| TfRecords.SubEncoderAsWrittenRefusesInts | serializers/tfrecords.py:155 | as written, an integer-valued inner list is refused with ValueError, which the corrected test encodes as int64 lists; on every other inner type the two agree |
| TfRecords.EntryFor | serializers/tfrecords.py:146-191 | one turn of the dispatch: accepted exactly for the supported nodes, under the node's name; AttributeError for a "list_type" node without an inner node, ValueError for other refusals; the inner node of a "list_type" node is tested with the corrected inner-type test of the Findings row, so an inner "value_int_type" node is accepted where the source as written raises ValueError |
| TfRecords.EntryForShape | serializers/tfrecords.py:146-191 | an accepted node is encoded by the kind of its (inner) type, a "list_type" node and a sequence node in the feature lists, the others in the context, plural exactly when the width exceeds one |
| TfRecords.NoDoubleNesting | serializers/tfrecords.py:150-151 | a "list_type" node over a "list_type" node is refused with ValueError |
| TfRecords.Entries | serializers/tfrecords.py:144-191 | `feature_fs`: one entry per node in schema order, refused exactly when some node is |
| TfRecords.EntriesErr | serializers/tfrecords.py:144-191 | a refused schema fails with the failure of its first refused node |
| TfRecords.FeatureFns | serializers/tfrecords.py:144-191 | the dispatch loop builds exactly `Entries` |
| TfRecords.EntriesErrStays | serializers/tfrecords.py:144-191 | once a prefix of the schema is refused, the whole schema is refused the same way |
| TfRecords.Encode | serializers/tfrecords.py:200-202 | one field encoded by its entry: accepted exactly when the value has the shape the encoder needs, TypeError otherwise; single and plural encoders give a feature of their kind |
| TfRecords.DecodeEncode | serializers/tfrecords.py:200-202 | every field an encoder accepts is read back unchanged |
| TfRecords.Dicts | serializers/tfrecords.py:197-202 | the two dicts after the first fields, accepted exactly when every one of those fields encodes |
| TfRecords.Zipped | serializers/tfrecords.py:198 | `zip` stops at the shorter of the record and the schema |
| TfRecords.DictsKeys | serializers/tfrecords.py:197-202 | each dict holds exactly the names of its group's fields |
| TfRecords.DictsAt | serializers/tfrecords.py:199-202 | a field whose name no later field of its group repeats sits under its name, encoded by its entry |
| TfRecords.DictsErrStays | serializers/tfrecords.py:197-202 | once a field fails, the whole record fails the same way |
| TfRecords.RecordExample | serializers/tfrecords.py:197-203 | the grouping loop builds the record's example |
| TfRecords.DecodeRecord | serializers/tfrecords.py:197-203 | a record read back from an example has one field per schema node |
| TfRecords.RoundTrip | serializers/tfrecords.py:197-203 | with one field per node and distinct names, a written record is read back unchanged |
| TfRecords.Saved | serializers/tfrecords.py:196-204 | records are written in order, each as its example, until the first that fails to encode, whose error is the outcome |
| TfRecords.SavedFailStays | serializers/tfrecords.py:196-204 | once a record fails, nothing after it is written |
| TfRecords.Written | serializers/tfrecords.py:194-195 | the records `limit_iter` lets through: all without a size, else the first `size` (at least one when there is one) |
| TfRecords.TransformedSave | serializers/tfrecords.py:143-204 | `_transformed_save`: a refused schema writes nothing; otherwise the examples of the records let through until the first failure, never more than the size; the warning exactly when the records run out before the size; a schema is refused by the corrected inner-type test of the Findings row, so a "list_type" node over "value_int_type" is written where the source as written raises ValueError |
| TfRecords.SaveRecord | serializers/tfrecords.py:196-204 | one turn of the writing loop: record i's example or its failure |
| TfRecords.SentimentSchema | serializers/tfrecords.py:143-191 | the sentiment schema is accepted: a feature list of the documents' tokens and three int64 context scalars |
| TfRecords.QaEmbedSchemaRefused | serializers/tfrecords.py:148-171 | the question/answer schema of embedding documents is refused with ValueError |
| Txt.EolFor | serializers/txt.py:17-32 | the eol each selector hands on: EOS for words and EOS_ID for ids when yielding it (NotImplementedError for other types), none when ignoring it, the newline itself when keeping it |
| Txt.IsolateLine | serializers/txt.py:56-59 | the loop over the isolating tokens gives the line with each of them surrounded by spaces, in turn |
| Txt.NonEmpty | serializers/txt.py:61-63 | the pieces that are not empty, in order |
| Txt.NonEmptyKeeps | serializers/txt.py:61-63 | pieces that are all non-empty are kept as they are |
| Txt.Words | serializers/txt.py:56-63 | the words of a line are non-empty and hold no space |
| Txt.Converted | serializers/txt.py:64 | the converter applied to every word, in order |
| Txt.ConvertPieces | serializers/txt.py:61-64 | the inner loop converts every non-empty piece, in order |
| Txt.LineGen | serializers/txt.py:56-67 | one line yields its converted words, then the eol when there is one |
| Txt.DocGen | serializers/txt.py:51-67 | `doc_gen` yields the tokens of every line, in order |
| Txt.EolPerLine | serializers/txt.py:60-67 | with an eol the converter never produces, the document holds exactly one eol per line, blank lines included, since `split` never gives an empty list |
| Txt.BlankLine | serializers/txt.py:60-67 | a line of whitespace only yields no word, so with an eol it yields the eol alone |
| Txt.IsolateOne | serializers/txt.py:57-59 | isolating a single token is one replacement |
| Txt.IsolatedTabInside | serializers/txt.py:56-64 | an isolating tab between two words becomes a word of its own |
| Txt.IsolatedTabAtEnd | serializers/txt.py:56-64 | an isolating tab at the end of a line is removed by the strip |
| Txt.DocSave | serializers/txt.py:86-91 | the writing loop of `doc_save` writes every token followed by a space, the newline token without one |
| Txt.JoinPlain | serializers/txt.py:88-91 | words joined by spaces start and end with a word character |
| Txt.DocTextJoin | serializers/txt.py:88-91 | for words, the text `doc_save` writes is the words joined by spaces and a trailing space |
| Txt.StripJoined | serializers/txt.py:60 | that text strips back to the joined words |
| Txt.SplitJoined | serializers/txt.py:60 | words joined by spaces split back into the words |
| Txt.DocSaveReadBack | serializers/txt.py:56-91 | reading back what `doc_save` writes for words without whitespace gives those words |
| Txt.EosText | serializers/txt.py:97-103 | the newline token is written as EOS for words and EOS_ID for ids; ValueError for other types; TypeError when the token is not a string |
| Txt.ByLineAsWrittenFirstLineShort | serializers/txt.py:107-108 | as written, four words at two per line come out as lines of one, two and one words; counting from one they come out as two lines of two |
| Txt.ByLineBreaks | serializers/txt.py:94-108 | counting from one, a run that succeeds holds one line break per n tokens |
| Txt.DocSaveByLine | serializers/txt.py:94-108 | the `doc_save_by_line` loop, counting from one, writes what `ByLine` says, or stops at its error |
| Txt.ByLineFailStays | serializers/txt.py:94-108 | once a token fails, nothing after it is written |
| Txt.TerminatedJoin | serializers/txt.py:114-115 | pieces each ended by a terminator are the pieces joined by it, plus one more terminator |
| Txt.TerminatedSplit | serializers/txt.py:114-115 | splitting such text on its terminator gives the pieces and an empty last piece |
| Txt.Escaped | serializers/txt.py:118-123 | the flag line: the newline and the tab escaped, other strings as they are; TypeError for anything but a string |
| Txt.SeqDocLines | serializers/txt.py:111-124 | when every flag is a string, the sequence file holds one line per pair and the flag file the escaped flag of each pair |
| Txt.FlagFileReadBack | serializers/txt.py:118-124 | with flags holding no newline except the newline flag, line k of the flag file is flag k escaped |
| Txt.SeqDocSave | serializers/txt.py:111-124 | the `seq_doc_save` loop writes what `SeqDocTexts` says |
| Txt.SeqDocFailStays | serializers/txt.py:111-124 | once a pair fails, nothing after it is written |
| Txt.ShownItems | serializers/txt.py:162-169 | the printed form of each element, in order |
| Txt.ListText | serializers/txt.py:160-169 | one list joined by spaces; TypeError for a single token or, for words, a non-string element |
| Txt.ListTextReadBack | serializers/txt.py:160-169 | splitting a list's text on spaces gives the printed elements, which for words are the words themselves |
| Txt.SubTexts | serializers/txt.py:154-164 | a "list_type" field: each inner list joined and ended by a tab; AttributeError without an inner node and ValueError for a nested "list_type" as soon as there is an inner list, TypeError for a list that cannot be joined |
| Txt.Cells | serializers/txt.py:159-162 | one text per inner list |
| Txt.SubTextsCells | serializers/txt.py:154-164 | a field written whole is its inner lists' texts, each ended by a tab |
| Txt.SubTextsReadBack | serializers/txt.py:154-164 | splitting it on tabs gives the inner lists' texts and an empty last piece |
| Txt.SubTextsFailStays | serializers/txt.py:154-164 | once an inner list fails, nothing after it is written |
| Txt.WriteSubLists | serializers/txt.py:155-164 | the inner loop writes what `SubTexts` says |
| Txt.FieldText | serializers/txt.py:153-169 | one field: the join of its list, or TypeError with nothing written; a "list_type" field that is not a list is refused |
| Txt.WriteField | serializers/txt.py:153-169 | one field written as `FieldText` says |
| Txt.Appended | serializers/txt.py:152-170 | appending a record's field texts keeps the number of files |
| Txt.AppendedKeeps | serializers/txt.py:152-170 | files of the fields not yet reached are left alone |
| Txt.AppendedPasses | serializers/txt.py:152-170 | the record passes exactly when every field text does |
| Txt.AppendedTexts | serializers/txt.py:152-170 | when the record passes, file j holds field j's text and a newline after what it had |
| Txt.AppendedFailStays | serializers/txt.py:152-170 | a failed field ends the record |
| Txt.FieldTexts | serializers/txt.py:152 | the text and outcome of each field `zip` pairs with a schema node |
| Txt.Zipped | serializers/txt.py:152 | `zip` stops at the shorter of the record and the schema |
| Txt.WriteRecord | serializers/txt.py:152-170 | the loop over a record's fields writes what the fold says |
| Txt.AllWritten | serializers/txt.py:150-170 | one file per schema node, all starting empty |
| Txt.AllWrittenFailStays | serializers/txt.py:151-170 | once a record fails, nothing after it is written |
| Txt.AllWrittenNext | serializers/txt.py:151-170 | one more record appends its fields to the files |
| Txt.Column | serializers/txt.py:152-170 | field j's text of each record |
| Txt.FilesAreColumns | serializers/txt.py:150-170 | when every record covers the schema and nothing fails, file j holds field j of each record in order, one line each |
| Txt.FileReadBack | serializers/txt.py:150-170 | with no newline in a field text, line i of file j is record i's field j |
| Txt.LimitedAsWritten | serializers/txt.py:151 | with a size, `limit_iter` lets through the same records as in the TFRecord saver |
| Txt.LimitNoneStopsEarly | serializers/txt.py:151 | without a size, as written, the text saver stops after the first record with TypeError, where the TFRecord saver writes every record |
| Txt.TransformedSave | serializers/txt.py:147-170 | ValueError when the schema and the paths differ in number; otherwise every file gets its column of the records let through (all of them without a size), until a field fails; the warning exactly when the records run out before the size |

## Left out

- File and console I/O: opening, reading, writing and closing files, directories and TFRecord writers. `Document.create_from_txt` (doc.py:11-30), `save_as_txt` (doc.py:32-36), `create_from_txt_dir` and `gen_from_txt_dir` (doc.py:347-372) are left out. The `MultiWriteOpen`, `AggregatedReadOpen` and `ReadReplaceOpen` context managers (utils/file.py:4-58) and `aggregate_files` (utils/file.py:83-87) are left out too. The serializers are modelled as the text or records they would write.
- `Document.create_from_docs` (doc.py:38-49) is left out. The merged generator raises (a mismatched token type, a failing stage) only when it is iterated, and a model document's source is a plain token sequence, which cannot hold a delayed error.
- The `embed_size` and `pad_embedding` properties (doc.py:95-104) are left out. Embedding readers are outside the model: an embedding is an opaque `Vec` token produced by the vocabulary's lookup.
- The abstract `DocTransformer` base class (transformers/interface.py:6-27) and the `DocTransformState` record (transformers/interface.py:39-43) are not modelled as types. Each transformer is a module of functions and methods with the same operations.
- utils/dataset.py is not part of this model. The deserializers and unit tests are context only.
- Generators are modelled as finite sequences. When a stream fails, the whole output is the error. Items yielded before the error and the order of errors across interleaved streams are not modelled.
- Python duck typing is reduced to the three token shapes. A string where a list is expected becomes a TypeError result, and float token contents are not modelled.
- NumPy and Torch array construction, dtypes and the device are not modelled. Masks are integer 0/1 rows, and `np.array` of rows of different lengths is the ValueError it raises.
- `batch_pad_oov_lookup_`'s random index table is modelled as the dictionary of indices it builds. The random vectors it indexes live outside the functions.
- Qa arrays (transformers/qa.py) are sequence values rebuilt after every yield. The source also allocates fresh arrays per example, so no aliasing is observable.
- Qa.TransformSeqDocs: the embedding branch (transformers/qa.py:75-88, 98-114) is not modelled. For embedding-typed documents the pad step returns NotImplementedError, and the contract says nothing about that case.
- Qa `transform_docs` and `estimate_max_size` (transformers/qa.py:42-43, 125-126) only raise NotImplementedError. They are not modelled as separate members.
- Sca2word: `transform_docs2`, `u_v_w_gen_with_label`, `u_v_w_word2id` and `estimate_docs_single_transformed_size` of `Sca2wordTransformer` (transformers/embeddings.py:127-138, 161-196, 249-253) are unused helpers and are not modelled. The seq-document operations that only raise NotImplementedError (`Word2vecTransformer.estimate_seq_docs_transformed_size`, transformers/embeddings.py:83-84; `Sca2wordTransformer`'s two, transformers/embeddings.py:255-259) are not modelled either.
- Word2vec.EstimateDocsTransformedSize takes the document lengths as a parameter instead of counting them through `len(doc)`.
- Sca2word: the `int(float(v))` / `float(v)` conversion of the scalar value (transformers/embeddings.py:217-222) is not modelled. The value token is passed through unchanged.
- Sentiment: the `yield_doc` variant (transformers/sentiment.py:94, 105, 111, 117) is not modelled. The empty `transform_seq_docs` and `estimate_seq_docs_transformed_size` (transformers/sentiment.py:132-146) are not modelled either.
- Sentiment.GetListsStats requires a sequence length. Without one, the source builds a stat whose `list_len` is None, which the schema value does not represent.
- Sentiment.TransformDocs requires a sequence length of at least 1 when one is given. With `seq_len <= 0` every chunk stream is endless (SeqDocs.EndlessWithoutReplace), so the round robin never runs dry; only the batch loop's own end tests (the flag `seq_len` itself when it is 0, or `max_doc_len`) could stop it, and a model built on finite streams cannot express that.
- Sentiment.BatchTransformDocs requires a sequence length of at least 1 when one is given, for the same reason.
- Sentiment documents are viewed as values. The lock set by `SeqDocument` creation and the length cache are not modelled at that level.
- SeqDocs.SeqDocument.Pairs / SeqDocs.ApplyFlow / SeqDocs.EndlessWithoutReplace: a flag-transforming stage runs the corrected paired shift (Dispatch.TransformFlags) of the Findings row. As written, seq.py:165-172 raises ValueError right after the first pair unless some flag transformer reads two or more flags to the right (Dispatch.TransformFlagsAsWrittenRaises); that error, on a finite or an endless stream, is not modelled, and neither is it in Word2vec.TransformSeqDocs and Qa.TransformSeqDocs, which read the pairs through them.
- TfRecords.EntryFor / TfRecords.TransformedSave: the inner node of a "list_type" node is tested with the corrected inner-type test (TfRecords.SubEncoder) of the Findings row. As written, serializers/tfrecords.py:155-160 refuses an inner "value_int_type" node with ValueError (TfRecords.SubEncoderAsWrittenRefusesInts); the model accepts and writes it.
- SeqDocs.SeqDocument.Pairs: with a separating length of zero or less the stream of empty chunks never ends. A flag-transforming stage keeps it endless but its flags are not tracked, so a later merge of such a stream is modelled as still endless, where the source may instead never yield. A later replacement then gives a finite stream in the model where the source may hang. The document's own errors are never raised on this path, as in the source, which never asks the document for a token.
- SeqDocs.SeqDocument.Pairs: an error raised while iterating the document propagates. In the source, the slided segmenter's bare `except` ends the stream quietly, and the separated one stops and yields its last padded chunk (seq.py:11-47).
- TfRecords: `_feature_dict` and `_feature_lists_dict` (serializers/tfrecords.py:62-99) are not used on the save path and are not modelled. Building protocol buffers (`tf.train.Example`, `SequenceExample`, `SerializeToString`, serializers/tfrecords.py:102-120, 193, 204) is replaced by the feature values and a decode function. The `docs_transformed_save` wrappers (serializers/tfrecords.py:123-140) only compose modelled operations. Word features are strings, not their UTF-8 bytes.
- Txt: `doc_gen_f_split_eol` (serializers/txt.py:34-47) refers to undefined names and cannot run, so it is not modelled. The converter chosen by `get_convert_f` (serializers/txt.py:71-78) is a parameter. The `docs_transformed_save` wrappers (serializers/txt.py:127-144) only compose modelled operations. The diagnostic `print` (serializers/txt.py:116-117) is left out.
- Iterators.LimitIter: the message `limit_iter` prints when it finds fewer items than the limit is modelled as a returned flag, not as console output.
- Tokens.IsNumSound / Tokens.IsNumComplete: a digit is an ASCII '0'-'9'. Python's `str.isdigit` (token.py:14-15 and the Sca2word number test, transformers/embeddings.py:228-229) also accepts other Unicode digits such as superscripts, so a token made of those counts as a number in the source but not in the model. PyStrings.IsDigit and PyStrings.IsDigits have the same restriction.
- Documents.Document.RecordNewFlagTokens / Documents.Document.DelPrevFlagTokens: the warning printed for a flag token already recorded or not recorded concatenates the token with a string (doc.py:118-119, 126-127), which raises TypeError for a non-string token. The model only returns the warning flag and does not raise. Sca2word.NumToken likewise answers "not a number" for a non-string token, where `token.isdigit()` raises AttributeError.
- Documents.BatchDocsByLen / Documents.SortByLenSpec take (document, length) pairs instead of calling `len(doc)` on each document; the length stands for what `len(doc)` returns, the number of tokens the document yields (doc.py:70-73). An error raised while counting is not modelled.

## Findings

| source | as written | input that shows it | evidently intended | confidence | as-written member | corrected member |
|---|---|---|---|---|---|---|
| seq.py:165-172 | `transform_flags` shifts paired buffers with the scalar `shift_context_center_tokens`. Unpacking its result as `seq, center` fails once the right buffer of pairs is short. | any non-empty stream of (chunk, flag) pairs with no flag transformer reading two or more flags to the right, e.g. no transformers: ValueError right after the first pair | the paired shift `shift_context_center_list_tokens`, yielding one pair per input pair | not executed | Dispatch.TransformFlagsAsWrittenRaises | Dispatch.TransformFlags |
| transformers/sentiment.py:79-98 | on the first pass `batch_src` is set to the freshly read batch, which is yielded. The next pass yields that same batch again as `batch_src`. | one document whose chunks are "a", "b" and an empty last chunk, batch size 1, `seq_len` 1: batches "a", "a", "b" | every batch of chunks yielded once, in order | not executed | Sentiment.AsWrittenDuplicate | Sentiment.BatchYieldsSpec |
| serializers/tfrecords.py:155 | the inner-list encoder of a "list_type" node tests `token_type == "value_int_type"`, but `token_type` is always "list_type" there | a "list_type" node whose sub-node is "value_int_type": refused as unsupported | `sub_token_type == "value_int_type"`, encoding int64 lists | not executed | TfRecords.SubEncoderAsWrittenRefusesInts | TfRecords.SubEncoder |
| serializers/txt.py:107 | `doc_save_by_line` breaks the line when `i % num_tokens_per_line == 0` with `i` counted from 0, so the first line holds one token | tokens "a", "b", "c", "d" at two per line: "a \nb c \nd " | a break after every `num_tokens_per_line` tokens: "a b \nc d \n" | not executed | Txt.ByLineAsWrittenFirstLineShort | Txt.ByLineBreaks |
| serializers/txt.py:151 | `_transformed_save` calls `limit_iter(lists_iter, size)` without testing for a missing size. `i >= None` raises TypeError after the first record. | two or more records with `size=None` | with no size, every record written, as the TFRecord saver does | not executed | Txt.LimitNoneStopsEarly | Txt.TransformedSave |
| utils/np_wrap.py:43-72 | `batch_pad_oov_lookup_` defaults `oov2randidx_dict` to None and then tests `x not in oov2randidx_dict` | any batch with one out-of-vocabulary token and no table: TypeError | numbering from an empty table | not executed | NpWrap.NoTableAsWrittenFails | NpWrap.BatchPadOovLookup |
| utils/file.py:69 | `extend_path_basename` replaces the base name everywhere in the path, so a directory of the same name is renamed too | path "x/x" with signature "s": "x_s/x_s" | only the last component extended: "x/x_s" | not executed | FileUtils.ExtendPathRenamesDirectory | FileUtils.ExtendLastComponentParts |

=== FILE: arith.dfy ===
/** Facts about Euclidean division used by the chunking segmenters and batchers. */
module Arith {
  lemma DivModStep(n: int, d: int)
    requires n >= d >= 1
    ensures (n - d) / d == n / d - 1 && (n - d) % d == n % d
  {
    var q, r := n / d, n % d;
    assert n == d * q + r && 0 <= r < d;
    assert n - d == d * (q - 1) + r;
    DivModUnique(n - d, d, q - 1, r);
  }

  lemma MulAtLeast(d: int, k: int)
    requires d >= 1 && k >= 1
    ensures d * k >= d
  {
    assert d * k == d + d * (k - 1);
  }

  lemma DivModUnique(n: int, d: int, q: int, r: int)
    requires d >= 1 && n == d * q + r && 0 <= r < d
    ensures n / d == q && n % d == r
  {
    var q', r' := n / d, n % d;
    assert n == d * q' + r' && 0 <= r' < d;
    if q > q' {
      assert d * q == d * q' + d * (q - q');
      MulAtLeast(d, q - q');
    } else if q < q' {
      assert d * q' == d * q + d * (q' - q);
      MulAtLeast(d, q' - q);
    }
  }

  /** One more item adds a whole quotient exactly when it completes a multiple of d. */
  lemma DivSucc(m: int, d: int)
    requires d >= 1
    ensures (m + 1) / d == m / d + (if (m + 1) % d == 0 then 1 else 0)
  {
    var q, r := m / d, m % d;
    assert m == d * q + r && 0 <= r < d;
    if r + 1 == d {
      assert m + 1 == d * (q + 1) + 0;
      DivModUnique(m + 1, d, q + 1, 0);
    } else {
      DivModUnique(m + 1, d, q, r + 1);
    }
  }
}

=== FILE: dispatch.dfy ===
/** The first-match / warm-up dispatch loop that doc.py writes out three times
    (`skip_tokens`, `transform_tokens`, `get_iters_with_annotations`) and seq.py once more
    (`transform_flags`): a center walks through the stream; while the buffers are not
    yet full only the transformers whose widths match exactly are asked, and the right
    buffer is refilled when none of them answers; once both buffers are full every
    transformer is asked; the first non-None answer decides. */
module Dispatch {
  import opened Wrappers
  import opened ContextWindow

  /** What one transformer answers for a window: None when it is not consulted (the
      buffers are not full and its widths do not match them exactly). The dispatch loops
      only consult a transformer whose widths fit the buffers, so the width guard never
      turns a call of the source into None. */
  function Ask<T, R>(t: TokenTransformer<T, R>, left: seq<T>, center: T, right: seq<T>, full: bool): Option<R> {
    if (full || IsApplicable(t, |left|, |right|)) && t.numLeft <= |left| && t.numRight <= |right|
    then GetItem(t, left, center, right)
    else None
  }

  /** The answer of the first transformer, in list order, whose answer is not None. */
  function Decide<T, R>(ts: seq<TokenTransformer<T, R>>, left: seq<T>, center: T, right: seq<T>, full: bool): Option<R> {
    if ts == [] then None
    else
      var a := Ask(ts[0], left, center, right, full);
      if a.Some? then a else Decide(ts[1..], left, center, right, full)
  }

  /** No decision exactly when every consulted transformer answers None. */
  lemma {:induction false} DecideNone<T, R>(ts: seq<TokenTransformer<T, R>>, left: seq<T>, center: T, right: seq<T>, full: bool)
    ensures Decide(ts, left, center, right, full).None?
      <==> forall i :: 0 <= i < |ts| ==> Ask(ts[i], left, center, right, full).None?
  {
    if ts != [] {
      DecideNone(ts[1..], left, center, right, full);
      assert forall i :: 1 <= i < |ts| ==> ts[1..][i - 1] == ts[i];
    }
  }

  /** The decision is the answer of the first transformer that gives one. */
  lemma {:induction false} DecideIsFirst<T, R>(ts: seq<TokenTransformer<T, R>>, left: seq<T>, center: T, right: seq<T>, full: bool, i: nat)
    requires i < |ts| && Ask(ts[i], left, center, right, full).Some?
    requires forall j :: 0 <= j < i ==> Ask(ts[j], left, center, right, full).None?
    ensures Decide(ts, left, center, right, full) == Ask(ts[i], left, center, right, full)
  {
    if i > 0 {
      assert Ask(ts[0], left, center, right, full).None?;
      assert ts[1..][i - 1] == ts[i];
      forall j | 0 <= j < i - 1 ensures Ask(ts[1..][j], left, center, right, full).None? {
        assert ts[1..][j] == ts[j + 1];
      }
      DecideIsFirst(ts[1..], left, center, right, full, i - 1);
    }
  }

  /** The `for transformer in ...: ... break` loops of the dispatchers. */
  method FirstMatch<T, R>(ts: seq<TokenTransformer<T, R>>, left: seq<T>, center: T, right: seq<T>, full: bool)
    returns (d: Option<R>)
    requires full ==> Fits(ts, |left|, |right|)
    ensures d == Decide(ts, left, center, right, full)
  {
    d := None;
    var i := 0;
    while i < |ts|
      invariant 0 <= i <= |ts|
      invariant d.None?
      invariant Decide(ts, left, center, right, full) == Decide(ts[i..], left, center, right, full)
    {
      assert ts[i..][0] == ts[i] && ts[i..][1..] == ts[i + 1..];
      if full || IsApplicable(ts[i], |left|, |right|) {
        d := GetItem(ts[i], left, center, right);
        if d.Some? {
          return;
        }
      }
      i := i + 1;
    }
  }

  /** How a dispatch loop decides for a window (left, center, right, buffers full). */
  type Decider<!T, R> = (seq<T>, T, seq<T>, bool) -> Option<R>

  /** The decider of a list of transformers: first match. */
  function FirstMatchOf<T, R>(ts: seq<TokenTransformer<T, R>>): Decider<T, R> {
    (l, c, r, full) => Decide(ts, l, c, r, full)
  }

  /** One emitted step of a dispatch loop: the buffers and the center at the moment of
      emission, and the decision taken for that center. */
  datatype Visit<T, R> = Visit(left: seq<T>, center: T, right: seq<T>, decision: Option<R>)

  /** A step with this decision pulls one more token instead of emitting. */
  predicate Pulls<T, R>(d: Option<R>, mL: nat, mR: nat, left: seq<T>, right: seq<T>, rest: seq<T>) {
    !(|left| == mL && |right| == mR) && d.None? && |right| < mR && rest != []
  }

  /** The emitted steps of a dispatch loop from a given state, with buffer widths `mL`
      and `mR`. A step that finds no answer while the buffers are not full pulls one more
      token into the right buffer (if it is short and the stream has one) and tries
      again with the same center; otherwise it emits and shifts. */
  function Run<T, R>(dec: Decider<T, R>, mL: nat, mR: nat,
                     left: seq<T>, center: T, right: seq<T>, rest: seq<T>): seq<Visit<T, R>>
    decreases 2 * |rest| + |right|
  {
    var d := dec(left, center, right, |left| == mL && |right| == mR);
    if Pulls(d, mL, mR, left, right, rest) then
      Run(dec, mL, mR, left, center, right + [rest[0]], rest[1..])
    else
      var s := ShiftRight(right, rest);
      [Visit(left, center, right, d)]
      + (if s.0.None? then [] else Run(dec, mL, mR, ShiftLeft(left, center, mL), s.0.value, s.1, s.2))
  }

  /** The steps of a dispatch loop over a whole stream: the first token is the first
      center, both buffers start empty, and the widths are the widest declared ones. */
  function Trace<T, R>(ts: seq<TokenTransformer<T, R>>, input: seq<T>): seq<Visit<T, R>> {
    if input == [] then []
    else Run(FirstMatchOf(ts), MaxLeft(ts), MaxRight(ts), [], input[0], [], input[1..])
  }

  /** A dispatch state reached after the first k tokens were emitted. */
  ghost predicate StateAt<T>(input: seq<T>, k: nat, mL: nat, mR: nat, left: seq<T>, right: seq<T>, rest: seq<T>) {
    k < |input| && right + rest == input[k + 1..] && left == LeftWindow(input[..k], mL) && |right| <= mR
  }

  /** What each emitted step of a run looks like: its buffers, and its decision. */
  ghost predicate StepShape<T, R>(dec: Decider<T, R>, input: seq<T>, mL: nat, mR: nat, k: nat, v: Visit<T, R>) {
    StepBuffers(input, mL, mR, k, v) && StepDecision(dec, input, mL, mR, k, v)
  }

  /** The center is token k, the left buffer is the left window of the tokens before
      it, and the right buffer is the run of tokens that follows it. */
  ghost predicate StepBuffers<T, R>(input: seq<T>, mL: nat, mR: nat, k: nat, v: Visit<T, R>) {
    && k < |input|
    && v.center == input[k]
    && v.left == LeftWindow(input[..k], mL)
    && |v.right| <= mR && k + 1 + |v.right| <= |input|
    && v.right == input[k + 1..k + 1 + |v.right|]
  }

  /** The decision is the decider's answer for the step's buffers, and a step with no
      answer before the buffers are full had its right buffer filled as far as the
      stream allowed. */
  ghost predicate StepDecision<T, R>(dec: Decider<T, R>, input: seq<T>, mL: nat, mR: nat, k: nat, v: Visit<T, R>) {
    var full := |v.left| == mL && |v.right| == mR;
    && v.decision == dec(v.left, v.center, v.right, full)
    && (v.decision.None? && !full ==> |v.right| == mR || k + 1 + |v.right| == |input|)
  }

  /** The steps `vs` are those of the tokens from position k on, one per token. */
  ghost predicate Shaped<T, R>(dec: Decider<T, R>, input: seq<T>, mL: nat, mR: nat, k: nat, vs: seq<Visit<T, R>>) {
    |vs| == |input| - k && forall j :: 0 <= j < |vs| ==> StepShape(dec, input, mL, mR, k + j, vs[j])
  }

  /** Every token from position k on is the center of exactly one step, in order, and
      each step's buffers are the left window and a contiguous run of the following
      tokens; a step that found no answer before the buffers were full had pulled the
      right buffer as far as it could. */
  lemma {:induction false} RunShape<T, R>(dec: Decider<T, R>, input: seq<T>, mL: nat, mR: nat,
                                          k: nat, left: seq<T>, right: seq<T>, rest: seq<T>)
    requires StateAt(input, k, mL, mR, left, right, rest)
    ensures var vs := Run(dec, mL, mR, left, input[k], right, rest);
      Shaped(dec, input, mL, mR, k, vs)
    decreases 2 * |rest| + |right|, 1
  {
    var d := dec(left, input[k], right, |left| == mL && |right| == mR);
    if Pulls(d, mL, mR, left, right, rest) {
      assert (right + [rest[0]]) + rest[1..] == right + rest;
      assert Run(dec, mL, mR, left, input[k], right, rest)
        == Run(dec, mL, mR, left, input[k], right + [rest[0]], rest[1..]);
      RunShape(dec, input, mL, mR, k, left, right + [rest[0]], rest[1..]);
    } else {
      RunShapeEmit(dec, input, mL, mR, k, left, right, rest);
    }
  }

  /** The emitting case of `RunShape`. */
  lemma {:induction false} RunShapeEmit<T, R>(dec: Decider<T, R>, input: seq<T>, mL: nat, mR: nat,
                                              k: nat, left: seq<T>, right: seq<T>, rest: seq<T>)
    requires StateAt(input, k, mL, mR, left, right, rest)
    requires !Pulls(dec(left, input[k], right, |left| == mL && |right| == mR), mL, mR, left, right, rest)
    ensures var vs := Run(dec, mL, mR, left, input[k], right, rest);
      Shaped(dec, input, mL, mR, k, vs)
    decreases 2 * |rest| + |right|, 0
  {
    var center := input[k];
    var d := dec(left, center, right, |left| == mL && |right| == mR);
    var v := Visit(left, center, right, d);
    var vs := Run(dec, mL, mR, left, center, right, rest);
    EmitShape(dec, input, mL, mR, k, left, right, rest);
    var s := ShiftRight(right, rest);
    if s.0.Some? {
      NextState(input, mL, mR, k, left, right, rest);
      var left' := ShiftLeft(left, center, mL);
      var tail := Run(dec, mL, mR, left', input[k + 1], s.1, s.2);
      assert vs == [v] + tail;
      RunShape(dec, input, mL, mR, k + 1, left', s.1, s.2);
      ConsShape(dec, input, mL, mR, k, v, tail);
    } else {
      assert vs == [v];
      assert |input[k + 1..]| == 0;
    }
  }

  /** The step emitted from a reachable state has the shape of a step. */
  lemma EmitShape<T, R>(dec: Decider<T, R>, input: seq<T>, mL: nat, mR: nat,
                        k: nat, left: seq<T>, right: seq<T>, rest: seq<T>)
    requires StateAt(input, k, mL, mR, left, right, rest)
    requires !Pulls(dec(left, input[k], right, |left| == mL && |right| == mR), mL, mR, left, right, rest)
    ensures StepShape(dec, input, mL, mR, k, Visit(left, input[k], right, dec(left, input[k], right, |left| == mL && |right| == mR)))
  {
    var v := Visit(left, input[k], right, dec(left, input[k], right, |left| == mL && |right| == mR));
    assert v.left == LeftWindow(input[..k], mL);
    assert |input[k + 1..]| == |right| + |rest|;
    assert input[k + 1..][..|right|] == right;
    assert rest == [] ==> k + 1 + |right| == |input|;
  }

  /** The shift from a reachable state reaches the state of the next token. */
  lemma NextState<T>(input: seq<T>, mL: nat, mR: nat, k: nat, left: seq<T>, right: seq<T>, rest: seq<T>)
    requires StateAt(input, k, mL, mR, left, right, rest)
    requires ShiftRight(right, rest).0.Some?
    ensures var s := ShiftRight(right, rest);
      s.0.value == input[k + 1] && StateAt(input, k + 1, mL, mR, ShiftLeft(left, input[k], mL), s.1, s.2)
  {
    var s := ShiftRight(right, rest);
    assert input[k + 1..] == [input[k + 1]] + input[k + 2..];
    ShiftLeftWindow(input[..k], input[k], mL);
    assert input[..k] + [input[k]] == input[..k + 1];
  }

  lemma ConsShape<T, R>(dec: Decider<T, R>, input: seq<T>, mL: nat, mR: nat,
                        k: nat, v: Visit<T, R>, tail: seq<Visit<T, R>>)
    requires StepShape(dec, input, mL, mR, k, v)
    requires Shaped(dec, input, mL, mR, k + 1, tail)
    ensures var vs := [v] + tail;
      Shaped(dec, input, mL, mR, k, vs)
  {
    var vs := [v] + tail;
    forall j | 0 <= j < |vs| ensures StepShape(dec, input, mL, mR, k + j, vs[j]) {
      if j > 0 {
        assert vs[j] == tail[j - 1];
      }
    }
  }

  /** The steps of a whole stream: one per token, in order, with the shapes above. */
  lemma TraceShape<T, R>(ts: seq<TokenTransformer<T, R>>, input: seq<T>)
    ensures var vs := Trace(ts, input);
      |vs| == |input|
      && forall k :: 0 <= k < |vs| ==> StepShape(FirstMatchOf(ts), input, MaxLeft(ts), MaxRight(ts), k, vs[k])
  {
    if input != [] {
      RunShape(FirstMatchOf(ts), input, MaxLeft(ts), MaxRight(ts), 0, [], [], input[1..]);
    }
  }

  /** Transformers go silent after m + 1 centers: with a widest left width m > 0, the
      left buffer holds m + 1 tokens from the center at index m + 1 on, which fails both
      the full-window test and every transformer's applicability test. */
  lemma SilentAfterWarmUp<T, R>(ts: seq<TokenTransformer<T, R>>, input: seq<T>, k: nat)
    requires MaxLeft(ts) > 0 && MaxLeft(ts) + 1 <= k < |input|
    ensures |Trace(ts, input)| == |input| && Trace(ts, input)[k].decision == None
  {
    TraceShape(ts, input);
    var v := Trace(ts, input)[k];
    assert |v.left| == MaxLeft(ts) + 1;
    DecideNone(ts, v.left, v.center, v.right, false);
  }

  /** The output of `skip_tokens`: the centers for which no transformer answered. */
  function Kept<T, R>(vs: seq<Visit<T, R>>): seq<T> {
    if vs == [] then []
    else Kept(vs[..|vs| - 1]) + (if vs[|vs| - 1].decision.None? then [vs[|vs| - 1].center] else [])
  }

  lemma KeptSnoc<T, R>(vs: seq<Visit<T, R>>, v: Visit<T, R>)
    ensures Kept(vs + [v]) == Kept(vs) + (if v.decision.None? then [v.center] else [])
  {
    assert (vs + [v])[..|vs|] == vs;
  }

  lemma AnnotatedSnoc<T, R>(vs: seq<Visit<T, R>>, v: Visit<T, R>)
    ensures Annotated(vs + [v]) == Annotated(vs) + [(v.center, v.decision)]
  {
    assert (vs + [v])[|vs|] == v;
  }

  /** The output of `transform_tokens`: each center, or the tokens that replaced it. */
  function Spliced<T>(vs: seq<Visit<T, seq<T>>>): seq<T> {
    if vs == [] then []
    else
      var v := vs[|vs| - 1];
      Spliced(vs[..|vs| - 1]) + (if v.decision.None? then [v.center] else v.decision.value)
  }

  lemma SplicedSnoc<T>(vs: seq<Visit<T, seq<T>>>, v: Visit<T, seq<T>>)
    ensures Spliced(vs + [v]) == Spliced(vs) + (if v.decision.None? then [v.center] else v.decision.value)
  {
    assert (vs + [v])[..|vs|] == vs;
  }

  /** The output of `get_iters_with_annotations`: each center with its annotation. */
  function Annotated<T, R>(vs: seq<Visit<T, R>>): (r: seq<(T, Option<R>)>)
    ensures |r| == |vs| && forall k :: 0 <= k < |vs| ==> r[k] == (vs[k].center, vs[k].decision)
  {
    seq(|vs|, k requires 0 <= k < |vs| => (vs[k].center, vs[k].decision))
  }

  /** `s` is an order-preserving subsequence of `t`. */
  ghost predicate IsSubseq<T>(s: seq<T>, t: seq<T>)
    decreases |t|
  {
    if s == [] then true
    else if t == [] then false
    else if s[|s| - 1] == t[|t| - 1] then IsSubseq(s[..|s| - 1], t[..|t| - 1])
    else IsSubseq(s, t[..|t| - 1])
  }

  lemma {:induction false} KeptSubseq<T, R>(vs: seq<Visit<T, R>>)
    ensures IsSubseq(Kept(vs), Centers(vs))
  {
    if vs != [] {
      var init := vs[..|vs| - 1];
      var c := vs[|vs| - 1].center;
      KeptSubseq(init);
      assert Centers(vs) == Centers(init) + [c];
      if vs[|vs| - 1].decision.None? {
        assert Kept(vs) == Kept(init) + [c];
        assert (Kept(init) + [c])[..|Kept(init)|] == Kept(init);
        assert (Centers(init) + [c])[..|init|] == Centers(init);
      } else {
        assert Kept(vs) == Kept(init);
        SubseqExtend(Kept(init), Centers(init), c);
      }
    }
  }

  lemma {:induction false} SubseqExtend<T>(s: seq<T>, t: seq<T>, x: T)
    requires IsSubseq(s, t)
    ensures IsSubseq(s, t + [x])
    decreases |t|, 1
  {
    var t' := t + [x];
    assert t'[..|t'| - 1] == t;
    if s != [] && s[|s| - 1] == x {
      SubseqDropLast(s, t);
    }
  }

  lemma {:induction false} SubseqDropLast<T>(s: seq<T>, t: seq<T>)
    requires s != [] && IsSubseq(s, t)
    ensures IsSubseq(s[..|s| - 1], t)
    decreases |t|, 0
  {
    var init := t[..|t| - 1];
    assert init + [t[|t| - 1]] == t;
    if s[|s| - 1] == t[|t| - 1] {
      SubseqExtend(s[..|s| - 1], init, t[|t| - 1]);
    } else {
      SubseqDropLast(s, init);
      SubseqExtend(s[..|s| - 1], init, t[|t| - 1]);
    }
  }

  /** The centers of a list of steps. */
  function Centers<T, R>(vs: seq<Visit<T, R>>): (r: seq<T>)
    ensures |r| == |vs| && forall k :: 0 <= k < |vs| ==> r[k] == vs[k].center
  {
    seq(|vs|, k requires 0 <= k < |vs| => vs[k].center)
  }

  /** The centers of a stream's steps are the stream itself. */
  lemma CentersOfTrace<T, R>(ts: seq<TokenTransformer<T, R>>, input: seq<T>)
    ensures Centers(Trace(ts, input)) == input
  {
    TraceShape(ts, input);
    var vs := Trace(ts, input);
    forall k | 0 <= k < |input| ensures Centers(vs)[k] == input[k] {
      assert StepBuffers(input, MaxLeft(ts), MaxRight(ts), k, vs[k]);
    }
  }

  /** With every decision None, nothing is dropped. */
  lemma {:induction false} KeptAllNone<T, R>(vs: seq<Visit<T, R>>)
    requires forall k :: 0 <= k < |vs| ==> vs[k].decision.None?
    ensures Kept(vs) == Centers(vs)
  {
    if vs != [] {
      var init := vs[..|vs| - 1];
      KeptAllNone(init);
      assert Centers(vs) == Centers(init) + [vs[|vs| - 1].center];
    }
  }

  /** Splicing distributes over concatenation of steps. */
  lemma {:induction false} SplicedAppend<T>(a: seq<Visit<T, seq<T>>>, b: seq<Visit<T, seq<T>>>)
    ensures Spliced(a + b) == Spliced(a) + Spliced(b)
    decreases |b|
  {
    if b != [] {
      var b' := b[..|b| - 1];
      assert (a + b)[..|a + b| - 1] == a + b';
      SplicedAppend(a, b');
    } else {
      assert a + b == a;
    }
  }

  /** With every decision None, splicing gives the centers back. */
  lemma {:induction false} SplicedAllNone<T>(vs: seq<Visit<T, seq<T>>>)
    requires forall k :: 0 <= k < |vs| ==> vs[k].decision.None?
    ensures Spliced(vs) == Centers(vs)
  {
    if vs != [] {
      var init := vs[..|vs| - 1];
      SplicedAllNone(init);
      assert Centers(vs) == Centers(init) + [vs[|vs| - 1].center];
    }
  }

  /** The step emitted from a state that does not pull, and the steps after it. */
  lemma EmitStep<T, R>(dec: Decider<T, R>, mL: nat, mR: nat, left: seq<T>, c: T, right: seq<T>, rest: seq<T>)
    requires !Pulls(dec(left, c, right, |left| == mL && |right| == mR), mL, mR, left, right, rest)
    ensures var s := ShiftRight(right, rest);
      Run(dec, mL, mR, left, c, right, rest)
      == [Visit(left, c, right, dec(left, c, right, |left| == mL && |right| == mR))]
         + (if s.0.None? then [] else Run(dec, mL, mR, ShiftLeft(left, c, mL), s.0.value, s.1, s.2))
  {
  }

  /** A step that pulls leaves the remaining steps as they were. */
  lemma PullStep<T, R>(dec: Decider<T, R>, mL: nat, mR: nat, left: seq<T>, c: T, right: seq<T>, rest: seq<T>)
    requires Pulls(dec(left, c, right, |left| == mL && |right| == mR), mL, mR, left, right, rest)
    ensures Run(dec, mL, mR, left, c, right + [rest[0]], rest[1..]) == Run(dec, mL, mR, left, c, right, rest)
    ensures (right + [rest[0]]) + rest[1..] == right + rest
  {
  }

  /** The body of a dispatch loop up to its `yield`: ask the transformers in order and,
      while the buffers are not full and none answers, pull one more token into a short
      right buffer and ask again (the `continue` of the source). The state it leaves has
      the same remaining steps, and its decision is the one the first of them carries. */
  method Consult<T, R>(ts: seq<TokenTransformer<T, R>>, mL: nat, mR: nat, w: Window<T>, center: T, src: TokenStream<T>)
    returns (d: Option<R>)
    requires mL == MaxLeft(ts) && mR == MaxRight(ts)
    modifies w, src
    ensures w.left == old(w.left) && w.right + src.rest == old(w.right) + old(src.rest)
    ensures Run(FirstMatchOf(ts), mL, mR, w.left, center, w.right, src.rest)
         == Run(FirstMatchOf(ts), mL, mR, old(w.left), center, old(w.right), old(src.rest))
    ensures d == Decide(ts, w.left, center, w.right, |w.left| == mL && |w.right| == mR)
    ensures !Pulls(d, mL, mR, w.left, w.right, src.rest)
  {
    assert Fits(ts, mL, mR);
    while true
      invariant w.left == old(w.left) && w.right + src.rest == old(w.right) + old(src.rest)
      invariant Run(FirstMatchOf(ts), mL, mR, w.left, center, w.right, src.rest)
             == Run(FirstMatchOf(ts), mL, mR, old(w.left), center, old(w.right), old(src.rest))
      decreases |src.rest|
    {
      var full := |w.left| == mL && |w.right| == mR;
      d := FirstMatch(ts, w.left, center, w.right, full);
      if !full && d.None? && |w.right| < mR {
        ghost var rest0 := src.rest;
        var next := src.Next();
        if next.Some? {
          PullStep(FirstMatchOf(ts), mL, mR, w.left, center, w.right, rest0);
          w.right := w.right + [next.value];
          continue;
        }
      }
      return;
    }
  }

  /** The loop state of a dispatcher: the steps emitted so far, followed by the steps that
      remain from the current state, make up the whole trace; with no center left,
      everything has been emitted. */
  ghost predicate Ongoing<T, R>(ts: seq<TokenTransformer<T, R>>, mL: nat, mR: nat, done: seq<Visit<T, R>>,
                                center: Option<T>, left: seq<T>, right: seq<T>, rest: seq<T>, target: seq<Visit<T, R>>) {
    if center.Some? then done + Run(FirstMatchOf(ts), mL, mR, left, center.value, right, rest) == target
    else done == target
  }

  /** One loop turn of a dispatcher after its decision: the step it emits is the first of
      the remaining steps, and the shift leaves the rest. */
  method Advance<T, R>(ts: seq<TokenTransformer<T, R>>, mL: nat, mR: nat, w: Window<T>, center: T, src: TokenStream<T>,
                       d: Option<R>, ghost done: seq<Visit<T, R>>, ghost target: seq<Visit<T, R>>)
    returns (next: Option<T>, ghost done': seq<Visit<T, R>>)
    requires d == FirstMatchOf(ts)(w.left, center, w.right, |w.left| == mL && |w.right| == mR)
    requires !Pulls(d, mL, mR, w.left, w.right, src.rest)
    requires Ongoing(ts, mL, mR, done, Some(center), w.left, w.right, src.rest, target)
    modifies w, src
    ensures done' == done + [Visit(old(w.left), center, old(w.right), d)]
    ensures Ongoing(ts, mL, mR, done', next, w.left, w.right, src.rest, target)
    ensures |w.right| + |src.rest| + (if next.Some? then 1 else 0) == |old(w.right)| + |old(src.rest)|
  {
    ghost var dec := FirstMatchOf(ts);
    ghost var v := Visit(w.left, center, w.right, d);
    ghost var s := ShiftRight(w.right, src.rest);
    ghost var left' := ShiftLeft(w.left, center, mL);
    EmitStep(dec, mL, mR, w.left, center, w.right, src.rest);
    done' := done + [v];
    next := ShiftContextCenterTokens(w, center, src, mL);
    assert next == s.0 && w.left == left' && w.right == s.1 && src.rest == s.2;
    if next.Some? {
      ghost var tail := Run(dec, mL, mR, left', s.0.value, s.1, s.2);
      assert done + ([v] + tail) == done' + tail;
    } else {
      assert done + [v] == done';
    }
  }

  /** One turn of a dispatch loop: consult (pulling while allowed), emit, shift. It
      returns the emitted center and decision and the next center. */
  method Turn<T, R>(ts: seq<TokenTransformer<T, R>>, mL: nat, mR: nat, w: Window<T>, center: Option<T>, src: TokenStream<T>,
                    ghost done: seq<Visit<T, R>>, ghost target: seq<Visit<T, R>>)
    returns (c: T, d: Option<R>, next: Option<T>, ghost done': seq<Visit<T, R>>)
    requires center.Some? && mL == MaxLeft(ts) && mR == MaxRight(ts)
    requires Ongoing(ts, mL, mR, done, center, w.left, w.right, src.rest, target)
    modifies w, src
    ensures c == center.value
    ensures |done'| == |done| + 1 && done' == done + [done'[|done|]]
    ensures done'[|done|].center == c && done'[|done|].decision == d
    ensures Ongoing(ts, mL, mR, done', next, w.left, w.right, src.rest, target)
    ensures |w.right| + |src.rest| + (if next.Some? then 1 else 0) < |old(w.right)| + |old(src.rest)| + 1
  {
    c := center.value;
    d := Consult(ts, mL, mR, w, c, src);
    next, done' := Advance(ts, mL, mR, w, c, src, d, done, target);
  }

  /** `skip_tokens`: the truthy answer of a skipping transformer drops the center. */
  function Truthy<T>(t: TokenTransformer<T, bool>): TokenTransformer<T, ()> {
    TokenTransformer((l, c, r) => if t.f(l, c, r) == Some(true) then Some(()) else None, t.numLeft, t.numRight)
  }

  /** The skipping transformers with their answers read for truthiness. */
  function TruthyAll<T>(bts: seq<TokenTransformer<T, bool>>): (ts: seq<TokenTransformer<T, ()>>)
    ensures |ts| == |bts| && forall i :: 0 <= i < |bts| ==> ts[i] == Truthy(bts[i])
  {
    seq(|bts|, i requires 0 <= i < |bts| => Truthy(bts[i]))
  }

  /** `get_iters_with_annotations`: every center with the first answer for it. */
  method GetItersWithAnnotations<T, R>(ts: seq<TokenTransformer<T, R>>, input: seq<T>) returns (out: seq<(T, Option<R>)>)
    ensures out == Annotated(Trace(ts, input))
  {
    var mL, mR := GetTransformersMaxNumTokens(ts);
    var w := new Window<T>();
    var src := new TokenStream<T>(input);
    out := [];
    var center := src.Next();
    ghost var done: seq<Visit<T, R>> := [];
    ghost var target := Trace(ts, input);
    while center.Some?
      invariant mL == MaxLeft(ts) && mR == MaxRight(ts)
      invariant Ongoing(ts, mL, mR, done, center, w.left, w.right, src.rest, target)
      invariant out == Annotated(done)
      decreases |w.right| + |src.rest| + (if center.Some? then 1 else 0)
    {
      ghost var done0 := done;
      var c, d;
      c, d, center, done := Turn(ts, mL, mR, w, center, src, done, target);
      out := out + [(c, d)];
      AnnotatedSnoc(done0, done[|done| - 1]);
    }
  }

  /** `skip_tokens`: the centers for which no skipping transformer answered truthily. */
  method SkipTokens<T>(bts: seq<TokenTransformer<T, bool>>, input: seq<T>) returns (out: seq<T>)
    ensures out == Kept(Trace(TruthyAll(bts), input))
  {
    out := SkipWith(TruthyAll(bts), input);
  }

  /** The loop of `skip_tokens`, with the truthiness test folded into the transformers. */
  method SkipWith<T>(ts: seq<TokenTransformer<T, ()>>, input: seq<T>) returns (out: seq<T>)
    ensures out == Kept(Trace(ts, input))
  {
    var mL, mR := GetTransformersMaxNumTokens(ts);
    var w := new Window<T>();
    var src := new TokenStream<T>(input);
    out := [];
    var center := src.Next();
    ghost var done: seq<Visit<T, ()>> := [];
    ghost var target := Trace(ts, input);
    while center.Some?
      invariant mL == MaxLeft(ts) && mR == MaxRight(ts)
      invariant Ongoing(ts, mL, mR, done, center, w.left, w.right, src.rest, target)
      invariant out == Kept(done)
      decreases |w.right| + |src.rest| + (if center.Some? then 1 else 0)
    {
      ghost var done0 := done;
      var c, skip;
      c, skip, center, done := Turn(ts, mL, mR, w, center, src, done, target);
      if skip.None? {
        out := out + [c];
      }
      KeptSnoc(done0, done[|done| - 1]);
    }
  }

  /** `transform_tokens`: every center, or the tokens its first answer replaces it with. */
  method TransformTokens<T>(ts: seq<TokenTransformer<T, seq<T>>>, input: seq<T>) returns (out: seq<T>)
    ensures out == Spliced(Trace(ts, input))
  {
    var mL, mR := GetTransformersMaxNumTokens(ts);
    var w := new Window<T>();
    var src := new TokenStream<T>(input);
    out := [];
    var center := src.Next();
    ghost var done: seq<Visit<T, seq<T>>> := [];
    ghost var target := Trace(ts, input);
    while center.Some?
      invariant mL == MaxLeft(ts) && mR == MaxRight(ts)
      invariant Ongoing(ts, mL, mR, done, center, w.left, w.right, src.rest, target)
      invariant out == Spliced(done)
      decreases |w.right| + |src.rest| + (if center.Some? then 1 else 0)
    {
      ghost var done0 := done;
      var c, newTokens;
      c, newTokens, center, done := Turn(ts, mL, mR, w, center, src, done, target);
      if newTokens.None? {
        out := out + [c];
      } else {
        out := out + newTokens.value;
      }
      SplicedSnoc(done0, done[|done| - 1]);
    }
  }

  /** The flag column of a stream of (sequence, flag) pairs. */
  function FlagColumn<S, F>(ps: seq<(S, F)>): (r: seq<F>)
    ensures |r| == |ps| && forall k :: 0 <= k < |ps| ==> r[k] == ps[k].1
  {
    seq(|ps|, k requires 0 <= k < |ps| => ps[k].1)
  }

  /** A flag transformer working on the paired buffers: it sees the flag column only. */
  function Lift<S, F>(t: TokenTransformer<F, F>): TokenTransformer<(S, F), F> {
    TokenTransformer((l: seq<(S, F)>, c: (S, F), r: seq<(S, F)>) => t.f(FlagColumn(l), c.1, FlagColumn(r)), t.numLeft, t.numRight)
  }

  function LiftAll<S, F>(ts: seq<TokenTransformer<F, F>>): (us: seq<TokenTransformer<(S, F), F>>)
    ensures |us| == |ts| && forall i :: 0 <= i < |ts| ==> us[i] == Lift(ts[i])
  {
    seq(|ts|, i requires 0 <= i < |ts| => Lift(ts[i]))
  }

  /** Lifting keeps the widths, so the buffers are sized as for the flag transformers. */
  lemma {:induction false} LiftWidths<S, F>(ts: seq<TokenTransformer<F, F>>)
    ensures MaxLeft(LiftAll<S, F>(ts)) == MaxLeft(ts) && MaxRight(LiftAll<S, F>(ts)) == MaxRight(ts)
  {
    if ts != [] {
      var init := ts[..|ts| - 1];
      LiftWidths<S, F>(init);
      assert LiftAll<S, F>(ts)[..|ts| - 1] == LiftAll<S, F>(init);
    }
  }

  /** A lifted transformer answers as the flag transformer does on the flag columns. */
  lemma LiftAsk<S, F>(t: TokenTransformer<F, F>, left: seq<(S, F)>, center: (S, F), right: seq<(S, F)>, full: bool)
    ensures Ask(Lift(t), left, center, right, full) == Ask(t, FlagColumn(left), center.1, FlagColumn(right), full)
  {
    if (full || IsApplicable(t, |left|, |right|)) && t.numLeft <= |left| && t.numRight <= |right| {
      var w := PassedLeftWidth(|left|, t.numLeft);
      assert FlagColumn(left[|left| - w..]) == FlagColumn(left)[|left| - w..];
      assert FlagColumn(right[..t.numRight]) == FlagColumn(right)[..t.numRight];
    }
  }

  /** The decision over the paired buffers is the flag transformers' decision over the
      flag buffers. */
  lemma {:induction false} LiftDecide<S, F>(ts: seq<TokenTransformer<F, F>>, left: seq<(S, F)>, center: (S, F), right: seq<(S, F)>, full: bool)
    ensures Decide(LiftAll<S, F>(ts), left, center, right, full) == Decide(ts, FlagColumn(left), center.1, FlagColumn(right), full)
  {
    if ts != [] {
      LiftAsk(ts[0], left, center, right, full);
      assert LiftAll<S, F>(ts)[1..] == LiftAll<S, F>(ts[1..]);
      LiftDecide(ts[1..], left, center, right, full);
    }
  }

  /** The output of `transform_flags`: each sequence with its flag, or the flag's
      replacement. */
  function FlagsOut<S, F>(vs: seq<Visit<(S, F), F>>): (r: seq<(S, F)>)
    ensures |r| == |vs| && forall k :: 0 <= k < |vs| ==> r[k] == (vs[k].center.0, vs[k].decision.GetOr(vs[k].center.1))
  {
    seq(|vs|, k requires 0 <= k < |vs| => (vs[k].center.0, vs[k].decision.GetOr(vs[k].center.1)))
  }

  lemma FlagsOutSnoc<S, F>(vs: seq<Visit<(S, F), F>>, v: Visit<(S, F), F>)
    ensures FlagsOut(vs + [v]) == FlagsOut(vs) + [(v.center.0, v.decision.GetOr(v.center.1))]
  {
    assert (vs + [v])[|vs|] == v;
  }

  /** `transform_flags`, with the paired buffers shifted together (the buffer of pairs
      stands for the sequence buffer and the flag buffer side by side). */
  method TransformFlags<S, F>(ts: seq<TokenTransformer<F, F>>, input: seq<(S, F)>) returns (out: seq<(S, F)>)
    ensures out == FlagsOut(Trace(LiftAll<S, F>(ts), input))
  {
    out := TransformFlagsWith(LiftAll<S, F>(ts), input);
  }

  /** The loop of `transform_flags` over the paired buffers. */
  method TransformFlagsWith<S, F>(lifted: seq<TokenTransformer<(S, F), F>>, input: seq<(S, F)>) returns (out: seq<(S, F)>)
    ensures out == FlagsOut(Trace(lifted, input))
  {
    var mL, mR := GetTransformersMaxNumTokens(lifted);
    var w := new Window<(S, F)>();
    var src := new TokenStream<(S, F)>(input);
    out := [];
    var center := src.Next();
    ghost var done: seq<Visit<(S, F), F>> := [];
    ghost var target := Trace(lifted, input);
    while center.Some?
      invariant mL == MaxLeft(lifted) && mR == MaxRight(lifted)
      invariant Ongoing(lifted, mL, mR, done, center, w.left, w.right, src.rest, target)
      invariant out == FlagsOut(done)
      decreases |w.right| + |src.rest| + (if center.Some? then 1 else 0)
    {
      ghost var done0 := done;
      var c, newFlag;
      c, newFlag, center, done := Turn(lifted, mL, mR, w, center, src, done, target);
      out := out + [(c.0, newFlag.GetOr(c.1))];
      FlagsOutSnoc(done0, done[|done| - 1]);
    }
  }

  /** `skip_tokens` keeps an order-preserving subsequence of its input. */
  lemma SkipIsSubsequence<T>(bts: seq<TokenTransformer<T, bool>>, input: seq<T>)
    ensures IsSubseq(Kept(Trace(TruthyAll(bts), input)), input)
  {
    KeptSubseq(Trace(TruthyAll(bts), input));
    CentersOfTrace(TruthyAll(bts), input);
  }

  /** `skip_tokens` drops token k exactly when some consulted transformer answers
      truthily for its window. */
  lemma SkipDropsIffTruthy<T>(bts: seq<TokenTransformer<T, bool>>, input: seq<T>, k: nat)
    requires k < |input|
    ensures var ts := TruthyAll(bts);
      var vs := Trace(ts, input);
      |vs| == |input| && vs[k].center == input[k]
      && var full := |vs[k].left| == MaxLeft(ts) && |vs[k].right| == MaxRight(ts);
      (vs[k].decision.Some? <==> exists i :: 0 <= i < |bts| && Ask(Truthy(bts[i]), vs[k].left, input[k], vs[k].right, full).Some?)
  {
    var ts := TruthyAll(bts);
    TraceShape(ts, input);
    var v := Trace(ts, input)[k];
    assert StepShape(FirstMatchOf(ts), input, MaxLeft(ts), MaxRight(ts), k, v);
    DecideNone(ts, v.left, v.center, v.right, |v.left| == MaxLeft(ts) && |v.right| == MaxRight(ts));
  }

  /** When no transformer ever answers, `skip_tokens` keeps everything. */
  lemma SkipNothing<T>(bts: seq<TokenTransformer<T, bool>>, input: seq<T>)
    requires forall k :: 0 <= k < |Trace(TruthyAll(bts), input)| ==> Trace(TruthyAll(bts), input)[k].decision.None?
    ensures Kept(Trace(TruthyAll(bts), input)) == input
  {
    KeptAllNone(Trace(TruthyAll(bts), input));
    CentersOfTrace(TruthyAll(bts), input);
  }

  /** `transform_tokens` puts out, token by token, the center or its replacement: the
      output of the steps before k, then token k's piece, then the rest. */
  lemma TransformSplices<T>(ts: seq<TokenTransformer<T, seq<T>>>, input: seq<T>, k: nat)
    requires k < |input|
    ensures var vs := Trace(ts, input);
      |vs| == |input| && vs[k].center == input[k]
      && Spliced(vs) == Spliced(vs[..k]) + (if vs[k].decision.None? then [input[k]] else vs[k].decision.value) + Spliced(vs[k + 1..])
  {
    var vs := Trace(ts, input);
    CentersOfTrace(ts, input);
    assert vs == vs[..k] + [vs[k]] + vs[k + 1..];
    SplicedAppend(vs[..k] + [vs[k]], vs[k + 1..]);
    SplicedAppend(vs[..k], [vs[k]]);
    assert Centers(vs)[k] == vs[k].center;
  }

  /** When no transformer ever answers, `transform_tokens` is the identity. */
  lemma TransformNothing<T>(ts: seq<TokenTransformer<T, seq<T>>>, input: seq<T>)
    requires forall k :: 0 <= k < |Trace(ts, input)| ==> Trace(ts, input)[k].decision.None?
    ensures Spliced(Trace(ts, input)) == input
  {
    SplicedAllNone(Trace(ts, input));
    CentersOfTrace(ts, input);
  }

  /** `get_iters_with_annotations` yields one pair per input token, in order, carrying the
      first answer given for that token's window. */
  lemma AnnotationsPerToken<T, R>(ts: seq<TokenTransformer<T, R>>, input: seq<T>)
    ensures var a := Annotated(Trace(ts, input));
      |a| == |input|
      && forall k :: 0 <= k < |input| ==>
           (a[k].0 == input[k]
            && var v := Trace(ts, input)[k];
            a[k].1 == Decide(ts, v.left, input[k], v.right, |v.left| == MaxLeft(ts) && |v.right| == MaxRight(ts)))
  {
    TraceShape(ts, input);
    CentersOfTrace(ts, input);
    var vs := Trace(ts, input);
    forall k | 0 <= k < |input|
      ensures vs[k].decision == Decide(ts, vs[k].left, input[k], vs[k].right, |vs[k].left| == MaxLeft(ts) && |vs[k].right| == MaxRight(ts))
    {
      assert StepShape(FirstMatchOf(ts), input, MaxLeft(ts), MaxRight(ts), k, vs[k]);
      assert Centers(vs)[k] == vs[k].center;
    }
  }

  /** `transform_flags` yields one pair per input pair: the sequence unchanged, and the
      flag replaced by the flag transformers' first answer over the flag buffers, or kept. */
  lemma TransformFlagsPerPair<S, F>(ts: seq<TokenTransformer<F, F>>, input: seq<(S, F)>)
    ensures var vs := Trace(LiftAll<S, F>(ts), input);
      var out := FlagsOut(vs);
      |out| == |input|
      && forall k :: 0 <= k < |input| ==>
           (out[k].0 == input[k].0
            && var full := |vs[k].left| == MaxLeft(ts) && |vs[k].right| == MaxRight(ts);
            out[k].1 == Decide(ts, FlagColumn(vs[k].left), input[k].1, FlagColumn(vs[k].right), full).GetOr(input[k].1))
  {
    var lifted := LiftAll<S, F>(ts);
    TraceShape(lifted, input);
    CentersOfTrace(lifted, input);
    LiftWidths<S, F>(ts);
    var vs := Trace(lifted, input);
    forall k | 0 <= k < |input|
      ensures vs[k].center == input[k]
      ensures vs[k].decision == Decide(ts, FlagColumn(vs[k].left), input[k].1, FlagColumn(vs[k].right), |vs[k].left| == MaxLeft(ts) && |vs[k].right| == MaxRight(ts))
    {
      assert StepShape(FirstMatchOf(lifted), input, MaxLeft(lifted), MaxRight(lifted), k, vs[k]);
      assert Centers(vs)[k] == vs[k].center;
      LiftDecide(ts, vs[k].left, input[k], vs[k].right, |vs[k].left| == MaxLeft(ts) && |vs[k].right| == MaxRight(ts));
    }
  }

  /** An element of the outer lists that `transform_flags` hands to the scalar shift: the
      sequence buffer, the flag buffer, or a (sequence, flag) item of the stream. */
  datatype Slot<S, F> = SeqBuffer(seqs: seq<S>) | FlagBuffer(flags: seq<F>) | Item(item: (S, F))

  function Items<S, F>(ps: seq<(S, F)>): (r: seq<Slot<S, F>>)
    ensures |r| == |ps|
  {
    seq(|ps|, k requires 0 <= k < |ps| => Item(ps[k]))
  }

  /** `seq, center = shift_context_center_tokens(...)` as written at the end of the
      `transform_flags` loop: the scalar shift treats `[right_seq_list, right_flag_list]`
      as a right buffer of two elements, so it returns `right_seq_list`, and unpacking it
      into two names succeeds only when it holds exactly two sequences. */
  function FlagsShiftAsWritten<S, F>(rightSeqs: seq<S>, rightFlags: seq<F>, rest: seq<(S, F)>): Result<(S, S)> {
    var shifted := ShiftRight([SeqBuffer(rightSeqs), FlagBuffer(rightFlags)], Items(rest));
    if shifted.0.Some? && shifted.0.value.SeqBuffer? && |shifted.0.value.seqs| == 2
    then Ok((shifted.0.value.seqs[0], shifted.0.value.seqs[1]))
    else Err(ValueError)
  }

  /** The as-written `transform_flags` up to its first shift: the pair it yields first,
      and the outcome of unpacking what the scalar shift returns. */
  function TransformFlagsAsWritten<S, F>(ts: seq<TokenTransformer<F, F>>, input: seq<(S, F)>): (r: (seq<(S, F)>, Result<(S, S)>))
    requires input != []
    ensures |r.0| == 1 && r.0[0].0 == input[0].0
  {
    var vs := Trace(LiftAll<S, F>(ts), input);
    TraceShape(LiftAll<S, F>(ts), input);
    var v := vs[0];
    assert StepBuffers(input, MaxLeft(LiftAll<S, F>(ts)), MaxRight(LiftAll<S, F>(ts)), 0, v);
    ([(v.center.0, v.decision.GetOr(v.center.1))],
     FlagsShiftAsWritten(SeqColumn(v.right), FlagColumn(v.right), input[1 + |v.right|..]))
  }

  /** The sequence column of a stream of (sequence, flag) pairs. */
  function SeqColumn<S, F>(ps: seq<(S, F)>): (r: seq<S>)
    ensures |r| == |ps| && forall k :: 0 <= k < |ps| ==> r[k] == ps[k].0
  {
    seq(|ps|, k requires 0 <= k < |ps| => ps[k].0)
  }

  /** With no flag transformer reading more than one flag to the right (in particular with
      none at all), the loop as written raises ValueError right after its first pair,
      while the paired shift yields one pair for every input pair. */
  lemma TransformFlagsAsWrittenRaises<S, F>(ts: seq<TokenTransformer<F, F>>, input: seq<(S, F)>)
    requires input != [] && MaxRight(ts) < 2
    ensures TransformFlagsAsWritten(ts, input).1 == Err(ValueError)
    ensures |FlagsOut(Trace(LiftAll<S, F>(ts), input))| == |input|
  {
    var lifted := LiftAll<S, F>(ts);
    TraceShape(lifted, input);
    LiftWidths<S, F>(ts);
    var v := Trace(lifted, input)[0];
    assert StepBuffers(input, MaxLeft(lifted), MaxRight(lifted), 0, v);
    var shifted := ShiftRight([SeqBuffer(SeqColumn(v.right)), FlagBuffer(FlagColumn(v.right))], Items(input[1 + |v.right|..]));
    assert shifted.0 == Some(SeqBuffer(SeqColumn(v.right)));
  }
}

=== FILE: document.dfy ===
/** doc.py: a Document is a token source plus an append-only list of stages that every
    iteration runs in order, a one-way lock, a word/id/embed type state machine, the
    flag-token list, labels, a cached length, and the length-bucketing batcher. */
module Documents {
  import opened Wrappers
  import opened PyStrings
  import opened Tokens
  import opened ContextWindow
  import opened Dispatch

  /** A stage appended to a Document: what it does to the token stream. The converters
      keep the vocabulary given when they were appended; the others read the document's
      current flags, type and vocabulary when the stream is iterated. */
  datatype Stage =
    | Word2IdStage(vocab: Vocab)
    | Id2WordStage(vocab: Vocab)
    | Word2EmbedStage(vocab: Vocab)
    | Id2EmbedStage(vocab: Vocab)
    | StripStage
    | SkipStage(bts: seq<TokenTransformer<Token, bool>>)
    | TransformStage(tts: seq<TokenTransformer<Token, seq<Token>>>)
    | MaskUnkStage

  /** `token.strip()`: only strings have it. */
  function StripToken(t: Token): Result<Token> {
    if t.Str? then Ok(Str(Strip(t.s))) else Err(AttributeError)
  }

  /** What `strip_tokens_gen` does to one token: a flag passes, any other token is stripped. */
  function StripOne(t: Token, flags: seq<Token>): Result<Token> {
    if t in flags then Ok(t) else StripToken(t)
  }

  /** `strip_tokens_gen` over a whole stream; the first token without a `strip` raises. */
  function StripAll(ts: seq<Token>, flags: seq<Token>): Result<seq<Token>> {
    if ts == [] then Ok([])
    else
      var head := StripOne(ts[0], flags);
      if head.Err? then Err(head.error)
      else
        var tail := StripAll(ts[1..], flags);
        if tail.Err? then tail else Ok([head.value] + tail.value)
  }

  /** Every token is a flag or a string. */
  predicate Strippable(ts: seq<Token>, flags: seq<Token>) {
    forall i :: 0 <= i < |ts| ==> ts[i] in flags || ts[i].Str?
  }

  /** A token after stripping: flags and non-strings unchanged, strings stripped. */
  function Stripped(t: Token, flags: seq<Token>): Token {
    if t in flags || !t.Str? then t else Str(Strip(t.s))
  }

  lemma StrippableCons(ts: seq<Token>, flags: seq<Token>)
    requires ts != []
    ensures Strippable(ts, flags) <==> (ts[0] in flags || ts[0].Str?) && Strippable(ts[1..], flags)
  {
    if (ts[0] in flags || ts[0].Str?) && Strippable(ts[1..], flags) {
      forall i | 0 <= i < |ts| ensures ts[i] in flags || ts[i].Str? {
        if i > 0 { assert ts[i] == ts[1..][i - 1]; }
      }
    }
  }

  /** Stripping succeeds exactly on streams of flags and strings, and otherwise raises
      AttributeError. */
  lemma {:induction false} StripAllFails(ts: seq<Token>, flags: seq<Token>)
    ensures StripAll(ts, flags).Ok? <==> Strippable(ts, flags)
    ensures StripAll(ts, flags).Err? ==> StripAll(ts, flags).error == AttributeError
  {
    if ts != [] {
      StripAllFails(ts[1..], flags);
      StrippableCons(ts, flags);
    }
  }

  /** When it succeeds, stripping maps every token in place, one for one. */
  lemma {:induction false} StripAllValues(ts: seq<Token>, flags: seq<Token>)
    requires StripAll(ts, flags).Ok?
    ensures var out := StripAll(ts, flags).value;
      |out| == |ts| && forall i :: 0 <= i < |ts| ==> out[i] == Stripped(ts[i], flags)
  {
    if ts != [] {
      var tail := ts[1..];
      var head := StripOne(ts[0], flags);
      var rest := StripAll(tail, flags);
      StripAllValues(tail, flags);
      var out := [head.value] + rest.value;
      assert StripAll(ts, flags) == Ok(out);
      forall i | 0 <= i < |ts| ensures out[i] == Stripped(ts[i], flags) {
        if i > 0 {
          assert out[i] == rest.value[i - 1];
          assert ts[i] == tail[i - 1];
        }
      }
    }
  }

  /** `mask_unk_gen_f` with a word-type document: unknown words become UNK. */
  function MaskUnk(ts: seq<Token>, vocab: Vocab): (r: seq<Token>)
    ensures |r| == |ts|
    ensures forall i :: 0 <= i < |ts| ==> r[i] == (if vocab.checkWordExist(ts[i]) then ts[i] else vocab.unk)
  {
    seq(|ts|, i requires 0 <= i < |ts| => if vocab.checkWordExist(ts[i]) then ts[i] else vocab.unk)
  }

  /** One stage applied to the stream of the stages before it. The unknown-word mask
      raises on its first pull unless the document is of word type and has a vocabulary. */
  function Apply(stage: Stage, ts: seq<Token>, flags: seq<Token>, tokenType: string, vocab: Option<Vocab>): Result<seq<Token>> {
    match stage
    case Word2IdStage(v) => Ok(Word2IdGen(v, flags, ts))
    case Id2WordStage(v) => Ok(Id2WordGen(v, flags, ts))
    case Word2EmbedStage(v) => Ok(Word2EmbedGen(v, flags, ts))
    case Id2EmbedStage(v) => Ok(Id2EmbedGen(v, flags, ts))
    case StripStage => StripAll(ts, flags)
    case SkipStage(bts) => Ok(Kept(Trace(TruthyAll(bts), ts)))
    case TransformStage(tts) => Ok(Spliced(Trace(tts, ts)))
    case MaskUnkStage =>
      if tokenType != "word_type" then Err(NotImplementedError)
      else if vocab.None? then Err(AttributeError)
      else Ok(MaskUnk(ts, vocab.value))
  }

  /** `__iter__`: a fresh source run through the stages in the order they were appended;
      a stage that raises ends the iteration with its error. */
  function RunStages(stages: seq<Stage>, source: seq<Token>, flags: seq<Token>, tokenType: string, vocab: Option<Vocab>): Result<seq<Token>> {
    if stages == [] then Ok(source)
    else
      var before := RunStages(stages[..|stages| - 1], source, flags, tokenType, vocab);
      if before.Err? then before
      else Apply(stages[|stages| - 1], before.value, flags, tokenType, vocab)
  }

  /** Running a list of stages is running its first part, then the rest on the result. */
  lemma {:induction false} RunStagesSplit(a: seq<Stage>, b: seq<Stage>, source: seq<Token>, flags: seq<Token>, tokenType: string, vocab: Option<Vocab>)
    ensures var first := RunStages(a, source, flags, tokenType, vocab);
      RunStages(a + b, source, flags, tokenType, vocab)
      == if first.Err? then first else RunStages(b, first.value, flags, tokenType, vocab)
    decreases |b|
  {
    if b == [] {
      assert a + b == a;
    } else {
      var b' := b[..|b| - 1];
      assert (a + b)[..|a + b| - 1] == a + b';
      RunStagesSplit(a, b', source, flags, tokenType, vocab);
    }
  }

  /** A stream without repeated elements. */
  predicate NoDup<T(==)>(s: seq<T>) {
    forall i, j :: 0 <= i < j < |s| ==> s[i] != s[j]
  }

  /** `record_new_flag_tokens`: each new token is appended unless already recorded. */
  function AddNew(flags: seq<Token>, news: seq<Token>): (r: seq<Token>) {
    if news == [] then flags
    else
      var f := AddNew(flags, news[..|news| - 1]);
      var t := news[|news| - 1];
      if t in f then f else f + [t]
  }

  /** Recording keeps the list free of duplicates, keeps the old list as a prefix, and
      holds exactly the old and the new tokens. */
  lemma {:induction false} AddNewSpec(flags: seq<Token>, news: seq<Token>)
    requires NoDup(flags)
    ensures var r := AddNew(flags, news);
      NoDup(r) && flags <= r && forall t :: t in r <==> t in flags || t in news
  {
    if news != [] {
      var init := news[..|news| - 1];
      AddNewSpec(flags, init);
      assert news == init + [news[|news| - 1]];
    }
  }

  /** `list.index(t)`: where t first occurs. */
  function FirstIndex(s: seq<Token>, t: Token): (i: nat)
    requires t in s
    ensures i < |s| && s[i] == t && t !in s[..i]
  {
    if s[0] == t then 0
    else
      var i := FirstIndex(s[1..], t);
      assert s[..i + 1] == [s[0]] + s[1..][..i];
      i + 1
  }

  /** `list.remove(t)`: drops the first occurrence of t. */
  function RemoveOne(s: seq<Token>, t: Token): (r: seq<Token>)
    requires t in s
    ensures |r| == |s| - 1
  {
    var i := FirstIndex(s, t);
    s[..i] + s[i + 1..]
  }

  /** `del_prev_flag_tokens`: each listed token is removed if recorded. */
  function DelAll(flags: seq<Token>, toks: seq<Token>): seq<Token> {
    if toks == [] then flags
    else
      var f := DelAll(flags, toks[..|toks| - 1]);
      var t := toks[|toks| - 1];
      if t in f then RemoveOne(f, t) else f
  }

  /** Removing from a duplicate-free list leaves it duplicate-free and holds exactly the
      other elements. */
  lemma RemoveOneNoDup(s: seq<Token>, t: Token)
    requires NoDup(s) && t in s
    ensures NoDup(RemoveOne(s, t)) && forall u :: u in RemoveOne(s, t) <==> u in s && u != t
  {
    var i := FirstIndex(s, t);
    var r := RemoveOne(s, t);
    assert forall j :: 0 <= j < |r| ==> r[j] == s[if j < i then j else j + 1];
    forall u | u in s && u != t
      ensures u in r
    {
      var j :| 0 <= j < |s| && s[j] == u;
      if j < i {
        assert r[j] == u;
      } else {
        assert r[j - 1] == u;
      }
    }
  }

  /** With a duplicate-free flag list, deleting leaves it duplicate-free and holds exactly
      the recorded tokens that were not listed. */
  lemma {:induction false} DelAllSpec(flags: seq<Token>, toks: seq<Token>)
    requires NoDup(flags)
    ensures var r := DelAll(flags, toks);
      NoDup(r) && forall u :: u in r <==> u in flags && u !in toks
  {
    if toks != [] {
      var init := toks[..|toks| - 1];
      DelAllSpec(flags, init);
      var f := DelAll(flags, init);
      var t := toks[|toks| - 1];
      assert toks == init + [t];
      if t in f {
        RemoveOneNoDup(f, t);
      }
    }
  }

  /** The type `toggle_word_id` moves to, or the ValueError it raises. */
  function ToggledType(t: string): (r: Result<string>)
    ensures r.Ok? <==> t == "word_type" || t == "id_type"
    ensures r.Ok? ==> r.value != t && (r.value == "word_type" || r.value == "id_type")
  {
    if t == "word_type" then Ok("id_type")
    else if t == "id_type" then Ok("word_type")
    else Err(ValueError)
  }

  /** Toggling twice gives the type back. */
  lemma ToggleTwice(t: string)
    requires ToggledType(t).Ok?
    ensures ToggledType(ToggledType(t).value) == Ok(t)
  {
  }

  /** The type `convert_embed` moves to, or the ValueError it raises. */
  function EmbeddedType(t: string): (r: Result<string>)
    ensures r.Ok? <==> t == "word_type" || t == "id_type"
    ensures r.Ok? ==> r.value == "embed_type"
  {
    if t == "word_type" || t == "id_type" then Ok("embed_type") else Err(ValueError)
  }

  /** Embedding is final: an embedded document can be neither toggled nor embedded again. */
  lemma EmbeddedIsFinal(t: string)
    requires EmbeddedType(t).Ok?
    ensures ToggledType(EmbeddedType(t).value).Err? && EmbeddedType(EmbeddedType(t).value).Err?
  {
  }

  class Document {
    /** What a fresh call of the source generator function produces. */
    var source: seq<Token>
    var srcPath: Option<string>
    var fName: Option<string>
    var stages: seq<Stage>
    var tokenType: string
    var vocab: Option<Vocab>
    var labels: map<string, Token>
    /** The `__len__` cache: Python's None or the length counted. */
    var docLen: Option<int>
    var flags: seq<Token>
    var locked: bool

    /** `__init__`; a missing flag list is the empty one. */
    constructor (source: seq<Token>, tokenType: string, flagTokens: seq<Token>, vocab: Option<Vocab>, srcPath: Option<string>)
      ensures this.source == source && this.tokenType == tokenType && this.vocab == vocab && this.srcPath == srcPath
      ensures fName == (if srcPath.Some? && srcPath.value != [] then Some(Basename(srcPath.value)) else None)
      ensures stages == [] && flags == flagTokens && !locked && labels == map[] && docLen == None
    {
      this.source := source;
      this.srcPath := srcPath;
      fName := if srcPath.Some? && srcPath.value != [] then Some(Basename(srcPath.value)) else None;
      stages := [];
      this.tokenType := tokenType;
      this.vocab := vocab;
      labels := map[];
      docLen := None;
      flags := flagTokens;
      locked := false;
    }

    /** `iter(doc)`. */
    function Iter(): Result<seq<Token>>
      reads this
    {
      RunStages(stages, source, flags, tokenType, vocab)
    }

    /** `is_flag_token_applied`. */
    predicate IsFlagTokenApplied()
      reads this
    {
      |flags| > 0
    }

    method Lock()
      modifies this
      ensures locked
      ensures stages == old(stages) && tokenType == old(tokenType) && flags == old(flags) && vocab == old(vocab)
      ensures source == old(source) && labels == old(labels) && docLen == old(docLen)
    {
      locked := true;
    }

    method RecordNewFlagTokens(news: seq<Token>)
      modifies this
      ensures flags == AddNew(old(flags), news)
      ensures stages == old(stages) && tokenType == old(tokenType) && locked == old(locked) && vocab == old(vocab)
      ensures source == old(source) && labels == old(labels) && docLen == old(docLen)
    {
      for i := 0 to |news|
        invariant flags == AddNew(old(flags), news[..i])
        invariant stages == old(stages) && tokenType == old(tokenType) && locked == old(locked) && vocab == old(vocab)
        invariant source == old(source) && labels == old(labels) && docLen == old(docLen)
      {
        assert news[..i + 1][..i] == news[..i];
        if news[i] !in flags {
          flags := flags + [news[i]];
        }
      }
      assert news[..|news|] == news;
    }

    method DelPrevFlagTokens(toks: seq<Token>)
      modifies this
      ensures flags == DelAll(old(flags), toks)
      ensures stages == old(stages) && tokenType == old(tokenType) && locked == old(locked) && vocab == old(vocab)
      ensures source == old(source) && labels == old(labels) && docLen == old(docLen)
    {
      for i := 0 to |toks|
        invariant flags == DelAll(old(flags), toks[..i])
        invariant stages == old(stages) && tokenType == old(tokenType) && locked == old(locked) && vocab == old(vocab)
        invariant source == old(source) && labels == old(labels) && docLen == old(docLen)
      {
        assert toks[..i + 1][..i] == toks[..i];
        if toks[i] in flags {
          flags := RemoveOne(flags, toks[i]);
        }
      }
      assert toks[..|toks|] == toks;
    }

    method SetVocabReader(v: Option<Vocab>)
      modifies this
      ensures vocab == v
      ensures stages == old(stages) && tokenType == old(tokenType) && locked == old(locked) && flags == old(flags)
      ensures source == old(source) && labels == old(labels) && docLen == old(docLen)
    {
      vocab := v;
    }

    method SetLabel(key: string, val: Token)
      modifies this
      ensures labels == old(labels)[key := val]
      ensures stages == old(stages) && tokenType == old(tokenType) && locked == old(locked) && flags == old(flags)
      ensures source == old(source) && vocab == old(vocab) && docLen == old(docLen)
    {
      labels := labels[key := val];
    }

    /** `get_label`: None for a key never set. */
    function GetLabel(key: string): (r: Option<Token>)
      reads this
      ensures r.Some? <==> key in labels
      ensures r.Some? ==> r.value == labels[key]
    {
      if key in labels then Some(labels[key]) else None
    }

    /** `toggle_word_id`: the vocabulary assert, then the lock, then the type. */
    method ToggleWordId() returns (o: Outcome)
      modifies this
      ensures old(vocab).None? ==> o == Fail(AssertionError)
      ensures old(vocab).Some? && old(locked) ==> o == Fail(ValueError)
      ensures old(vocab).Some? && !old(locked) && ToggledType(old(tokenType)).Err? ==> o == Fail(ValueError)
      ensures o.Fail? ==> stages == old(stages) && tokenType == old(tokenType)
      ensures o.Pass? <==> old(vocab).Some? && !old(locked) && ToggledType(old(tokenType)).Ok?
      ensures o.Pass? ==>
        (tokenType == ToggledType(old(tokenType)).value
         && stages == old(stages) + [if old(tokenType) == "word_type" then Word2IdStage(old(vocab).value) else Id2WordStage(old(vocab).value)])
      ensures locked == old(locked) && flags == old(flags) && vocab == old(vocab)
      ensures source == old(source) && labels == old(labels) && docLen == old(docLen)
    {
      if vocab.None? {
        return Fail(AssertionError);
      }
      if locked {
        return Fail(ValueError);
      }
      if tokenType == "word_type" {
        stages := stages + [Word2IdStage(vocab.value)];
        tokenType := "id_type";
        o := Pass;
      } else if tokenType == "id_type" {
        stages := stages + [Id2WordStage(vocab.value)];
        tokenType := "word_type";
        o := Pass;
      } else {
        o := Fail(ValueError);
      }
    }

    /** `convert_embed`: the vocabulary assert, then the lock, then the type. */
    method ConvertEmbed() returns (o: Outcome)
      modifies this
      ensures old(vocab).None? ==> o == Fail(AssertionError)
      ensures old(vocab).Some? && old(locked) ==> o == Fail(ValueError)
      ensures old(vocab).Some? && !old(locked) && EmbeddedType(old(tokenType)).Err? ==> o == Fail(ValueError)
      ensures o.Fail? ==> stages == old(stages) && tokenType == old(tokenType)
      ensures o.Pass? <==> old(vocab).Some? && !old(locked) && EmbeddedType(old(tokenType)).Ok?
      ensures o.Pass? ==>
        (tokenType == "embed_type"
         && stages == old(stages) + [if old(tokenType) == "word_type" then Word2EmbedStage(old(vocab).value) else Id2EmbedStage(old(vocab).value)])
      ensures locked == old(locked) && flags == old(flags) && vocab == old(vocab)
      ensures source == old(source) && labels == old(labels) && docLen == old(docLen)
    {
      if vocab.None? {
        return Fail(AssertionError);
      }
      if locked {
        return Fail(ValueError);
      }
      if tokenType == "word_type" {
        stages := stages + [Word2EmbedStage(vocab.value)];
        tokenType := "embed_type";
        o := Pass;
      } else if tokenType == "id_type" {
        stages := stages + [Id2EmbedStage(vocab.value)];
        tokenType := "embed_type";
        o := Pass;
      } else {
        o := Fail(ValueError);
      }
    }

    /** `strip_tokens`: the word-type assert, then the lock. */
    method StripTokens() returns (o: Outcome)
      modifies this
      ensures old(tokenType) != "word_type" ==> o == Fail(AssertionError)
      ensures old(tokenType) == "word_type" && old(locked) ==> o == Fail(ValueError)
      ensures o.Pass? <==> old(tokenType) == "word_type" && !old(locked)
      ensures stages == if o.Pass? then old(stages) + [StripStage] else old(stages)
      ensures tokenType == old(tokenType) && locked == old(locked) && flags == old(flags) && vocab == old(vocab)
      ensures source == old(source) && labels == old(labels) && docLen == old(docLen)
    {
      if tokenType != "word_type" {
        return Fail(AssertionError);
      }
      if locked {
        return Fail(ValueError);
      }
      stages := stages + [StripStage];
      o := Pass;
    }

    /** `skip_tokens`: refused once locked. */
    method SkipTokens(bts: seq<TokenTransformer<Token, bool>>) returns (o: Outcome)
      modifies this
      ensures o == if old(locked) then Fail(ValueError) else Pass
      ensures stages == if o.Pass? then old(stages) + [SkipStage(bts)] else old(stages)
      ensures tokenType == old(tokenType) && locked == old(locked) && flags == old(flags) && vocab == old(vocab)
      ensures source == old(source) && labels == old(labels) && docLen == old(docLen)
    {
      var mL, mR := GetTransformersMaxNumTokens(bts);
      if locked {
        return Fail(ValueError);
      }
      stages := stages + [SkipStage(bts)];
      o := Pass;
    }

    /** `transform_tokens`: refused once locked. */
    method TransformTokens(tts: seq<TokenTransformer<Token, seq<Token>>>) returns (o: Outcome)
      modifies this
      ensures o == if old(locked) then Fail(ValueError) else Pass
      ensures stages == if o.Pass? then old(stages) + [TransformStage(tts)] else old(stages)
      ensures tokenType == old(tokenType) && locked == old(locked) && flags == old(flags) && vocab == old(vocab)
      ensures source == old(source) && labels == old(labels) && docLen == old(docLen)
    {
      var mL, mR := GetTransformersMaxNumTokens(tts);
      if locked {
        return Fail(ValueError);
      }
      stages := stages + [TransformStage(tts)];
      o := Pass;
    }

    /** `mask_unk`: the vocabulary assert, then the lock; the type is checked only when
      the stream is iterated. */
    method MaskUnkTokens() returns (o: Outcome)
      modifies this
      ensures old(vocab).None? ==> o == Fail(AssertionError)
      ensures old(vocab).Some? && old(locked) ==> o == Fail(ValueError)
      ensures o.Pass? <==> old(vocab).Some? && !old(locked)
      ensures stages == if o.Pass? then old(stages) + [MaskUnkStage] else old(stages)
      ensures tokenType == old(tokenType) && locked == old(locked) && flags == old(flags) && vocab == old(vocab)
      ensures source == old(source) && labels == old(labels) && docLen == old(docLen)
    {
      if vocab.None? {
        return Fail(AssertionError);
      }
      if locked {
        return Fail(ValueError);
      }
      stages := stages + [MaskUnkStage];
      o := Pass;
    }

    /** `get_iters_with_annotations` over the document's stream. */
    method GetItersWithAnnotations<R>(ats: seq<TokenTransformer<Token, R>>) returns (r: Result<seq<(Token, Option<R>)>>)
      ensures Iter().Err? ==> r == Err(Iter().error)
      ensures Iter().Ok? ==> r == Ok(Annotated(Trace(ats, Iter().value)))
    {
      var it := RunStages(stages, source, flags, tokenType, vocab);
      if it.Err? {
        return Err(it.error);
      }
      var out := Dispatch.GetItersWithAnnotations(ats, it.value);
      r := Ok(out);
    }

    /** What `len(doc)` gives: the cached length unless it is None or 0, otherwise the
      number of tokens an iteration produces. */
    function CachedLen(): (r: Result<int>)
      reads this
      ensures r.Err? <==> !(docLen.Some? && docLen.value != 0) && Iter().Err?
      ensures r.Ok? && !(docLen.Some? && docLen.value != 0) ==> r.value == |Iter().value|
    {
      if docLen.Some? && docLen.value != 0 then Ok(docLen.value)
      else match Iter()
        case Ok(ts) => Ok(|ts|)
        case Err(e) => Err(e)
    }

    /** `__len__`: the cached length, or the counted one, which is then cached; what
        `len(doc)` gives stays the same. */
    method Len() returns (r: Result<int>)
      modifies this
      ensures r == old(CachedLen()) && CachedLen() == old(CachedLen())
      ensures old(docLen).Some? && old(docLen).value != 0 ==> r == Ok(old(docLen).value) && docLen == old(docLen)
      ensures !(old(docLen).Some? && old(docLen).value != 0) ==>
        if old(Iter()).Ok? then r == Ok(|old(Iter()).value|) && docLen == Some(|old(Iter()).value|)
        else r == Err(old(Iter()).error) && docLen == old(docLen)
      ensures stages == old(stages) && tokenType == old(tokenType) && locked == old(locked) && flags == old(flags)
      ensures source == old(source) && labels == old(labels) && vocab == old(vocab)
    {
      if docLen.Some? && docLen.value != 0 {
        return Ok(docLen.value);
      }
      var it := RunStages(stages, source, flags, tokenType, vocab);
      if it.Err? {
        return Err(it.error);
      }
      docLen := Some(|it.value|);
      r := Ok(|it.value|);
    }
  }

  /** Python's `a // b`: floor division. */
  function FloorDiv(a: int, b: int): (q: int)
    requires b != 0
    ensures b > 0 ==> q * b <= a < q * b + b
    ensures b < 0 ==> q * b + b < a <= q * b
  {
    if b > 0 then a / b else (-a) / (-b)
  }

  /** The length bucket `(len - 1) // batch_seq_len` of a document. */
  function Bucket(len: int, batchSeqLen: int): int
    requires batchSeqLen != 0
  {
    FloorDiv(len - 1, batchSeqLen)
  }

  /** Ascending by length. */
  predicate SortedByLen<D>(s: seq<(D, int)>) {
    forall i, j :: 0 <= i < j < |s| ==> s[i].1 <= s[j].1
  }

  /** The entries of length k, in order. */
  function WithLen<D>(s: seq<(D, int)>, k: int): seq<(D, int)> {
    if s == [] then []
    else (if s[0].1 == k then [s[0]] else []) + WithLen(s[1..], k)
  }

  lemma WithLenCons<D>(y: (D, int), t: seq<(D, int)>, k: int)
    ensures WithLen([y] + t, k) == (if y.1 == k then [y] else []) + WithLen(t, k)
  {
    assert ([y] + t)[1..] == t;
  }

  /** Puts x in front of the first entry that is not shorter. */
  function Insert<D>(x: (D, int), s: seq<(D, int)>): (r: seq<(D, int)>)
    ensures |r| == |s| + 1
  {
    if s == [] || x.1 <= s[0].1 then [x] + s
    else [s[0]] + Insert(x, s[1..])
  }

  /** `sort_docs_by_len` on (document, length) pairs: Python's stable `sorted` by length. */
  function SortByLen<D>(s: seq<(D, int)>): seq<(D, int)> {
    if s == [] then [] else Insert(s[0], SortByLen(s[1..]))
  }

  /** Inserting above a lower bound keeps every length above it. */
  lemma {:induction false} InsertBound<D>(x: (D, int), s: seq<(D, int)>, lo: int)
    requires lo <= x.1 && forall i :: 0 <= i < |s| ==> lo <= s[i].1
    ensures forall i :: 0 <= i < |s| + 1 ==> lo <= Insert(x, s)[i].1
  {
    if s != [] && x.1 > s[0].1 {
      InsertBound(x, s[1..], lo);
    }
  }

  lemma {:induction false} InsertSorted<D>(x: (D, int), s: seq<(D, int)>)
    requires SortedByLen(s)
    ensures SortedByLen(Insert(x, s))
  {
    if s != [] && x.1 > s[0].1 {
      InsertSorted(x, s[1..]);
      InsertBound(x, s[1..], s[0].1);
    } else {
      InsertBound(x, s, x.1);
    }
  }

  lemma {:induction false} InsertWithLen<D>(x: (D, int), s: seq<(D, int)>, k: int)
    ensures WithLen(Insert(x, s), k) == (if x.1 == k then [x] else []) + WithLen(s, k)
  {
    if s != [] && x.1 > s[0].1 {
      InsertWithLen(x, s[1..], k);
      WithLenCons(s[0], Insert(x, s[1..]), k);
      WithLenCons(s[0], s[1..], k);
      assert [s[0]] + s[1..] == s;
    } else {
      WithLenCons(x, s, k);
    }
  }

  /** The sort is ascending and stable: for every length, the entries of that length come
      out in the order they went in. This determines the result: it is a permutation. */
  lemma {:induction false} SortByLenSpec<D>(s: seq<(D, int)>)
    ensures var r := SortByLen(s);
      SortedByLen(r) && |r| == |s| && forall k :: WithLen(r, k) == WithLen(s, k)
  {
    if s != [] {
      SortByLenSpec(s[1..]);
      InsertSorted(s[0], SortByLen(s[1..]));
      forall k ensures WithLen(SortByLen(s), k) == WithLen(s, k) {
        InsertWithLen(s[0], SortByLen(s[1..]), k);
      }
    }
  }

  function Firsts<D>(s: seq<(D, int)>): (r: seq<D>)
    ensures |r| == |s| && forall i :: 0 <= i < |s| ==> r[i] == s[i].0
  {
    seq(|s|, i requires 0 <= i < |s| => s[i].0)
  }

  function Seconds<D>(s: seq<(D, int)>): (r: seq<int>)
    ensures |r| == |s| && forall i :: 0 <= i < |s| ==> r[i] == s[i].1
  {
    seq(|s|, i requires 0 <= i < |s| => s[i].1)
  }

  lemma ColumnsSnoc<D>(s: seq<(D, int)>, x: (D, int))
    ensures Firsts(s + [x]) == Firsts(s) + [x.0] && Seconds(s + [x]) == Seconds(s) + [x.1]
  {
  }

  lemma ColumnsAppend<D>(a: seq<(D, int)>, b: seq<(D, int)>)
    ensures Firsts(a + b) == Firsts(a) + Firsts(b) && Seconds(a + b) == Seconds(a) + Seconds(b)
  {
  }

  /** The documents of the yielded groups, concatenated. */
  function FlatItems<D>(bs: seq<(seq<D>, seq<int>)>): seq<D> {
    if bs == [] then [] else FlatItems(bs[..|bs| - 1]) + bs[|bs| - 1].0
  }

  /** The lengths of the yielded groups, concatenated. */
  function FlatLens<D>(bs: seq<(seq<D>, seq<int>)>): seq<int> {
    if bs == [] then [] else FlatLens(bs[..|bs| - 1]) + bs[|bs| - 1].1
  }

  /** All lengths in one bucket. */
  ghost predicate OneBucket(ls: seq<int>, batchSeqLen: int)
    requires batchSeqLen != 0
  {
    forall j :: 0 <= j < |ls| ==> Bucket(ls[j], batchSeqLen) == Bucket(ls[0], batchSeqLen)
  }

  /** A yielded group: parallel lists, non-empty, at most `batch_size`, one bucket. */
  ghost predicate GoodGroup<D>(b: (seq<D>, seq<int>), batchSize: int, batchSeqLen: int)
    requires batchSeqLen != 0
  {
    |b.0| == |b.1| && |b.0| > 0 && (batchSize >= 1 ==> |b.0| <= batchSize) && OneBucket(b.1, batchSeqLen)
  }

  /** The group yielded for the held entries h. */
  function Group<D>(h: seq<(D, int)>): (seq<D>, seq<int>) {
    (Firsts(h), Seconds(h))
  }

  /** The groups cover `sorted[..n]` in order. */
  ghost predicate Covers<D>(bs: seq<(seq<D>, seq<int>)>, sorted: seq<(D, int)>, n: nat) {
    n <= |sorted| && FlatItems(bs) == Firsts(sorted[..n]) && FlatLens(bs) == Seconds(sorted[..n])
  }

  ghost predicate AllGood<D>(bs: seq<(seq<D>, seq<int>)>, batchSize: int, batchSeqLen: int)
    requires batchSeqLen != 0
  {
    forall k :: 0 <= k < |bs| ==> GoodGroup(bs[k], batchSize, batchSeqLen)
  }

  /** The last length of a group. */
  function LastLen<D>(b: (seq<D>, seq<int>)): int
    requires |b.1| > 0
  {
    b.1[|b.1| - 1]
  }

  /** A group was closed before the next one only when full or when the bucket changed. */
  ghost predicate CutsJustified<D>(bs: seq<(seq<D>, seq<int>)>, batchSize: int, batchSeqLen: int)
    requires batchSeqLen != 0 && AllGood(bs, batchSize, batchSeqLen)
  {
    forall k :: 0 <= k < |bs| - 1 ==>
      Bucket(LastLen(bs[k]), batchSeqLen) == Bucket(bs[k + 1].1[0], batchSeqLen) ==> |bs[k].0| == batchSize
  }

  /** The last group is full unless the held part starts a new bucket. */
  ghost predicate LastJustified<D>(bs: seq<(seq<D>, seq<int>)>, batchSize: int, batchSeqLen: int, sorted: seq<(D, int)>, n: nat)
    requires batchSeqLen != 0 && AllGood(bs, batchSize, batchSeqLen) && n <= |sorted|
  {
    bs != [] ==>
      (n == |sorted| || Bucket(LastLen(bs[|bs| - 1]), batchSeqLen) == Bucket(sorted[n].1, batchSeqLen))
      ==> |bs[|bs| - 1].0| == batchSize
  }

  /** What `batch_docs_by_len` has yielded after consuming `sorted`, with `sorted[n..]`
      still held: good groups covering `sorted[..n]`, each closed for a reason, and a held
      part in one bucket. */
  ghost predicate Grouping<D>(bs: seq<(seq<D>, seq<int>)>, batchSize: int, batchSeqLen: int, sorted: seq<(D, int)>, n: nat)
    requires batchSeqLen != 0
  {
    Covers(bs, sorted, n) && AllGood(bs, batchSize, batchSeqLen) && CutsJustified(bs, batchSize, batchSeqLen)
    && OneBucket(Seconds(sorted[n..]), batchSeqLen) && LastJustified(bs, batchSize, batchSeqLen, sorted, n)
  }

  /** A grouping where the held part is smaller than a full group: the dropped remainder
      once the input is exhausted. */
  ghost predicate Grouped<D>(bs: seq<(seq<D>, seq<int>)>, batchSize: int, batchSeqLen: int, sorted: seq<(D, int)>, n: nat)
    requires batchSeqLen != 0
  {
    Grouping(bs, batchSize, batchSeqLen, sorted, n) && (batchSize >= 1 ==> |sorted| - n < batchSize)
  }

  lemma FlatSnoc<D>(bs: seq<(seq<D>, seq<int>)>, g: (seq<D>, seq<int>))
    ensures FlatItems(bs + [g]) == FlatItems(bs) + g.0 && FlatLens(bs + [g]) == FlatLens(bs) + g.1
  {
    assert (bs + [g])[..|bs|] == bs;
  }

  /** A document in the held bucket is held. */
  lemma HoldStep<D>(bs: seq<(seq<D>, seq<int>)>, batchSize: int, batchSeqLen: int, p: seq<(D, int)>, n: nat, x: (D, int))
    requires batchSeqLen != 0 && Grouping(bs, batchSize, batchSeqLen, p, n)
    requires n == |p| || Bucket(x.1, batchSeqLen) == Bucket(p[n].1, batchSeqLen)
    ensures Grouping(bs, batchSize, batchSeqLen, p + [x], n)
  {
    var q := p + [x];
    assert q[..n] == p[..n];
    assert q[n..] == p[n..] + [x];
  }

  /** A group appended after good ones keeps them good. */
  lemma GoodSnoc<D>(bs: seq<(seq<D>, seq<int>)>, batchSize: int, batchSeqLen: int, g: (seq<D>, seq<int>))
    requires batchSeqLen != 0 && AllGood(bs, batchSize, batchSeqLen) && GoodGroup(g, batchSize, batchSeqLen)
    requires CutsJustified(bs, batchSize, batchSeqLen)
    requires bs != [] ==> Bucket(LastLen(bs[|bs| - 1]), batchSeqLen) == Bucket(g.1[0], batchSeqLen) ==> |bs[|bs| - 1].0| == batchSize
    ensures AllGood(bs + [g], batchSize, batchSeqLen) && CutsJustified(bs + [g], batchSize, batchSeqLen)
  {
    var bs' := bs + [g];
    assert forall k :: 0 <= k < |bs| ==> bs'[k] == bs[k];
  }

  /** The held entries form a good group. */
  lemma HeldGood<D>(batchSize: int, batchSeqLen: int, h: seq<(D, int)>)
    requires batchSeqLen != 0 && OneBucket(Seconds(h), batchSeqLen)
    requires h != [] && (batchSize >= 1 ==> |h| <= batchSize)
    ensures GoodGroup(Group(h), batchSize, batchSeqLen) && Group(h).1[0] == h[0].1
    ensures Bucket(LastLen(Group(h)), batchSeqLen) == Bucket(h[0].1, batchSeqLen)
  {
  }

  /** Yielding the entries up to m extends the covered prefix to m. */
  lemma CoversSnoc<D>(bs: seq<(seq<D>, seq<int>)>, sorted: seq<(D, int)>, n: nat, m: nat)
    requires Covers(bs, sorted, n) && n <= m <= |sorted|
    ensures Covers(bs + [Group(sorted[n..m])], sorted, m)
  {
    FlatSnoc(bs, Group(sorted[n..m]));
    assert sorted[..n] + sorted[n..m] == sorted[..m];
    ColumnsAppend(sorted[..n], sorted[n..m]);
  }

  /** The covered prefix does not depend on what follows it. */
  lemma CoversExtend<D>(bs: seq<(seq<D>, seq<int>)>, sorted: seq<(D, int)>, n: nat, x: (D, int))
    requires Covers(bs, sorted, n)
    ensures Covers(bs, sorted + [x], n)
  {
    assert (sorted + [x])[..n] == sorted[..n];
  }

  /** A document outside the held bucket closes the held part as a group and is held. */
  lemma CutStep<D>(bs: seq<(seq<D>, seq<int>)>, batchSize: int, batchSeqLen: int, p: seq<(D, int)>, n: nat, x: (D, int))
    requires batchSeqLen != 0 && Grouped(bs, batchSize, batchSeqLen, p, n)
    requires n < |p| && Bucket(x.1, batchSeqLen) != Bucket(p[n].1, batchSeqLen)
    ensures Grouping(bs + [Group(p[n..])], batchSize, batchSeqLen, p + [x], |p|)
  {
    var q := p + [x];
    var g := Group(p[n..]);
    var bs' := bs + [g];
    HeldGood(batchSize, batchSeqLen, p[n..]);
    GoodSnoc(bs, batchSize, batchSeqLen, g);
    CoversExtend(bs, p, n, x);
    CoversSnoc(bs, q, n, |p|);
    assert q[n..|p|] == p[n..];
    assert q[|p|..] == [x];
  }

  /** A full held part is yielded as a group. */
  lemma EmitStep<D>(bs: seq<(seq<D>, seq<int>)>, batchSize: int, batchSeqLen: int, p: seq<(D, int)>, n: nat)
    requires batchSeqLen != 0 && Grouping(bs, batchSize, batchSeqLen, p, n)
    requires n < |p| && |p| - n == batchSize
    ensures Grouping(bs + [Group(p[n..])], batchSize, batchSeqLen, p, |p|)
  {
    var g := Group(p[n..]);
    HeldGood(batchSize, batchSeqLen, p[n..]);
    GoodSnoc(bs, batchSize, batchSeqLen, g);
    CoversSnoc(bs, p, n, |p|);
    assert p[n..|p|] == p[n..];
    assert p[|p|..] == [];
  }

  /** The loop state of `batch_docs_by_len` after consuming `p`: what was yielded, and
      the held documents and lengths, which are `p[start..]`. */
  ghost predicate Batching<D>(batches: seq<(seq<D>, seq<int>)>, items: seq<D>, lens: seq<int>,
                              batchSize: int, batchSeqLen: int, p: seq<(D, int)>, start: nat)
    requires batchSeqLen != 0
  {
    start <= |p| && items == Firsts(p[start..]) && lens == Seconds(p[start..])
    && Grouped(batches, batchSize, batchSeqLen, p, start)
  }

  /** One turn of the `batch_docs_by_len` loop: the next document is held, closing the
      held group first if it starts a new bucket, and a full held group is yielded. */
  method Consume<D>(batchSize: int, batchSeqLen: int, sorted: seq<(D, int)>, i: nat, ghost start: nat,
                    batches: seq<(seq<D>, seq<int>)>, items: seq<D>, lens: seq<int>)
    returns (batches': seq<(seq<D>, seq<int>)>, items': seq<D>, lens': seq<int>, ghost start': nat)
    requires batchSeqLen != 0 && i < |sorted|
    requires Batching(batches, items, lens, batchSize, batchSeqLen, sorted[..i], start)
    ensures Batching(batches', items', lens', batchSize, batchSeqLen, sorted[..i + 1], start')
  {
    ghost var p := sorted[..i];
    var x := sorted[i];
    ghost var q := p + [x];
    assert sorted[..i + 1] == q;
    assert q[start..] == p[start..] + [x];
    ColumnsSnoc(p[start..], x);
    batches' := batches;
    items' := items + [x.0];
    lens' := lens + [x.1];
    start' := start;
    if Bucket(lens'[|lens'| - 1], batchSeqLen) != Bucket(lens'[0], batchSeqLen) {
      CutStep(batches, batchSize, batchSeqLen, p, start, x);
      assert items'[..|items'| - 1] == items && lens'[..|lens'| - 1] == lens;
      batches' := batches + [(items'[..|items'| - 1], lens'[..|lens'| - 1])];
      items' := [items'[|items'| - 1]];
      lens' := [lens'[|lens'| - 1]];
      start' := |p|;
      assert q[start'..] == [] + [x];
      ColumnsSnoc([], x);
    } else {
      HoldStep(batches, batchSize, batchSeqLen, p, start, x);
    }
    if |items'| == batchSize {
      EmitStep(batches', batchSize, batchSeqLen, q, start');
      batches' := batches' + [(items', lens')];
      items' := [];
      lens' := [];
      start' := |q|;
      assert q[start'..] == [];
    }
  }

  /** The loop of `batch_docs_by_len` over documents already sorted by length. */
  method GroupSorted<D>(batchSize: int, batchSeqLen: int, sorted: seq<(D, int)>) returns (batches: seq<(seq<D>, seq<int>)>)
    requires batchSeqLen != 0
    ensures exists n :: Grouped(batches, batchSize, batchSeqLen, sorted, n)
  {
    batches := [];
    var items: seq<D> := [];
    var lens: seq<int> := [];
    ghost var start: nat := 0;
    assert Batching(batches, items, lens, batchSize, batchSeqLen, sorted[..0], start);
    for i := 0 to |sorted|
      invariant Batching(batches, items, lens, batchSize, batchSeqLen, sorted[..i], start)
    {
      batches, items, lens, start := Consume(batchSize, batchSeqLen, sorted, i, start, batches, items, lens);
    }
    assert sorted[..|sorted|] == sorted;
    assert Grouped(batches, batchSize, batchSeqLen, sorted, start);
  }

  /** `batch_docs_by_len` on (document, length) pairs: groups of the length-sorted
      documents; a zero `batch_seq_len` raises on the first document. */
  method BatchDocsByLen<D>(batchSize: int, batchSeqLen: int, docs: seq<(D, int)>) returns (r: Result<seq<(seq<D>, seq<int>)>>)
    ensures r.Err? <==> batchSeqLen == 0 && docs != []
    ensures r.Err? ==> r.error == ZeroDivisionError
    ensures r.Ok? && batchSeqLen == 0 ==> r.value == []
    ensures r.Ok? && batchSeqLen != 0 ==>
      exists n :: Grouped(r.value, batchSize, batchSeqLen, SortByLen(docs), n)
  {
    var sorted := SortByLen(docs);
    SortByLenSpec(docs);
    if sorted == [] {
      if batchSeqLen != 0 {
        assert Grouped([], batchSize, batchSeqLen, sorted, 0);
      }
      return Ok([]);
    }
    if batchSeqLen == 0 {
      return Err(ZeroDivisionError);
    }
    var batches := GroupSorted(batchSize, batchSeqLen, sorted);
    r := Ok(batches);
  }
}

=== FILE: file.dfy ===
/** utils/file.py: deriving a new file name by appending "_" and a signature to the name
    before its extension. The file-opening context managers are not part of this model. */
module FileUtils {
  import opened PyStrings

  /** `extend_file_basename`: the root of the name, "_", the signature, then the old
      extension. */
  function ExtendFileBasename(b: string, sig: string): (r: string)
    ensures |r| == |b| + |sig| + 1
    ensures var ext := SplitExt(b).1; |ext| <= |r| && r[|r| - |ext|..] == ext
    ensures var root := SplitExt(b).0; |root| < |r| && r[..|root|] == root && r[|root|] == '_'
  {
    SplitExtParts(b);
    var (root, ext) := SplitExt(b);
    var r := root + "_" + sig + ext;
    assert r[|r| - |ext|..] == ext;
    assert r[..|root|] == root;
    r
  }

  /** `splitext` when the last '.' comes after the last '/' with a non-dot between them. */
  lemma SplitExtAt(p: string, k: int)
    requires RFind(p, '/') < k < RFind(p, '.') && p[k] != '.'
    ensures SplitExt(p) == (p[..RFind(p, '.')], p[RFind(p, '.')..])
  {
  }

  /** A name with a non-dot, slash-free root, one '.', and a dot-free, slash-free
      extension splits at that dot. */
  lemma SplitExtDotted(name: string, e: string)
    requires name != [] && '.' !in name && '/' !in name && '.' !in e && '/' !in e
    ensures SplitExt(name + "." + e) == (name, "." + e)
  {
    var p := name + "." + e;
    assert p[|name| + 1..] == e;
    RFindAt(p, |name|, '.');
    assert '/' !in p;
    assert RFind(p, '/') == -1;
    assert p[0] == name[0] && name[0] in name;
    SplitExtAt(p, 0);
    assert p[..|name|] == name;
    assert p[|name|..] == "." + e;
  }

  /** `splitext` when every character between the last '/' and the last '.' is a '.'. */
  lemma SplitExtNone(p: string)
    requires forall k :: RFind(p, '/') < k < RFind(p, '.') ==> p[k] == '.'
    ensures SplitExt(p) == (p, [])
  {
  }

  /** The new name spelled out from the parts of the old one. */
  lemma ExtendFileParts(b: string, sig: string)
    ensures ExtendFileBasename(b, sig) == SplitExt(b).0 + ("_" + sig) + SplitExt(b).1
  {
  }

  /** Where the last '/' and the last '.' are once slash-free, dot-free text is put before
      an extension. */
  lemma InsertRFinds(root: string, mid: string, ext: string)
    requires '.' !in mid && '/' !in mid
    requires ext != [] && ext[0] == '.' && '.' !in ext[1..] && '/' !in ext
    ensures RFind(root + mid + ext, '/') == RFind(root, '/')
    ensures RFind(root + mid + ext, '.') == |root| + |mid|
  {
    var t := mid + ext;
    assert root + mid + ext == root + t;
    NoneInConcat(mid, ext, '/');
    RFindAppend(root, t, '/');
    LastDotAt(root + t, |root| + |mid|, ext);
  }

  /** A character in neither part is in neither's concatenation. */
  lemma NoneInConcat(x: string, y: string, c: char)
    requires c !in x && c !in y
    ensures c !in x + y
  {
  }

  /** A '.' at `at` with only the dot-free remainder of `ext` after it is the last '.'. */
  lemma LastDotAt(r: string, at: nat, ext: string)
    requires at + |ext| == |r| && r[at..] == ext && ext != [] && ext[0] == '.' && '.' !in ext[1..]
    ensures RFind(r, '.') == at
  {
    assert r[at] == r[at..][0];
    assert r[at + 1..] == r[at..][1..];
    RFindAt(r, at, '.');
  }

  /** Text without '.' or '/' inserted between a root and its extension leaves the
      extension where it was. */
  lemma SplitExtInsert(root: string, mid: string, ext: string)
    requires mid != [] && mid[0] != '.' && '.' !in mid && '/' !in mid
    requires SplitExt(root + ext).1 == ext != []
    ensures SplitExt(root + mid + ext) == (root + mid, ext)
  {
    SplitExtParts(root + ext);
    InsertRFinds(root, mid, ext);
    var r := root + mid + ext;
    assert r[|root|] == mid[0];
    SplitExtAt(r, |root|);
    var dot := |root| + |mid|;
    assert r[..dot] == root + mid;
    assert r[dot..] == ext;
  }

  /** Text without '.' or '/' appended to a name without extension gives a name without
      extension. */
  lemma SplitExtAppend(b: string, mid: string)
    requires '.' !in mid && '/' !in mid && SplitExt(b).1 == []
    ensures SplitExt(b + mid) == (b + mid, [])
  {
    var r := b + mid;
    RFindAppend(b, mid, '/');
    RFindAppend(b, mid, '.');
    var sepB, dotB := RFind(b, '/'), RFind(b, '.');
    forall k | sepB < k < dotB ensures r[k] == '.' {
      if b[k] != '.' {
        SplitExtAt(b, k);
      }
    }
    SplitExtNone(r);
  }

  /** The new name splits back into the extended root and the old extension, as long as
      the signature brings no '.' or '/' of its own. */
  lemma ExtendFileSplitsBack(b: string, sig: string)
    requires '.' !in sig && '/' !in sig
    ensures SplitExt(ExtendFileBasename(b, sig)) == (SplitExt(b).0 + "_" + sig, SplitExt(b).1)
  {
    SplitExtParts(b);
    ExtendFileParts(b, sig);
    var root, ext := SplitExt(b).0, SplitExt(b).1;
    var mid := "_" + sig;
    assert '.' !in mid && '/' !in mid;
    assert root + "_" + sig == root + mid;
    if ext != [] {
      assert b == root + ext;
      SplitExtInsert(root, mid, ext);
    } else {
      assert root == b && root + mid + ext == b + mid;
      SplitExtAppend(b, mid);
    }
  }

  /** `extend_path_basename`, as written: every occurrence of the base name in the whole
      path is replaced by the extended base name. */
  function ExtendPathBasename(p: string, sig: string): (r: string)
  {
    var b := Basename(p);
    ReplaceAll(p, b, ExtendFileBasename(b, sig))
  }

  /** Replacing a non-empty pattern that can only match at the very end. */
  lemma {:induction false} ReplaceAtEnd(d: string, b: string, r: string)
    requires b != [] && b[0] !in d
    ensures ReplaceAll(d + b, b, r) == d + r
    decreases |d|
  {
    var s := d + b;
    if d == [] {
      assert s == b && s[..|b|] == b && s[|b|..] == [];
      assert ReplaceAll(s[|b|..], b, r) == [];
    } else {
      assert s[0] == d[0] && d[0] in d;
      assert s[..|b|][0] == s[0] != b[0];
      assert s[1..] == d[1..] + b;
      ReplaceAtEnd(d[1..], b, r);
      assert d == [d[0]] + d[1..];
      SeqAssoc([d[0]], d[1..], r);
      calc {
        ReplaceAll(s, b, r);
        [s[0]] + ReplaceAll(s[1..], b, r);
        [d[0]] + (d[1..] + r);
      }
    }
  }

  /** Concatenation is associative. */
  lemma SeqAssoc(x: string, y: string, z: string)
    ensures x + (y + z) == x + y + z
  {
  }

  /** When the base name occurs nowhere but at the end of the path, only the last
      component changes. */
  lemma ExtendPathAtEnd(d: string, b: string, sig: string)
    requires b != [] && '/' !in b && b[0] !in d && (d == [] || d[|d| - 1] == '/')
    ensures ExtendPathBasename(d + b, sig) == d + ExtendFileBasename(b, sig)
  {
    BasenameAfterDir(d, b);
    ReplaceAtEnd(d, b, ExtendFileBasename(b, sig));
  }

  /** A name with one dot gets the signature between its root and its extension. The
      documented example is the case "path_name", "json". */
  lemma ExtendFileDotted(name: string, e: string, sig: string)
    requires name != [] && '.' !in name && '/' !in name && '.' !in e && '/' !in e
    ensures ExtendFileBasename(name + "." + e, sig) == name + "_" + sig + "." + e
  {
    SplitExtDotted(name, e);
  }

  /** A dotted name after a directory part that does not contain the name's first
      character: only the name gets the signature. The documented example is the case
      "/data/hello/", "path_name", "json". */
  lemma ExtendPathDotted(d: string, name: string, e: string, sig: string)
    requires name != [] && '.' !in name && '/' !in name && '.' !in e && '/' !in e
    requires name[0] !in d && (d == [] || d[|d| - 1] == '/')
    ensures ExtendPathBasename(d + (name + "." + e), sig) == d + (name + "_" + sig + "." + e)
  {
    var b := name + "." + e;
    assert b[0] == name[0] && '/' !in b;
    ExtendPathAtEnd(d, b, sig);
    ExtendFileDotted(name, e, sig);
  }

  /** A non-empty pattern at the start of the text is replaced and the rest follows. */
  lemma ReplaceAtStart(b: string, rest: string, r: string)
    requires b != []
    ensures ReplaceAll(b + rest, b, r) == r + ReplaceAll(rest, b, r)
  {
    assert (b + rest)[..|b|] == b;
    assert (b + rest)[|b|..] == rest;
  }

  /** `(b + c + b).replace(b, r)` when `b` does not start with `c`. */
  lemma ReplaceAround(b: string, c: char, r: string)
    requires b != [] && b[0] != c
    ensures ReplaceAll(b + [c] + b, b, r) == r + [c] + r
  {
    var tail := [c] + b;
    ReplaceAtEnd([c], b, r);
    ReplaceAtStart(b, tail, r);
    SeqAssoc(b, [c], b);
    SeqAssoc(r, [c], r);
    calc {
      ReplaceAll(b + [c] + b, b, r);
      ReplaceAll(b + tail, b, r);
      r + ([c] + r);
    }
  }

  /** A directory with the same name as the file is renamed as well: the replacement
      covers the whole path, not only its last component. */
  lemma ExtendPathRenamesDirectory(b: string, sig: string)
    requires b != [] && '/' !in b
    ensures var e := ExtendFileBasename(b, sig);
      ExtendPathBasename(b + "/" + b, sig) == e + "/" + e && e + "/" + e != b + "/" + e
  {
    var e := ExtendFileBasename(b, sig);
    var d := b + ['/'];
    assert d[|d| - 1] == '/';
    BasenameAfterDir(d, b);
    assert b[0] != '/' by { assert b[0] in b; }
    ReplaceAround(b, '/', e);
    assert |e + "/" + e| != |b + "/" + e|;
  }

  /** The path with only its last component extended. */
  function ExtendLastComponent(p: string, sig: string): (r: string)
    ensures |r| == |p| + |sig| + 1
  {
    var b := Basename(p);
    p[..|p| - |b|] + ExtendFileBasename(b, sig)
  }

  /** The directory part is kept, and the base name of the result is the extended base
      name. */
  lemma ExtendLastComponentParts(p: string, sig: string)
    requires '/' !in sig
    ensures var b := Basename(p); var d := p[..|p| - |b|];
      && ExtendLastComponent(p, sig)[..|d|] == d
      && Basename(ExtendLastComponent(p, sig)) == ExtendFileBasename(b, sig)
  {
    var b := Basename(p);
    var i := RFind(p, '/') + 1;
    var d := p[..i];
    assert p[i..] == b && |d| == |p| - |b|;
    var e := ExtendFileBasename(b, sig);
    SplitExtParts(b);
    assert e == SplitExt(b).0 + "_" + sig + SplitExt(b).1;
    assert SplitExt(b).0 <= b;
    assert '/' !in e by {
      forall j | 0 <= j < |e| ensures e[j] != '/' {
        if j < |SplitExt(b).0| {
          assert e[j] == b[j] && b[j] in b;
        } else if j < |SplitExt(b).0| + 1 + |sig| {
          if j > |SplitExt(b).0| {
            assert e[j] == sig[j - |SplitExt(b).0| - 1] && sig[j - |SplitExt(b).0| - 1] in sig;
          }
        } else {
          var ext := SplitExt(b).1;
          assert e[j] == ext[j - |SplitExt(b).0| - 1 - |sig|] && ext[j - |SplitExt(b).0| - 1 - |sig|] in ext;
        }
      }
    }
    if i > 0 {
      assert d[|d| - 1] == p[RFind(p, '/')] == '/';
    }
    BasenameAfterDir(d, e);
    assert ExtendLastComponent(p, sig) == d + e;
    assert (d + e)[..|d|] == d;
  }

  /** On paths where the base name occurs only at the end, the two agree. */
  lemma ExtendLastComponentAgrees(d: string, b: string, sig: string)
    requires b != [] && '/' !in b && b[0] !in d && (d == [] || d[|d| - 1] == '/')
    ensures ExtendPathBasename(d + b, sig) == ExtendLastComponent(d + b, sig)
  {
    ExtendPathAtEnd(d, b, sig);
    BasenameAfterDir(d, b);
    assert (d + b)[..|d + b| - |b|] == d;
  }
}

=== FILE: interface.dfy ===
/** transformers/interface.py: the schema node `ListStat` that every transformer uses to
    describe its output fields, the token-type checks shared by all transformers, and
    the (docs, transformer, size) record. */
module TransformerInterface {
  import opened Wrappers
  import opened Documents

  /** A `ListStat`: field name, token type, list length, whether the field is a
      sequence, and the node of the inner lists for a "list_type" field. */
  datatype ListStat = ListStat(name: string, tokenType: string, listLen: int, isSeq: bool, sub: Option<ListStat>)

  /** What the constructor asserts: a sub node exactly for "list_type". */
  predicate SubMatchesType(tokenType: string, sub: Option<ListStat>) {
    tokenType == "list_type" <==> sub.Some?
  }

  /** A node built by the constructor, all the way down. */
  predicate WellFormed(s: ListStat) {
    SubMatchesType(s.tokenType, s.sub) && (s.sub.Some? ==> WellFormed(s.sub.value))
  }

  /** `ListStat(name, token_type, list_len, is_seq, sub_list_stat)`. */
  function NewListStat(name: string, tokenType: string, listLen: int, isSeq: bool, sub: Option<ListStat>): (r: Result<ListStat>)
    ensures r.Ok? <==> SubMatchesType(tokenType, sub)
    ensures r.Err? ==> r.error == AssertionError
    ensures r.Ok? ==> r.value.name == name && r.value.tokenType == tokenType && r.value.listLen == listLen
    ensures r.Ok? ==> r.value.isSeq == isSeq && r.value.sub == sub
    ensures r.Ok? && (sub.None? || WellFormed(sub.value)) ==> WellFormed(r.value)
  {
    if tokenType != "list_type" && sub.Some? then Err(AssertionError)
    else if tokenType == "list_type" && sub.None? then Err(AssertionError)
    else Ok(ListStat(name, tokenType, listLen, isSeq, sub))
  }

  /** `ListStat(name, token_type, list_len)` with the defaults `is_seq=False` and
      `sub_list_stat=None`: refused only for "list_type". */
  function PlainListStat(name: string, tokenType: string, listLen: int): (r: Result<ListStat>)
    ensures r.Ok? <==> tokenType != "list_type"
    ensures r.Ok? ==> r.value == ListStat(name, tokenType, listLen, false, None) && WellFormed(r.value)
  {
    NewListStat(name, tokenType, listLen, false, None)
  }

  /** `assert_docs_token_type`: every document has the given type. */
  function AssertDocsTokenType(tokenType: string, docs: seq<Document>): (o: Outcome)
    reads set d | d in docs
    ensures o.Pass? <==> forall i :: 0 <= i < |docs| ==> docs[i].tokenType == tokenType
    ensures o.Fail? ==> o.error == AssertionError
  {
    if docs == [] then Pass
    else if docs[0].tokenType != tokenType then Fail(AssertionError)
    else AssertDocsTokenType(tokenType, docs[1..])
  }

  /** `docs_consist_check`: every document has the first one's type; no documents
      pass. */
  function DocsConsistCheck(docs: seq<Document>): (o: Outcome)
    reads set d | d in docs
    ensures o.Pass? <==> forall i, j :: 0 <= i < |docs| && 0 <= j < |docs| ==> docs[i].tokenType == docs[j].tokenType
    ensures o.Fail? ==> o.error == AssertionError
  {
    if docs == [] then Pass else AssertDocsTokenType(docs[0].tokenType, docs)
  }

  /** `DocTransformState`, an immutable named tuple. */
  datatype DocTransformState<D, X> = DocTransformState(docs: seq<D>, transformer: X, size: int)
}

=== FILE: iterators.dfy ===
/** utils/iterator.py: stream combinators. A finite iterator is the sequence of the
    items it has left; `next` on an empty one is StopIteration. */
module Iterators {
  import opened Arith
  import opened Wrappers

  /** Consecutive chunks of b items; a remainder shorter than b is dropped. */
  function Chunks<T>(items: seq<T>, b: int): seq<seq<T>>
    requires b >= 1
    decreases |items|
  {
    if |items| < b then [] else [items[..b]] + Chunks(items[b..], b)
  }

  /** What `batched_items_iter` yields: a non-positive batch size never equals the length
      of a batch that just received an item, so nothing is yielded. */
  function Batched<T>(batchSize: int, items: seq<T>): (r: seq<seq<T>>)
    ensures forall i :: 0 <= i < |r| ==> |r[i]| == batchSize
  {
    if batchSize <= 0 then [] else ChunksShape(items, batchSize); Chunks(items, batchSize)
  }

  /** The items of a sequence of sequences, in order. */
  function Concat<T>(ss: seq<seq<T>>): seq<T> {
    if ss == [] then [] else Concat(ss[..|ss| - 1]) + ss[|ss| - 1]
  }

  lemma ConcatCons<T>(s: seq<T>, ss: seq<seq<T>>)
    ensures Concat([s] + ss) == s + Concat(ss)
    decreases |ss|
  {
    if ss != [] {
      assert ([s] + ss)[..|ss|] == [s] + ss[..|ss| - 1];
      ConcatCons(s, ss[..|ss| - 1]);
    } else {
      assert Concat([s]) == Concat([]) + s;
    }
  }

  /** A batch size of at least one gives n / b batches of exactly b items. */
  lemma {:induction false} ChunksShape<T>(items: seq<T>, b: int)
    requires b >= 1
    ensures |Chunks(items, b)| == |items| / b
    ensures forall i :: 0 <= i < |Chunks(items, b)| ==> |Chunks(items, b)[i]| == b
    decreases |items|
  {
    if |items| < b {
      DivModUnique(|items|, b, 0, |items|);
    } else {
      ChunksShape(items[b..], b);
      DivModStep(|items|, b);
    }
  }

  /** The batches together are the items without the last n % b, that is the first
      b * (n / b) items. */
  lemma {:induction false} ChunksConcat<T>(items: seq<T>, b: int)
    requires b >= 1
    ensures Concat(Chunks(items, b)) == items[..|items| - |items| % b]
    decreases |items|
  {
    if |items| < b {
      DivModUnique(|items|, b, 0, |items|);
    } else {
      var rest := items[b..];
      ChunksConcat(rest, b);
      DivModStep(|items|, b);
      var e := |items| - |items| % b;
      assert |rest| - |rest| % b == e - b;
      ConcatCons(items[..b], Chunks(rest, b));
      PrefixSplit(items, b, e);
    }
  }

  lemma PrefixSplit<T>(items: seq<T>, b: nat, e: nat)
    requires b <= e <= |items|
    ensures items[..b] + items[b..][..e - b] == items[..e]
  {
  }

  /** Chunking a prefix whose length is a multiple of b, then the rest. */
  lemma {:induction false} ChunksAppend<T>(p: seq<T>, q: seq<T>, b: int)
    requires b >= 1 && |p| % b == 0
    ensures Chunks(p + q, b) == Chunks(p, b) + Chunks(q, b)
    decreases |p|
  {
    if p == [] {
      assert p + q == q;
    } else {
      if |p| < b {
        DivModUnique(|p|, b, 0, |p|);
      }
      DivModStep(|p|, b);
      ChunksAppend(p[b..], q, b);
      assert (p + q)[..b] == p[..b];
      assert (p + q)[b..] == p[b..] + q;
    }
  }

  /** A batch that fills up is the next chunk. */
  lemma BatchFull<T>(items: seq<T>, start: nat, i: nat, b: int)
    requires 1 <= b && start + b == i <= |items| && start % b == 0
    ensures Chunks(items[..i], b) == Chunks(items[..start], b) + [items[start..i]]
    ensures i % b == 0
  {
    var done, batch := items[..start], items[start..i];
    ChunksAppend(done, batch, b);
    assert done + batch == items[..i];
    DivModStep(i, b);
    assert batch[..b] == batch;
    assert Chunks(batch[b..], b) == [];
  }

  /** The items left in an unfilled batch yield nothing. */
  lemma BatchRest<T>(items: seq<T>, start: nat, b: int)
    requires 1 <= b && start <= |items| < start + b && start % b == 0
    ensures Chunks(items, b) == Chunks(items[..start], b)
  {
    ChunksAppend(items[..start], items[start..], b);
    assert items[..start] + items[start..] == items;
  }

  lemma SliceSnoc<T>(items: seq<T>, start: nat, i: nat)
    requires start <= i < |items|
    ensures items[start..i] + [items[i]] == items[start..i + 1]
  {
  }

  /** `batched_items_iter` as the loop it is. */
  method BatchedItemsIter<T>(batchSize: int, items: seq<T>) returns (out: seq<seq<T>>)
    ensures out == Batched(batchSize, items)
  {
    var batch: seq<T> := [];
    out := [];
    ghost var start := 0;
    for i := 0 to |items|
      invariant start <= i && batch == items[start..i]
      invariant batchSize <= 0 ==> out == []
      invariant batchSize >= 1 ==> (i < start + batchSize && start % batchSize == 0
        && out == Chunks(items[..start], batchSize))
    {
      SliceSnoc(items, start, i);
      batch := batch + [items[i]];
      if |batch| == batchSize {
        BatchFull(items, start, i + 1, batchSize);
        out := out + [batch];
        batch := [];
        start := i + 1;
      }
    }
    if batchSize >= 1 {
      BatchRest(items, start, batchSize);
    }
  }

  /** The k-th item of every iterator that has one, in iterator order. */
  function RoundK<T>(iters: seq<seq<T>>, k: nat): seq<T> {
    if iters == [] then []
    else RoundK(iters[..|iters| - 1], k) + (if |iters[|iters| - 1]| > k then [iters[|iters| - 1][k]] else [])
  }

  /** The total number of items left. */
  function TotalLen<T>(iters: seq<seq<T>>): nat {
    if iters == [] then 0 else TotalLen(iters[..|iters| - 1]) + |iters[|iters| - 1]|
  }

  lemma InitOfSnoc<T>(a: seq<T>, y: T)
    ensures (a + [y])[..|a|] == a && (a + [y])[|a|] == y
  {
  }

  lemma TotalLenSnoc<T>(iters: seq<seq<T>>, x: seq<T>)
    ensures TotalLen(iters + [x]) == TotalLen(iters) + |x|
  {
    InitOfSnoc(iters, x);
  }

  lemma RoundKSnoc<T>(iters: seq<seq<T>>, x: seq<T>, k: nat)
    ensures RoundK(iters + [x], k) == RoundK(iters, k) + (if |x| > k then [x[k]] else [])
  {
    InitOfSnoc(iters, x);
  }

  lemma ConcatSnoc<T>(ss: seq<seq<T>>, s: seq<T>)
    ensures Concat(ss + [s]) == Concat(ss) + s
  {
    InitOfSnoc(ss, s);
  }

  lemma MaxLenSnoc<T>(iters: seq<seq<T>>, x: seq<T>)
    ensures MaxLen(iters + [x]) == if |x| > MaxLen(iters) then |x| else MaxLen(iters)
  {
    InitOfSnoc(iters, x);
  }

  /** The iterators that yielded in a round, each one item further on: one item is
      consumed from each live iterator, and exhausted ones are dropped. */
  function Tails<T>(iters: seq<seq<T>>): (r: seq<seq<T>>)
    ensures TotalLen(r) + |r| == TotalLen(iters) && |r| <= |iters|
  {
    if iters == [] then []
    else
      var init, x := iters[..|iters| - 1], iters[|iters| - 1];
      InitOfSnoc(init, x);
      var t := Tails(init);
      if x == [] then t
      else
        TotalLenSnoc(t, x[1..]);
        t + [x[1..]]
  }

  /** `merged_round_iter`: rounds of the next item of every live iterator, until none
      is live. */
  function MergedRound<T>(iters: seq<seq<T>>): seq<T>
    decreases TotalLen(iters) + |iters|
  {
    if iters == [] then [] else RoundK(iters, 0) + MergedRound(Tails(iters))
  }

  /** The rounds from k up to K. */
  function RoundsFrom<T>(iters: seq<seq<T>>, k: nat, len: nat): seq<T>
    decreases len - k
  {
    if k >= len then [] else RoundK(iters, k) + RoundsFrom(iters, k + 1, len)
  }

  /** The length of the longest iterator. */
  function MaxLen<T>(iters: seq<seq<T>>): (m: nat)
    ensures forall j :: 0 <= j < |iters| ==> |iters[j]| <= m
  {
    if iters == [] then 0
    else
      var m := MaxLen(iters[..|iters| - 1]);
      var x := iters[|iters| - 1];
      if |x| > m then |x| else m
  }

  lemma TailsSnoc<T>(iters: seq<seq<T>>, x: seq<T>)
    ensures Tails(iters + [x]) == Tails(iters) + (if x == [] then [] else [x[1..]])
  {
    InitOfSnoc(iters, x);
  }

  /** After a round, round k of what is left is round k + 1 of before. */
  lemma {:induction false} RoundShift<T>(iters: seq<seq<T>>, k: nat)
    ensures RoundK(Tails(iters), k) == RoundK(iters, k + 1)
  {
    if iters != [] {
      var init, x := iters[..|iters| - 1], iters[|iters| - 1];
      assert init + [x] == iters;
      RoundShift(init, k);
      TailsSnoc(init, x);
      RoundKSnoc(init, x, k + 1);
      if x != [] {
        RoundKSnoc(Tails(init), x[1..], k);
      }
    }
  }

  lemma {:induction false} RoundsShift<T>(iters: seq<seq<T>>, k: nat, len: nat)
    ensures RoundsFrom(Tails(iters), k, len) == RoundsFrom(iters, k + 1, len + 1)
    decreases len - k
  {
    if k < len {
      RoundShift(iters, k);
      RoundsShift(iters, k + 1, len);
    }
  }

  /** A round consumes one item of the longest iterator. */
  lemma {:induction false} MaxLenTails<T>(iters: seq<seq<T>>)
    ensures MaxLen(Tails(iters)) == if MaxLen(iters) > 0 then MaxLen(iters) - 1 else 0
  {
    if iters != [] {
      var init, x := iters[..|iters| - 1], iters[|iters| - 1];
      assert init + [x] == iters;
      MaxLenTails(init);
      TailsSnoc(init, x);
      MaxLenSnoc(init, x);
      if x != [] {
        MaxLenSnoc(Tails(init), x[1..]);
      }
    }
  }

  /** When every iterator is exhausted the round is empty. */
  lemma {:induction false} RoundOfExhausted<T>(iters: seq<seq<T>>, k: nat)
    requires MaxLen(iters) <= k
    ensures RoundK(iters, k) == []
  {
    if iters != [] {
      var init, x := iters[..|iters| - 1], iters[|iters| - 1];
      assert init + [x] == iters;
      MaxLenSnoc(init, x);
      RoundKSnoc(init, x, k);
      RoundOfExhausted(init, k);
    }
  }

  /** The merge is round 0, round 1, ... up to the longest iterator: round k holds the
      k-th item of every iterator that has one, in iterator order. */
  lemma {:induction false} MergedRounds<T>(iters: seq<seq<T>>)
    ensures MergedRound(iters) == RoundsFrom(iters, 0, MaxLen(iters))
    decreases TotalLen(iters) + |iters|
  {
    if iters != [] {
      var ts := Tails(iters);
      var m := MaxLen(iters);
      assert MergedRound(iters) == RoundK(iters, 0) + MergedRound(ts);
      MergedRounds(ts);
      MaxLenTails(iters);
      if m > 0 {
        assert MergedRound(ts) == RoundsFrom(ts, 0, m - 1);
        RoundsShift(iters, 0, m - 1);
        assert RoundsFrom(iters, 0, m) == RoundK(iters, 0) + RoundsFrom(iters, 1, m);
      } else {
        assert MergedRound(ts) == [];
        RoundOfExhausted(iters, 0);
      }
    }
  }

  /** A round takes the first item of each live iterator, the rest stays. */
  lemma {:induction false} RoundTailsConcat<T>(iters: seq<seq<T>>)
    ensures multiset(RoundK(iters, 0)) + multiset(Concat(Tails(iters))) == multiset(Concat(iters))
  {
    if iters != [] {
      var init, x := iters[..|iters| - 1], iters[|iters| - 1];
      assert init + [x] == iters;
      RoundTailsConcat(init);
      TailsSnoc(init, x);
      RoundKSnoc(init, x, 0);
      ConcatSnoc(init, x);
      if x != [] {
        ConcatSnoc(Tails(init), x[1..]);
        assert x == [x[0]] + x[1..];
      }
    }
  }

  /** A round yields one item per live iterator. */
  lemma {:induction false} RoundSize<T>(iters: seq<seq<T>>)
    ensures |RoundK(iters, 0)| == |Tails(iters)|
  {
    if iters != [] {
      var init, x := iters[..|iters| - 1], iters[|iters| - 1];
      assert init + [x] == iters;
      RoundSize(init);
      TailsSnoc(init, x);
      RoundKSnoc(init, x, 0);
    }
  }

  /** Every item of every iterator is yielded exactly once. */
  lemma {:induction false} MergedComplete<T>(iters: seq<seq<T>>)
    ensures multiset(MergedRound(iters)) == multiset(Concat(iters))
    decreases TotalLen(iters) + |iters|
  {
    if iters != [] {
      MergedComplete(Tails(iters));
      RoundTailsConcat(iters);
    }
  }

  /** The merge is as long as all the iterators together. */
  lemma {:induction false} MergedLength<T>(iters: seq<seq<T>>)
    ensures |MergedRound(iters)| == TotalLen(iters)
    decreases TotalLen(iters) + |iters|
  {
    if iters != [] {
      MergedLength(Tails(iters));
      RoundSize(iters);
    }
  }

  /** A merge is its first round, then the merge of what is left. */
  lemma MergedStep<T>(before: seq<T>, iters: seq<seq<T>>)
    requires iters != []
    ensures before + MergedRound(iters) == (before + RoundK(iters, 0)) + MergedRound(Tails(iters))
  {
  }

  /** One pass of the `for iterator in iters` loop: the next item of every live
      iterator, and the iterators that yielded. */
  method NextRound<T>(iters: seq<seq<T>>) returns (yielded: seq<T>, nextIters: seq<seq<T>>)
    ensures yielded == RoundK(iters, 0) && nextIters == Tails(iters)
  {
    yielded, nextIters := [], [];
    for j := 0 to |iters|
      invariant yielded == RoundK(iters[..j], 0)
      invariant nextIters == Tails(iters[..j])
    {
      assert iters[..j + 1] == iters[..j] + [iters[j]];
      RoundKSnoc(iters[..j], iters[j], 0);
      TailsSnoc(iters[..j], iters[j]);
      if iters[j] != [] {
        var res := iters[j][0];
        nextIters := nextIters + [iters[j][1..]];
        yielded := yielded + [res];
      }
    }
    assert iters[..|iters|] == iters;
  }

  /** `merged_round_iter`: rounds until no iterator is live. */
  method MergedRoundIter<T>(iters0: seq<seq<T>>) returns (out: seq<T>)
    ensures out == MergedRound(iters0)
  {
    var iters := iters0;
    out := [];
    while |iters| != 0
      invariant out + MergedRound(iters) == MergedRound(iters0)
      decreases TotalLen(iters) + |iters|
    {
      var yielded, nextIters := NextRound(iters);
      MergedStep(out, iters);
      out := out + yielded;
      iters := nextIters;
    }
  }

  /** An iterator's items, each paired with its label. */
  function Tag<T, L>(it: seq<T>, l: L): (r: seq<(T, L)>)
    ensures |r| == |it| && forall k :: 0 <= k < |it| ==> r[k] == (it[k], l)
  {
    seq(|it|, k requires 0 <= k < |it| => (it[k], l))
  }

  /** `zip(iters, labels)`, each iterator's items tagged with its label. */
  function Tagged<T, L>(iters: seq<seq<T>>, labels: seq<L>): (r: seq<seq<(T, L)>>)
    ensures |r| == (if |iters| < |labels| then |iters| else |labels|)
    ensures forall j :: 0 <= j < |r| ==> r[j] == Tag(iters[j], labels[j])
  {
    var n := if |iters| < |labels| then |iters| else |labels|;
    seq(n, j requires 0 <= j < n => Tag(iters[j], labels[j]))
  }

  lemma TagTail<T, L>(it: seq<T>, l: L)
    requires it != []
    ensures Tag(it[1..], l) == Tag(it, l)[1..]
  {
  }

  lemma TaggedSnoc<T, L>(iters: seq<seq<T>>, labels: seq<L>, x: seq<T>, l: L)
    requires |iters| == |labels|
    ensures Tagged(iters + [x], labels + [l]) == Tagged(iters, labels) + [Tag(x, l)]
  {
  }

  /** One element of the labelled round: the tagged form of iterator j. */
  lemma TaggedPrefix<T, L>(iters: seq<seq<T>>, labels: seq<L>, j: nat)
    requires j < |iters| && j < |labels|
    ensures Tagged(iters, labels)[..j + 1] == Tagged(iters, labels)[..j] + [Tag(iters[j], labels[j])]
  {
  }

  /** Every labelled item carries the label of an iterator that holds it. */
  lemma MergedLabelled<T, L>(iters: seq<seq<T>>, labels: seq<L>, p: (T, L))
    requires p in MergedRound(Tagged(iters, labels))
    ensures exists j :: 0 <= j < |iters| && j < |labels| && p.0 in iters[j] && p.1 == labels[j]
  {
    var tagged := Tagged(iters, labels);
    MergedComplete(tagged);
    assert p in multiset(Concat(tagged));
    var j := InConcat(tagged, p);
    var k :| 0 <= k < |tagged[j]| && tagged[j][k] == p;
    assert iters[j][k] == p.0;
  }

  /** An item of a concatenation comes from one of its parts. */
  lemma {:induction false} InConcat<T>(ss: seq<seq<T>>, x: T) returns (j: nat)
    requires x in Concat(ss)
    ensures j < |ss| && x in ss[j]
  {
    var init := ss[..|ss| - 1];
    if x in ss[|ss| - 1] {
      j := |ss| - 1;
    } else {
      j := InConcat(init, x);
    }
  }

  /** One turn of the labelled round: iterator j either yields its tagged head
      and stays live, or drops out. */
  lemma LabelStep<T, L>(iters: seq<seq<T>>, labels: seq<L>, j: nat, nextIters: seq<seq<T>>, nextLabels: seq<L>)
    requires j < |iters| && j < |labels| && |nextIters| == |nextLabels|
    requires Tagged(nextIters, nextLabels) == Tails(Tagged(iters, labels)[..j])
    ensures RoundK(Tagged(iters, labels)[..j + 1], 0)
         == RoundK(Tagged(iters, labels)[..j], 0) + (if iters[j] != [] then [(iters[j][0], labels[j])] else [])
    ensures iters[j] == [] ==> Tagged(nextIters, nextLabels) == Tails(Tagged(iters, labels)[..j + 1])
    ensures iters[j] != [] ==>
      Tagged(nextIters + [iters[j][1..]], nextLabels + [labels[j]]) == Tails(Tagged(iters, labels)[..j + 1])
  {
    var tagged := Tagged(iters, labels);
    TaggedPrefix(iters, labels, j);
    RoundKSnoc(tagged[..j], tagged[j], 0);
    TailsSnoc(tagged[..j], tagged[j]);
    if iters[j] != [] {
      TaggedSnoc(nextIters, nextLabels, iters[j][1..], labels[j]);
      TagTail(iters[j], labels[j]);
    }
  }

  /** One pass of the `for iterator, label in zip(iters, labels)` loop. */
  method NextRoundWithLabel<T, L>(iters: seq<seq<T>>, labels: seq<L>)
    returns (yielded: seq<(T, L)>, nextIters: seq<seq<T>>, nextLabels: seq<L>)
    ensures yielded == RoundK(Tagged(iters, labels), 0)
    ensures |nextIters| == |nextLabels| && Tagged(nextIters, nextLabels) == Tails(Tagged(iters, labels))
  {
    yielded, nextIters, nextLabels := [], [], [];
    ghost var tagged := Tagged(iters, labels);
    var n := if |iters| < |labels| then |iters| else |labels|;
    for j := 0 to n
      invariant yielded == RoundK(tagged[..j], 0)
      invariant |nextIters| == |nextLabels| && Tagged(nextIters, nextLabels) == Tails(tagged[..j])
    {
      LabelStep(iters, labels, j, nextIters, nextLabels);
      if iters[j] != [] {
        var res := iters[j][0];
        nextIters := nextIters + [iters[j][1..]];
        nextLabels := nextLabels + [labels[j]];
        yielded := yielded + [(res, labels[j])];
      }
    }
    assert tagged[..n] == tagged;
  }

  /** `merged_round_iter_with_label`: the merge of the iterators zipped with their
      labels. */
  method MergedRoundIterWithLabel<T, L>(iters0: seq<seq<T>>, labels0: seq<L>) returns (out: seq<(T, L)>)
    ensures out == MergedRound(Tagged(iters0, labels0))
  {
    var iters, labels := iters0, labels0;
    out := [];
    while |iters| != 0
      invariant out + MergedRound(Tagged(iters, labels)) == MergedRound(Tagged(iters0, labels0))
      decreases TotalLen(Tagged(iters, labels)) + |iters|
    {
      var yielded, nextIters, nextLabels := NextRoundWithLabel(iters, labels);
      if Tagged(iters, labels) != [] {
        MergedStep(out, Tagged(iters, labels));
      }
      out := out + yielded;
      iters, labels := nextIters, nextLabels;
    }
  }
  /** `limit_iter`: the count is checked after each yield, so at least the first item
      passes even for a non-positive limit; the warning is reported when fewer items than
      the limit were found. */
  method LimitIter<T>(items: seq<T>, maxNumExamples: int) returns (out: seq<T>, warned: bool)
    ensures maxNumExamples >= 1 ==>
      out == items[..if |items| < maxNumExamples then |items| else maxNumExamples]
    ensures maxNumExamples <= 0 ==> out == (if items == [] then [] else [items[0]])
    ensures warned <==> |out| < maxNumExamples
  {
    var i := 0;
    out := [];
    for k := 0 to |items|
      invariant i == k == |out| && out == items[..k]
      invariant k > 0 ==> k < maxNumExamples
    {
      out := out + [items[k]];
      i := i + 1;
      if i >= maxNumExamples {
        break;
      }
    }
    warned := i < maxNumExamples;
  }

  /** First failure, or all outputs in order. */
  function Joined<X>(rs: seq<Result<seq<X>>>): (r: Result<seq<X>>)
    ensures r.Ok? <==> forall i :: 0 <= i < |rs| ==> rs[i].Ok?
  {
    if rs == [] then Ok([])
    else
      var init := Joined(rs[..|rs| - 1]);
      if init.Err? then init
      else if rs[|rs| - 1].Err? then rs[|rs| - 1]
      else Ok(init.value + rs[|rs| - 1].value)
  }

  /** A failure is the first part's failure. */
  lemma {:induction false} JoinedErr<X>(rs: seq<Result<seq<X>>>)
    requires Joined(rs).Err?
    ensures exists i :: 0 <= i < |rs| && rs[i] == Err(Joined(rs).error) && forall j :: 0 <= j < i ==> rs[j].Ok?
  {
    var init := rs[..|rs| - 1];
    if Joined(init).Err? {
      JoinedErr(init);
      var i :| 0 <= i < |init| && init[i] == Err(Joined(init).error) && forall j :: 0 <= j < i ==> init[j].Ok?;
      assert rs[i] == init[i];
      assert forall j :: 0 <= j < i ==> rs[j] == init[j];
    } else {
      var i := |rs| - 1;
      assert forall j :: 0 <= j < i ==> rs[j] == init[j];
      assert rs[i] == Err(Joined(rs).error);
    }
  }

  /** When every part succeeds, the joined output is their concatenation. */
  lemma {:induction false} JoinedOk<X>(rs: seq<Result<seq<X>>>)
    requires forall i :: 0 <= i < |rs| ==> rs[i].Ok?
    ensures Joined(rs) == Ok(Concat(seq(|rs|, i requires 0 <= i < |rs| => rs[i].value)))
  {
    if rs != [] {
      var init := rs[..|rs| - 1];
      JoinedOk(init);
      var vs := seq(|rs|, i requires 0 <= i < |rs| => rs[i].value);
      assert seq(|init|, i requires 0 <= i < |init| => init[i].value) == vs[..|vs| - 1];
    }
  }

  lemma JoinedSnoc<X>(rs: seq<Result<seq<X>>>, i: nat)
    requires i < |rs|
    ensures Joined(rs[..i + 1]) == match Joined(rs[..i])
      case Err(e) => Err(e)
      case Ok(out) => if rs[i].Err? then Err(rs[i].error) else Ok(out + rs[i].value)
  {
    assert rs[..i + 1][..i] == rs[..i];
  }

  /** Once a prefix has failed, the whole has failed in the same way. */
  lemma {:induction false} JoinedErrStays<X>(rs: seq<Result<seq<X>>>, i: nat)
    requires i <= |rs| && Joined(rs[..i]).Err?
    ensures Joined(rs) == Joined(rs[..i])
    decreases |rs| - i
  {
    if i < |rs| {
      JoinedSnoc(rs, i);
      JoinedErrStays(rs, i + 1);
    } else {
      assert rs[..i] == rs;
    }
  }
}

=== FILE: np_wrap.dfy ===
/** utils/np_wrap.py: a batch of token lists padded in place to one length, with a 0/1
    mask of the real positions, and the padded tokens looked up in a vocabulary, with
    out-of-vocabulary tokens optionally numbered in a table the caller owns. The batch is
    an array whose rows the operations replace; `vocab[x]` is the function `lookup`. */
module NpWrap {
  import opened Wrappers

  /** `max(len(sub_tokens) for sub_tokens in batch_tokens)` for a non-empty batch; 0 for
      no rows. */
  function Longest<T>(rows: seq<seq<T>>): (n: nat)
    ensures forall i :: 0 <= i < |rows| ==> |rows[i]| <= n
    ensures rows != [] ==> exists i :: 0 <= i < |rows| && |rows[i]| == n
    ensures rows == [] ==> n == 0
  {
    if rows == [] then 0
    else
      var init := rows[..|rows| - 1];
      var m := Longest(init);
      var last := |rows[|rows| - 1]|;
      assert forall i :: 0 <= i < |init| ==> init[i] == rows[i];
      if last >= m then last
      else
        assert exists i :: 0 <= i < |init| && |init[i]| == m;
        m
  }

  /** The length `batch_pad_` pads to: the given one, or the longest row's. `max` of no
      rows and `np.ones` of a negative size raise ValueError. */
  function Target<T>(rows: seq<seq<T>>, maxNum: Option<int>): (r: Result<nat>)
    ensures r.Err? ==> r.error == ValueError
    ensures maxNum.None? ==> (r.Ok? <==> rows != [])
    ensures maxNum.Some? ==> (r.Ok? <==> maxNum.value >= 0) && (r.Ok? ==> r.value == maxNum.value)
  {
    match maxNum
    case None => if rows == [] then Err(ValueError) else Ok(Longest(rows))
    case Some(n) => if n < 0 then Err(ValueError) else Ok(n)
  }

  /** Without a given length no row is longer than the target, and some row reaches it. */
  lemma TargetIsLongest<T>(rows: seq<seq<T>>)
    requires rows != []
    ensures Target(rows, None).Ok?
    ensures forall i :: 0 <= i < |rows| ==> |rows[i]| <= Target(rows, None).value
    ensures exists i :: 0 <= i < |rows| && |rows[i]| == Target(rows, None).value
  {
  }

  /** `[pad] * k`. */
  function Pads<T>(pad: T, k: nat): (r: seq<T>)
    ensures |r| == k && forall j :: 0 <= j < k ==> r[j] == pad
  {
    seq(k, _ => pad)
  }

  /** A row after `batch_pad_`: position `j` below `n` holds the row's token where it has
      one and the pad token after it. */
  function Fitted<T>(row: seq<T>, pad: T, n: nat): (r: seq<T>)
    ensures |r| == n
    ensures forall j :: 0 <= j < n ==> r[j] == if j < |row| then row[j] else pad
  {
    if |row| < n then row + Pads(pad, n - |row|)
    else row[..n]
  }

  /** Fitting a fitted row again changes nothing. */
  lemma FittedTwice<T>(row: seq<T>, pad: T, n: nat)
    ensures Fitted(Fitted(row, pad, n), pad, n) == Fitted(row, pad, n)
  {
  }

  /** A row no longer than the target keeps all its tokens, in order, as a prefix. */
  lemma FittedKeepsShort<T>(row: seq<T>, pad: T, n: nat)
    requires |row| <= n
    ensures row <= Fitted(row, pad, n)
  {
    assert Fitted(row, pad, n)[..|row|] == row;
  }

  /** The mask row of a row with `len` tokens fitted to `n`: 1 at the real positions and
      0 at the padding. */
  function MaskRow(len: nat, n: nat): (r: seq<int>)
    ensures |r| == n
    ensures forall j :: 0 <= j < n ==> (r[j] == 1 <==> j < len) && (r[j] == 0 <==> len <= j)
  {
    seq(n, j requires 0 <= j < n => if j < len then 1 else 0)
  }

  function Sum(s: seq<int>): int {
    if s == [] then 0 else Sum(s[..|s| - 1]) + s[|s| - 1]
  }

  /** A mask row counts the real tokens that are kept. */
  lemma {:induction false} MaskRowSum(len: nat, n: nat)
    ensures Sum(MaskRow(len, n)) == if len < n then len else n
  {
    if n > 0 {
      MaskRowSum(len, n - 1);
      assert MaskRow(len, n)[..n - 1] == MaskRow(len, n - 1);
    }
  }

  /** The mask marks exactly the positions where the fitted row holds its own tokens. */
  lemma MaskMarksTokens<T>(row: seq<T>, pad: T, n: nat, j: nat)
    requires j < n
    ensures MaskRow(|row|, n)[j] == 1 ==> Fitted(row, pad, n)[j] == row[j]
    ensures MaskRow(|row|, n)[j] == 0 ==> Fitted(row, pad, n)[j] == pad
  {
  }

  /** Every row fitted to `n`. */
  function FittedRows<T>(rows: seq<seq<T>>, pad: T, n: nat): (r: seq<seq<T>>)
    ensures |r| == |rows| && forall i :: 0 <= i < |rows| ==> r[i] == Fitted(rows[i], pad, n)
  {
    seq(|rows|, i requires 0 <= i < |rows| => Fitted(rows[i], pad, n))
  }

  /** The `[m, n]` mask. */
  function Mask<T>(rows: seq<seq<T>>, n: nat): (r: seq<seq<int>>)
    ensures |r| == |rows| && forall i :: 0 <= i < |rows| ==> r[i] == MaskRow(|rows[i]|, n)
  {
    seq(|rows|, i requires 0 <= i < |rows| => MaskRow(|rows[i]|, n))
  }

  /** The `while len(sub_tokens) != max_num_tokens: sub_tokens.pop()` loop on row `i`. */
  method PopTo<T>(a: array<seq<T>>, i: nat, n: nat)
    requires i < a.Length && n <= |a[i]|
    modifies a
    ensures a[..] == old(a[..])[i := old(a[i])[..n]]
  {
    ghost var row := a[i];
    while |a[i]| != n
      invariant n <= |a[i]| <= |row| && a[i] == row[..|a[i]|]
      invariant a[..] == old(a[..])[i := a[i]]
      decreases |a[i]|
    {
      a[i] := a[i][..|a[i]| - 1];
    }
  }

  /** One turn of the `batch_pad_` loop: row `i` extended with pad tokens and its mask
      row zeroed after the real tokens, or the row cut back to `n`. */
  method FitRow<T>(a: array<seq<T>>, mask: seq<seq<int>>, i: nat, pad: T, n: nat) returns (mask': seq<seq<int>>)
    requires i < a.Length && i < |mask| && mask[i] == MaskRow(n, n)
    modifies a
    ensures a[..] == old(a[..])[i := Fitted(old(a[i]), pad, n)]
    ensures mask' == mask[i := MaskRow(|old(a[i])|, n)]
  {
    var len := |a[i]|;
    mask' := mask;
    if len < n {
      mask' := mask[i := mask[i][..len] + seq(n - len, _ => 0)];
      assert mask'[i] == MaskRow(len, n);
      a[i] := a[i] + Pads(pad, n - len);
    } else {
      assert MaskRow(len, n) == MaskRow(n, n);
      if len > n {
        PopTo(a, i, n);
      } else {
        assert a[i] == Fitted(a[i], pad, n);
      }
    }
  }

  /** `batch_pad_`: every row fitted in place to the target length, and the mask
      returned; with no target, nothing changes. */
  method BatchPad<T>(a: array<seq<T>>, pad: T, maxNum: Option<int>) returns (mask: Result<seq<seq<int>>>)
    modifies a
    ensures Target(old(a[..]), maxNum).Err? ==> mask == Err(ValueError) && a[..] == old(a[..])
    ensures Target(old(a[..]), maxNum).Ok? ==>
      var n := Target(old(a[..]), maxNum).value;
      mask == Ok(Mask(old(a[..]), n)) && a[..] == FittedRows(old(a[..]), pad, n)
  {
    var t := Target(a[..], maxNum);
    if t.Err? {
      return Err(t.error);
    }
    var n := t.value;
    ghost var rows := a[..];
    var m := seq(a.Length, _ => MaskRow(n, n));
    for i := 0 to a.Length
      invariant |m| == a.Length
      invariant forall k :: 0 <= k < i ==> a[k] == Fitted(rows[k], pad, n) && m[k] == MaskRow(|rows[k]|, n)
      invariant forall k :: i <= k < a.Length ==> a[k] == rows[k] && m[k] == MaskRow(n, n)
    {
      m := FitRow(a, m, i, pad, n);
    }
    assert m == Mask(rows, n);
    assert a[..] == FittedRows(rows, pad, n);
    return Ok(m);
  }

  /** The ids of a row: `vocab[x]` for every token. */
  function IdRow<T>(row: seq<T>, lookup: T -> int): (r: seq<int>)
    ensures |r| == |row| && forall j :: 0 <= j < |row| ==> r[j] == lookup(row[j])
  {
    seq(|row|, j requires 0 <= j < |row| => lookup(row[j]))
  }

  /** The ids of a batch, in the batch's shape. */
  function Ids<T>(rows: seq<seq<T>>, lookup: T -> int): (r: seq<seq<int>>)
    ensures |r| == |rows| && forall i :: 0 <= i < |rows| ==> r[i] == IdRow(rows[i], lookup)
  {
    seq(|rows|, i requires 0 <= i < |rows| => IdRow(rows[i], lookup))
  }

  /** The inner loop: the ids of one row. */
  method LookupRow<T>(row: seq<T>, lookup: T -> int) returns (ids: seq<int>)
    ensures ids == IdRow(row, lookup)
  {
    ids := [];
    for j := 0 to |row|
      invariant |ids| == j && forall k :: 0 <= k < j ==> ids[k] == lookup(row[k])
    {
      ids := ids + [lookup(row[j])];
    }
  }

  /** The outer loop: a row of ids per row of tokens. */
  method LookupRows<T>(rows: seq<seq<T>>, lookup: T -> int) returns (ids: seq<seq<int>>)
    ensures ids == Ids(rows, lookup)
  {
    ids := [];
    for i := 0 to |rows|
      invariant |ids| == i && forall k :: 0 <= k < i ==> ids[k] == Ids(rows, lookup)[k]
    {
      var row := LookupRow(rows[i], lookup);
      ids := ids + [row];
    }
  }

  /** After fitting, the ids form an `[m, n]` grid. */
  lemma IdsAreGrid<T>(rows: seq<seq<T>>, lookup: T -> int, pad: T, n: nat)
    ensures var ids := Ids(FittedRows(rows, pad, n), lookup);
      |ids| == |rows| && forall i :: 0 <= i < |ids| ==> |ids[i]| == n
  {
  }

  /** `batch_pad_lookup_`: the batch fitted in place with the vocabulary's pad token, then
      the ids of the fitted rows and the mask. */
  method BatchPadLookup<T>(a: array<seq<T>>, lookup: T -> int, pad: T, maxNum: Option<int>)
    returns (r: Result<(seq<seq<int>>, seq<seq<int>>)>)
    modifies a
    ensures Target(old(a[..]), maxNum).Err? ==> r == Err(ValueError) && a[..] == old(a[..])
    ensures Target(old(a[..]), maxNum).Ok? ==>
      var n := Target(old(a[..]), maxNum).value;
      a[..] == FittedRows(old(a[..]), pad, n) && r == Ok((Ids(a[..], lookup), Mask(old(a[..]), n)))
  {
    var mask := BatchPad(a, pad, maxNum);
    if mask.Err? {
      return Err(mask.error);
    }
    var ids := LookupRows(a[..], lookup);
    return Ok((ids, mask.value));
  }

  /** The out-of-vocabulary table `oov2randidx_dict`, which the caller owns and may pass
      to several calls so that the same unknown token gets the same index everywhere. */
  class OovTable<T(==)> {
    var index: map<T, nat>

    constructor()
      ensures index == map[]
    {
      index := map[];
    }
  }

  /** The table's indices are 0..k-1: distinct and below its size. */
  predicate Dense<T(==)>(d: map<T, nat>) {
    && (forall x :: x in d ==> d[x] < |d|)
    && (forall x, y :: x in d && y in d && x != y ==> d[x] != d[y])
  }

  /** `if x not in d: d[x] = len(d)`. */
  function Numbered<T(==)>(d: map<T, nat>, x: T): (r: map<T, nat>)
    ensures x in r && r.Keys == d.Keys + {x}
    ensures forall y :: y in d ==> r[y] == d[y]
    ensures x !in d ==> r[x] == |d| && |r| == |d| + 1
    ensures x in d ==> r == d
  {
    if x in d then d else d[x := |d|]
  }

  /** Numbering a token keeps the indices 0..k-1. */
  lemma NumberedDense<T>(d: map<T, nat>, x: T)
    requires Dense(d)
    ensures Dense(Numbered(d, x))
  {
  }

  /** The out-of-vocabulary tokens of a row, in order. */
  function Oovs<T>(row: seq<T>, lookup: T -> int, unkId: int): (r: seq<T>)
    ensures |r| <= |row|
    ensures forall k :: 0 <= k < |r| ==> r[k] in row && lookup(r[k]) == unkId
  {
    if row == [] then []
    else
      var x := row[|row| - 1];
      Oovs(row[..|row| - 1], lookup, unkId) + (if lookup(x) == unkId then [x] else [])
  }

  /** An out-of-vocabulary mask row: 1 exactly where the token's id is the unknown id. */
  function OovMaskRow<T>(row: seq<T>, lookup: T -> int, unkId: int): (r: seq<int>)
    ensures |r| == |row|
    ensures forall j :: 0 <= j < |row| ==> (r[j] == 1 <==> lookup(row[j]) == unkId) && (r[j] == 0 <==> lookup(row[j]) != unkId)
  {
    seq(|row|, j requires 0 <= j < |row| => if lookup(row[j]) == unkId then 1 else 0)
  }

  /** The `[m, n]` out-of-vocabulary mask. */
  function OovMask<T>(rows: seq<seq<T>>, lookup: T -> int, unkId: int): (r: seq<seq<int>>)
    ensures |r| == |rows| && forall i :: 0 <= i < |rows| ==> r[i] == OovMaskRow(rows[i], lookup, unkId)
  {
    seq(|rows|, i requires 0 <= i < |rows| => OovMaskRow(rows[i], lookup, unkId))
  }

  /** Every unknown token of a row is among the row's out-of-vocabulary tokens. */
  lemma {:induction false} OovsHas<T>(row: seq<T>, lookup: T -> int, unkId: int, j: nat)
    requires j < |row| && lookup(row[j]) == unkId
    ensures row[j] in Oovs(row, lookup, unkId)
  {
    if j < |row| - 1 {
      OovsHas(row[..|row| - 1], lookup, unkId, j);
    }
  }

  /** One row's out-of-vocabulary indices and the table after it: each unknown token is
      numbered when first met, and its index is appended. */
  function RowIdxs<T(==)>(row: seq<T>, lookup: T -> int, unkId: int, d: map<T, nat>): (r: (seq<nat>, map<T, nat>))
  {
    if row == [] then ([], d)
    else
      var init := RowIdxs(row[..|row| - 1], lookup, unkId, d);
      var x := row[|row| - 1];
      if lookup(x) != unkId then init
      else
        var d' := Numbered(init.1, x);
        (init.0 + [d'[x]], d')
  }

  /** A row keeps the table's entries. */
  lemma {:induction false} RowIdxsKeeps<T>(row: seq<T>, lookup: T -> int, unkId: int, d: map<T, nat>)
    ensures var r := RowIdxs(row, lookup, unkId, d);
      forall y :: y in d ==> y in r.1 && r.1[y] == d[y]
  {
    if row != [] {
      RowIdxsKeeps(row[..|row| - 1], lookup, unkId, d);
    }
  }

  /** A row adds exactly its unknown tokens to the table. */
  lemma {:induction false} RowIdxsKeys<T(!new)>(row: seq<T>, lookup: T -> int, unkId: int, d: map<T, nat>)
    ensures var r := RowIdxs(row, lookup, unkId, d);
      forall y :: y in r.1 <==> y in d || (y in row && lookup(y) == unkId)
  {
    if row != [] {
      var init := row[..|row| - 1];
      RowIdxsKeys(init, lookup, unkId, d);
      assert row == init + [row[|row| - 1]];
    }
  }

  /** A row keeps the indices 0..k-1. */
  lemma {:induction false} RowIdxsDense<T>(row: seq<T>, lookup: T -> int, unkId: int, d: map<T, nat>)
    requires Dense(d)
    ensures Dense(RowIdxs(row, lookup, unkId, d).1)
  {
    if row != [] {
      var init := row[..|row| - 1];
      RowIdxsDense(init, lookup, unkId, d);
      NumberedDense(RowIdxs(init, lookup, unkId, d).1, row[|row| - 1]);
    }
  }

  /** A row records, for each of its unknown tokens in order, the token's index. */
  lemma {:induction false} RowIdxsOrder<T>(row: seq<T>, lookup: T -> int, unkId: int, d: map<T, nat>)
    ensures var r := RowIdxs(row, lookup, unkId, d);
      var oovs := Oovs(row, lookup, unkId);
      |r.0| == |oovs| && forall k :: 0 <= k < |oovs| ==> oovs[k] in r.1 && r.0[k] == r.1[oovs[k]]
  {
    if row != [] {
      var init := row[..|row| - 1];
      RowIdxsOrder(init, lookup, unkId, d);
      RowIdxsKeeps([row[|row| - 1]], lookup, unkId, RowIdxs(init, lookup, unkId, d).1);
    }
  }

  /** All rows' out-of-vocabulary indices and the final table. */
  function BatchIdxs<T(==)>(rows: seq<seq<T>>, lookup: T -> int, unkId: int, d: map<T, nat>): (r: (seq<seq<nat>>, map<T, nat>))
    ensures |r.0| == |rows|
  {
    if rows == [] then ([], d)
    else
      var init := BatchIdxs(rows[..|rows| - 1], lookup, unkId, d);
      var last := RowIdxs(rows[|rows| - 1], lookup, unkId, init.1);
      (init.0 + [last.0], last.1)
  }

  /** The batch keeps the table's entries. */
  lemma {:induction false} BatchIdxsKeeps<T(!new)>(rows: seq<seq<T>>, lookup: T -> int, unkId: int, d: map<T, nat>)
    ensures var r := BatchIdxs(rows, lookup, unkId, d);
      forall y :: y in d ==> y in r.1 && r.1[y] == d[y]
  {
    if rows != [] {
      var init := rows[..|rows| - 1];
      BatchIdxsKeeps(init, lookup, unkId, d);
      RowIdxsKeeps(rows[|rows| - 1], lookup, unkId, BatchIdxs(init, lookup, unkId, d).1);
    }
  }

  /** The batch adds exactly the unknown tokens of its rows. */
  lemma {:induction false} BatchIdxsKeys<T(!new)>(rows: seq<seq<T>>, lookup: T -> int, unkId: int, d: map<T, nat>)
    ensures var r := BatchIdxs(rows, lookup, unkId, d);
      forall y :: y in r.1 <==> y in d || exists i :: 0 <= i < |rows| && y in rows[i] && lookup(y) == unkId
  {
    if rows != [] {
      var init := rows[..|rows| - 1];
      BatchIdxsKeys(init, lookup, unkId, d);
      RowIdxsKeys(rows[|rows| - 1], lookup, unkId, BatchIdxs(init, lookup, unkId, d).1);
      assert forall i :: 0 <= i < |init| ==> init[i] == rows[i];
    }
  }

  /** The batch keeps the indices 0..k-1. */
  lemma {:induction false} BatchIdxsDense<T(!new)>(rows: seq<seq<T>>, lookup: T -> int, unkId: int, d: map<T, nat>)
    requires Dense(d)
    ensures Dense(BatchIdxs(rows, lookup, unkId, d).1)
  {
    if rows != [] {
      var init := rows[..|rows| - 1];
      BatchIdxsDense(init, lookup, unkId, d);
      RowIdxsDense(rows[|rows| - 1], lookup, unkId, BatchIdxs(init, lookup, unkId, d).1);
    }
  }

  /** Row `i`'s recorded indices are its unknown tokens' indices in the final table, in
      order, since entries never change once made. */
  lemma {:induction false} BatchIdxsRows<T(!new)>(rows: seq<seq<T>>, lookup: T -> int, unkId: int, d: map<T, nat>)
    ensures var r := BatchIdxs(rows, lookup, unkId, d);
      forall i :: 0 <= i < |rows| ==> var oovs := Oovs(rows[i], lookup, unkId);
        |r.0[i]| == |oovs| && forall k :: 0 <= k < |oovs| ==> oovs[k] in r.1 && r.0[i][k] == r.1[oovs[k]]
  {
    if rows != [] {
      var init := rows[..|rows| - 1];
      var b := BatchIdxs(init, lookup, unkId, d);
      BatchIdxsRows(init, lookup, unkId, d);
      RowIdxsOrder(rows[|rows| - 1], lookup, unkId, b.1);
      RowIdxsKeeps(rows[|rows| - 1], lookup, unkId, b.1);
      assert forall i :: 0 <= i < |init| ==> init[i] == rows[i];
    }
  }

  /** All rows of one length, as an array or a tensor needs. */
  predicate Rectangular<T>(rows: seq<seq<T>>) {
    forall i, j :: 0 <= i < |rows| && 0 <= j < |rows| ==> |rows[i]| == |rows[j]|
  }

  /** The out-of-vocabulary indices form an array exactly when every row holds the same
      number of unknown tokens, whatever the table held before. */
  lemma OovIdsGrid<T(!new)>(rows: seq<seq<T>>, lookup: T -> int, unkId: int, d: map<T, nat>)
    ensures Rectangular(BatchIdxs(rows, lookup, unkId, d).0) <==>
      forall i, j :: 0 <= i < |rows| && 0 <= j < |rows| ==>
        |Oovs(rows[i], lookup, unkId)| == |Oovs(rows[j], lookup, unkId)|
  {
    BatchIdxsRows(rows, lookup, unkId, d);
  }

  /** The inner loop of `batch_pad_oov_lookup_` over one row: its ids, its
      out-of-vocabulary mask row and indices, numbering new unknown tokens in the table. */
  method OovRow<T(==)>(row: seq<T>, lookup: T -> int, unkId: int, table: OovTable<T>)
    returns (ids: seq<int>, oovMask: seq<int>, idxs: seq<nat>)
    modifies table
    ensures ids == IdRow(row, lookup) && oovMask == OovMaskRow(row, lookup, unkId)
    ensures (idxs, table.index) == RowIdxs(row, lookup, unkId, old(table.index))
  {
    ids, oovMask, idxs := [], [], [];
    ghost var d := table.index;
    for j := 0 to |row|
      invariant ids == IdRow(row[..j], lookup) && oovMask == OovMaskRow(row[..j], lookup, unkId)
      invariant (idxs, table.index) == RowIdxs(row[..j], lookup, unkId, d)
    {
      assert row[..j + 1][..j] == row[..j];
      var x := row[j];
      var xId := lookup(x);
      ids := ids + [xId];
      if xId != unkId {
        oovMask := oovMask + [0];
      } else {
        oovMask := oovMask + [1];
        if x !in table.index {
          table.index := table.index[x := |table.index|];
        }
        idxs := idxs + [table.index[x]];
      }
      assert ids == IdRow(row[..j + 1], lookup);
      assert oovMask == OovMaskRow(row[..j + 1], lookup, unkId);
    }
    assert row[..|row|] == row;
  }

  /** One turn of the outer loop: the row's results appended. */
  lemma BatchIdxsNext<T>(rows: seq<seq<T>>, lookup: T -> int, unkId: int, d: map<T, nat>, i: nat)
    requires i < |rows|
    ensures var b := BatchIdxs(rows[..i], lookup, unkId, d);
      var r := RowIdxs(rows[i], lookup, unkId, b.1);
      BatchIdxs(rows[..i + 1], lookup, unkId, d) == (b.0 + [r.0], r.1)
  {
    assert rows[..i + 1][..i] == rows[..i];
  }

  /** One turn of the outer loop of `batch_pad_oov_lookup_`: row `i`'s results appended. */
  method OovTurn<T(==)>(rows: seq<seq<T>>, i: nat, lookup: T -> int, unkId: int, t: OovTable<T>, ghost d: map<T, nat>,
                        ids: seq<seq<int>>, oovMask: seq<seq<int>>, oovIdxs: seq<seq<nat>>)
    returns (ids': seq<seq<int>>, oovMask': seq<seq<int>>, oovIdxs': seq<seq<nat>>)
    requires i < |rows|
    requires ids == Ids(rows[..i], lookup) && oovMask == OovMask(rows[..i], lookup, unkId)
    requires (oovIdxs, t.index) == BatchIdxs(rows[..i], lookup, unkId, d)
    modifies t
    ensures ids' == Ids(rows[..i + 1], lookup) && oovMask' == OovMask(rows[..i + 1], lookup, unkId)
    ensures (oovIdxs', t.index) == BatchIdxs(rows[..i + 1], lookup, unkId, d)
  {
    BatchIdxsNext(rows, lookup, unkId, d, i);
    var rowIds, rowMask, rowIdxs := OovRow(rows[i], lookup, unkId, t);
    ids', oovMask', oovIdxs' := ids + [rowIds], oovMask + [rowMask], oovIdxs + [rowIdxs];
    assert ids' == Ids(rows[..i + 1], lookup);
    assert oovMask' == OovMask(rows[..i + 1], lookup, unkId);
  }

  /** The outer loop of `batch_pad_oov_lookup_` over the fitted rows. */
  method OovPass<T(==)>(rows: seq<seq<T>>, lookup: T -> int, unkId: int, t: OovTable<T>)
    returns (ids: seq<seq<int>>, oovMask: seq<seq<int>>, oovIdxs: seq<seq<nat>>)
    modifies t
    ensures ids == Ids(rows, lookup) && oovMask == OovMask(rows, lookup, unkId)
    ensures (oovIdxs, t.index) == BatchIdxs(rows, lookup, unkId, old(t.index))
  {
    ghost var d := t.index;
    ids, oovMask, oovIdxs := [], [], [];
    for i := 0 to |rows|
      invariant ids == Ids(rows[..i], lookup) && oovMask == OovMask(rows[..i], lookup, unkId)
      invariant (oovIdxs, t.index) == BatchIdxs(rows[..i], lookup, unkId, d)
    {
      ids, oovMask, oovIdxs := OovTurn(rows, i, lookup, unkId, t, d, ids, oovMask, oovIdxs);
    }
    assert rows[..|rows|] == rows;
  }

  /** `batch_pad_oov_lookup_`: the batch fitted in place, then the ids, the mask, the
      out-of-vocabulary mask and the out-of-vocabulary indices of the fitted rows, with
      new unknown tokens numbered in the caller's table. Without a table the numbering
      starts from an empty one. Rows holding different numbers of unknown tokens give
      indices NumPy cannot make an array of (ValueError), after the batch and the table
      have already changed. */
  method BatchPadOovLookup<T(==)>(a: array<seq<T>>, lookup: T -> int, pad: T, unkId: int,
                                        table: OovTable?<T>, maxNum: Option<int>)
    returns (r: Result<(seq<seq<int>>, seq<seq<int>>, seq<seq<int>>, seq<seq<nat>>)>)
    modifies a, table
    ensures Target(old(a[..]), maxNum).Err? ==>
      r == Err(ValueError) && a[..] == old(a[..]) && (table != null ==> table.index == old(table.index))
    ensures Target(old(a[..]), maxNum).Ok? ==>
      var n := Target(old(a[..]), maxNum).value;
      var rows := FittedRows(old(a[..]), pad, n);
      var b := BatchIdxs(rows, lookup, unkId, if table == null then map[] else old(table.index));
      && a[..] == rows
      && (table != null ==> table.index == b.1)
      && (Rectangular(b.0) ==> r == Ok((Ids(rows, lookup), Mask(old(a[..]), n), OovMask(rows, lookup, unkId), b.0)))
      && (!Rectangular(b.0) ==> r == Err(ValueError))
  {
    var mask := BatchPad(a, pad, maxNum);
    if mask.Err? {
      return Err(mask.error);
    }
    var t: OovTable<T>;
    if table == null {
      t := new OovTable();
    } else {
      t := table;
    }
    var ids, oovMask, oovIdxs := OovPass(a[..], lookup, unkId, t);
    if !Rectangular(oovIdxs) {
      return Err(ValueError);
    }
    return Ok((ids, mask.value, oovMask, oovIdxs));
  }

  /** The out-of-vocabulary numbering of `batch_pad_oov_lookup_` as written: the table
      defaults to None and is used as a table, so without one the first unknown token
      raises TypeError (`x not in None`). */
  function BatchIdxsAsWritten<T(==)>(rows: seq<seq<T>>, lookup: T -> int, unkId: int, table: Option<map<T, nat>>)
    : (r: Result<(seq<seq<nat>>, map<T, nat>)>)
    ensures table.Some? ==> r == Ok(BatchIdxs(rows, lookup, unkId, table.value))
  {
    match table
    case Some(d) => Ok(BatchIdxs(rows, lookup, unkId, d))
    case None =>
      if exists i :: 0 <= i < |rows| && Oovs(rows[i], lookup, unkId) != [] then Err(TypeError)
      else Ok(BatchIdxs(rows, lookup, unkId, map[]))
  }

  /** Without a table, one unknown token anywhere makes the code as written fail, where
      numbering from an empty table gives the token index 0..k-1 like any other. */
  lemma NoTableAsWrittenFails<T(!new)>(rows: seq<seq<T>>, lookup: T -> int, unkId: int, i: nat, j: nat)
    requires i < |rows| && j < |rows[i]| && lookup(rows[i][j]) == unkId
    ensures BatchIdxsAsWritten(rows, lookup, unkId, None) == Err(TypeError)
    ensures var b := BatchIdxs(rows, lookup, unkId, map[]);
      rows[i][j] in b.1 && b.1[rows[i][j]] < |b.1| && Dense(b.1)
  {
    OovsHas(rows[i], lookup, unkId, j);
    BatchIdxsKeys(rows, lookup, unkId, map[]);
    BatchIdxsDense(rows, lookup, unkId, map[]);
    var empty: map<T, nat> := map[];
    assert Dense(empty);
    assert rows[i][j] in rows[i];
  }
}

=== FILE: qa.dfy ===
/** transformers/qa.py: the question/context/answer transformer. Each sequence document
    is read as (sequence, flag) pairs; "context" sequences fill the next row of a padded
    grid, a "question" or an "answer" sequence is written over the front of a padded
    vector, and every answer yields one example and resets all accumulators. Only word
    and id documents are modelled. */
module Qa {
  import opened Wrappers
  import opened Tokens
  import opened Documents
  import opened SeqDocs
  import opened TransformerInterface

  /** `QueAnsTransformer(q_max_len, cs_max_size, c_max_len, a_max_len)`. */
  datatype QueAnsTransformer = QueAnsTransformer(qMaxLen: int, csMaxSize: int, cMaxLen: int, aMaxLen: int)

  /** One yielded tuple `(q_seq, context_seqs, a_seq, [q_len], [c_index], [a_len], c_lens)`;
      `q_len` is None when no question came since the last reset. */
  datatype QaExample = QaExample(question: seq<Token>, contexts: seq<seq<Token>>, answer: seq<Token>,
                                 qLen: Option<int>, csSize: int, aLen: int, cLens: seq<int>)

  const ContextFlag: Token := Str("context")
  const QuestionFlag: Token := Str("question")
  const AnswerFlag: Token := Str("answer")

  /** `buf` with its first |s| positions taken from s. */
  function Overwritten(buf: seq<Token>, s: seq<Token>): (r: seq<Token>)
    ensures |r| == |buf|
  {
    seq(|buf|, i requires 0 <= i < |buf| => if i < |s| then s[i] else buf[i])
  }

  /** Whether `buf[:len(s)] = s` broadcasts: the slice is min(|s|, |buf|) long, and a
      one-element source fits any slice, even an empty one. */
  predicate Fits(s: seq<Token>, n: int) {
    |s| <= n || |s| == 1
  }

  /** The slice assignment `buf[:len(s)] = s` on a one-dimensional array. */
  function Assign(buf: seq<Token>, s: seq<Token>): (r: Result<seq<Token>>)
    ensures r.Ok? <==> Fits(s, |buf|)
    ensures r.Err? ==> r.error == ValueError
    ensures r.Ok? ==> r.value == Overwritten(buf, s)
  {
    if |s| <= |buf| then Ok(s + buf[|s|..])
    else if |s| == 1 then Ok(buf)
    else Err(ValueError)
  }

  /** `np.full` refuses negative sizes. */
  predicate Sizes(t: QueAnsTransformer) {
    t.qMaxLen >= 0 && t.csMaxSize >= 0 && t.cMaxLen >= 0 && t.aMaxLen >= 0
  }

  /** The accumulators of the loop body: the context grid, the question and answer
      vectors, `q_len`, `c_lens` and `c_index`. */
  datatype Acc = Acc(contexts: seq<seq<Token>>, q: seq<Token>, a: seq<Token>, qLen: Option<int>,
                     cLens: seq<int>, cIndex: int)

  /** `create_contexts_f()`, `create_q_f()`, `create_a_f()` and the counters reset. */
  function Fresh(t: QueAnsTransformer, pad: Token): (acc: Acc)
    requires Sizes(t)
    ensures Shaped(t, acc) && acc.cIndex == 0 && acc.qLen.None?
  {
    Acc(seq(t.csMaxSize, _ => Pads(pad, t.cMaxLen)), Pads(pad, t.qMaxLen), Pads(pad, t.aMaxLen), None, [], 0)
  }

  /** The shapes the arrays were created with, and one length per filled row. */
  predicate Shaped(t: QueAnsTransformer, acc: Acc) {
    && |acc.contexts| == t.csMaxSize && (forall c :: 0 <= c < |acc.contexts| ==> |acc.contexts[c]| == t.cMaxLen)
    && |acc.q| == t.qMaxLen && |acc.a| == t.aMaxLen
    && 0 <= acc.cIndex <= t.csMaxSize && acc.cIndex == |acc.cLens|
  }

  /** The example the answer s yields from the accumulators. */
  function Yielded(acc: Acc, a: seq<Token>, s: seq<Token>): QaExample {
    QaExample(acc.q, acc.contexts, a, acc.qLen, acc.cIndex, |s|, acc.cLens)
  }

  /** One turn of `for seq, flag in q_a_doc`: the accumulators after the pair, and the
      example it yields, if it is an answer. Other flags are ignored. */
  function Feed(t: QueAnsTransformer, pad: Token, acc: Acc, p: SeqFlag): (r: Result<(Acc, Option<QaExample>)>)
    requires Sizes(t) && Shaped(t, acc)
    ensures r.Ok? ==> Shaped(t, r.value.0)
    ensures r.Ok? && r.value.1.Some? ==> r.value.1.value.csSize == |r.value.1.value.cLens|
  {
    var (s, flag) := p;
    if flag == ContextFlag then
      if acc.cIndex >= t.csMaxSize then Err(IndexError)
      else
        match Assign(acc.contexts[acc.cIndex], s)
        case Err(e) => Err(e)
        case Ok(row) =>
          Ok((acc.(contexts := acc.contexts[acc.cIndex := row], cIndex := acc.cIndex + 1, cLens := acc.cLens + [|s|]), None))
    else if flag == QuestionFlag then
      match Assign(acc.q, s)
      case Err(e) => Err(e)
      case Ok(q) => Ok((acc.(q := q, qLen := Some(|s|)), None))
    else if flag == AnswerFlag then
      match Assign(acc.a, s)
      case Err(e) => Err(e)
      case Ok(a) => Ok((Fresh(t, pad), Some(Yielded(acc, a, s))))
    else Ok((acc, None))
  }

  /** The accumulators and the examples after the first pairs of a document. */
  function QaRun(t: QueAnsTransformer, pad: Token, ps: seq<SeqFlag>): (r: Result<(Acc, seq<QaExample>)>)
    requires Sizes(t)
    ensures r.Ok? ==> Shaped(t, r.value.0)
  {
    if ps == [] then Ok((Fresh(t, pad), []))
    else
      match QaRun(t, pad, ps[..|ps| - 1])
      case Err(e) => Err(e)
      case Ok((acc, out)) =>
        match Feed(t, pad, acc, ps[|ps| - 1])
        case Err(e) => Err(e)
        case Ok((acc', ex)) => Ok((acc', out + Emitted(ex)))
  }

  /** The pairs loop of `transform_seq_docs` over one document. */
  method QaPairs(t: QueAnsTransformer, pad: Token, ps: seq<SeqFlag>) returns (r: Result<seq<QaExample>>)
    requires Sizes(t)
    ensures QaRun(t, pad, ps).Err? ==> r == Err(QaRun(t, pad, ps).error)
    ensures QaRun(t, pad, ps).Ok? ==> r == Ok(QaRun(t, pad, ps).value.1)
  {
    var acc := Fresh(t, pad);
    var out: seq<QaExample> := [];
    for i := 0 to |ps|
      invariant QaRun(t, pad, ps[..i]) == Ok((acc, out))
    {
      var step := Feed(t, pad, acc, ps[i]);
      QaRunSnoc(t, pad, ps, i, acc, out);
      if step.Err? {
        QaRunErrStays(t, pad, ps, i + 1);
        return Err(step.error);
      }
      acc := step.value.0;
      out := out + Emitted(step.value.1);
    }
    assert ps[..|ps|] == ps;
    r := Ok(out);
  }

  /** The example a step yields, as a list. */
  function Emitted(ex: Option<QaExample>): seq<QaExample> {
    if ex.Some? then [ex.value] else []
  }

  /** One more pair. */
  lemma QaRunSnoc(t: QueAnsTransformer, pad: Token, ps: seq<SeqFlag>, i: nat, acc: Acc, out: seq<QaExample>)
    requires Sizes(t) && i < |ps| && QaRun(t, pad, ps[..i]) == Ok((acc, out))
    ensures Feed(t, pad, acc, ps[i]).Err? ==> QaRun(t, pad, ps[..i + 1]) == Err(Feed(t, pad, acc, ps[i]).error)
    ensures Feed(t, pad, acc, ps[i]).Ok? ==>
      QaRun(t, pad, ps[..i + 1]) == Ok((Feed(t, pad, acc, ps[i]).value.0, out + Emitted(Feed(t, pad, acc, ps[i]).value.1)))
  {
    assert ps[..i + 1][..i] == ps[..i];
  }

  /** A failed prefix fails the whole document with the same error. */
  lemma {:induction false} QaRunErrStays(t: QueAnsTransformer, pad: Token, ps: seq<SeqFlag>, n: nat)
    requires Sizes(t) && n <= |ps| && QaRun(t, pad, ps[..n]).Err?
    ensures QaRun(t, pad, ps) == QaRun(t, pad, ps[..n])
    decreases |ps| - n
  {
    if n < |ps| {
      assert ps[..n + 1][..n] == ps[..n];
      QaRunErrStays(t, pad, ps, n + 1);
    } else {
      assert ps[..n] == ps;
    }
  }

  // A reference description of the accumulators, from the pairs since the last answer.

  /** The sequences flagged "context", in order. */
  function ContextSeqs(ps: seq<SeqFlag>): seq<seq<Token>> {
    if ps == [] then []
    else ContextSeqs(ps[..|ps| - 1]) + if ps[|ps| - 1].1 == ContextFlag then [ps[|ps| - 1].0] else []
  }

  /** The sequences flagged "question", in order. */
  function QuestionSeqs(ps: seq<SeqFlag>): seq<seq<Token>> {
    if ps == [] then []
    else QuestionSeqs(ps[..|ps| - 1]) + if ps[|ps| - 1].1 == QuestionFlag then [ps[|ps| - 1].0] else []
  }

  /** The number of answers. */
  function AnswerCount(ps: seq<SeqFlag>): nat {
    if ps == [] then 0
    else AnswerCount(ps[..|ps| - 1]) + if ps[|ps| - 1].1 == AnswerFlag then 1 else 0
  }

  /** Where the pairs after the last answer start (0 when there is none). */
  function LastReset(ps: seq<SeqFlag>): (k: nat)
    ensures k <= |ps|
  {
    if ps == [] then 0
    else if ps[|ps| - 1].1 == AnswerFlag then |ps|
    else LastReset(ps[..|ps| - 1])
  }

  /** The grid after the contexts ctxs: row c holds context c over padding, the rows
      after them only padding. */
  function Grid(t: QueAnsTransformer, pad: Token, ctxs: seq<seq<Token>>): (g: seq<seq<Token>>)
    requires t.csMaxSize >= 0
    ensures |g| == t.csMaxSize
  {
    seq(t.csMaxSize, c requires 0 <= c < t.csMaxSize =>
      if c < |ctxs| then Overwritten(Pads(pad, t.cMaxLen), ctxs[c]) else Pads(pad, t.cMaxLen))
  }

  /** A vector written over by each of qs in turn, starting from padding. */
  function Written(buf: seq<Token>, qs: seq<seq<Token>>): (r: seq<Token>)
    ensures |r| == |buf|
  {
    if qs == [] then buf else Overwritten(Written(buf, qs[..|qs| - 1]), qs[|qs| - 1])
  }

  /** The length of each sequence. */
  function Lengths(ss: seq<seq<Token>>): (r: seq<int>)
    ensures |r| == |ss| && forall i :: 0 <= i < |ss| ==> r[i] == |ss[i]|
  {
    seq(|ss|, i requires 0 <= i < |ss| => |ss[i]|)
  }

  /** The accumulators after a stretch of pairs without an answer, built directly. */
  function Gathered(t: QueAnsTransformer, pad: Token, seg: seq<SeqFlag>): (acc: Acc)
    requires Sizes(t)
    ensures |ContextSeqs(seg)| <= t.csMaxSize ==> Shaped(t, acc)
  {
    var ctxs := ContextSeqs(seg);
    var qs := QuestionSeqs(seg);
    Acc(Grid(t, pad, ctxs), Written(Pads(pad, t.qMaxLen), qs), Pads(pad, t.aMaxLen),
        if qs == [] then None else Some(|qs[|qs| - 1]|), Lengths(ctxs), |ctxs|)
  }

  /** The example answer s yields after the stretch seg. */
  function Build(t: QueAnsTransformer, pad: Token, seg: seq<SeqFlag>, s: seq<Token>): QaExample
    requires Sizes(t)
  {
    Yielded(Gathered(t, pad, seg), Overwritten(Pads(pad, t.aMaxLen), s), s)
  }

  /** Whether pair p, after the stretch seg, makes a slice assignment fail: a context
      beyond `cs_max_size`, or a sequence longer than its vector. */
  predicate Breaks(t: QueAnsTransformer, seg: seq<SeqFlag>, p: SeqFlag) {
    if p.1 == ContextFlag then |ContextSeqs(seg)| >= t.csMaxSize || !Fits(p.0, t.cMaxLen)
    else if p.1 == QuestionFlag then !Fits(p.0, t.qMaxLen)
    else if p.1 == AnswerFlag then !Fits(p.0, t.aMaxLen)
    else false
  }

  lemma GatheredEmpty(t: QueAnsTransformer, pad: Token)
    requires Sizes(t)
    ensures Gathered(t, pad, []) == Fresh(t, pad)
  {
    assert Grid(t, pad, []) == seq(t.csMaxSize, _ => Pads(pad, t.cMaxLen));
    assert Lengths([]) == [];
  }

  /** One more pair that is not an answer: feeding it to the gathered accumulators
      gathers it, or fails exactly when it breaks an assignment. */
  lemma GatheredSnoc(t: QueAnsTransformer, pad: Token, seg: seq<SeqFlag>, p: SeqFlag)
    requires Sizes(t) && p.1 != AnswerFlag && |ContextSeqs(seg)| <= t.csMaxSize
    ensures Feed(t, pad, Gathered(t, pad, seg), p).Ok? <==> !Breaks(t, seg, p)
    ensures Feed(t, pad, Gathered(t, pad, seg), p).Ok? ==>
      Feed(t, pad, Gathered(t, pad, seg), p).value == (Gathered(t, pad, seg + [p]), None)
  {
    if p.1 == ContextFlag {
      GatheredSnocContext(t, pad, seg, p);
    } else if p.1 == QuestionFlag {
      GatheredSnocQuestion(t, pad, seg, p);
    } else {
      var seg' := seg + [p];
      assert seg'[..|seg'| - 1] == seg;
      assert ContextSeqs(seg') == ContextSeqs(seg) && QuestionSeqs(seg') == QuestionSeqs(seg);
    }
  }

  /** GatheredSnoc for a context. */
  lemma GatheredSnocContext(t: QueAnsTransformer, pad: Token, seg: seq<SeqFlag>, p: SeqFlag)
    requires Sizes(t) && p.1 == ContextFlag && |ContextSeqs(seg)| <= t.csMaxSize
    ensures Feed(t, pad, Gathered(t, pad, seg), p).Ok? <==> !Breaks(t, seg, p)
    ensures Feed(t, pad, Gathered(t, pad, seg), p).Ok? ==>
      Feed(t, pad, Gathered(t, pad, seg), p).value == (Gathered(t, pad, seg + [p]), None)
  {
    var seg' := seg + [p];
    assert seg'[..|seg'| - 1] == seg;
    var ctxs := ContextSeqs(seg);
    assert ContextSeqs(seg') == ctxs + [p.0] && QuestionSeqs(seg') == QuestionSeqs(seg);
    if |ctxs| < t.csMaxSize && Fits(p.0, t.cMaxLen) {
      GridSnoc(t, pad, ctxs, p.0);
      assert Lengths(ctxs + [p.0]) == Lengths(ctxs) + [|p.0|];
    }
  }

  /** GatheredSnoc for a question. */
  lemma GatheredSnocQuestion(t: QueAnsTransformer, pad: Token, seg: seq<SeqFlag>, p: SeqFlag)
    requires Sizes(t) && p.1 == QuestionFlag && |ContextSeqs(seg)| <= t.csMaxSize
    ensures Feed(t, pad, Gathered(t, pad, seg), p).Ok? <==> !Breaks(t, seg, p)
    ensures Feed(t, pad, Gathered(t, pad, seg), p).Ok? ==>
      Feed(t, pad, Gathered(t, pad, seg), p).value == (Gathered(t, pad, seg + [p]), None)
  {
    var seg' := seg + [p];
    assert seg'[..|seg'| - 1] == seg;
    var qs := QuestionSeqs(seg);
    assert ContextSeqs(seg') == ContextSeqs(seg) && QuestionSeqs(seg') == qs + [p.0];
    assert (qs + [p.0])[..|qs|] == qs;
  }

  /** Filling the next row of the grid. */
  lemma GridSnoc(t: QueAnsTransformer, pad: Token, ctxs: seq<seq<Token>>, s: seq<Token>)
    requires Sizes(t) && |ctxs| < t.csMaxSize
    ensures Grid(t, pad, ctxs)[|ctxs|] == Pads(pad, t.cMaxLen)
    ensures Grid(t, pad, ctxs + [s]) == Grid(t, pad, ctxs)[|ctxs| := Overwritten(Pads(pad, t.cMaxLen), s)]
  {
    var l := Grid(t, pad, ctxs + [s]);
    var r := Grid(t, pad, ctxs)[|ctxs| := Overwritten(Pads(pad, t.cMaxLen), s)];
    forall c | 0 <= c < t.csMaxSize
      ensures l[c] == r[c]
    {
      if c < |ctxs| {
        assert (ctxs + [s])[c] == ctxs[c];
      }
    }
  }

  /** Feeding one pair to the accumulators gathered from seg: it fails exactly when it
      breaks an assignment; an answer yields the example built from seg and starts a
      fresh stretch, any other pair extends seg. */
  lemma FeedGathered(t: QueAnsTransformer, pad: Token, seg: seq<SeqFlag>, p: SeqFlag)
    requires Sizes(t) && |ContextSeqs(seg)| <= t.csMaxSize
    ensures Feed(t, pad, Gathered(t, pad, seg), p).Ok? <==> !Breaks(t, seg, p)
    ensures Feed(t, pad, Gathered(t, pad, seg), p).Ok? && p.1 == AnswerFlag ==>
      Feed(t, pad, Gathered(t, pad, seg), p).value == (Gathered(t, pad, []), Some(Build(t, pad, seg, p.0)))
    ensures Feed(t, pad, Gathered(t, pad, seg), p).Ok? && p.1 != AnswerFlag ==>
      Feed(t, pad, Gathered(t, pad, seg), p).value == (Gathered(t, pad, seg + [p]), None)
  {
    if p.1 == AnswerFlag {
      GatheredEmpty(t, pad);
    } else {
      GatheredSnoc(t, pad, seg, p);
    }
  }

  /** No pair of ps breaks an assignment. */
  predicate Clean(t: QueAnsTransformer, ps: seq<SeqFlag>) {
    forall i :: 0 <= i < |ps| ==> !Breaks(t, ps[LastReset(ps[..i])..i], ps[i])
  }

  lemma CleanSnoc(t: QueAnsTransformer, ps: seq<SeqFlag>, p: SeqFlag)
    ensures Clean(t, ps + [p]) <==> Clean(t, ps) && !Breaks(t, ps[LastReset(ps)..], p)
  {
    var ps' := ps + [p];
    assert ps'[..|ps|] == ps;
    assert forall i :: 0 <= i < |ps| ==> ps'[..i] == ps[..i] && ps'[i] == ps[i] && ps'[LastReset(ps[..i])..i] == ps[LastReset(ps[..i])..i];
  }

  /** The accumulators at any point are those gathered since the last answer, and the
      document fails exactly when some pair breaks an assignment. */
  lemma {:induction false} QaRunState(t: QueAnsTransformer, pad: Token, ps: seq<SeqFlag>)
    requires Sizes(t)
    ensures QaRun(t, pad, ps).Ok? <==> Clean(t, ps)
    ensures QaRun(t, pad, ps).Ok? ==> QaRun(t, pad, ps).value.0 == Gathered(t, pad, ps[LastReset(ps)..])
  {
    if ps == [] {
      GatheredEmpty(t, pad);
    } else {
      var init := ps[..|ps| - 1];
      var p := ps[|ps| - 1];
      assert ps == init + [p];
      QaRunState(t, pad, init);
      CleanSnoc(t, init, p);
      if QaRun(t, pad, init).Ok? {
        QaRunStateStep(t, pad, init, p);
      }
    }
  }

  lemma QaRunStateStep(t: QueAnsTransformer, pad: Token, init: seq<SeqFlag>, p: SeqFlag)
    requires Sizes(t) && QaRun(t, pad, init).Ok?
    requires QaRun(t, pad, init).value.0 == Gathered(t, pad, init[LastReset(init)..])
    ensures QaRun(t, pad, init + [p]).Ok? <==> !Breaks(t, init[LastReset(init)..], p)
    ensures QaRun(t, pad, init + [p]).Ok? ==>
      QaRun(t, pad, init + [p]).value.0 == Gathered(t, pad, (init + [p])[LastReset(init + [p])..])
  {
    var ps := init + [p];
    assert ps[..|ps| - 1] == init;
    var seg := init[LastReset(init)..];
    FeedGathered(t, pad, seg, p);
    if p.1 != AnswerFlag {
      assert ps[LastReset(ps)..] == seg + [p];
    }
  }

  /** out holds one example per answer of ps, in order, each built from the pairs since
      the answer before it. */
  predicate ExamplesMatch(t: QueAnsTransformer, pad: Token, ps: seq<SeqFlag>, out: seq<QaExample>)
    requires Sizes(t)
  {
    && |out| == AnswerCount(ps)
    && forall i :: 0 <= i < |ps| && ps[i].1 == AnswerFlag ==>
        AnswerCount(ps[..i]) < |out| && out[AnswerCount(ps[..i])] == Build(t, pad, ps[LastReset(ps[..i])..i], ps[i].0)
  }

  lemma ExamplesMatchSnoc(t: QueAnsTransformer, pad: Token, ps: seq<SeqFlag>, p: SeqFlag, out: seq<QaExample>)
    requires Sizes(t) && ExamplesMatch(t, pad, ps, out)
    ensures ExamplesMatch(t, pad, ps + [p], out + if p.1 == AnswerFlag then [Build(t, pad, ps[LastReset(ps)..], p.0)] else [])
  {
    var ps' := ps + [p];
    var out': seq<QaExample> := out + (if p.1 == AnswerFlag then [Build(t, pad, ps[LastReset(ps)..], p.0)] else []);
    assert ps'[..|ps|] == ps;
    assert AnswerCount(ps') == |out'|;
    forall i | 0 <= i < |ps'| && ps'[i].1 == AnswerFlag
      ensures AnswerCount(ps'[..i]) < |out'| && out'[AnswerCount(ps'[..i])] == Build(t, pad, ps'[LastReset(ps'[..i])..i], ps'[i].0)
    {
      if i < |ps| {
        assert ps'[..i] == ps[..i] && ps'[i] == ps[i];
        assert ps'[LastReset(ps[..i])..i] == ps[LastReset(ps[..i])..i];
        assert out'[AnswerCount(ps[..i])] == out[AnswerCount(ps[..i])];
      } else {
        assert ps'[LastReset(ps)..i] == ps[LastReset(ps)..];
      }
    }
  }

  /** Exactly one example per answer, in order: the one built from the pairs since
      the answer before it. */
  lemma {:induction false} QaRunExamples(t: QueAnsTransformer, pad: Token, ps: seq<SeqFlag>)
    requires Sizes(t) && QaRun(t, pad, ps).Ok?
    ensures ExamplesMatch(t, pad, ps, QaRun(t, pad, ps).value.1)
  {
    if ps != [] {
      var init := ps[..|ps| - 1];
      var p := ps[|ps| - 1];
      assert ps == init + [p];
      QaRunExamples(t, pad, init);
      QaRunState(t, pad, init);
      FeedGathered(t, pad, init[LastReset(init)..], p);
      ExamplesMatchSnoc(t, pad, init, p, QaRun(t, pad, init).value.1);
    }
  }

  // Documents.

  /** What iterating each sequence document gives: its pairs, or the error raised. */
  function Iters(sds: seq<SeqDocument>): (its: seq<Result<seq<SeqFlag>>>)
    reads set sd | sd in sds, set sd | sd in sds :: sd.doc
    ensures |its| == |sds| && forall i :: 0 <= i < |sds| ==> its[i] == sds[i].Iter()
  {
    if sds == [] then [] else Iters(sds[..|sds| - 1]) + [sds[|sds| - 1].Iter()]
  }

  /** The examples of one document, given what iterating it gives. */
  function QaDoc(t: QueAnsTransformer, pad: Token, it: Result<seq<SeqFlag>>): Result<seq<QaExample>>
    requires Sizes(t)
  {
    match it
    case Err(e) => Err(e)
    case Ok(ps) =>
      match QaRun(t, pad, ps)
      case Err(e) => Err(e)
      case Ok((_, out)) => Ok(out)
  }

  /** The examples of the first n documents, each starting from fresh accumulators; the
      first error stops everything. */
  function QaDocs(t: QueAnsTransformer, pad: Token, its: seq<Result<seq<SeqFlag>>>, n: nat): Result<seq<QaExample>>
    requires n <= |its| && Sizes(t)
  {
    if n == 0 then Ok([])
    else
      match QaDocs(t, pad, its, n - 1)
      case Err(e) => Err(e)
      case Ok(prev) =>
        match QaDoc(t, pad, its[n - 1])
        case Err(e) => Err(e)
        case Ok(xs) => Ok(prev + xs)
  }

  /** The documents succeed together: the result is an error exactly when some document
      gives one. */
  lemma {:induction false} QaDocsOk(t: QueAnsTransformer, pad: Token, its: seq<Result<seq<SeqFlag>>>, n: nat)
    requires n <= |its| && Sizes(t)
    ensures QaDocs(t, pad, its, n).Ok? <==> forall i :: 0 <= i < n ==> QaDoc(t, pad, its[i]).Ok?
  {
    if n > 0 {
      QaDocsOk(t, pad, its, n - 1);
    }
  }

  /** The examples of fewer documents are a prefix of those of more. */
  lemma {:induction false} QaDocsPrefix(t: QueAnsTransformer, pad: Token, its: seq<Result<seq<SeqFlag>>>, n: nat, m: nat)
    requires n <= m <= |its| && Sizes(t) && QaDocs(t, pad, its, m).Ok?
    ensures QaDocs(t, pad, its, n).Ok? && QaDocs(t, pad, its, n).value <= QaDocs(t, pad, its, m).value
    decreases m - n
  {
    if n < m {
      QaDocsPrefix(t, pad, its, n, m - 1);
    }
  }

  lemma QaDocsStep(t: QueAnsTransformer, pad: Token, its: seq<Result<seq<SeqFlag>>>, i: nat, out: seq<QaExample>,
                   xs: Result<seq<QaExample>>)
    requires i < |its| && Sizes(t)
    requires QaDocs(t, pad, its, i) == Ok(out) && xs == QaDoc(t, pad, its[i])
    ensures QaDocs(t, pad, its, i + 1) == if xs.Err? then Err(xs.error) else Ok(out + xs.value)
  {
  }

  lemma {:induction false} QaDocsErrStays(t: QueAnsTransformer, pad: Token, its: seq<Result<seq<SeqFlag>>>, n: nat, m: nat)
    requires n <= m <= |its| && Sizes(t) && QaDocs(t, pad, its, n).Err?
    ensures QaDocs(t, pad, its, m) == QaDocs(t, pad, its, n)
    decreases m - n
  {
    if n < m {
      QaDocsErrStays(t, pad, its, n, m - 1);
    }
  }

  /** The pad of the grids: PAD for word documents, PAD_ID for id documents. Embedding
      documents are not modelled. */
  function QaPad(tokenType: string, vocab: Vocab): (r: Result<Token>)
    ensures r.Ok? <==> tokenType == "word_type" || tokenType == "id_type"
    ensures r.Ok? ==> r.value == if tokenType == "id_type" then vocab.padId else vocab.pad
  {
    if tokenType == "id_type" then Ok(vocab.padId)
    else if tokenType == "word_type" then Ok(vocab.pad)
    else Err(NotImplementedError)
  }

  /** `transform_seq_docs(qa_seq_doc, *qa_seq_docs)`: one type for all documents, the
      pad of that type, the arrays created at the first document, then the documents
      one after another. */
  method TransformSeqDocs(t: QueAnsTransformer, sds: seq<SeqDocument>, vocab: Vocab) returns (r: Result<seq<QaExample>>)
    requires |sds| >= 1
    ensures AssertDocsTokenType(sds[0].doc.tokenType, DocsOf(sds)[1..]).Fail? ==> r == Err(AssertionError)
    ensures AssertDocsTokenType(sds[0].doc.tokenType, DocsOf(sds)[1..]).Pass? && QaPad(sds[0].doc.tokenType, vocab).Ok? ==>
      (if !Sizes(t) then r == Err(ValueError) else r == QaDocs(t, QaPad(sds[0].doc.tokenType, vocab).value, Iters(sds), |sds|))
  {
    var tokenType := sds[0].doc.tokenType;
    if AssertDocsTokenType(tokenType, DocsOf(sds)[1..]).Fail? {
      return Err(AssertionError);
    }
    var pad := QaPad(tokenType, vocab);
    if pad.Err? {
      return Err(pad.error);
    }
    if !Sizes(t) {
      return Err(ValueError);
    }
    r := QaDocsLoop(t, pad.value, sds, Iters(sds));
  }

  /** The `for q_a_doc in qa_seq_docs` loop. */
  method QaDocsLoop(t: QueAnsTransformer, pad: Token, sds: seq<SeqDocument>, ghost its: seq<Result<seq<SeqFlag>>>)
    returns (r: Result<seq<QaExample>>)
    requires Sizes(t) && |its| == |sds|
    requires forall i {:trigger sds[i].Iter()} :: 0 <= i < |sds| ==> its[i] == sds[i].Iter()
    ensures r == QaDocs(t, pad, its, |sds|)
  {
    var out: seq<QaExample> := [];
    for i := 0 to |sds|
      invariant QaDocs(t, pad, its, i) == Ok(out)
    {
      var next := QaDocRound(t, pad, sds, its, i, out);
      if next.Err? {
        QaDocsErrStays(t, pad, its, i + 1, |sds|);
        return next;
      }
      out := next.value;
    }
    r := Ok(out);
  }

  /** The body of the `for q_a_doc in qa_seq_docs` loop: the examples so far followed by
      those of the next document. */
  method QaDocRound(t: QueAnsTransformer, pad: Token, sds: seq<SeqDocument>, ghost its: seq<Result<seq<SeqFlag>>>,
                    i: nat, out: seq<QaExample>) returns (r: Result<seq<QaExample>>)
    requires Sizes(t) && |its| == |sds| && i < |sds|
    requires its[i] == sds[i].Iter()
    requires QaDocs(t, pad, its, i) == Ok(out)
    ensures r == QaDocs(t, pad, its, i + 1)
  {
    var xs := QaDocStep(t, pad, sds[i]);
    QaDocsStep(t, pad, its, i, out, xs);
    if xs.Err? {
      return Err(xs.error);
    }
    r := Ok(out + xs.value);
  }

  /** One document: its pairs, then the pairs loop. */
  method QaDocStep(t: QueAnsTransformer, pad: Token, sd: SeqDocument) returns (r: Result<seq<QaExample>>)
    requires Sizes(t)
    ensures r == QaDoc(t, pad, sd.Iter())
  {
    var ps := sd.Pairs();
    if ps.Err? {
      return Err(ps.error);
    }
    r := QaPairs(t, pad, ps.value);
  }

  /** The fields of an example, in the order `get_lists_stats` describes them. */
  const FieldNames: seq<string> := ["question", "contexts", "answer", "q_len", "cs_size", "a_len", "c_lens"]

  /** `get_lists_stats(doc, *docs)`: question, contexts (a list of context rows), answer,
      and the lengths. For embedding documents a context row is itself a list of
      embeddings of `embed_size` values. A "list_type" document fails the constructor's
      assertion at the context node. */
  function GetListsStats(t: QueAnsTransformer, docs: seq<Document>, embedSize: int): (r: Result<seq<ListStat>>)
    requires |docs| >= 1
    reads set d | d in docs
    ensures r.Ok? <==> (docs[0].tokenType != "list_type" && forall i :: 1 <= i < |docs| ==> docs[i].tokenType == docs[0].tokenType)
    ensures r.Err? ==> r.error == AssertionError
    ensures r.Ok? ==> |r.value| == |FieldNames| && forall i :: 0 <= i < |FieldNames| ==>
      (r.value[i].name == FieldNames[i] && WellFormed(r.value[i]) && r.value[i].isSeq == (i < 3 || i == 6)
       && r.value[i].listLen == [t.qMaxLen, t.csMaxSize, t.aMaxLen, 1, 1, 1, t.csMaxSize][i]
       && r.value[i].tokenType == [docs[0].tokenType, "list_type", docs[0].tokenType,
                                   "value_int_type", "value_int_type", "value_int_type", "value_int_type"][i])
    ensures r.Ok? ==> (r.value[1].sub.Some? && r.value[1].sub.value.name == "context" && r.value[1].sub.value.listLen == t.cMaxLen
      && (r.value[1].sub.value.tokenType == "list_type" <==> docs[0].tokenType == "embed_type"))
  {
    var tokenType := docs[0].tokenType;
    match AssertDocsTokenType(tokenType, docs[1..])
    case Fail(e) => Err(e)
    case Pass =>
      assert forall i :: 1 <= i < |docs| ==> docs[i] == docs[1..][i - 1];
      var context :=
        if tokenType == "embed_type" then
          NewListStat("context", "list_type", t.cMaxLen, true, Some(ListStat("embed", "value_float_type", embedSize, false, None)))
        else NewListStat("context", tokenType, t.cMaxLen, true, None);
      if context.Err? then Err(context.error)
      else
        Ok([ListStat("question", tokenType, t.qMaxLen, true, None),
            ListStat("contexts", "list_type", t.csMaxSize, true, Some(context.value)),
            ListStat("answer", tokenType, t.aMaxLen, true, None),
            ListStat("q_len", "value_int_type", 1, false, None),
            ListStat("cs_size", "value_int_type", 1, false, None),
            ListStat("a_len", "value_int_type", 1, false, None),
            ListStat("c_lens", "value_int_type", t.csMaxSize, true, None)])
  }
}

=== FILE: sca2word.dfy ===
/** transformers/embeddings.py, second half: the scalar-to-word transformer. It looks
    for windows (u, v, w) of a word stream whose center v is a number and whose w words
    on each side are known non-numeric words, and pairs every such window with the next
    few found after it. */
module Sca2word {
  import opened Wrappers
  import opened Tokens
  import opened ContextWindow
  import opened Documents
  import opened Iterators
  import opened TransformerInterface

  /** A window: w words, the center, w words. */
  type Uvw = (seq<Token>, Token, seq<Token>)

  /** `is_num` of a word; a non-string token is not a number. */
  predicate NumToken(t: Token) {
    t.Str? && IsNum(t.s)
  }

  /** A context word worth training on: known to the vocabulary and not a number. */
  predicate Known(t: Token, vocab: Vocab) {
    !NumToken(t) && vocab.checkWordExist(t)
  }

  /** The `for u_, w_ in zip(u, w)` loop of `is_u_v_w`. */
  predicate ContextOk(u: seq<Token>, w: seq<Token>, vocab: Vocab) {
    u == [] || w == [] || (Known(u[0], vocab) && Known(w[0], vocab) && ContextOk(u[1..], w[1..], vocab))
  }

  /** `is_u_v_w`: the center is a number and the zipped side words are known words. */
  predicate IsUvw(x: Uvw, vocab: Vocab) {
    NumToken(x.1) && ContextOk(x.0, x.2, vocab)
  }

  lemma {:induction false} ContextOkMeaning(u: seq<Token>, w: seq<Token>, vocab: Vocab)
    ensures ContextOk(u, w, vocab) <==> forall i :: 0 <= i < |u| && i < |w| ==> Known(u[i], vocab) && Known(w[i], vocab)
  {
    if u != [] && w != [] {
      ContextOkMeaning(u[1..], w[1..], vocab);
      assert forall i :: 1 <= i < |u| && i < |w| ==> u[i] == u[1..][i - 1] && w[i] == w[1..][i - 1];
    }
  }

  /** A window is an example exactly when its center is a number and the left and right
      side words at each common index are known words. */
  lemma IsUvwMeaning(x: Uvw, vocab: Vocab)
    ensures IsUvw(x, vocab) <==>
      (NumToken(x.1) && forall i :: 0 <= i < |x.0| && i < |x.2| ==> Known(x.0[i], vocab) && Known(x.2[i], vocab))
  {
    ContextOkMeaning(x.0, x.2, vocab);
  }

  /** The window of the stream starting at position p. */
  function Win(s: seq<Token>, w: nat, p: nat): (x: Uvw)
    requires p + 2 * w + 1 <= |s|
    ensures |x.0| == w && |x.2| == w
  {
    (s[p..p + w], s[p + w], s[p + w + 1..p + 2 * w + 1])
  }

  /** `is_u_v_w` with the vocabulary it consults. */
  function Example(vocab: Vocab): Uvw -> bool {
    x => IsUvw(x, vocab)
  }

  /** The first position from p on whose window is a (u, v, w) example. */
  function FirstFrom(s: seq<Token>, w: nat, ok: Uvw -> bool, p: nat): (r: Option<nat>)
    ensures r.Some? ==> p <= r.value && r.value + 2 * w + 1 <= |s|
    decreases |s| - p
  {
    if p + 2 * w + 1 > |s| then None
    else if ok(Win(s, w, p)) then Some(p)
    else FirstFrom(s, w, ok, p + 1)
  }

  lemma {:induction false} FirstFromSpec(s: seq<Token>, w: nat, ok: Uvw -> bool, p: nat)
    ensures var r := FirstFrom(s, w, ok, p);
      && (r.Some? ==> p <= r.value && r.value + 2 * w + 1 <= |s| && ok(Win(s, w, r.value)))
      && (r.Some? ==> forall q: nat :: p <= q < r.value ==> !ok(Win(s, w, q)))
      && (r.None? ==> forall q: nat :: p <= q && q + 2 * w + 1 <= |s| ==> !ok(Win(s, w, q)))
    decreases |s| - p
  {
    if p + 2 * w + 1 <= |s| && !ok(Win(s, w, p)) {
      FirstFromSpec(s, w, ok, p + 1);
    }
  }

  function NonNeg(n: int): nat {
    if n < 0 then 0 else n
  }

  /** `find_next_u_v_w` on a stream: the window found and what is left of the stream.
      Without 2w + 1 tokens nothing is found; with w <= 0 a first window that is not an
      example makes the slide pop an empty u. */
  function FindNext(s: seq<Token>, windowSize: int, ok: Uvw -> bool): (r: Result<(Option<Uvw>, seq<Token>)>)
    ensures r.Ok? && r.value.0.None? ==> r.value.1 == []
    ensures r.Ok? && r.value.0.Some? ==> |r.value.1| < |s|
  {
    var w := NonNeg(windowSize);
    if |s| < 2 * w + 1 then Ok((None, []))
    else if w == 0 && !ok(Win(s, 0, 0)) then Err(IndexError)
    else
      match FirstFrom(s, w, ok, 0)
      case Some(q) => Ok((Some(Win(s, w, q)), s[q + 2 * w + 1..]))
      case None => Ok((None, []))
  }

  /** What `find_next_u_v_w` returns is the first window of the stream that is an
      example; it returns None only when no window is one. */
  lemma FindNextIsFirst(s: seq<Token>, windowSize: int, ok: Uvw -> bool)
    ensures var r := FindNext(s, windowSize, ok); var w := NonNeg(windowSize);
      && (r.Ok? && r.value.0.Some? ==>
            exists q: nat :: (q + 2 * w + 1 <= |s| && r.value.0.value == Win(s, w, q)
              && ok(Win(s, w, q)) && forall q': nat :: q' < q ==> !ok(Win(s, w, q'))))
      && (r.Ok? && r.value.0.None? ==> forall q: nat :: q + 2 * w + 1 <= |s| ==> !ok(Win(s, w, q)))
      && (r.Err? ==> r.error == IndexError && w == 0 && |s| >= 1 && !ok(Win(s, 0, 0)))
  {
    FirstFromSpec(s, NonNeg(windowSize), ok, 0);
  }

  /** Sliding the window by one token. */
  lemma WinShift(s: seq<Token>, w: nat, p: nat)
    requires w >= 1 && p + 2 * w + 2 <= |s|
    ensures var x := Win(s, w, p);
      Win(s, w, p + 1) == (x.0[1..] + [x.1], x.2[0], x.2[1..] + [s[p + 2 * w + 1]])
  {
    var x := Win(s, w, p);
    assert s[p + 1..p + 1 + w] == x.0[1..] + [x.1];
    assert s[p + w + 2..p + 2 * w + 2] == x.2[1..] + [s[p + 2 * w + 1]];
  }

  /** Reads up to n tokens into a list; None when the stream runs out first. */
  method TakeN(src: TokenStream<Token>, n: nat) returns (r: Option<seq<Token>>)
    modifies src
    ensures |old(src.rest)| < n ==> r.None? && src.rest == []
    ensures |old(src.rest)| >= n ==> r == Some(old(src.rest)[..n]) && src.rest == old(src.rest)[n..]
  {
    var xs: seq<Token> := [];
    for i := 0 to n
      invariant i <= |old(src.rest)| && xs == old(src.rest)[..i] && src.rest == old(src.rest)[i..]
    {
      var t := src.Next();
      if t.None? {
        return None;
      }
      xs := xs + [t.value];
    }
    r := Some(xs);
  }

  /** `find_next_u_v_w`: fill u, v and w from the stream, then slide one token at a
      time until the window is an example or the stream runs out. */
  method FindNextUvw(src: TokenStream<Token>, windowSize: int, ok: Uvw -> bool) returns (r: Result<Option<Uvw>>)
    modifies src
    ensures FindNext(old(src.rest), windowSize, ok).Err? ==> r == Err(FindNext(old(src.rest), windowSize, ok).error)
    ensures FindNext(old(src.rest), windowSize, ok).Ok? ==>
      r == Ok(FindNext(old(src.rest), windowSize, ok).value.0) && src.rest == FindNext(old(src.rest), windowSize, ok).value.1
  {
    ghost var s := src.rest;
    var w := NonNeg(windowSize);
    var uo := TakeN(src, w);
    if uo.None? {
      return Ok(None);
    }
    var vo := src.Next();
    if vo.None? {
      return Ok(None);
    }
    var wo := TakeN(src, w);
    if wo.None? {
      return Ok(None);
    }
    assert s[w + 1..][..w] == s[w + 1..2 * w + 1];
    r := Slide(src, windowSize, ok, uo.value, vo.value, wo.value, s);
  }

  /** The sliding loop of `find_next_u_v_w`, from the first full window of s on, with
      `is_u_v_w` as ok. */
  method Slide(src: TokenStream<Token>, windowSize: int, ok: Uvw -> bool, u0: seq<Token>, v0: Token, w0: seq<Token>,
               ghost s: seq<Token>)
    returns (r: Result<Option<Uvw>>)
    requires 2 * NonNeg(windowSize) + 1 <= |s| && (u0, v0, w0) == Win(s, NonNeg(windowSize), 0)
    requires src.rest == s[2 * NonNeg(windowSize) + 1..]
    modifies src
    ensures FindNext(s, windowSize, ok).Err? ==> r == Err(FindNext(s, windowSize, ok).error)
    ensures FindNext(s, windowSize, ok).Ok? ==>
      r == Ok(FindNext(s, windowSize, ok).value.0) && src.rest == FindNext(s, windowSize, ok).value.1
  {
    var w := NonNeg(windowSize);
    var u, v, wl := u0, v0, w0;
    ghost var p: nat := 0;
    while true
      invariant p + 2 * w + 1 <= |s| && (u, v, wl) == Win(s, w, p) && src.rest == s[p + 2 * w + 1..]
      invariant FirstFrom(s, w, ok, 0) == FirstFrom(s, w, ok, p)
      invariant w == 0 ==> p == 0
      decreases |s| - p
    {
      if ok((u, v, wl)) {
        SlideFound(s, windowSize, ok, p);
        return Ok(Some((u, v, wl)));
      }
      if |u| == 0 {
        return Err(IndexError);
      }
      u := u[1..] + [v];
      v := wl[0];
      wl := wl[1..];
      var t := src.Next();
      if t.None? {
        SlideExhausted(s, windowSize, ok, p);
        return Ok(None);
      }
      WinShift(s, w, p);
      wl := wl + [t.value];
      p := p + 1;
    }
  }

  /** The slide stops at the first example window, which is what `FindNext` finds. */
  lemma SlideFound(s: seq<Token>, windowSize: int, ok: Uvw -> bool, p: nat)
    requires var w := NonNeg(windowSize); p + 2 * w + 1 <= |s| && ok(Win(s, w, p)) && (w == 0 ==> p == 0)
    requires FirstFrom(s, NonNeg(windowSize), ok, 0) == FirstFrom(s, NonNeg(windowSize), ok, p)
    ensures FindNext(s, windowSize, ok) == Ok((Some(Win(s, NonNeg(windowSize), p)), s[p + 2 * NonNeg(windowSize) + 1..]))
  {
  }

  /** The slide reaches the end of the stream without an example: `FindNext` finds none. */
  lemma SlideExhausted(s: seq<Token>, windowSize: int, ok: Uvw -> bool, p: nat)
    requires var w := NonNeg(windowSize); w >= 1 && p + 2 * w + 1 == |s| && !ok(Win(s, w, p))
    requires FirstFrom(s, NonNeg(windowSize), ok, 0) == FirstFrom(s, NonNeg(windowSize), ok, p)
    ensures FindNext(s, windowSize, ok) == Ok((None, []))
  {
    assert FirstFrom(s, NonNeg(windowSize), ok, p + 1) == None;
  }

  /** The windows that successive calls find, and the error that ended them, if any. */
  function Founds(s: seq<Token>, windowSize: int, ok: Uvw -> bool): (seq<Uvw>, Option<Error>)
    decreases |s|
  {
    match FindNext(s, windowSize, ok)
    case Err(e) => ([], Some(e))
    case Ok((None, _)) => ([], None)
    case Ok((Some(x), rest)) =>
      var more := Founds(rest, windowSize, ok);
      ([x] + more.0, more.1)
  }

  /** Every found window is an example. */
  lemma {:induction false} FoundsAreExamples(s: seq<Token>, windowSize: int, ok: Uvw -> bool, i: nat)
    requires i < |Founds(s, windowSize, ok).0|
    ensures ok(Founds(s, windowSize, ok).0[i])
    decreases |s|
  {
    FindNextIsFirst(s, windowSize, ok);
    var r := FindNext(s, windowSize, ok);
    if i > 0 {
      FoundsAreExamples(r.value.1, windowSize, ok, i - 1);
    }
  }

  /** The stream after n calls, or the error one of them raised. */
  function After(s: seq<Token>, windowSize: int, ok: Uvw -> bool, n: nat): Result<seq<Token>> {
    if n == 0 then Ok(s)
    else
      match After(s, windowSize, ok, n - 1)
      case Err(e) => Err(e)
      case Ok(r) =>
        match FindNext(r, windowSize, ok)
        case Err(e) => Err(e)
        case Ok((_, r')) => Ok(r')
  }

  /** What call n (from 0) returns. */
  function CallAt(s: seq<Token>, windowSize: int, ok: Uvw -> bool, n: nat): Result<Option<Uvw>> {
    match After(s, windowSize, ok, n)
    case Err(e) => Err(e)
    case Ok(r) =>
      match FindNext(r, windowSize, ok)
      case Err(e) => Err(e)
      case Ok((x, _)) => Ok(x)
  }

  lemma {:induction false} AfterCons(s: seq<Token>, windowSize: int, ok: Uvw -> bool, n: nat)
    ensures After(s, windowSize, ok, n + 1) ==
      match FindNext(s, windowSize, ok)
      case Err(e) => Err(e)
      case Ok((_, r)) => After(r, windowSize, ok, n)
  {
    if n > 0 {
      AfterCons(s, windowSize, ok, n - 1);
    }
  }

  /** Call i returns the i-th found window, then the error that ended the search, or
      None forever once the stream is used up. */
  function CallValue(f: seq<Uvw>, term: Option<Error>, i: nat): Result<Option<Uvw>> {
    if i < |f| then Ok(Some(f[i])) else if term.Some? then Err(term.value) else Ok(None)
  }

  lemma {:induction false} CallAtFounds(s: seq<Token>, windowSize: int, ok: Uvw -> bool, i: nat)
    ensures var f := Founds(s, windowSize, ok);
      CallAt(s, windowSize, ok, i) == CallValue(f.0, f.1, i)
    decreases |s|
  {
    var r := FindNext(s, windowSize, ok);
    if i > 0 {
      CallAtCons(s, windowSize, ok, i - 1);
      if r.Ok? && r.value.0.Some? {
        CallAtFounds(r.value.1, windowSize, ok, i - 1);
      } else if r.Ok? {
        EmptyStaysEmpty(windowSize, ok, i - 1);
      }
    }
  }

  lemma CallAtCons(s: seq<Token>, windowSize: int, ok: Uvw -> bool, n: nat)
    ensures CallAt(s, windowSize, ok, n + 1) ==
      match FindNext(s, windowSize, ok)
      case Err(e) => Err(e)
      case Ok((_, r)) => CallAt(r, windowSize, ok, n)
  {
    AfterCons(s, windowSize, ok, n);
  }

  /** An exhausted stream keeps answering None. */
  lemma {:induction false} EmptyStaysEmpty(windowSize: int, ok: Uvw -> bool, n: nat)
    ensures After([], windowSize, ok, n) == Ok([])
    ensures CallAt([], windowSize, ok, n) == Ok(None)
  {
    if n > 0 {
      EmptyStaysEmpty(windowSize, ok, n - 1);
    }
  }

  /** The next `E` calls from call lo on, as the `comparisons` queue holds them. */
  function Upcoming(f: seq<Uvw>, lo: nat, e: nat): (r: seq<Option<Uvw>>)
    ensures |r| == e && forall i :: 0 <= i < e ==> r[i] == if lo + i < |f| then Some(f[lo + i]) else None
  {
    seq(e, i requires 0 <= i < e => if lo + i < |f| then Some(f[lo + i]) else None)
  }

  /** The pairs of anchor j: with each of the next `E` found windows that exist. */
  function AnchorPairs(f: seq<Uvw>, e: nat, j: nat): (r: seq<(Uvw, Uvw)>)
    requires j < |f|
    ensures |r| == if e < |f| - 1 - j then e else |f| - 1 - j
    ensures forall i :: 0 <= i < |r| ==> r[i] == (f[j], f[j + 1 + i])
  {
    var n := if e < |f| - 1 - j then e else |f| - 1 - j;
    seq(n, i requires 0 <= i < n => (f[j], f[j + 1 + i]))
  }

  /** The pairs of the first j anchors. */
  function PairsUpTo(f: seq<Uvw>, e: nat, j: nat): seq<(Uvw, Uvw)>
    requires j <= |f|
  {
    if j == 0 then [] else PairsUpTo(f, e, j - 1) + AnchorPairs(f, e, j - 1)
  }

  /** Every found window but the last is an anchor. */
  function Comparisons(f: seq<Uvw>, e: nat): seq<(Uvw, Uvw)> {
    if |f| == 0 then [] else PairsUpTo(f, e, |f| - 1)
  }

  /** Found window j is paired exactly with found windows j + 1 .. j + E that exist, so
      the last found window is never an anchor. */
  lemma {:induction false} PairsUpToSpec(f: seq<Uvw>, e: nat, j: nat, a: nat, b: nat)
    requires j <= |f| && a < b < |f|
    ensures a < j && b <= a + e ==> (f[a], f[b]) in PairsUpTo(f, e, j)
  {
    if j > 0 && a < j && b <= a + e {
      if a < j - 1 {
        PairsUpToSpec(f, e, j - 1, a, b);
      } else {
        var pairs := AnchorPairs(f, e, a);
        assert pairs[b - a - 1] == (f[a], f[b]);
      }
    }
  }

  lemma {:induction false} PairsUpToOrigin(f: seq<Uvw>, e: nat, j: nat, p: (Uvw, Uvw))
    requires j <= |f| && p in PairsUpTo(f, e, j)
    ensures exists a: nat, b: nat :: a < j && a < b <= a + e && b < |f| && p == (f[a], f[b])
  {
    if p in PairsUpTo(f, e, j - 1) {
      PairsUpToOrigin(f, e, j - 1, p);
    } else {
      var pairs := AnchorPairs(f, e, j - 1);
      var i :| 0 <= i < |pairs| && pairs[i] == p;
      assert p == (f[j - 1], f[j + i]);
    }
  }

  /** The value types `_sca2word_gen` can convert. */
  predicate ValidValType(valType: string) {
    valType == "value_int_type" || valType == "value_float_type"
  }

  /** What `_sca2word_gen` yields, or raises, for a stream: K windows found before the
      search ended; the first call and the E prefetches come before any pair, so an error
      among them comes first; an unsupported value type fails on the first pair. */
  function Sca2WordSpec(s: seq<Token>, windowSize: int, e: int, ok: Uvw -> bool, valType: string): Result<seq<(Uvw, Uvw)>> {
    var f := Founds(s, windowSize, ok);
    if |f.0| == 0 then (if f.1.Some? then Err(f.1.value) else Ok([]))
    else PairsAfterFirst(f.0, f.1, e, valType)
  }

  /** The outcome once at least one window was found (f nonempty, `term` the error that
      ended the search, if any). */
  function PairsAfterFirst(f: seq<Uvw>, term: Option<Error>, e: int, valType: string): Result<seq<(Uvw, Uvw)>> {
    if e <= 0 then Err(IndexError)
    else if term.Some? && |f| <= e then Err(term.value)
    else if |f| >= 2 && !ValidValType(valType) then Err(ValueError)
    else if term.Some? then Err(term.value)
    else Ok(Comparisons(f, e))
  }

  /** The number of leading windows in the queue before the first None. */
  function LeadingSome(cs: seq<Option<Uvw>>): (n: nat)
    ensures n <= |cs| && (forall i :: 0 <= i < n ==> cs[i].Some?) && (n == |cs| || cs[n].None?)
  {
    if cs == [] || cs[0].None? then 0 else 1 + LeadingSome(cs[1..])
  }

  /** The inner `for u_v_w_b in comparisons` loop. */
  method EmitComparisons(a: Uvw, cs: seq<Option<Uvw>>, valType: string) returns (r: Result<seq<(Uvw, Uvw)>>)
    ensures LeadingSome(cs) > 0 && !ValidValType(valType) ==> r == Err(ValueError)
    ensures !(LeadingSome(cs) > 0 && !ValidValType(valType)) ==>
      r.Ok? && |r.value| == LeadingSome(cs) && forall i :: 0 <= i < |r.value| ==> r.value[i] == (a, cs[i].value)
  {
    var out: seq<(Uvw, Uvw)> := [];
    var i := 0;
    while i < |cs|
      invariant i <= LeadingSome(cs) && |out| == i && forall k :: 0 <= k < i ==> out[k] == (a, cs[k].value)
      invariant i > 0 ==> ValidValType(valType)
    {
      if cs[i].None? {
        break;
      }
      if !ValidValType(valType) {
        return Err(ValueError);
      }
      out := out + [(a, cs[i].value)];
      i := i + 1;
    }
    r := Ok(out);
  }

  lemma AnchorMatches(f: seq<Uvw>, e: nat, j: nat, a: Uvw, out: seq<(Uvw, Uvw)>)
    requires j < |f| && a == f[j]
    requires |out| == LeadingSome(Upcoming(f, j + 1, e))
    requires forall i :: 0 <= i < |out| ==> out[i] == (a, Upcoming(f, j + 1, e)[i].value)
    ensures out == AnchorPairs(f, e, j)
  {
    var cs := Upcoming(f, j + 1, e);
    var n := if e < |f| - 1 - j then e else |f| - 1 - j;
    assert forall k :: 0 <= k < n ==> cs[k].Some?;
    assert n < |cs| ==> cs[n].None?;
  }

  lemma UpcomingShift(f: seq<Uvw>, lo: nat, e: nat, next: Option<Uvw>)
    requires e >= 1 && next == (if lo + e < |f| then Some(f[lo + e]) else None)
    ensures Upcoming(f, lo, e)[1..] + [next] == Upcoming(f, lo + 1, e)
  {
  }

  lemma UpcomingSnoc(f: seq<Uvw>, lo: nat, e: nat)
    ensures Upcoming(f, lo, e + 1) == Upcoming(f, lo, e) + [if lo + e < |f| then Some(f[lo + e]) else None]
  {
  }

  /** One more call on the stream left after n calls. */
  lemma CallStep(s: seq<Token>, windowSize: int, ok: Uvw -> bool, n: nat, rest: seq<Token>)
    requires After(s, windowSize, ok, n) == Ok(rest)
    ensures var r := FindNext(rest, windowSize, ok);
      && (r.Err? ==> CallAt(s, windowSize, ok, n) == Err(r.error))
      && (r.Ok? ==> CallAt(s, windowSize, ok, n) == Ok(r.value.0) && After(s, windowSize, ok, n + 1) == Ok(r.value.1))
  {
  }

  /** f and term describe every call on s. */
  ghost predicate Explains(s: seq<Token>, windowSize: int, ok: Uvw -> bool, f: seq<Uvw>, term: Option<Error>) {
    forall n: nat {:trigger CallAt(s, windowSize, ok, n)} :: CallAt(s, windowSize, ok, n) == CallValue(f, term, n)
  }

  lemma FoundsExplain(s: seq<Token>, windowSize: int, ok: Uvw -> bool)
    ensures var found := Founds(s, windowSize, ok); Explains(s, windowSize, ok, found.0, found.1)
  {
    forall n: nat {
      CallAtFounds(s, windowSize, ok, n);
    }
  }

  /** Call n of `find_next_u_v_w` on the stream of `_sca2word_gen`. */
  method Call(src: TokenStream<Token>, windowSize: int, ok: Uvw -> bool, ghost s: seq<Token>, ghost n: nat,
              ghost f: seq<Uvw>, ghost term: Option<Error>)
    returns (c: Result<Option<Uvw>>)
    requires Explains(s, windowSize, ok, f, term)
    requires After(s, windowSize, ok, n) == Ok(src.rest)
    modifies src
    ensures c == CallValue(f, term, n)
    ensures c.Ok? ==> After(s, windowSize, ok, n + 1) == Ok(src.rest)
  {
    ghost var rest := src.rest;
    c := FindNextUvw(src, windowSize, ok);
    CallStep(s, windowSize, ok, n, rest);
  }

  /** Filling the `comparisons` queue with E calls after the first. */
  method Prefetch(src: TokenStream<Token>, windowSize: int, ok: Uvw -> bool, e: nat, ghost s: seq<Token>,
                  ghost f: seq<Uvw>, ghost term: Option<Error>)
    returns (r: Result<seq<Option<Uvw>>>)
    requires After(s, windowSize, ok, 1) == Ok(src.rest)
    modifies src
    requires Explains(s, windowSize, ok, f, term)
    ensures r.Err? ==> exists i :: 1 <= i <= e && CallValue(f, term, i) == Err(r.error)
    ensures r.Ok? ==> (r.value == Upcoming(f, 1, e) && After(s, windowSize, ok, 1 + e) == Ok(src.rest))
    ensures r.Ok? && e > 0 ==> term.None? || 1 + e <= |f|
  {
    var cs: seq<Option<Uvw>> := [];
    for i := 0 to e
      invariant After(s, windowSize, ok, 1 + i) == Ok(src.rest)
      invariant i > 0 ==> term.None? || 1 + i <= |f|
      invariant cs == Upcoming(f, 1, i)
    {
      var c := Call(src, windowSize, ok, s, 1 + i, f, term);
      if c.Err? {
        return Err(c.error);
      }
      UpcomingSnoc(f, 1, i);
      cs := cs + [c.value];
    }
    r := Ok(cs);
  }

  /** What round j of the main loop of `_sca2word_gen` starts from: anchor f[j], the
      queue holding calls j + 1 .. j + E, which all succeeded, and the pairs of the
      anchors before j. */
  ghost predicate RoundState(s: seq<Token>, windowSize: int, ok: Uvw -> bool, f: seq<Uvw>, term: Option<Error>,
                             ne: nat, j: nat, a: Uvw, cs: seq<Option<Uvw>>, out: seq<(Uvw, Uvw)>, rest: seq<Token>) {
    QueueState(f, term, ne, j, a, cs, out) && After(s, windowSize, ok, j + 1 + ne) == Ok(rest)
  }

  /** The anchor, the queue and the pairs so far when anchor j is up. */
  ghost predicate QueueState(f: seq<Uvw>, term: Option<Error>, ne: nat, j: nat, a: Uvw, cs: seq<Option<Uvw>>,
                             out: seq<(Uvw, Uvw)>) {
    && j < |f| && a == f[j] && cs == Upcoming(f, j + 1, ne)
    && (term.None? || j + 1 + ne <= |f|)
    && out == PairsUpTo(f, ne, j)
  }

  /** The second half of a round: one more call refills the queue, and its front
      becomes the anchor. */
  method Advance(src: TokenStream<Token>, windowSize: int, ok: Uvw -> bool, e: int, valType: string, a: Uvw,
                 cs: seq<Option<Uvw>>, out: seq<(Uvw, Uvw)>, ps: seq<(Uvw, Uvw)>, ghost s: seq<Token>,
                 ghost f: seq<Uvw>, ghost term: Option<Error>, ghost j: nat)
    returns (r: Result<(Uvw, seq<Option<Uvw>>, seq<(Uvw, Uvw)>)>)
    requires Explains(s, windowSize, ok, f, term)
    requires RoundState(s, windowSize, ok, f, term, NonNeg(e), j, a, cs, out, src.rest)
    requires |cs| > 0 && cs[0].Some? && ValidValType(valType) && ps == AnchorPairs(f, NonNeg(e), j)
    modifies src
    ensures r.Err? ==> Err(r.error) == PairsAfterFirst(f, term, e, valType)
    ensures r.Ok? ==> RoundState(s, windowSize, ok, f, term, NonNeg(e), j + 1, r.value.0, r.value.1, r.value.2, src.rest)
  {
    var ne := NonNeg(e);
    var c := Call(src, windowSize, ok, s, j + 1 + ne, f, term);
    if c.Err? {
      RoundFails(f, term, e, valType, j);
      return Err(c.error);
    }
    RoundAdvance(f, term, ne, j, a, cs, out, ps, c.value);
    r := Ok((cs[0].value, cs[1..] + [c.value], out + ps));
  }

  /** The pairs of anchor j, or the error the first of them raises. */
  method AnchorRound(ghost f: seq<Uvw>, ghost term: Option<Error>, e: int, valType: string, ghost j: nat, a: Uvw,
                     cs: seq<Option<Uvw>>)
    returns (ps: Result<seq<(Uvw, Uvw)>>)
    requires j < |f| && a == f[j] && cs == Upcoming(f, j + 1, NonNeg(e)) && |cs| > 0 && cs[0].Some?
    requires (term.None? || j + 1 + NonNeg(e) <= |f|) && (j > 0 ==> ValidValType(valType))
    ensures ps.Err? ==> Err(ps.error) == PairsAfterFirst(f, term, e, valType)
    ensures ps.Ok? ==> ValidValType(valType) && ps.value == AnchorPairs(f, NonNeg(e), j)
  {
    ps := EmitComparisons(a, cs, valType);
    if ps.Err? {
      RoundFails(f, term, e, valType, j);
      return;
    }
    AnchorMatches(f, NonNeg(e), j, a, ps.value);
  }

  /** How round j of the main loop fails: on the value type in round 0, else on the
      error that ended the search. */
  lemma RoundFails(f: seq<Uvw>, term: Option<Error>, e: int, valType: string, j: nat)
    requires j + 1 < |f| && e >= 1 && (term.None? || j + 1 + e <= |f|) && (j > 0 ==> ValidValType(valType))
    ensures !ValidValType(valType) ==> PairsAfterFirst(f, term, e, valType) == Err(ValueError)
    ensures ValidValType(valType) && CallValue(f, term, j + 1 + e).Err? ==>
      PairsAfterFirst(f, term, e, valType) == Err(CallValue(f, term, j + 1 + e).error)
  {
  }

  lemma RoundAdvance(f: seq<Uvw>, term: Option<Error>, ne: nat, j: nat, a: Uvw, cs: seq<Option<Uvw>>,
                     out: seq<(Uvw, Uvw)>, ps: seq<(Uvw, Uvw)>, next: Option<Uvw>)
    requires QueueState(f, term, ne, j, a, cs, out)
    requires |cs| > 0 && cs[0].Some?
    requires ps == AnchorPairs(f, ne, j)
    requires Ok(next) == CallValue(f, term, j + 1 + ne)
    ensures QueueState(f, term, ne, j + 1, cs[0].value, cs[1..] + [next], out + ps)
  {
    UpcomingShift(f, j + 1, ne, next);
  }

  /** The main loop of `_sca2word_gen`, from the first anchor on: f and term are what
      the calls find. */
  method PairRounds(src: TokenStream<Token>, windowSize: int, ok: Uvw -> bool, e: int, valType: string, a0: Uvw,
                    cs0: seq<Option<Uvw>>, ghost s: seq<Token>, ghost f: seq<Uvw>, ghost term: Option<Error>)
    returns (r: Result<seq<(Uvw, Uvw)>>)
    requires Explains(s, windowSize, ok, f, term)
    requires RoundState(s, windowSize, ok, f, term, NonNeg(e), 0, a0, cs0, [], src.rest)
    modifies src
    ensures r == PairsAfterFirst(f, term, e, valType)
  {
    var a, cs := a0, cs0;
    var out: seq<(Uvw, Uvw)> := [];
    ghost var j: nat := 0;
    while true
      invariant RoundState(s, windowSize, ok, f, term, NonNeg(e), j, a, cs, out, src.rest)
      invariant j > 0 ==> e >= 1 && ValidValType(valType)
      decreases |f| - j
    {
      if |cs| == 0 {
        return Err(IndexError);
      }
      if cs[0].None? {
        break;
      }
      var ps := AnchorRound(f, term, e, valType, j, a, cs);
      if ps.Err? {
        return Err(ps.error);
      }
      var next := Advance(src, windowSize, ok, e, valType, a, cs, out, ps.value, s, f, term, j);
      if next.Err? {
        return Err(next.error);
      }
      a, cs, out := next.value.0, next.value.1, next.value.2;
      j := j + 1;
    }
    r := Ok(out);
  }

  /** `_sca2word_gen`: the first window found is the anchor, the next E found wait in
      `comparisons`; the anchor is paired with each of them up to the first missing one,
      then the front of the queue becomes the anchor and one more search refills it,
      until the front is missing. */
  method Sca2WordGen(s: seq<Token>, windowSize: int, e: int, ok: Uvw -> bool, valType: string)
    returns (r: Result<seq<(Uvw, Uvw)>>)
    ensures r == Sca2WordSpec(s, windowSize, e, ok, valType)
  {
    ghost var found := Founds(s, windowSize, ok);
    FoundsExplain(s, windowSize, ok);
    var src := new TokenStream(s);
    var first := Call(src, windowSize, ok, s, 0, found.0, found.1);
    if first.Err? {
      return Err(first.error);
    }
    if first.value.None? {
      return Ok([]);
    }
    var ne := NonNeg(e);
    var cs := Prefetch(src, windowSize, ok, ne, s, found.0, found.1);
    if cs.Err? {
      return Err(cs.error);
    }
    r := PairRounds(src, windowSize, ok, e, valType, first.value.value, cs.value, s, found.0, found.1);
  }

  /** What `_sca2word_gen` yields: every pair is two found windows, each an example,
      the second among the E found after the first. */
  lemma Sca2WordSound(s: seq<Token>, windowSize: int, e: int, ok: Uvw -> bool, valType: string, x: Uvw, y: Uvw)
    requires Sca2WordSpec(s, windowSize, e, ok, valType).Ok?
    requires (x, y) in Sca2WordSpec(s, windowSize, e, ok, valType).value
    ensures ok(x) && ok(y)
    ensures var f := Founds(s, windowSize, ok).0;
      exists a: nat, b: nat :: a < b <= a + e && b < |f| && x == f[a] && y == f[b]
  {
    var found := Founds(s, windowSize, ok);
    var f := found.0;
    assert |f| > 0 && Sca2WordSpec(s, windowSize, e, ok, valType) == PairsAfterFirst(f, found.1, e, valType);
    PairsAfterFirstOrigin(f, found.1, e, valType, (x, y));
    var a: nat, b: nat :| a < b <= a + e && b < |f| && (x, y) == (f[a], f[b]);
    FoundsAreExamples(s, windowSize, ok, a);
    FoundsAreExamples(s, windowSize, ok, b);
  }

  /** A pair in a successful outcome pairs found window a with one of the E after it. */
  lemma PairsAfterFirstOrigin(f: seq<Uvw>, term: Option<Error>, e: int, valType: string, p: (Uvw, Uvw))
    requires PairsAfterFirst(f, term, e, valType).Ok? && p in PairsAfterFirst(f, term, e, valType).value
    ensures exists a: nat, b: nat :: a < b <= a + e && b < |f| && p == (f[a], f[b])
  {
    PairsUpToOrigin(f, e, |f| - 1, p);
  }

  /** ... and every pair of found windows at most E apart is yielded. */
  lemma Sca2WordComplete(s: seq<Token>, windowSize: int, e: int, ok: Uvw -> bool, valType: string, a: nat, b: nat)
    requires Sca2WordSpec(s, windowSize, e, ok, valType).Ok?
    requires var f := Founds(s, windowSize, ok).0; a < b <= a + e && b < |f|
    ensures var f := Founds(s, windowSize, ok).0;
      (f[a], f[b]) in Sca2WordSpec(s, windowSize, e, ok, valType).value
  {
    var f := Founds(s, windowSize, ok).0;
    PairsUpToSpec(f, e, |f| - 1, a, b);
  }

  /** `Sca2wordTransformer`: value token type, window size, `each_num_examples`. The
      vocabulary reader is passed to each operation. */
  datatype Sca2wordTransformer = Sca2wordTransformer(valTokenType: string, windowSize: int, eachNumExamples: int)

  /** One yielded example, `(u_a, v_a, w_a, u_b, v_b, w_b)`, with the side words as ids. */
  datatype Sca2wordExample = Sca2wordExample(ua: seq<Token>, va: Token, wa: seq<Token>, ub: seq<Token>, vb: Token, wb: seq<Token>)

  /** `[vocab[x] for x in xs]`. */
  function Ids(vocab: Vocab, xs: seq<Token>): (r: seq<Token>)
    ensures |r| == |xs| && forall i :: 0 <= i < |xs| ==> r[i] == vocab.word2id(xs[i])
  {
    seq(|xs|, i requires 0 <= i < |xs| => vocab.word2id(xs[i]))
  }

  function ToExample(vocab: Vocab, p: (Uvw, Uvw)): Sca2wordExample {
    Sca2wordExample(Ids(vocab, p.0.0), p.0.1, Ids(vocab, p.0.2), Ids(vocab, p.1.0), p.1.1, Ids(vocab, p.1.2))
  }

  function ToExamples(vocab: Vocab, ps: seq<(Uvw, Uvw)>): (r: seq<Sca2wordExample>)
    ensures |r| == |ps| && forall i :: 0 <= i < |ps| ==> r[i] == ToExample(vocab, ps[i])
  {
    seq(|ps|, i requires 0 <= i < |ps| => ToExample(vocab, ps[i]))
  }

  /** `_sca2word_gen` of a transformer, as a function of the stream. */
  function Gen(t: Sca2wordTransformer, ok: Uvw -> bool): seq<Token> -> Result<seq<(Uvw, Uvw)>> {
    s => Sca2WordSpec(s, t.windowSize, t.eachNumExamples, ok, t.valTokenType)
  }

  /** The examples of the first n documents, each read and searched in turn by gen; the
      first error stops everything. */
  function DocsExamples(gen: seq<Token> -> Result<seq<(Uvw, Uvw)>>, vocab: Vocab, docs: seq<Document>, n: nat)
    : Result<seq<Sca2wordExample>>
    requires n <= |docs|
    reads set d | d in docs
  {
    if n == 0 then Ok([])
    else
      match DocsExamples(gen, vocab, docs, n - 1)
      case Err(e) => Err(e)
      case Ok(prev) =>
        match DocExamples(gen, vocab, docs[n - 1])
        case Err(e) => Err(e)
        case Ok(xs) => Ok(prev + xs)
  }

  /** The examples of one document. */
  function DocExamples(gen: seq<Token> -> Result<seq<(Uvw, Uvw)>>, vocab: Vocab, doc: Document): Result<seq<Sca2wordExample>>
    reads doc
  {
    match doc.Iter()
    case Err(e) => Err(e)
    case Ok(s) =>
      match gen(s)
      case Err(e) => Err(e)
      case Ok(ps) => Ok(ToExamples(vocab, ps))
  }

  /** When every pair gen yields is two windows passing ok, every example is the id form
      of such a pair. */
  lemma {:induction false} DocsExamplesSound(gen: seq<Token> -> Result<seq<(Uvw, Uvw)>>, ok: Uvw -> bool, vocab: Vocab,
                                             docs: seq<Document>, n: nat, k: nat)
    requires forall s, p :: gen(s).Ok? && p in gen(s).value ==> ok(p.0) && ok(p.1)
    requires n <= |docs| && DocsExamples(gen, vocab, docs, n).Ok? && k < |DocsExamples(gen, vocab, docs, n).value|
    ensures exists p: (Uvw, Uvw) :: ok(p.0) && ok(p.1) && DocsExamples(gen, vocab, docs, n).value[k] == ToExample(vocab, p)
  {
    var prev := DocsExamples(gen, vocab, docs, n - 1).value;
    if k < |prev| {
      DocsExamplesSound(gen, ok, vocab, docs, n - 1, k);
    } else {
      var ps := gen(docs[n - 1].Iter().value).value;
      assert DocsExamples(gen, vocab, docs, n).value == prev + ToExamples(vocab, ps);
      var p := ps[k - |prev|];
    }
  }

  /** Every pair the generator yields is two windows passing the test. */
  lemma GenSound(t: Sca2wordTransformer, ok: Uvw -> bool)
    ensures forall s, p :: Gen(t, ok)(s).Ok? && p in Gen(t, ok)(s).value ==> ok(p.0) && ok(p.1)
  {
    forall s, p | Gen(t, ok)(s).Ok? && p in Gen(t, ok)(s).value
      ensures ok(p.0) && ok(p.1)
    {
      Sca2WordSound(s, t.windowSize, t.eachNumExamples, ok, t.valTokenType, p.0, p.1);
    }
  }

  /** One more document: its examples are appended, or its error is the result. */
  lemma DocsExamplesStep(gen: seq<Token> -> Result<seq<(Uvw, Uvw)>>, vocab: Vocab, docs: seq<Document>, i: nat,
                         out: seq<Sca2wordExample>, xs: Result<seq<Sca2wordExample>>)
    requires i < |docs| && DocsExamples(gen, vocab, docs, i) == Ok(out) && xs == DocExamples(gen, vocab, docs[i])
    ensures DocsExamples(gen, vocab, docs, i + 1) == if xs.Err? then Err(xs.error) else Ok(out + xs.value)
  {
  }

  /** Once a document fails, the result stays that failure. */
  lemma {:induction false} DocsExamplesErrStays(gen: seq<Token> -> Result<seq<(Uvw, Uvw)>>, vocab: Vocab,
                                                docs: seq<Document>, n: nat, m: nat)
    requires n <= m <= |docs| && DocsExamples(gen, vocab, docs, n).Err?
    ensures DocsExamples(gen, vocab, docs, m) == DocsExamples(gen, vocab, docs, n)
    decreases m - n
  {
    if n < m {
      DocsExamplesErrStays(gen, vocab, docs, n, m - 1);
    }
  }

  /** `transform_docs(doc, *docs)`: word streams only, every document of that type, then
      the documents one after another. */
  method TransformDocs(t: Sca2wordTransformer, docs: seq<Document>, vocab: Vocab) returns (r: Result<seq<Sca2wordExample>>)
    requires |docs| >= 1
    ensures docs[0].tokenType != "word_type" ==> r == Err(NotImplementedError)
    ensures docs[0].tokenType == "word_type" && AssertDocsTokenType("word_type", docs).Fail? ==> r == Err(AssertionError)
    ensures docs[0].tokenType == "word_type" && AssertDocsTokenType("word_type", docs).Pass? ==>
      r == DocsExamples(Gen(t, Example(vocab)), vocab, docs, |docs|)
  {
    if docs[0].tokenType != "word_type" {
      return Err(NotImplementedError);
    }
    if AssertDocsTokenType("word_type", docs).Fail? {
      return Err(AssertionError);
    }
    r := ExamplesOfDocs(t, docs, Example(vocab), vocab);
  }

  /** The `for doc in docs` loop of `transform_docs`, with ok the window test. */
  method ExamplesOfDocs(t: Sca2wordTransformer, docs: seq<Document>, ok: Uvw -> bool, vocab: Vocab) returns (r: Result<seq<Sca2wordExample>>)
    ensures r == DocsExamples(Gen(t, ok), vocab, docs, |docs|)
  {
    var out: seq<Sca2wordExample> := [];
    for i := 0 to |docs|
      invariant DocsExamples(Gen(t, ok), vocab, docs, i) == Ok(out)
    {
      var xs := DocStep(t, docs[i], ok, vocab);
      DocsExamplesStep(Gen(t, ok), vocab, docs, i, out, xs);
      if xs.Err? {
        DocsExamplesErrStays(Gen(t, ok), vocab, docs, i + 1, |docs|);
        return Err(xs.error);
      }
      out := out + xs.value;
    }
    r := Ok(out);
  }


  /** The body of the `for doc in docs` loop of `transform_docs`, with ok the window
      test. */
  method DocStep(t: Sca2wordTransformer, doc: Document, ok: Uvw -> bool, vocab: Vocab) returns (r: Result<seq<Sca2wordExample>>)
    ensures r == DocExamples(Gen(t, ok), vocab, doc)
  {
    var it := doc.Iter();
    if it.Err? {
      return Err(it.error);
    }
    var ps := Sca2WordGen(it.value, t.windowSize, t.eachNumExamples, ok, t.valTokenType);
    assert Gen(t, ok)(it.value) == ps;
    if ps.Err? {
      return Err(ps.error);
    }
    r := Ok(ToExamples(vocab, ps.value));
  }

  /** `estimate_docs_transformed_size`: the number of examples `transform_docs` yields. */
  method EstimateDocsTransformedSize(t: Sca2wordTransformer, docs: seq<Document>, vocab: Vocab) returns (r: Result<int>)
    requires |docs| >= 1
    ensures docs[0].tokenType != "word_type" ==> r == Err(NotImplementedError)
    ensures docs[0].tokenType == "word_type" && AssertDocsTokenType("word_type", docs).Fail? ==> r == Err(AssertionError)
    ensures docs[0].tokenType == "word_type" && AssertDocsTokenType("word_type", docs).Pass? ==>
      match DocsExamples(Gen(t, Example(vocab)), vocab, docs, |docs|)
      case Ok(xs) => r == Ok(|xs|)
      case Err(e) => r == Err(e)
  {
    var xs := TransformDocs(t, docs, vocab);
    if xs.Err? {
      return Err(xs.error);
    }
    var lenSum := 0;
    for i := 0 to |xs.value|
      invariant lenSum == i
    {
      lenSum := lenSum + 1;
    }
    r := Ok(lenSum);
  }

  /** `get_lists_stats(doc, *docs)`: the six output fields, for word streams only. */
  function GetListsStats(t: Sca2wordTransformer, docs: seq<Document>): (r: Result<seq<ListStat>>)
    requires |docs| >= 1
    reads set d | d in docs
    ensures docs[0].tokenType != "word_type" ==> r == Err(NotImplementedError)
    ensures r.Ok? <==> (docs[0].tokenType == "word_type" && t.valTokenType != "list_type"
      && forall i :: 1 <= i < |docs| ==> docs[i].tokenType == "word_type")
    ensures r.Ok? ==> |r.value| == 6 && forall i :: 0 <= i < 6 ==>
      (r.value[i].tokenType == (if i % 3 == 1 then t.valTokenType else "id_type")
       && r.value[i].listLen == (if i % 3 == 1 then 1 else t.windowSize) && WellFormed(r.value[i]))
  {
    if docs[0].tokenType != "word_type" then Err(NotImplementedError)
    else
      match AssertDocsTokenType("word_type", docs[1..])
      case Fail(e) => Err(e)
      case Pass =>
        assert forall i :: 1 <= i < |docs| ==> docs[i] == docs[1..][i - 1];
        var ua := PlainListStat("u_a", "id_type", t.windowSize);
        var va := PlainListStat("v_a", t.valTokenType, 1);
        if va.Err? then Err(va.error)
        else
          var wa := PlainListStat("w_a", "id_type", t.windowSize);
          var ub := PlainListStat("u_b", "id_type", t.windowSize);
          var vb := PlainListStat("v_b", t.valTokenType, 1);
          var wb := PlainListStat("w_b", "id_type", t.windowSize);
          Ok([ua.value, va.value, wa.value, ub.value, vb.value, wb.value])
  }
}

=== FILE: sentiment.dfy ===
/** transformers/sentiment.py: `DocLabelsTransformer`, which puts labelled documents
    into recurrent-network batches. Every document of a group is cut into chunks of
    `seq_len` tokens (the length-separated segmentation, whose last chunk is padded and
    may be empty) and the chunks are emitted with the document's label and a flag
    marking the end of the group. */
module Sentiment {
  import opened Wrappers
  import opened Arith
  import opened Tokens
  import opened Iterators
  import opened Documents
  import opened SeqDocs
  import opened TransformerInterface

  /** `DocLabelsTransformer(batch_size, seq_len, max_doc_len)`. */
  datatype DocLabelsTransformer = DocLabelsTransformer(batchSize: int, seqLen: Option<int>, maxDocLen: Option<int>)

  /** One yield of `transform_docs`: `(seq, seq_len, label, eod_flag)`. */
  datatype SeqStep = SeqStep(src: seq<Token>, srcLen: Token, docLabel: Option<Token>, eod: int)

  /** A chunk with its length flag and its document's label. */
  type Item = (seq<Token>, Token, Option<Token>)

  // Positions of the round robin: position p is round p / B of slot p % B.

  lemma PosUnique(b: int, r: int, i: int, n: int, k: int)
    requires b >= 1 && 0 <= i < b && 0 <= k < b && r * b + i == n * b + k
    ensures r == n && i == k
  {
    DivModUnique(r * b + i, b, r, i);
    DivModUnique(n * b + k, b, n, k);
  }

  lemma PosLess(b: int, r: int, i: int, n: int, k: int)
    requires b >= 1 && 0 <= i < b && 0 <= k < b && r < n
    ensures r * b + i < n * b + k
  {
    MulAtLeast(b, n - r);
    assert n * b == r * b + b * (n - r);
  }

  lemma PosAtLeast(b: int, r: int, n: int, i: int)
    requires b >= 1 && r >= n
    ensures r * b + i >= n * b + i
  {
    assert r * b == n * b + (r - n) * b;
  }

  /** The largest element. */
  function MaxOf(xs: seq<int>): (m: int)
    requires |xs| >= 1
    ensures (forall k :: 0 <= k < |xs| ==> xs[k] <= m) && exists k :: 0 <= k < |xs| && xs[k] == m
  {
    if |xs| == 1 then xs[0]
    else
      var m := MaxOf(xs[..|xs| - 1]);
      assert forall k :: 0 <= k < |xs| - 1 ==> xs[..|xs| - 1][k] == xs[k];
      if xs[|xs| - 1] > m then xs[|xs| - 1] else m
  }

  /** The streams of a group: one per slot, none empty (the length-separated
      segmentation always yields a last chunk). */
  predicate GroupShape<X>(streams: seq<seq<SeqFlag>>, labels: seq<X>) {
    |streams| >= 1 && |labels| == |streams| && forall k :: 0 <= k < |streams| ==> |streams[k]| >= 1
  }

  /** Slot k's r-th yield: its r-th chunk, or, once it has run out, `seq_len` pads with
      length 0; always with slot k's label. */
  function SlotItem(streams: seq<seq<SeqFlag>>, labels: seq<Option<Token>>, pad: Token, seqLen: int, r: nat, k: nat): Item
    requires k < |streams| && |labels| == |streams|
  {
    if r < |streams[k]| then (streams[k][r].0, streams[k][r].1, labels[k]) else (Pads(pad, seqLen), Int(0), labels[k])
  }

  /** The position after which slot k finds its stream exhausted: one past its last
      chunk's position. */
  function Ends(streams: seq<seq<SeqFlag>>): (e: seq<int>)
    ensures |e| == |streams| && forall k :: 0 <= k < |streams| ==> e[k] == |streams[k]| * |streams| + k
  {
    seq(|streams|, k requires 0 <= k < |streams| => |streams[k]| * |streams| + k)
  }

  /** What `transform_docs` yields for one group, stated in closed form: one item per
      position, cycling over the slots, until the first position at which every slot
      has found its stream exhausted; only the last item carries the end flag. */
  function RoundRobin(streams: seq<seq<SeqFlag>>, labels: seq<Option<Token>>, pad: Token, seqLen: int): (out: seq<SeqStep>)
    requires GroupShape(streams, labels)
    ensures |out| == MaxOf(Ends(streams))
  {
    MulAtLeast(|streams|, |streams[0]|);
    var m := MaxOf(Ends(streams));
    assert Ends(streams)[0] <= m;
    seq(m, p requires 0 <= p < m => RoundRobinStep(streams, labels, pad, seqLen, m, p))
  }

  /** Position p of the round robin of length m: slot p % B's (p / B)-th yield. */
  function RoundRobinStep(streams: seq<seq<SeqFlag>>, labels: seq<Option<Token>>, pad: Token, seqLen: int, m: int, p: nat)
    : SeqStep
    requires GroupShape(streams, labels)
  {
    var b := |streams|;
    var it := SlotItem(streams, labels, pad, seqLen, p / b, p % b);
    SeqStep(it.0, it.1, it.2, if p == m - 1 then 1 else 0)
  }

  /** Every chunk of every slot is yielded, at position r * B + k, with its own label. */
  lemma RoundRobinSlots(streams: seq<seq<SeqFlag>>, labels: seq<Option<Token>>, pad: Token, seqLen: int, k: nat, r: nat)
    requires GroupShape(streams, labels) && k < |streams| && r < |streams[k]|
    ensures var out := RoundRobin(streams, labels, pad, seqLen); var b := |streams|;
      r * b + k < |out| && out[r * b + k].src == streams[k][r].0 && out[r * b + k].srcLen == streams[k][r].1
      && out[r * b + k].docLabel == labels[k]
  {
    var b := |streams|;
    PosLess(b, r, k, |streams[k]|, k);
    DivModUnique(r * b + k, b, r, k);
  }

  /** Once its stream has run out, a slot yields pad sequences of length 0. */
  lemma RoundRobinPads(streams: seq<seq<SeqFlag>>, labels: seq<Option<Token>>, pad: Token, seqLen: int, p: nat)
    requires GroupShape(streams, labels) && p < |RoundRobin(streams, labels, pad, seqLen)|
    requires p / |streams| >= |streams[p % |streams|]|
    ensures var out := RoundRobin(streams, labels, pad, seqLen);
      out[p].src == Pads(pad, seqLen) && out[p].srcLen == Int(0) && out[p].docLabel == labels[p % |streams|]
  {
  }

  /** Exactly the last yield of a group carries the end flag, and the group is not cut
      short: it lasts until the last chunk of every slot has been yielded. */
  lemma RoundRobinEnd(streams: seq<seq<SeqFlag>>, labels: seq<Option<Token>>, pad: Token, seqLen: int)
    requires GroupShape(streams, labels)
    ensures var out := RoundRobin(streams, labels, pad, seqLen);
      |out| >= 1 && out[|out| - 1].eod == 1 && (forall p :: 0 <= p < |out| - 1 ==> out[p].eod == 0)
      && forall k :: 0 <= k < |streams| ==> (|streams[k]| - 1) * |streams| + k < |out|
  {
    var b := |streams|;
    var e := Ends(streams);
    forall k | 0 <= k < b
      ensures (|streams[k]| - 1) * b + k < MaxOf(e)
    {
      PosLess(b, |streams[k]| - 1, k, |streams[k]|, k);
    }
  }

  /** Position p = r * B + i of the round robin. */
  lemma RoundRobinAt(streams: seq<seq<SeqFlag>>, labels: seq<Option<Token>>, pad: Token, seqLen: int, p: nat, r: nat, i: nat)
    requires GroupShape(streams, labels) && i < |streams| && p == r * |streams| + i && p < MaxOf(Ends(streams))
    ensures var it := SlotItem(streams, labels, pad, seqLen, r, i);
      RoundRobin(streams, labels, pad, seqLen)[p] == SeqStep(it.0, it.1, it.2, if p + 1 == MaxOf(Ends(streams)) then 1 else 0)
  {
    DivModUnique(p, |streams|, r, i);
  }

  // The loop of `transform_docs` over one group.

  /** Chunks of slot k fetched before position r * B + i is yielded. */
  function Fetched(r: nat, i: nat, k: nat): nat {
    if k <= i then r + 1 else r
  }

  function Min(a: int, b: int): int {
    if a <= b then a else b
  }

  /** The state before position p = r * B + i is yielded: `seq_iters` (as what each has
      left), `eod_flags` (set for the slots whose end p has passed) and the pending
      `next_*` values. */
  ghost predicate RRState(streams: seq<seq<SeqFlag>>, labels: seq<Option<Token>>, pad: Token, seqLen: int,
                          p: nat, r: nat, i: nat, rests: seq<seq<SeqFlag>>, eodFlags: seq<int>, next: Item)
    requires GroupShape(streams, labels)
  {
    var b := |streams|;
    var e := Ends(streams);
    && i < b && p == r * b + i && |rests| == b && |eodFlags| == b
    && (forall k :: 0 <= k < b ==> rests[k] == streams[k][Min(Fetched(r, i, k), |streams[k]|)..])
    && (forall k :: 0 <= k < b ==> eodFlags[k] == if p >= e[k] then 1 else 0)
    && next == SlotItem(streams, labels, pad, seqLen, r, i)
    && p < MaxOf(e)
  }

  /** `all_eod`: no slot flag is 0. */
  method AllEod(eodFlags: seq<int>) returns (all: bool)
    ensures all <==> forall k :: 0 <= k < |eodFlags| ==> eodFlags[k] != 0
  {
    all := true;
    for k := 0 to |eodFlags|
      invariant all <==> forall j :: 0 <= j < k ==> eodFlags[j] != 0
    {
      if eodFlags[k] == 0 {
        all := false;
      }
    }
  }

  /** The end test: every slot has found its stream exhausted exactly when the position
      reaches the longest end. */
  lemma AllEndsPassed(e: seq<int>, q: int)
    requires |e| >= 1
    ensures (forall k :: 0 <= k < |e| ==> q >= e[k]) <==> q >= MaxOf(e)
  {
    if forall k :: 0 <= k < |e| ==> q >= e[k] {
      var k :| 0 <= k < |e| && e[k] == MaxOf(e);
    }
  }

  /** `transform_docs` for one group of `batch_size` documents, as the loop it is. */
  method TransformGroup(streams: seq<seq<SeqFlag>>, labels: seq<Option<Token>>, pad: Token, seqLen: int)
    returns (out: seq<SeqStep>)
    requires GroupShape(streams, labels)
    ensures out == RoundRobin(streams, labels, pad, seqLen)
  {
    var b := |streams|;
    var rests := streams[0 := streams[0][1..]];
    var eodFlags := seq(b, _ => 0);
    var i := 0;
    ghost var r: nat, p: nat := 0, 0;
    var next := (streams[0][0].0, streams[0][0].1, labels[0]);
    RRStart(streams, labels, pad, seqLen, rests, eodFlags, next);
    out := [];
    while true
      invariant RRState(streams, labels, pad, seqLen, p, r, i, rests, eodFlags, next)
      invariant out == RoundRobin(streams, labels, pad, seqLen)[..p]
      decreases MaxOf(Ends(streams)) - p
    {
      var stop;
      out, stop, p, r, i, rests, eodFlags, next := RRRound(streams, labels, pad, seqLen, out, p, r, i, rests, eodFlags, next);
      if stop {
        return;
      }
    }
  }

  lemma RRStart(streams: seq<seq<SeqFlag>>, labels: seq<Option<Token>>, pad: Token, seqLen: int,
                rests: seq<seq<SeqFlag>>, eodFlags: seq<int>, next: Item)
    requires GroupShape(streams, labels) && rests == streams[0 := streams[0][1..]]
    requires eodFlags == seq(|streams|, _ => 0) && next == (streams[0][0].0, streams[0][0].1, labels[0])
    ensures RRState(streams, labels, pad, seqLen, 0, 0, 0, rests, eodFlags, next)
  {
    var b := |streams|;
    var e := Ends(streams);
    forall k | 0 <= k < b
      ensures 0 < e[k]
    {
      MulAtLeast(b, |streams[k]|);
    }
    assert 0 < e[0] <= MaxOf(e);
  }

  /** One turn of the `while True` loop: the item yielded for position p, whether the
      group ends with it, and the state for position p + 1. */
  method RRRound(streams: seq<seq<SeqFlag>>, labels: seq<Option<Token>>, pad: Token, seqLen: int,
                 out: seq<SeqStep>, ghost p: nat, ghost r: nat, i: nat, rests: seq<seq<SeqFlag>>, eodFlags: seq<int>, next: Item)
    returns (out': seq<SeqStep>, stop: bool, ghost p': nat, ghost r': nat, i': nat, rests': seq<seq<SeqFlag>>,
             eodFlags': seq<int>, next': Item)
    requires GroupShape(streams, labels) && RRState(streams, labels, pad, seqLen, p, r, i, rests, eodFlags, next)
    requires out == RoundRobin(streams, labels, pad, seqLen)[..p]
    ensures stop ==> out' == RoundRobin(streams, labels, pad, seqLen)
    ensures !stop ==> p' == p + 1 && RRState(streams, labels, pad, seqLen, p', r', i', rests', eodFlags', next')
    ensures !stop ==> out' == RoundRobin(streams, labels, pad, seqLen)[..p']
  {
    var b := |streams|;
    ghost var m := MaxOf(Ends(streams));
    var cur := next;
    i' := (i + 1) % b;
    r' := if i + 1 < b then r else r + 1;
    p' := p + 1;
    NextPos(b, r, i, r', i');
    if |rests[i']| > 0 {
      next' := (rests[i'][0].0, rests[i'][0].1, labels[i']);
      rests' := rests[i' := rests[i'][1..]];
      eodFlags' := eodFlags;
      FetchedNext(streams, labels, pad, seqLen, p, r, i, r', i', rests, eodFlags, next, rests', next');
      RRYield(streams, labels, pad, seqLen, p, r, i, out, cur, 0);
      out' := out + [SeqStep(cur.0, cur.1, cur.2, 0)];
      stop := false;
    } else {
      next' := (Pads(pad, seqLen), Int(0), labels[i']);
      rests' := rests;
      eodFlags' := eodFlags[i' := 1];
      ExhaustedNext(streams, labels, pad, seqLen, p, r, i, r', i', rests, eodFlags, next, eodFlags', next');
      var all := AllEod(eodFlags');
      AllEndsPassed(Ends(streams), p + 1);
      assert all <==> p + 1 == m;
      RRYield(streams, labels, pad, seqLen, p, r, i, out, cur, if all then 1 else 0);
      out' := out + [SeqStep(cur.0, cur.1, cur.2, if all then 1 else 0)];
      stop := all;
    }
  }

  /** Yielding the item of position p extends the output by the round robin's entry p,
      and the last position completes it. */
  lemma RRYield(streams: seq<seq<SeqFlag>>, labels: seq<Option<Token>>, pad: Token, seqLen: int,
                p: nat, r: nat, i: nat, out: seq<SeqStep>, cur: Item, flag: int)
    requires GroupShape(streams, labels) && i < |streams| && p == r * |streams| + i && p < MaxOf(Ends(streams))
    requires out == RoundRobin(streams, labels, pad, seqLen)[..p] && cur == SlotItem(streams, labels, pad, seqLen, r, i)
    requires flag == if p + 1 == MaxOf(Ends(streams)) then 1 else 0
    ensures out + [SeqStep(cur.0, cur.1, cur.2, flag)] == RoundRobin(streams, labels, pad, seqLen)[..p + 1]
    ensures p + 1 == MaxOf(Ends(streams)) ==> out + [SeqStep(cur.0, cur.1, cur.2, flag)] == RoundRobin(streams, labels, pad, seqLen)
  {
    RoundRobinAt(streams, labels, pad, seqLen, p, r, i);
    var rr := RoundRobin(streams, labels, pad, seqLen);
    assert rr[..p + 1] == rr[..p] + [rr[p]];
    assert p + 1 == |rr| ==> rr[..p + 1] == rr;
  }

  /** The position after r * B + i. */
  lemma NextPos(b: int, r: nat, i: nat, r': nat, i': int)
    requires b >= 1 && i < b && i' == (i + 1) % b && r' == (if i + 1 < b then r else r + 1)
    ensures 0 <= i' < b && r' * b + i' == r * b + i + 1
    ensures (i + 1 < b ==> r' == r && i' == i + 1) && (i + 1 == b ==> r' == r + 1 && i' == 0)
  {
    DivModUnique(i + 1, b, if i + 1 < b then 0 else 1, if i + 1 < b then i + 1 else 0);
  }

  /** The end flags after position p + 1 differ from those after p only at its slot. */
  lemma EndsAt(streams: seq<seq<SeqFlag>>, q: nat, r': nat, i': nat, k: nat)
    requires |streams| >= 1 && i' < |streams| && k < |streams| && k != i' && q == r' * |streams| + i'
    ensures q != Ends(streams)[k]
  {
    if q == Ends(streams)[k] {
      PosUnique(|streams|, r', i', |streams[k]|, k);
    }
  }

  /** A fetch that succeeds: slot i' had a chunk left. */
  lemma FetchedNext(streams: seq<seq<SeqFlag>>, labels: seq<Option<Token>>, pad: Token, seqLen: int,
                    p: nat, r: nat, i: nat, r': nat, i': nat, rests: seq<seq<SeqFlag>>, eodFlags: seq<int>, next: Item,
                    rests': seq<seq<SeqFlag>>, next': Item)
    requires GroupShape(streams, labels) && RRState(streams, labels, pad, seqLen, p, r, i, rests, eodFlags, next)
    requires i' < |streams| && r' * |streams| + i' == p + 1
    requires (i + 1 < |streams| ==> r' == r && i' == i + 1) && (i + 1 == |streams| ==> r' == r + 1 && i' == 0)
    requires |rests[i']| > 0 && next' == (rests[i'][0].0, rests[i'][0].1, labels[i'])
    requires rests' == rests[i' := rests[i'][1..]]
    ensures p + 1 < MaxOf(Ends(streams)) && RRState(streams, labels, pad, seqLen, p + 1, r', i', rests', eodFlags, next')
  {
    var b := |streams|;
    var e := Ends(streams);
    assert Fetched(r, i, i') == r' < |streams[i']|;
    PosLess(b, r', i', |streams[i']|, i');
    forall k | 0 <= k < b && k != i'
      ensures p + 1 != e[k]
    {
      EndsAt(streams, p + 1, r', i', k);
    }
    FetchedRests(streams, r, i, r', i', rests, rests');
  }

  /** The next position has fetched one more chunk from slot i' and no more elsewhere. */
  lemma FetchedStep(b: nat, r: nat, i: nat, r': nat, i': nat)
    requires i < b && i' < b
    requires (i + 1 < b ==> r' == r && i' == i + 1) && (i + 1 == b ==> r' == r + 1 && i' == 0)
    ensures forall k :: 0 <= k < b ==> Fetched(r', i', k) == Fetched(r, i, k) + (if k == i' then 1 else 0)
  {
  }

  /** What is left of each stream after a successful fetch from slot i'. */
  lemma FetchedRests(streams: seq<seq<SeqFlag>>, r: nat, i: nat, r': nat, i': nat, rests: seq<seq<SeqFlag>>,
                     rests': seq<seq<SeqFlag>>)
    requires i < |streams| && i' < |streams| && |rests| == |streams|
    requires (i + 1 < |streams| ==> r' == r && i' == i + 1) && (i + 1 == |streams| ==> r' == r + 1 && i' == 0)
    requires forall k :: 0 <= k < |streams| ==> rests[k] == streams[k][Min(Fetched(r, i, k), |streams[k]|)..]
    requires |rests[i']| > 0 && rests' == rests[i' := rests[i'][1..]]
    ensures forall k :: 0 <= k < |streams| ==> rests'[k] == streams[k][Min(Fetched(r', i', k), |streams[k]|)..]
  {
    FetchedStep(|streams|, r, i, r', i');
    var n := Min(Fetched(r, i, i'), |streams[i']|);
    assert n < |streams[i']|;
    assert rests'[i'] == streams[i'][n + 1..];
  }

  /** A fetch that fails: slot i' has run out, and its end flag is set. */
  lemma ExhaustedNext(streams: seq<seq<SeqFlag>>, labels: seq<Option<Token>>, pad: Token, seqLen: int,
                      p: nat, r: nat, i: nat, r': nat, i': nat, rests: seq<seq<SeqFlag>>, eodFlags: seq<int>, next: Item,
                      eodFlags': seq<int>, next': Item)
    requires GroupShape(streams, labels) && RRState(streams, labels, pad, seqLen, p, r, i, rests, eodFlags, next)
    requires i' < |streams| && r' * |streams| + i' == p + 1
    requires (i + 1 < |streams| ==> r' == r && i' == i + 1) && (i + 1 == |streams| ==> r' == r + 1 && i' == 0)
    requires |rests[i']| == 0 && next' == (Pads(pad, seqLen), Int(0), labels[i'])
    requires eodFlags' == eodFlags[i' := 1]
    ensures |eodFlags'| == |streams| && forall k :: 0 <= k < |streams| ==> (eodFlags'[k] != 0 <==> p + 1 >= Ends(streams)[k])
    ensures p + 1 < MaxOf(Ends(streams)) ==> RRState(streams, labels, pad, seqLen, p + 1, r', i', rests, eodFlags', next')
  {
    var b := |streams|;
    var e := Ends(streams);
    assert Fetched(r, i, i') == r' >= |streams[i']|;
    PosAtLeast(b, r', |streams[i']|, i');
    forall k | 0 <= k < b && k != i'
      ensures p + 1 != e[k]
    {
      EndsAt(streams, p + 1, r', i', k);
    }
    FetchedStep(b, r, i, r', i');
  }

  // `batch_transform_docs` over one group: all slots advance together.

  /** One yield of `batch_transform_docs`: `(batch_src, batch_src_len, labels, eod_flag)`. */
  datatype BatchStep = BatchStep(src: seq<seq<Token>>, srcLens: seq<Token>, labels: seq<Option<Token>>, eod: int)

  /** Every slot still has its t-th chunk. */
  predicate HasStep(streams: seq<seq<SeqFlag>>, t: nat) {
    forall k :: 0 <= k < |streams| ==> t < |streams[k]|
  }

  /** The t-th chunk of every slot, and their length flags. */
  function Step(streams: seq<seq<SeqFlag>>, t: nat): (s: (seq<seq<Token>>, seq<Token>))
    requires HasStep(streams, t)
    ensures |s.0| == |s.1| == |streams|
    ensures forall k :: 0 <= k < |streams| ==> s.0[k] == streams[k][t].0 && s.1[k] == streams[k][t].1
  {
    (seq(|streams|, k requires 0 <= k < |streams| => streams[k][t].0),
     seq(|streams|, k requires 0 <= k < |streams| => streams[k][t].1))
  }

  /** Step t as a batch with the group's labels. */
  function StepBatch(streams: seq<seq<SeqFlag>>, labels: seq<Option<Token>>, t: nat, eod: int): BatchStep
    requires HasStep(streams, t)
  {
    var s := Step(streams, t);
    BatchStep(s.0, s.1, labels, eod)
  }

  /** The end test made once step t has been fetched, with t + lag batches counted: the
      fetch failed, the document length limit is reached, or slot 0's chunk is the empty
      last one. */
  predicate StopsAt(streams: seq<seq<SeqFlag>>, seqLen: int, maxDocLen: Option<int>, t: nat, lag: nat)
    requires |streams| >= 1
  {
    !HasStep(streams, t) || (maxDocLen.Some? && (t + lag) * seqLen >= maxDocLen.value) || streams[0][t].1 == Int(0)
  }

  /** The batches yielded from step t - 1 on, each followed by the end test on step t
      with the count running `lag` ahead of t. */
  function Batches(streams: seq<seq<SeqFlag>>, labels: seq<Option<Token>>, seqLen: int, maxDocLen: Option<int>, t: nat, lag: nat)
    : seq<BatchStep>
    requires |streams| >= 1 && t >= 1 && HasStep(streams, t - 1)
    decreases |streams[0]| - t
  {
    if StopsAt(streams, seqLen, maxDocLen, t, lag) then [StepBatch(streams, labels, t - 1, 1)]
    else [StepBatch(streams, labels, t - 1, 0)] + Batches(streams, labels, seqLen, maxDocLen, t + 1, lag)
  }

  /** What the loop of `batch_transform_docs` yields for one group as written: the first
      turn yields step 0 and the second turn yields step 0 again, because `batch_src`
      takes the value `next_batch_src` still holds from the first turn. The count runs one
      ahead of the step fetched. */
  function BatchYieldsAsWritten(streams: seq<seq<SeqFlag>>, labels: seq<Option<Token>>, seqLen: int, maxDocLen: Option<int>)
    : seq<BatchStep>
    requires GroupShape(streams, labels)
  {
    if StopsAt(streams, seqLen, maxDocLen, 0, 1) then [StepBatch(streams, labels, 0, 1)]
    else [StepBatch(streams, labels, 0, 0)] + Batches(streams, labels, seqLen, maxDocLen, 1, 1)
  }

  /** What the loop evidently means to yield: every step once, in order, the count being
      the number of batches yielded so far. */
  function BatchYields(streams: seq<seq<SeqFlag>>, labels: seq<Option<Token>>, seqLen: int, maxDocLen: Option<int>)
    : seq<BatchStep>
    requires GroupShape(streams, labels)
  {
    Batches(streams, labels, seqLen, maxDocLen, 1, 0)
  }

  /** Without a document length limit the count plays no part. */
  lemma {:induction false} BatchesLag(streams: seq<seq<SeqFlag>>, labels: seq<Option<Token>>, seqLen: int, t: nat, lag: nat, lag': nat)
    requires |streams| >= 1 && t >= 1 && HasStep(streams, t - 1)
    ensures Batches(streams, labels, seqLen, None, t, lag) == Batches(streams, labels, seqLen, None, t, lag')
    decreases |streams[0]| - t
  {
    if !StopsAt(streams, seqLen, None, t, lag) {
      BatchesLag(streams, labels, seqLen, t + 1, lag, lag');
    }
  }

  /** As written, a group whose first chunk is not empty has its first batch yielded
      twice: without a length limit the rest is exactly the intended output. */
  lemma AsWrittenRepeatsFirst(streams: seq<seq<SeqFlag>>, labels: seq<Option<Token>>, seqLen: int)
    requires GroupShape(streams, labels) && streams[0][0].1 != Int(0)
    ensures var w := BatchYieldsAsWritten(streams, labels, seqLen, None);
      var c := BatchYields(streams, labels, seqLen, None);
      w == [w[0]] + c && w[0].src == c[0].src && w[0].srcLens == c[0].srcLens && w[0].eod == 0
  {
    BatchesLag(streams, labels, seqLen, 1, 1, 0);
  }

  /** The input that shows it: one document of two full chunks "a" and "b" and an empty
      last chunk; as written "a" is yielded twice. */
  lemma AsWrittenDuplicate(pad: Token)
    ensures var streams := [[([Str("a")], Int(1)), ([Str("b")], Int(1)), ([pad], Int(0))]];
      var w := BatchYieldsAsWritten(streams, [None], 1, None);
      var c := BatchYields(streams, [None], 1, None);
      w == [BatchStep([[Str("a")]], [Int(1)], [None], 0), BatchStep([[Str("a")]], [Int(1)], [None], 0),
            BatchStep([[Str("b")]], [Int(1)], [None], 1)]
      && c == [BatchStep([[Str("a")]], [Int(1)], [None], 0), BatchStep([[Str("b")]], [Int(1)], [None], 1)]
  {
    var streams := [[([Str("a")], Int(1)), ([Str("b")], Int(1)), ([pad], Int(0))]];
    var a := BatchStep([[Str("a")]], [Int(1)], [None], 0);
    var b := BatchStep([[Str("b")]], [Int(1)], [None], 1);
    var s0, s1 := Step(streams, 0), Step(streams, 1);
    assert s0.0[0] == [Str("a")] && s0.1[0] == Int(1) && s1.0[0] == [Str("b")] && s1.1[0] == Int(1);
    assert s0.0 == [[Str("a")]] && s0.1 == [Int(1)];
    assert s1.0 == [[Str("b")]] && s1.1 == [Int(1)];
    assert StopsAt(streams, 1, None, 2, 0) && StopsAt(streams, 1, None, 2, 1);
    assert Batches(streams, [None], 1, None, 2, 0) == [b];
    assert Batches(streams, [None], 1, None, 2, 1) == [b];
  }

  /** The batches from step t - 1 on end at the first step whose end test holds. */
  lemma {:induction false} BatchesEnd(streams: seq<seq<SeqFlag>>, labels: seq<Option<Token>>, seqLen: int, maxDocLen: Option<int>,
                                      t: nat, lag: nat)
    requires |streams| >= 1 && t >= 1 && HasStep(streams, t - 1)
    ensures var out := Batches(streams, labels, seqLen, maxDocLen, t, lag);
      |out| >= 1 && StopsAt(streams, seqLen, maxDocLen, t + |out| - 1, lag)
      && (forall u :: t <= u < t + |out| - 1 ==> !StopsAt(streams, seqLen, maxDocLen, u, lag))
    decreases |streams[0]| - t
  {
    if !StopsAt(streams, seqLen, maxDocLen, t, lag) {
      BatchesEnd(streams, labels, seqLen, maxDocLen, t + 1, lag);
    }
  }

  /** `out` holds the steps from `first` on, consecutive, the end flag on the last only. */
  predicate StepsFrom(streams: seq<seq<SeqFlag>>, labels: seq<Option<Token>>, out: seq<BatchStep>, first: nat) {
    forall m :: 0 <= m < |out| ==> StepAt(streams, labels, out, first, m)
  }

  /** Entry m of `out` is step first + m, with the end flag exactly when it is the last. */
  predicate StepAt(streams: seq<seq<SeqFlag>>, labels: seq<Option<Token>>, out: seq<BatchStep>, first: nat, m: nat)
    requires m < |out|
  {
    HasStep(streams, first + m) && out[m] == StepBatch(streams, labels, first + m, if m == |out| - 1 then 1 else 0)
  }

  /** The batches from step t - 1 on are consecutive steps, each once, the end flag on
      the last only. */
  lemma {:induction false} BatchesSteps(streams: seq<seq<SeqFlag>>, labels: seq<Option<Token>>, seqLen: int, maxDocLen: Option<int>,
                                        t: nat, lag: nat)
    requires |streams| >= 1 && t >= 1 && HasStep(streams, t - 1)
    ensures StepsFrom(streams, labels, Batches(streams, labels, seqLen, maxDocLen, t, lag), t - 1)
    decreases |streams[0]| - t
  {
    var out := Batches(streams, labels, seqLen, maxDocLen, t, lag);
    if !StopsAt(streams, seqLen, maxDocLen, t, lag) {
      BatchesSteps(streams, labels, seqLen, maxDocLen, t + 1, lag);
      var rest := Batches(streams, labels, seqLen, maxDocLen, t + 1, lag);
      StepsFromCons(streams, labels, rest, t - 1);
    } else {
      assert out == [StepBatch(streams, labels, t - 1, 1)];
    }
  }

  /** A step that does not end the group, put before the steps that follow it. */
  lemma StepsFromCons(streams: seq<seq<SeqFlag>>, labels: seq<Option<Token>>, rest: seq<BatchStep>, first: nat)
    requires StepsFrom(streams, labels, rest, first + 1) && |rest| >= 1 && HasStep(streams, first)
    ensures StepsFrom(streams, labels, [StepBatch(streams, labels, first, 0)] + rest, first)
  {
    var out := [StepBatch(streams, labels, first, 0)] + rest;
    forall m | 0 <= m < |out|
      ensures StepAt(streams, labels, out, first, m)
    {
      if m >= 1 {
        var k := m - 1;
        assert StepAt(streams, labels, rest, first + 1, k);
        assert first + 1 + k == first + m && (k == |rest| - 1 <==> m == |out| - 1);
        assert out[m] == rest[k];
      } else {
        assert out[0] == StepBatch(streams, labels, first, 0) && |out| >= 2;
      }
    }
  }

  /** The intended output of a group: batch m holds chunk m of every document with its
      length flag, with the group's labels; only the last batch ends the group, and the
      group ends at the first batch whose end test holds. */
  lemma BatchYieldsSpec(streams: seq<seq<SeqFlag>>, labels: seq<Option<Token>>, seqLen: int, maxDocLen: Option<int>)
    requires GroupShape(streams, labels)
    ensures var out := BatchYields(streams, labels, seqLen, maxDocLen);
      |out| >= 1 && StopsAt(streams, seqLen, maxDocLen, |out|, 0)
      && (forall u :: 1 <= u < |out| ==> !StopsAt(streams, seqLen, maxDocLen, u, 0))
      && forall m :: 0 <= m < |out| ==> (HasStep(streams, m) && |out[m].src| == |out[m].srcLens| == |streams|
        && (forall k :: 0 <= k < |streams| ==> out[m].src[k] == streams[k][m].0 && out[m].srcLens[k] == streams[k][m].1)
        && out[m].labels == labels && out[m].eod == (if m == |out| - 1 then 1 else 0))
  {
    BatchesEnd(streams, labels, seqLen, maxDocLen, 1, 0);
    BatchesSteps(streams, labels, seqLen, maxDocLen, 1, 0);
    var out := BatchYields(streams, labels, seqLen, maxDocLen);
    assert StepsFrom(streams, labels, out, 0);
    forall m | 0 <= m < |out|
      ensures HasStep(streams, m) && |out[m].src| == |out[m].srcLens| == |streams|
      ensures forall k :: 0 <= k < |streams| ==> out[m].src[k] == streams[k][m].0 && out[m].srcLens[k] == streams[k][m].1
      ensures out[m].labels == labels && out[m].eod == (if m == |out| - 1 then 1 else 0)
    {
      var o := out[m];
      assert StepAt(streams, labels, out, 0, m);
      assert HasStep(streams, m);
      assert o == StepBatch(streams, labels, m, if m == |out| - 1 then 1 else 0);
    }
  }

  /** What is left of every slot after its first t chunks have been fetched. */
  predicate Rests(streams: seq<seq<SeqFlag>>, t: nat, rests: seq<seq<SeqFlag>>) {
    |rests| == |streams| && forall k :: 0 <= k < |streams| ==> t <= |streams[k]| && rests[k] == streams[k][t..]
  }

  /** The inner `for seq_iter in seq_iters` loop: the next chunk of every slot, failing at
      the first slot that has run out. */
  method FetchAll(rests: seq<seq<SeqFlag>>) returns (ok: bool, src: seq<seq<Token>>, lens: seq<Token>, rests': seq<seq<SeqFlag>>)
    ensures ok <==> forall k :: 0 <= k < |rests| ==> |rests[k]| > 0
    ensures ok ==> (|src| == |lens| == |rests'| == |rests|
      && forall k :: 0 <= k < |rests| ==> src[k] == rests[k][0].0 && lens[k] == rests[k][0].1 && rests'[k] == rests[k][1..])
  {
    src, lens, rests' := [], [], rests;
    for k := 0 to |rests|
      invariant |src| == |lens| == k && |rests'| == |rests|
      invariant forall j :: 0 <= j < k ==> |rests[j]| > 0 && src[j] == rests[j][0].0 && lens[j] == rests[j][0].1 && rests'[j] == rests[j][1..]
      invariant forall j :: k <= j < |rests| ==> rests'[j] == rests[j]
    {
      if |rests'[k]| == 0 {
        return false, src, lens, rests';
      }
      src := src + [rests'[k][0].0];
      lens := lens + [rests'[k][0].1];
      rests' := rests'[k := rests'[k][1..]];
    }
    ok := true;
  }

  /** Fetching from the rests after t chunks: it succeeds exactly when step t exists, and
      then gives step t and the rests after t + 1 chunks. */
  lemma FetchStep(streams: seq<seq<SeqFlag>>, t: nat, rests: seq<seq<SeqFlag>>, ok: bool, src: seq<seq<Token>>, lens: seq<Token>,
                  rests': seq<seq<SeqFlag>>)
    requires Rests(streams, t, rests)
    requires ok <==> forall k :: 0 <= k < |rests| ==> |rests[k]| > 0
    requires ok ==> (|src| == |lens| == |rests'| == |rests|
      && forall k :: 0 <= k < |rests| ==> src[k] == rests[k][0].0 && lens[k] == rests[k][0].1 && rests'[k] == rests[k][1..])
    ensures ok <==> HasStep(streams, t)
    ensures ok ==> (src, lens) == Step(streams, t) && Rests(streams, t + 1, rests')
  {
    if ok {
      forall k | 0 <= k < |streams|
        ensures rests'[k] == streams[k][t + 1..]
      {
        assert rests[k][1..] == streams[k][t + 1..];
      }
      var s := Step(streams, t);
      assert src == s.0 && lens == s.1;
    }
  }

  /** `batch_transform_docs` for one group, each step yielded once. */
  method BatchGroup(streams: seq<seq<SeqFlag>>, labels: seq<Option<Token>>, seqLen: int, maxDocLen: Option<int>)
    returns (out: seq<BatchStep>)
    requires GroupShape(streams, labels)
    ensures out == BatchYields(streams, labels, seqLen, maxDocLen)
  {
    var ok, src, lens, rests := FetchAll(streams);
    FetchStep(streams, 0, streams, ok, src, lens, rests);
    var count := 0;
    ghost var t: nat := 1;
    out := [];
    while true
      invariant 1 <= t && HasStep(streams, t - 1) && count == t - 1
      invariant Rests(streams, t, rests) && (src, lens) == Step(streams, t - 1)
      invariant out + Batches(streams, labels, seqLen, maxDocLen, t, 0) == BatchYields(streams, labels, seqLen, maxDocLen)
      decreases |streams[0]| - t
    {
      var stop;
      out, stop, src, lens, rests, count, t := BatchRound(streams, labels, seqLen, maxDocLen, out, src, lens, rests, count, t);
      if stop {
        return;
      }
    }
  }

  /** One turn of the `while True` loop of `batch_transform_docs`: fetch the next step,
      then yield the current one, with the end flag if the end test holds. */
  method BatchRound(streams: seq<seq<SeqFlag>>, labels: seq<Option<Token>>, seqLen: int, maxDocLen: Option<int>,
                    out: seq<BatchStep>, src: seq<seq<Token>>, lens: seq<Token>, rests: seq<seq<SeqFlag>>, count: int, ghost t: nat)
    returns (out': seq<BatchStep>, stop: bool, src': seq<seq<Token>>, lens': seq<Token>, rests': seq<seq<SeqFlag>>,
             count': int, ghost t': nat)
    requires GroupShape(streams, labels) && 1 <= t && HasStep(streams, t - 1) && count == t - 1
    requires Rests(streams, t, rests) && (src, lens) == Step(streams, t - 1)
    requires out + Batches(streams, labels, seqLen, maxDocLen, t, 0) == BatchYields(streams, labels, seqLen, maxDocLen)
    ensures stop ==> out' == BatchYields(streams, labels, seqLen, maxDocLen)
    ensures !stop ==> (t' == t + 1 && HasStep(streams, t' - 1) && count' == t' - 1
      && Rests(streams, t', rests') && (src', lens') == Step(streams, t' - 1)
      && out' + Batches(streams, labels, seqLen, maxDocLen, t', 0) == BatchYields(streams, labels, seqLen, maxDocLen))
  {
    var ok;
    ok, src', lens', rests' := FetchAll(rests);
    FetchStep(streams, t, rests, ok, src', lens', rests');
    count' := count + 1;
    t' := t + 1;
    stop := !ok || (maxDocLen.Some? && count' * seqLen >= maxDocLen.value) || lens'[0] == Int(0);
    assert stop == StopsAt(streams, seqLen, maxDocLen, t, 0);
    out' := out + [BatchStep(src, lens, labels, if stop then 1 else 0)];
    assert out'[|out|] == StepBatch(streams, labels, t - 1, if stop then 1 else 0);
    if !stop {
      assert out' + Batches(streams, labels, seqLen, maxDocLen, t', 0) == out + Batches(streams, labels, seqLen, maxDocLen, t, 0);
    }
  }

  // Validation, schema and size estimate.

  /** `_validate`: a sequence length must be set, the first document's type must be
      "word_type" or "id_type", whose pad it gives, and every document must share it. */
  function Validate(t: DocLabelsTransformer, docs: seq<Document>, vocab: Vocab): (r: Result<Token>)
    reads set d | d in docs
    requires |docs| >= 1
    ensures r.Ok? <==> (t.seqLen.Some? && (docs[0].tokenType == "word_type" || docs[0].tokenType == "id_type")
      && forall i :: 0 <= i < |docs| ==> docs[i].tokenType == docs[0].tokenType)
    ensures t.seqLen.None? ==> r == Err(AssertionError)
    ensures t.seqLen.Some? && docs[0].tokenType != "word_type" && docs[0].tokenType != "id_type" ==> r == Err(NotImplementedError)
    ensures r.Err? && t.seqLen.Some? && (docs[0].tokenType == "word_type" || docs[0].tokenType == "id_type") ==> r == Err(AssertionError)
    ensures r.Ok? ==> r.value == if docs[0].tokenType == "word_type" then vocab.pad else vocab.padId
  {
    if t.seqLen.None? then Err(AssertionError)
    else
      var tokenType := docs[0].tokenType;
      var pad := if tokenType == "word_type" then Ok(vocab.pad)
                 else if tokenType == "id_type" then Ok(vocab.padId)
                 else Err(NotImplementedError);
      if pad.Err? then pad
      else if AssertDocsTokenType(tokenType, docs[1..]).Fail? then Err(AssertionError)
      else pad
  }

  /** `get_lists_stats`: the four output fields, the sequence field carrying the documents'
      type; refused when the types differ or are "list_type" (which needs an inner node). */
  function GetListsStats(t: DocLabelsTransformer, docs: seq<Document>): (r: Result<seq<ListStat>>)
    reads set d | d in docs
    requires |docs| >= 1 && t.seqLen.Some?
    ensures r.Ok? <==> docs[0].tokenType != "list_type" && forall i :: 0 <= i < |docs| ==> docs[i].tokenType == docs[0].tokenType
    ensures r.Err? ==> r.error == AssertionError
    ensures r.Ok? ==> |r.value| == 4 && forall i :: 0 <= i < 4 ==> WellFormed(r.value[i]) && r.value[i].sub.None?
    ensures r.Ok? ==> (r.value[0] == ListStat("src", docs[0].tokenType, t.seqLen.value, true, None)
      && r.value[1] == ListStat("src_len", "value_int_type", 1, false, None)
      && r.value[2] == ListStat("label", "id_type", 1, false, None)
      && r.value[3] == ListStat("eod_flag", "value_int_type", 1, false, None))
  {
    var tokenType := docs[0].tokenType;
    if AssertDocsTokenType(tokenType, docs[1..]).Fail? then Err(AssertionError)
    else
      var src := NewListStat("src", tokenType, t.seqLen.value, true, None);
      if src.Err? then Err(src.error)
      else Ok([src.value, ListStat("src_len", "value_int_type", 1, false, None),
               ListStat("label", "id_type", 1, false, None), ListStat("eod_flag", "value_int_type", 1, false, None)])
  }

  /** The "label" label of every document. */
  function DocLabels(docs: seq<Document>): (ls: seq<Option<Token>>)
    reads set d | d in docs
    ensures |ls| == |docs| && forall i :: 0 <= i < |docs| ==> ls[i] == docs[i].GetLabel("label")
  {
    if docs == [] then [] else DocLabels(docs[..|docs| - 1]) + [docs[|docs| - 1].GetLabel("label")]
  }

  /** `estimate_docs_transformed_size`: how many documents carry each label (a missing
      label counts under None). */
  method EstimateDocsTransformedSize(docs: seq<Document>) returns (numDocs: map<Option<Token>, int>)
    ensures forall l :: l in numDocs <==> l in DocLabels(docs)
    ensures forall l :: l in numDocs ==> numDocs[l] == multiset(DocLabels(docs))[l]
  {
    ghost var ls := DocLabels(docs);
    numDocs := map[];
    for i := 0 to |docs|
      invariant forall l :: l in numDocs <==> l in ls[..i]
      invariant forall l :: l in numDocs ==> numDocs[l] == multiset(ls[..i])[l]
    {
      assert ls[..i + 1] == ls[..i] + [ls[i]];
      var docLabel := docs[i].GetLabel("label");
      if docLabel !in numDocs {
        numDocs := numDocs[docLabel := 1];
      } else {
        numDocs := numDocs[docLabel := numDocs[docLabel] + 1];
      }
    }
    assert ls[..|docs|] == ls;
  }

  // The documents of a group, and the whole transformations.

  /** What the transformer reads of a document: whether flag tokens were applied (the
      length-separated segmentation refuses those), its tokens, its type, its "label"
      label and `len(doc)`. */
  datatype DocView = DocView(applied: bool, tokens: Result<seq<Token>>, tokenType: string, docLabel: Option<Token>,
                             len: Result<int>)

  function ViewOf(d: Document): DocView
    reads d
  {
    DocView(d.IsFlagTokenApplied(), d.Iter(), d.tokenType, d.GetLabel("label"), d.CachedLen())
  }

  function Views(docs: seq<Document>): (vs: seq<DocView>)
    reads set d | d in docs
    ensures |vs| == |docs| && forall i :: 0 <= i < |docs| ==> vs[i] == ViewOf(docs[i])
  {
    if docs == [] then [] else Views(docs[..|docs| - 1]) + [ViewOf(docs[|docs| - 1])]
  }

  function Labels(g: seq<DocView>): (ls: seq<Option<Token>>)
    ensures |ls| == |g| && forall k :: 0 <= k < |g| ==> ls[k] == g[k].docLabel
  {
    seq(|g|, k requires 0 <= k < |g| => g[k].docLabel)
  }

  /** The chunk streams of the length-separated sequence documents of a group, each
      padded with its document type's pad; in the order errors occur: creating a sequence
      document from one with flag tokens applied, then reading a document. */
  function Streams(g: seq<DocView>, seqLen: int, vocab: Vocab): (r: Result<seq<seq<SeqFlag>>>)
    requires seqLen >= 1
    ensures r.Ok? <==> forall k :: 0 <= k < |g| ==> !g[k].applied && g[k].tokens.Ok?
    ensures (exists k :: 0 <= k < |g| && g[k].applied) ==> r == Err(AssertionError)
    ensures r.Err? && (forall k :: 0 <= k < |g| ==> !g[k].applied) ==> exists k :: 0 <= k < |g| && g[k].tokens == Err(r.error)
    ensures r.Ok? ==> |r.value| == |g| && forall k :: 0 <= k < |g| ==>
      r.value[k] == Separated(g[k].tokens.value, seqLen, PadFor(g[k].tokenType, vocab.pad, vocab.padId))
      && |r.value[k]| >= 1
  {
    if exists k :: 0 <= k < |g| && g[k].applied then Err(AssertionError) else Read(g, seqLen, vocab)
  }

  /** Reading the documents one after another; the first failure is the result. */
  function Read(g: seq<DocView>, seqLen: int, vocab: Vocab): (r: Result<seq<seq<SeqFlag>>>)
    requires seqLen >= 1
    ensures r.Ok? <==> forall k :: 0 <= k < |g| ==> g[k].tokens.Ok?
    ensures r.Err? ==> exists k :: 0 <= k < |g| && g[k].tokens == Err(r.error)
    ensures r.Ok? ==> |r.value| == |g| && forall k :: 0 <= k < |g| ==>
      r.value[k] == Separated(g[k].tokens.value, seqLen, PadFor(g[k].tokenType, vocab.pad, vocab.padId))
      && |r.value[k]| >= 1
  {
    if g == [] then Ok([])
    else
      var last := g[|g| - 1];
      var init := Read(g[..|g| - 1], seqLen, vocab);
      if init.Err? then init
      else if last.tokens.Err? then Err(last.tokens.error)
      else
        var ts := last.tokens.value;
        SeparatedShape(ts, seqLen, PadFor(last.tokenType, vocab.pad, vocab.padId));
        Ok(init.value + [Separated(ts, seqLen, PadFor(last.tokenType, vocab.pad, vocab.padId))])
  }

  /** What `transform_docs` yields for each group. */
  function RoundRobinOuts(gs: seq<seq<DocView>>, pad: Token, seqLen: int, vocab: Vocab): (rs: seq<Result<seq<SeqStep>>>)
    requires seqLen >= 1 && forall i :: 0 <= i < |gs| ==> |gs[i]| >= 1
    ensures |rs| == |gs|
    ensures forall i :: 0 <= i < |gs| ==> ((rs[i].Ok? <==> Streams(gs[i], seqLen, vocab).Ok?)
      && (rs[i].Ok? ==> rs[i].value == RoundRobin(Streams(gs[i], seqLen, vocab).value, Labels(gs[i]), pad, seqLen)))
  {
    seq(|gs|, i requires 0 <= i < |gs| =>
      var ss := Streams(gs[i], seqLen, vocab);
      if ss.Err? then Err(ss.error) else Ok(RoundRobin(ss.value, Labels(gs[i]), pad, seqLen)))
  }

  /** What `batch_transform_docs` yields for each group. */
  function BatchOuts(gs: seq<seq<DocView>>, seqLen: int, maxDocLen: Option<int>, vocab: Vocab): (rs: seq<Result<seq<BatchStep>>>)
    requires seqLen >= 1 && forall i :: 0 <= i < |gs| ==> |gs[i]| >= 1
    ensures |rs| == |gs|
    ensures forall i :: 0 <= i < |gs| ==> ((rs[i].Ok? <==> Streams(gs[i], seqLen, vocab).Ok?)
      && (rs[i].Ok? ==> rs[i].value == BatchYields(Streams(gs[i], seqLen, vocab).value, Labels(gs[i]), seqLen, maxDocLen)))
  {
    seq(|gs|, i requires 0 <= i < |gs| =>
      var ss := Streams(gs[i], seqLen, vocab);
      if ss.Err? then Err(ss.error) else Ok(BatchYields(ss.value, Labels(gs[i]), seqLen, maxDocLen)))
  }

  /** `transform_docs(doc, *docs)`: validation, then the documents in groups of
      `batch_size` (an incomplete last group is dropped), each group cycled round robin. */
  method TransformDocs(t: DocLabelsTransformer, docs: seq<Document>, vocab: Vocab) returns (r: Result<seq<SeqStep>>)
    requires |docs| >= 1 && (t.seqLen.Some? ==> t.seqLen.value >= 1)
    ensures Validate(t, docs, vocab).Err? ==> r == Err(Validate(t, docs, vocab).error)
    ensures Validate(t, docs, vocab).Ok? ==> t.batchSize >= 1 ==>
      r == Joined(RoundRobinOuts(Batched(t.batchSize, Views(docs)), Validate(t, docs, vocab).value, t.seqLen.value, vocab))
    ensures Validate(t, docs, vocab).Ok? && t.batchSize < 1 ==> r == Ok([])
  {
    var pad := Validate(t, docs, vocab);
    if pad.Err? {
      return Err(pad.error);
    }
    var seqLen := t.seqLen.value;
    var groups := BatchedItemsIter(t.batchSize, Views(docs));
    if t.batchSize < 1 {
      return Ok([]);
    }
    r := TransformGroups(groups, pad.value, seqLen, vocab);
  }

  /** The loop of `transform_docs` over the groups, stopping at the first failure. */
  method TransformGroups(groups: seq<seq<DocView>>, pad: Token, seqLen: int, vocab: Vocab) returns (r: Result<seq<SeqStep>>)
    requires seqLen >= 1 && forall j :: 0 <= j < |groups| ==> |groups[j]| >= 1
    ensures r == Joined(RoundRobinOuts(groups, pad, seqLen, vocab))
  {
    ghost var rs := RoundRobinOuts(groups, pad, seqLen, vocab);
    var out := [];
    for i := 0 to |groups|
      invariant Joined(rs[..i]) == Ok(out)
    {
      var next := TransformDocsRound(groups, i, out, pad, seqLen, vocab, rs);
      if next.Err? {
        JoinedErrStays(rs, i + 1);
        return next;
      }
      out := next.value;
    }
    assert rs[..|groups|] == rs;
    r := Ok(out);
  }

  /** One group of `transform_docs`. */
  method TransformDocsRound(groups: seq<seq<DocView>>, i: nat, out: seq<SeqStep>, pad: Token, seqLen: int, vocab: Vocab,
                            ghost rs: seq<Result<seq<SeqStep>>>)
    returns (r: Result<seq<SeqStep>>)
    requires seqLen >= 1 && (forall j :: 0 <= j < |groups| ==> |groups[j]| >= 1) && i < |groups|
    requires rs == RoundRobinOuts(groups, pad, seqLen, vocab) && Joined(rs[..i]) == Ok(out)
    ensures r == Joined(rs[..i + 1])
  {
    JoinedSnoc(rs, i);
    var ss := Streams(groups[i], seqLen, vocab);
    if ss.Err? {
      return Err(ss.error);
    }
    var items := TransformGroup(ss.value, Labels(groups[i]), pad, seqLen);
    r := Ok(out + items);
  }

  /** `len(doc)` of every document, paired with it; the first failure is the result. */
  function WithLens(vs: seq<DocView>): (r: Result<seq<(DocView, int)>>)
    ensures r.Ok? <==> forall k :: 0 <= k < |vs| ==> vs[k].len.Ok?
    ensures r.Err? ==> exists k :: 0 <= k < |vs| && vs[k].len == Err(r.error)
    ensures r.Ok? ==> |r.value| == |vs| && forall k :: 0 <= k < |vs| ==> r.value[k] == (vs[k], vs[k].len.value)
  {
    if vs == [] then Ok([])
    else
      var init := WithLens(vs[..|vs| - 1]);
      var last := vs[|vs| - 1];
      if init.Err? then init
      else if last.len.Err? then Err(last.len.error)
      else Ok(init.value + [(last, last.len.value)])
  }

  /** The documents of each group. */
  function Members(groups: seq<(seq<DocView>, seq<int>)>): (gs: seq<seq<DocView>>)
    ensures |gs| == |groups| && forall i :: 0 <= i < |groups| ==> gs[i] == groups[i].0
  {
    seq(|groups|, i requires 0 <= i < |groups| => groups[i].0)
  }

  /** `batch_transform_docs(doc, *docs)`: validation, then the documents sorted by length
      and grouped by `batch_docs_by_len`, each group advanced in step; `groups` is the
      grouping. */
  method BatchTransformDocs(t: DocLabelsTransformer, docs: seq<Document>, vocab: Vocab)
    returns (r: Result<seq<BatchStep>>, ghost groups: seq<(seq<DocView>, seq<int>)>)
    requires |docs| >= 1 && (t.seqLen.Some? ==> t.seqLen.value >= 1)
    ensures Validate(t, docs, vocab).Err? ==> r == Err(Validate(t, docs, vocab).error)
    ensures Validate(t, docs, vocab).Ok? ==> BatchedByLen(t, Views(docs), vocab, r, groups)
  {
    var pad := Validate(t, docs, vocab);
    if pad.Err? {
      return Err(pad.error), [];
    }
    r, groups := BatchViews(t, Views(docs), vocab);
  }

  /** The result of `batch_transform_docs` on valid documents: the first failing
      `len(doc)`, or the output of every group of the length grouping. */
  ghost predicate BatchedByLen(t: DocLabelsTransformer, vs: seq<DocView>, vocab: Vocab, r: Result<seq<BatchStep>>,
                               groups: seq<(seq<DocView>, seq<int>)>)
    requires t.seqLen.Some? && t.seqLen.value >= 1
  {
    (WithLens(vs).Err? ==> r == Err(WithLens(vs).error))
    && (WithLens(vs).Ok? ==>
      (exists n :: Grouped(groups, t.batchSize, t.seqLen.value, SortByLen(WithLens(vs).value), n))
      && (forall i :: 0 <= i < |groups| ==> |groups[i].0| >= 1)
      && r == Joined(BatchOuts(Members(groups), t.seqLen.value, t.maxDocLen, vocab)))
  }

  /** `batch_transform_docs` once validation has passed. */
  method BatchViews(t: DocLabelsTransformer, vs: seq<DocView>, vocab: Vocab)
    returns (r: Result<seq<BatchStep>>, ghost groups: seq<(seq<DocView>, seq<int>)>)
    requires t.seqLen.Some? && t.seqLen.value >= 1
    ensures BatchedByLen(t, vs, vocab, r, groups)
  {
    var seqLen := t.seqLen.value;
    var pairs := WithLens(vs);
    if pairs.Err? {
      return Err(pairs.error), [];
    }
    var bs := GroupByLen(t.batchSize, seqLen, pairs.value);
    groups := bs;
    r := BatchGroups(Members(bs), seqLen, t.maxDocLen, vocab);
  }

  /** `batch_docs_by_len`, whose groups are never empty. */
  method GroupByLen(batchSize: int, seqLen: int, pairs: seq<(DocView, int)>) returns (bs: seq<(seq<DocView>, seq<int>)>)
    requires seqLen >= 1
    ensures exists n :: Grouped(bs, batchSize, seqLen, SortByLen(pairs), n)
    ensures forall i :: 0 <= i < |bs| ==> |bs[i].0| >= 1
  {
    var batches := BatchDocsByLen(batchSize, seqLen, pairs);
    bs := batches.value;
    ghost var n :| Grouped(bs, batchSize, seqLen, SortByLen(pairs), n);
    assert AllGood(bs, batchSize, seqLen);
    assert forall i :: 0 <= i < |bs| ==> GoodGroup(bs[i], batchSize, seqLen);
  }

  /** The `for batched_docs, lens in ...` loop of `batch_transform_docs`. */
  method BatchGroups(groups: seq<seq<DocView>>, seqLen: int, maxDocLen: Option<int>, vocab: Vocab) returns (r: Result<seq<BatchStep>>)
    requires seqLen >= 1 && forall j :: 0 <= j < |groups| ==> |groups[j]| >= 1
    ensures r == Joined(BatchOuts(groups, seqLen, maxDocLen, vocab))
  {
    ghost var rs := BatchOuts(groups, seqLen, maxDocLen, vocab);
    var out := [];
    for i := 0 to |groups|
      invariant Joined(rs[..i]) == Ok(out)
    {
      var next := BatchTransformDocsRound(groups, i, out, seqLen, maxDocLen, vocab, rs);
      if next.Err? {
        JoinedErrStays(rs, i + 1);
        return next;
      }
      out := next.value;
    }
    assert rs[..|groups|] == rs;
    r := Ok(out);
  }

  /** One group of `batch_transform_docs`. */
  method BatchTransformDocsRound(groups: seq<seq<DocView>>, i: nat, out: seq<BatchStep>, seqLen: int, maxDocLen: Option<int>,
                                 vocab: Vocab, ghost rs: seq<Result<seq<BatchStep>>>)
    returns (r: Result<seq<BatchStep>>)
    requires seqLen >= 1 && (forall j :: 0 <= j < |groups| ==> |groups[j]| >= 1) && i < |groups|
    requires rs == BatchOuts(groups, seqLen, maxDocLen, vocab) && Joined(rs[..i]) == Ok(out)
    ensures r == Joined(rs[..i + 1])
  {
    JoinedSnoc(rs, i);
    var ss := Streams(groups[i], seqLen, vocab);
    if ss.Err? {
      return Err(ss.error);
    }
    var items := BatchGroup(ss.value, Labels(groups[i]), seqLen, maxDocLen);
    r := Ok(out + items);
  }
}

=== FILE: seqdoc.dfy ===
/** seq.py: a SeqDocument cuts the token stream of a Document, which it locks, into
    (sequence, flag) pairs with one of three segmenters, then runs the pairs through the
    stages appended to it: merging, flag replacement and flag transformation. */
module SeqDocs {
  import opened Wrappers
  import opened Arith
  import opened Tokens
  import opened ContextWindow
  import opened Dispatch
  import opened Documents

  /** A (sequence, flag) pair. */
  type SeqFlag = (seq<Token>, Token)

  /** The sequences of a stream of pairs, concatenated. */
  function Flatten(ps: seq<SeqFlag>): seq<Token> {
    if ps == [] then [] else Flatten(ps[..|ps| - 1]) + ps[|ps| - 1].0
  }

  /** The flags of a stream of pairs. */
  function Labels(ps: seq<SeqFlag>): (r: seq<Token>)
    ensures |r| == |ps| && forall i :: 0 <= i < |ps| ==> r[i] == ps[i].1
  {
    seq(|ps|, i requires 0 <= i < |ps| => ps[i].1)
  }

  lemma FlattenCons(p: SeqFlag, ps: seq<SeqFlag>)
    ensures Flatten([p] + ps) == p.0 + Flatten(ps)
    decreases |ps|
  {
    if ps != [] {
      var init := ps[..|ps| - 1];
      assert ([p] + ps)[..|ps|] == [p] + init;
      FlattenCons(p, init);
    } else {
      assert Flatten([p] + ps) == Flatten([]) + p.0;
    }
  }

  lemma LabelsCons(p: SeqFlag, ps: seq<SeqFlag>)
    ensures Labels([p] + ps) == [p.1] + Labels(ps)
  {
    var qs := [p] + ps;
    var l, r := Labels(qs), [p.1] + Labels(ps);
    forall i | 0 <= i < |l|
      ensures l[i] == r[i]
    {
      if i > 0 {
        assert qs[i] == ps[i - 1];
      }
    }
    assert l == r;
  }

  lemma FlattenSnoc(ps: seq<SeqFlag>, p: SeqFlag)
    ensures Flatten(ps + [p]) == Flatten(ps) + p.0
  {
    assert (ps + [p])[..|ps|] == ps;
  }

  /** The windows of `create_len_slided_seq_doc`: every run of `fixedLen` consecutive
      tokens, flagged with `fixedLen`; none when the stream is shorter. A non-positive
      `fixedLen` gathers nothing and yields one empty window before its `pop` fails. */
  function Slided(ts: seq<Token>, fixedLen: int): seq<SeqFlag> {
    if fixedLen <= 0 then [([], Int(fixedLen))]
    else if |ts| < fixedLen then []
    else seq(|ts| - fixedLen + 1, i requires 0 <= i < |ts| - fixedLen + 1 => (ts[i..i + fixedLen], Int(fixedLen)))
  }

  /** The slide: the first window is the first `fixedLen` tokens, each next window drops
      the oldest token and takes the next one, and the last window ends the stream. */
  lemma SlidedShifts(ts: seq<Token>, fixedLen: int)
    requires 0 < fixedLen <= |ts|
    ensures var r := Slided(ts, fixedLen);
      |r| == |ts| - fixedLen + 1
      && r[0].0 == ts[..fixedLen]
      && r[|r| - 1].0 == ts[|ts| - fixedLen..]
      && forall i :: 0 <= i < |r| - 1 ==> r[i + 1].0 == r[i].0[1..] + [ts[i + fixedLen]]
  {
    var r := Slided(ts, fixedLen);
    forall i | 0 <= i < |r| - 1
      ensures r[i + 1].0 == r[i].0[1..] + [ts[i + fixedLen]]
    {
      assert ts[i + 1..i + 1 + fixedLen] == ts[i..i + fixedLen][1..] + [ts[i + fixedLen]];
    }
  }

  lemma SlideStep(ts: seq<Token>, j: nat, w: nat)
    requires 1 <= w && j + w < |ts|
    ensures ts[j..j + w][1..] + [ts[j + w]] == ts[j + 1..j + 1 + w]
  {
  }

  /** `for _ in range(n): seq_list.append(next(token_iter))` on a fresh list: stops
      early, reporting it, when the stream ends first. */
  method Gather(src: TokenStream<Token>, n: int) returns (seqList: seq<Token>, stopped: bool)
    modifies src
    ensures stopped <==> n > |old(src.rest)|
    ensures stopped ==> seqList == old(src.rest) && src.rest == []
    ensures !stopped ==> var k := if n > 0 then n else 0;
      seqList == old(src.rest)[..k] && src.rest == old(src.rest)[k..]
  {
    ghost var before := src.rest;
    seqList := [];
    stopped := false;
    var k := 0;
    while k < n
      invariant 0 <= k <= |before| && (n > 0 ==> k <= n) && (n <= 0 ==> k == 0)
      invariant seqList == before[..k] && src.rest == before[k..]
    {
      var t := src.Next();
      if t.None? {
        stopped := true;
        return;
      }
      seqList := seqList + [t.value];
      k := k + 1;
    }
  }

  /** `fixed_len_gen` of `create_len_slided_seq_doc`: a window buffer that pops its
      oldest token and appends the next one. */
  method SlidedSegments(ts: seq<Token>, fixedLen: int) returns (out: seq<SeqFlag>)
    ensures out == Slided(ts, fixedLen)
  {
    var src := new TokenStream<Token>(ts);
    out := [];
    ghost var w := if fixedLen > 0 then fixedLen else 0;
    var seqList, stopped := Gather(src, fixedLen);
    if stopped {
      return;
    }
    ghost var j := 0;
    while true
      invariant j + w <= |ts| && seqList == ts[j..j + w] && src.rest == ts[j + w..]
      invariant |out| == j && forall i :: 0 <= i < j ==> out[i] == (ts[i..i + w], Int(fixedLen))
      invariant w == 0 ==> j == 0
      decreases |src.rest|
    {
      out := out + [(seqList, Int(fixedLen))];
      if seqList == [] {
        break;
      }
      seqList := seqList[1..];
      var t := src.Next();
      if t.None? {
        break;
      }
      SlideStep(ts, j, w);
      seqList := seqList + [t.value];
      j := j + 1;
    }
  }

  /** `[pad] * n`: empty for a non-positive n. */
  function Pads(pad: Token, n: int): (r: seq<Token>)
    ensures |r| == (if n > 0 then n else 0) && forall i :: 0 <= i < |r| ==> r[i] == pad
  {
    if n <= 0 then [] else [pad] + Pads(pad, n - 1)
  }

  /** The chunks of `create_len_separated_seq_doc`: consecutive chunks of `fixedLen`
      tokens flagged `fixedLen`, then always one last chunk with the remaining tokens,
      padded to `fixedLen` and flagged with their number. */
  function Separated(ts: seq<Token>, fixedLen: int, pad: Token): seq<SeqFlag>
    requires fixedLen >= 1
    decreases |ts|
  {
    if |ts| >= fixedLen then [(ts[..fixedLen], Int(fixedLen))] + Separated(ts[fixedLen..], fixedLen, pad)
    else [(ts + Pads(pad, fixedLen - |ts|), Int(|ts|))]
  }

  lemma AppendAssoc(a: seq<Token>, b: seq<Token>, c: seq<Token>)
    ensures a + (b + c) == (a + b) + c
  {
  }

  /** N tokens give N / L full chunks flagged L and one last chunk flagged N % L, all of
      length L; when L divides N the last chunk is flagged 0. */
  lemma {:induction false} SeparatedShape(ts: seq<Token>, fixedLen: int, pad: Token)
    requires fixedLen >= 1
    ensures var r := Separated(ts, fixedLen, pad);
      |r| == |ts| / fixedLen + 1
      && (forall i :: 0 <= i < |r| ==> |r[i].0| == fixedLen)
      && (forall i :: 0 <= i < |r| - 1 ==> r[i].1 == Int(fixedLen))
      && r[|r| - 1].1 == Int(|ts| % fixedLen)
    decreases |ts|
  {
    var r := Separated(ts, fixedLen, pad);
    if |ts| >= fixedLen {
      var rest := ts[fixedLen..];
      SeparatedShape(rest, fixedLen, pad);
      DivModStep(|ts|, fixedLen);
      var tail := Separated(rest, fixedLen, pad);
      assert r == [(ts[..fixedLen], Int(fixedLen))] + tail;
      assert forall i :: 1 <= i < |r| ==> r[i] == tail[i - 1];
    } else {
      DivModUnique(|ts|, fixedLen, 0, |ts|);
    }
  }

  /** The chunks together are the tokens followed by the padding of the last chunk. */
  lemma {:induction false} SeparatedTokens(ts: seq<Token>, fixedLen: int, pad: Token)
    requires fixedLen >= 1
    ensures Flatten(Separated(ts, fixedLen, pad)) == ts + Pads(pad, fixedLen - |ts| % fixedLen)
    decreases |ts|
  {
    var r := Separated(ts, fixedLen, pad);
    if |ts| >= fixedLen {
      var rest := ts[fixedLen..];
      SeparatedTokens(rest, fixedLen, pad);
      DivModStep(|ts|, fixedLen);
      var head := (ts[..fixedLen], Int(fixedLen));
      var tail := Separated(rest, fixedLen, pad);
      var padding := Pads(pad, fixedLen - |ts| % fixedLen);
      assert r == [head] + tail;
      FlattenCons(head, tail);
      assert Flatten(tail) == rest + padding;
      AppendAssoc(ts[..fixedLen], rest, padding);
      assert ts == ts[..fixedLen] + rest;
    } else {
      DivModUnique(|ts|, fixedLen, 0, |ts|);
      FlattenCons(r[0], []);
    }
  }

  lemma SeparatedFull(ts: seq<Token>, fixedLen: int, pad: Token)
    requires 1 <= fixedLen <= |ts|
    ensures Separated(ts, fixedLen, pad) == [(ts[..fixedLen], Int(fixedLen))] + Separated(ts[fixedLen..], fixedLen, pad)
  {
  }

  lemma SeparatedLast(ts: seq<Token>, fixedLen: int, pad: Token)
    requires 1 <= fixedLen && |ts| < fixedLen
    ensures Separated(ts, fixedLen, pad) == [(ts + Pads(pad, fixedLen - |ts|), Int(|ts|))]
  {
  }

  lemma SeparatedAppend(out: seq<SeqFlag>, p: SeqFlag, rest: seq<SeqFlag>)
    ensures out + ([p] + rest) == (out + [p]) + rest
  {
  }

  /** `fixed_len_gen` of `create_len_separated_seq_doc`. */
  method SeparatedSegments(ts: seq<Token>, fixedLen: int, pad: Token) returns (out: seq<SeqFlag>)
    requires fixedLen >= 1
    ensures out == Separated(ts, fixedLen, pad)
  {
    var src := new TokenStream<Token>(ts);
    out := [];
    var seqList: seq<Token> := [];
    while true
      invariant Separated(ts, fixedLen, pad) == out + Separated(src.rest, fixedLen, pad)
      decreases |src.rest|
    {
      var stopped;
      out, seqList, stopped := NextChunk(src, fixedLen, pad, out);
      if stopped {
        break;
      }
    }
    out := out + [(seqList + Pads(pad, fixedLen - |seqList|), Int(|seqList|))];
  }

  /** One pass of the loop of `fixed_len_gen`: a full chunk is appended, or the
      stream is used up and what it held is the last, short chunk. */
  method NextChunk(src: TokenStream<Token>, fixedLen: int, pad: Token, out: seq<SeqFlag>)
    returns (out': seq<SeqFlag>, seqList: seq<Token>, stopped: bool)
    requires fixedLen >= 1
    modifies src
    ensures !stopped ==> |src.rest| < |old(src.rest)|
    ensures !stopped ==> out + Separated(old(src.rest), fixedLen, pad) == out' + Separated(src.rest, fixedLen, pad)
    ensures stopped ==> out' == out
    ensures stopped ==> Separated(old(src.rest), fixedLen, pad) == [(seqList + Pads(pad, fixedLen - |seqList|), Int(|seqList|))]
  {
    ghost var before := src.rest;
    seqList, stopped := Gather(src, fixedLen);
    out' := out;
    if stopped {
      SeparatedLast(before, fixedLen, pad);
      return;
    }
    SeparatedFull(before, fixedLen, pad);
    SeparatedAppend(out, (seqList, Int(fixedLen)), Separated(src.rest, fixedLen, pad));
    out' := out + [(seqList, Int(fixedLen))];
  }

  /** The pairs of `create_flag_separated_seq_doc`: the tokens gathered since the last
      flag, yielded with each flag token; then what is left, flagged "<final>", if
      anything is left. */
  function FlagSplit(ts: seq<Token>, flags: seq<Token>, acc: seq<Token>): seq<SeqFlag>
    decreases |ts|
  {
    if ts == [] then (if acc != [] then [(acc, Str("<final>"))] else [])
    else if ts[0] in flags then [(acc, ts[0])] + FlagSplit(ts[1..], flags, [])
    else FlagSplit(ts[1..], flags, acc + [ts[0]])
  }

  /** The non-flag tokens, in order. */
  function NonFlags(ts: seq<Token>, flags: seq<Token>): seq<Token> {
    if ts == [] then [] else (if ts[0] in flags then [] else [ts[0]]) + NonFlags(ts[1..], flags)
  }

  /** The flag tokens, in order. */
  function FlagsOf(ts: seq<Token>, flags: seq<Token>): seq<Token> {
    if ts == [] then [] else (if ts[0] in flags then [ts[0]] else []) + FlagsOf(ts[1..], flags)
  }

  /** The tokens gathered after the last flag. */
  function Trailing(ts: seq<Token>, flags: seq<Token>, acc: seq<Token>): seq<Token>
    decreases |ts|
  {
    if ts == [] then acc
    else if ts[0] in flags then Trailing(ts[1..], flags, [])
    else Trailing(ts[1..], flags, acc + [ts[0]])
  }

  /** One pair per flag token, carrying it, and a "<final>" pair exactly when tokens are
      left after the last flag. */
  lemma {:induction false} FlagSplitLabels(ts: seq<Token>, flags: seq<Token>, acc: seq<Token>)
    ensures Labels(FlagSplit(ts, flags, acc))
      == FlagsOf(ts, flags) + (if Trailing(ts, flags, acc) != [] then [Str("<final>")] else [])
    decreases |ts|
  {
    if ts == [] {
      if acc != [] {
        LabelsCons((acc, Str("<final>")), []);
      }
    } else if ts[0] in flags {
      var tail := FlagSplit(ts[1..], flags, []);
      FlagSplitLabels(ts[1..], flags, []);
      LabelsCons((acc, ts[0]), tail);
    } else {
      FlagSplitLabels(ts[1..], flags, acc + [ts[0]]);
    }
  }

  /** The sequences together are the non-flag tokens, in order. */
  lemma {:induction false} FlagSplitTokens(ts: seq<Token>, flags: seq<Token>, acc: seq<Token>)
    ensures Flatten(FlagSplit(ts, flags, acc)) == acc + NonFlags(ts, flags)
    decreases |ts|
  {
    if ts == [] {
      if acc != [] {
        FlattenCons((acc, Str("<final>")), []);
      }
    } else if ts[0] in flags {
      FlagSplitTokens(ts[1..], flags, []);
      FlattenCons((acc, ts[0]), FlagSplit(ts[1..], flags, []));
    } else {
      FlagSplitTokens(ts[1..], flags, acc + [ts[0]]);
    }
  }

  /** `flag_gen` of `create_flag_separated_seq_doc`. */
  method FlagSegments(ts: seq<Token>, flags: seq<Token>) returns (out: seq<SeqFlag>)
    ensures out == FlagSplit(ts, flags, [])
  {
    var src := new TokenStream<Token>(ts);
    out := [];
    var seqList: seq<Token> := [];
    while true
      invariant FlagSplit(ts, flags, []) == out + FlagSplit(src.rest, flags, seqList)
      decreases |src.rest|
    {
      var item := src.Next();
      if item.None? {
        break;
      }
      if item.value in flags {
        out := out + [(seqList, item.value)];
        seqList := [];
      } else {
        seqList := seqList + [item.value];
      }
    }
    if |seqList| > 0 {
      out := out + [(seqList, Str("<final>"))];
    }
  }

  /** `merge_seq_gen`: sequences accumulate, and the accumulation is yielded with each
      flag of `flagTokens`; what follows the last such flag is dropped. */
  function Merged(ps: seq<SeqFlag>, flagTokens: seq<Token>, acc: seq<Token>): seq<SeqFlag>
    decreases |ps|
  {
    if ps == [] then []
    else
      var a := acc + ps[0].0;
      if ps[0].1 in flagTokens then [(a, ps[0].1)] + Merged(ps[1..], flagTokens, [])
      else Merged(ps[1..], flagTokens, a)
  }

  /** The flags of a stream that are in `flagTokens`, in order. */
  function LabelsIn(ps: seq<SeqFlag>, flagTokens: seq<Token>): seq<Token> {
    if ps == [] then [] else (if ps[0].1 in flagTokens then [ps[0].1] else []) + LabelsIn(ps[1..], flagTokens)
  }

  /** The accumulation left when the stream ends. */
  function Pending(ps: seq<SeqFlag>, flagTokens: seq<Token>, acc: seq<Token>): seq<Token>
    decreases |ps|
  {
    if ps == [] then acc
    else
      var a := acc + ps[0].0;
      if ps[0].1 in flagTokens then Pending(ps[1..], flagTokens, []) else Pending(ps[1..], flagTokens, a)
  }

  /** Merging yields one pair per flag in `flagTokens`, carrying it. */
  lemma {:induction false} MergedLabels(ps: seq<SeqFlag>, flagTokens: seq<Token>, acc: seq<Token>)
    ensures Labels(Merged(ps, flagTokens, acc)) == LabelsIn(ps, flagTokens)
    decreases |ps|
  {
    if ps != [] {
      var a := acc + ps[0].0;
      if ps[0].1 in flagTokens {
        var tail := Merged(ps[1..], flagTokens, []);
        MergedLabels(ps[1..], flagTokens, []);
        assert Labels([(a, ps[0].1)] + tail) == [ps[0].1] + Labels(tail);
      } else {
        MergedLabels(ps[1..], flagTokens, a);
      }
    }
  }

  /** The merged sequences followed by the dropped tail are all the sequences in order. */
  lemma {:induction false} MergedTokens(ps: seq<SeqFlag>, flagTokens: seq<Token>, acc: seq<Token>)
    ensures Flatten(Merged(ps, flagTokens, acc)) + Pending(ps, flagTokens, acc) == acc + Flatten(ps)
    decreases |ps|
  {
    if ps != [] {
      var a := acc + ps[0].0;
      FlattenCons(ps[0], ps[1..]);
      assert [ps[0]] + ps[1..] == ps;
      if ps[0].1 in flagTokens {
        var tail := Merged(ps[1..], flagTokens, []);
        MergedTokens(ps[1..], flagTokens, []);
        FlattenCons((a, ps[0].1), tail);
        calc {
          Flatten(Merged(ps, flagTokens, acc)) + Pending(ps, flagTokens, acc);
          (a + Flatten(tail)) + Pending(ps[1..], flagTokens, []);
          a + (Flatten(tail) + Pending(ps[1..], flagTokens, []));
          a + Flatten(ps[1..]);
        }
      } else {
        MergedTokens(ps[1..], flagTokens, a);
      }
    }
  }

  /** `merge_seq_gen` as the loop it is. */
  method MergeSeqGen(ps: seq<SeqFlag>, flagTokens: seq<Token>) returns (out: seq<SeqFlag>)
    ensures out == Merged(ps, flagTokens, [])
  {
    out := [];
    var cumuSeq: seq<Token> := [];
    for i := 0 to |ps|
      invariant Merged(ps, flagTokens, []) == out + Merged(ps[i..], flagTokens, cumuSeq)
    {
      assert ps[i..][1..] == ps[i + 1..];
      cumuSeq := cumuSeq + ps[i].0;
      if ps[i].1 in flagTokens {
        out := out + [(cumuSeq, ps[i].1)];
        cumuSeq := [];
      }
    }
  }

  /** `replaced_flag_gen`: the sequences zipped with a fresh run of the new flags. */
  function Replaced(ps: seq<SeqFlag>, newFlags: seq<Token>): seq<SeqFlag> {
    var n := if |ps| < |newFlags| then |ps| else |newFlags|;
    seq(n, i requires 0 <= i < n => (ps[i].0, newFlags[i]))
  }

  /** Replacement keeps the sequences and takes the new flags, position by position, as
      far as the shorter stream goes. */
  lemma ReplacedSpec(ps: seq<SeqFlag>, newFlags: seq<Token>)
    ensures var r := Replaced(ps, newFlags);
      var n := if |ps| < |newFlags| then |ps| else |newFlags|;
      |r| == n && Labels(r) == newFlags[..n]
      && forall i :: 0 <= i < n ==> r[i].0 == ps[i].0
  {
  }

  method ReplacedFlagGen(ps: seq<SeqFlag>, newFlags: seq<Token>) returns (out: seq<SeqFlag>)
    ensures out == Replaced(ps, newFlags)
  {
    out := [];
    var i := 0;
    while i < |ps| && i < |newFlags|
      invariant 0 <= i <= |ps| && i <= |newFlags|
      invariant out == Replaced(ps[..i], newFlags[..i])
    {
      out := out + [(ps[i].0, newFlags[i])];
      i := i + 1;
    }
    assert out == Replaced(ps, newFlags);
  }

  /** The number of consecutive equal labels ending at position i. */
  function RunLen(ls: seq<Token>, i: nat): (n: nat)
    requires i < |ls|
    ensures 1 <= n <= i + 1
  {
    if i > 0 && ls[i - 1] == ls[i] then RunLen(ls, i - 1) + 1 else 1
  }

  /** `m` maps each label seen in `ls[..n]` to its longest run there. */
  ghost predicate LongestRuns(m: map<Token, int>, ls: seq<Token>, n: nat)
    requires n <= |ls|
  {
    RunsDomain(m, ls, n) && RunsWitnessed(m, ls, n) && RunsBounded(m, ls, n)
  }

  ghost predicate RunsDomain(m: map<Token, int>, ls: seq<Token>, n: nat)
    requires n <= |ls|
  {
    forall l :: l in m <==> exists i :: 0 <= i < n && ls[i] == l
  }

  ghost predicate RunsWitnessed(m: map<Token, int>, ls: seq<Token>, n: nat)
    requires n <= |ls|
  {
    forall l :: l in m ==> exists i :: 0 <= i < n && ls[i] == l && RunLen(ls, i) == m[l]
  }

  ghost predicate RunsBounded(m: map<Token, int>, ls: seq<Token>, n: nat)
    requires n <= |ls|
  {
    forall l, i :: l in m && 0 <= i < n && ls[i] == l ==> RunLen(ls, i) <= m[l]
  }

  /** `m` maps each label to its longest sequence, for labels with a non-empty one. */
  ghost predicate LongestSeqs(m: map<Token, int>, ps: seq<SeqFlag>)
  {
    SeqsDomain(m, ps) && SeqsWitnessed(m, ps) && SeqsBounded(m, ps)
  }

  ghost predicate SeqsDomain(m: map<Token, int>, ps: seq<SeqFlag>) {
    forall l :: l in m <==> exists i :: 0 <= i < |ps| && ps[i].1 == l && |ps[i].0| > 0
  }

  ghost predicate SeqsWitnessed(m: map<Token, int>, ps: seq<SeqFlag>) {
    forall l :: l in m ==> exists i :: 0 <= i < |ps| && ps[i].1 == l && |ps[i].0| == m[l]
  }

  ghost predicate SeqsBounded(m: map<Token, int>, ps: seq<SeqFlag>) {
    forall l, i :: l in m && 0 <= i < |ps| && ps[i].1 == l ==> |ps[i].0| <= m[l]
  }

  /** `dict.get(key, 0)`. */
  function GetOrZero(m: map<Token, int>, k: Token): int {
    if k in m then m[k] else 0
  }

  /** The map after the `max_length` update for pair p. */
  function LengthUpdate(m: map<Token, int>, p: SeqFlag): map<Token, int> {
    if |p.0| > GetOrZero(m, p.1) then m[p.1 := |p.0|] else m
  }

  lemma SeqsDomainSnoc(m: map<Token, int>, ps: seq<SeqFlag>, p: SeqFlag)
    requires SeqsDomain(m, ps) && SeqsBounded(m, ps)
    ensures SeqsDomain(LengthUpdate(m, p), ps + [p])
  {
    var qs := ps + [p];
    assert forall i :: 0 <= i < |ps| ==> qs[i] == ps[i];
    assert qs[|ps|] == p;
  }

  lemma SeqsWitnessedSnoc(m: map<Token, int>, ps: seq<SeqFlag>, p: SeqFlag)
    requires SeqsWitnessed(m, ps)
    ensures SeqsWitnessed(LengthUpdate(m, p), ps + [p])
  {
    var qs := ps + [p];
    var m' := LengthUpdate(m, p);
    forall l | l in m'
      ensures exists i :: 0 <= i < |qs| && qs[i].1 == l && |qs[i].0| == m'[l]
    {
      if l == p.1 && |p.0| > GetOrZero(m, p.1) {
        assert qs[|ps|].1 == l;
      } else {
        var i :| 0 <= i < |ps| && ps[i].1 == l && |ps[i].0| == m[l];
        assert qs[i] == ps[i];
      }
    }
  }

  lemma SeqsBoundedSnoc(m: map<Token, int>, ps: seq<SeqFlag>, p: SeqFlag)
    requires SeqsDomain(m, ps) && SeqsBounded(m, ps)
    ensures SeqsBounded(LengthUpdate(m, p), ps + [p])
  {
    var qs := ps + [p];
    assert forall i :: 0 <= i < |ps| ==> qs[i] == ps[i];
  }

  lemma LongestSeqsSnoc(m: map<Token, int>, ps: seq<SeqFlag>, p: SeqFlag)
    requires LongestSeqs(m, ps)
    ensures LongestSeqs(LengthUpdate(m, p), ps + [p])
  {
    SeqsDomainSnoc(m, ps, p);
    SeqsWitnessedSnoc(m, ps, p);
    SeqsBoundedSnoc(m, ps, p);
  }

  /** After the run ending at n - 1 closes, the map records it. */
  /** The map after the `max_cont` update for a run of c labels l. */
  function RunUpdate(m: map<Token, int>, l: Token, c: int): map<Token, int> {
    if c > GetOrZero(m, l) then m[l := c] else m
  }

  /** The labels of a run that closes at n - 1, starting at `start`. */
  ghost predicate ClosedRun(ls: seq<Token>, start: nat, n: nat) {
    start < n <= |ls| && forall i :: start <= i < n ==> ls[i] == ls[n - 1] && RunLen(ls, i) == i - start + 1
  }

  lemma RunsDomainClose(m: map<Token, int>, ls: seq<Token>, start: nat, n: nat)
    requires ClosedRun(ls, start, n) && RunsDomain(m, ls, start)
    ensures RunsDomain(RunUpdate(m, ls[n - 1], n - start), ls, n)
  {
    var m' := RunUpdate(m, ls[n - 1], n - start);
    forall l | exists i :: 0 <= i < n && ls[i] == l
      ensures l in m'
    {
      var i :| 0 <= i < n && ls[i] == l;
      if i >= start {
        assert l == ls[n - 1];
      }
    }
  }

  lemma RunsWitnessedClose(m: map<Token, int>, ls: seq<Token>, start: nat, n: nat)
    requires ClosedRun(ls, start, n) && RunsWitnessed(m, ls, start)
    ensures RunsWitnessed(RunUpdate(m, ls[n - 1], n - start), ls, n)
  {
    var l0, c := ls[n - 1], n - start;
    var m' := RunUpdate(m, l0, c);
    forall l | l in m'
      ensures exists i :: 0 <= i < n && ls[i] == l && RunLen(ls, i) == m'[l]
    {
      if l == l0 && c > GetOrZero(m, l0) {
        assert ls[n - 1] == l && RunLen(ls, n - 1) == c;
      } else {
        var i :| 0 <= i < start && ls[i] == l && RunLen(ls, i) == m[l];
      }
    }
  }

  lemma RunsBoundedClose(m: map<Token, int>, ls: seq<Token>, start: nat, n: nat)
    requires ClosedRun(ls, start, n) && RunsDomain(m, ls, start) && RunsBounded(m, ls, start)
    ensures RunsBounded(RunUpdate(m, ls[n - 1], n - start), ls, n)
  {
  }

  /** After the run ending at n - 1 closes, the map records it. */
  lemma CloseRun(m: map<Token, int>, ls: seq<Token>, start: nat, n: nat)
    requires ClosedRun(ls, start, n) && LongestRuns(m, ls, start)
    ensures LongestRuns(RunUpdate(m, ls[n - 1], n - start), ls, n)
  {
    RunsDomainClose(m, ls, start, n);
    RunsWitnessedClose(m, ls, start, n);
    RunsBoundedClose(m, ls, start, n);
  }

  /** The `max_length` dict after the given pairs. */
  function LengthsOf(ps: seq<SeqFlag>): map<Token, int> {
    if ps == [] then map[] else LengthUpdate(LengthsOf(ps[..|ps| - 1]), ps[|ps| - 1])
  }

  /** The run counters after the first n labels: the `max_cont` dict of the closed runs,
      the label of the open run and its length. */
  function RunsOf(ls: seq<Token>, n: nat): (map<Token, int>, Token, int)
    requires 1 <= n <= |ls|
  {
    if n == 1 then (map[], ls[0], 1)
    else
      var st := RunsOf(ls, n - 1);
      if st.1 != ls[n - 1] then (RunUpdate(st.0, st.1, st.2), ls[n - 1], 1)
      else (st.0, st.1, st.2 + 1)
  }

  /** The `max_cont` dict at the end: the open run closed. */
  function MaxConts(ls: seq<Token>): map<Token, int>
    requires ls != []
  {
    var st := RunsOf(ls, |ls|);
    RunUpdate(st.0, st.1, st.2)
  }

  /** `max_length` maps each label to its longest sequence; labels with only empty
      sequences are absent. */
  lemma {:induction false} LengthsOfSpec(ps: seq<SeqFlag>)
    ensures LongestSeqs(LengthsOf(ps), ps)
  {
    if ps != [] {
      var init := ps[..|ps| - 1];
      LengthsOfSpec(init);
      LongestSeqsSnoc(LengthsOf(init), init, ps[|ps| - 1]);
      assert init + [ps[|ps| - 1]] == ps;
    }
  }

  /** A run of a label that starts where the previous label differs. */
  lemma RunStartsAt(ls: seq<Token>, n: nat)
    requires n < |ls| && (n > 0 ==> ls[n] != ls[n - 1])
    ensures ClosedRun(ls, n, n + 1)
  {
  }

  /** The next label equal to the last one extends its run. */
  lemma RunExtends(ls: seq<Token>, start: nat, n: nat)
    requires ClosedRun(ls, start, n) && n < |ls| && ls[n] == ls[n - 1]
    ensures ClosedRun(ls, start, n + 1)
  {
    assert RunLen(ls, n) == RunLen(ls, n - 1) + 1;
  }

  /** After n labels the open run is the last `count` labels, all equal to `prevLabel`. */
  lemma {:induction false} RunsOfOpen(ls: seq<Token>, n: nat)
    requires 1 <= n <= |ls|
    ensures var st := RunsOf(ls, n);
      1 <= st.2 <= n && st.1 == ls[n - 1] && ClosedRun(ls, n - st.2, n)
  {
    if n == 1 {
      RunStartsAt(ls, 0);
    } else {
      RunsOfOpen(ls, n - 1);
      var st := RunsOf(ls, n - 1);
      if st.1 != ls[n - 1] {
        RunStartsAt(ls, n - 1);
      } else {
        RunExtends(ls, n - 1 - st.2, n - 1);
      }
    }
  }

  /** After n labels the runs closed before the open one are recorded at their longest. */
  lemma {:induction false} RunsOfClosed(ls: seq<Token>, n: nat)
    requires 1 <= n <= |ls|
    ensures 1 <= RunsOf(ls, n).2 <= n && LongestRuns(RunsOf(ls, n).0, ls, n - RunsOf(ls, n).2)
  {
    RunsOfOpen(ls, n);
    if n > 1 {
      RunsOfClosed(ls, n - 1);
      RunsOfOpen(ls, n - 1);
      var st := RunsOf(ls, n - 1);
      if st.1 != ls[n - 1] {
        CloseRun(st.0, ls, n - 1 - st.2, n - 1);
      }
    }
  }

  /** `max_cont` maps each label to its longest run of consecutive pairs. */
  lemma MaxContsSpec(ls: seq<Token>)
    requires ls != []
    ensures LongestRuns(MaxConts(ls), ls, |ls|)
  {
    RunsOfOpen(ls, |ls|);
    RunsOfClosed(ls, |ls|);
    var st := RunsOf(ls, |ls|);
    CloseRun(st.0, ls, |ls| - st.2, |ls|);
  }

  /** `get_max_len_dict` over the pairs of a SeqDocument: the longest sequence and the
      longest run of consecutive pairs per flag. An empty stream leaves the run counter
      None, and comparing it raises TypeError. */
  method MaxLenDict(ps: seq<SeqFlag>) returns (r: Result<(map<Token, int>, map<Token, int>)>)
    ensures r.Err? <==> ps == []
    ensures r.Err? ==> r.error == TypeError
    ensures r.Ok? ==> r.value == (LengthsOf(ps), MaxConts(Labels(ps)))
  {
    if ps == [] {
      return Err(TypeError);
    }
    ghost var ls := Labels(ps);
    var maxLength: map<Token, int> := map[];
    var maxCont: map<Token, int> := map[];
    var prevLabel: Token := ps[0].1;
    var count := 0;
    for j := 0 to |ps|
      invariant maxLength == LengthsOf(ps[..j])
      invariant j == 0 ==> maxCont == map[]
      invariant j > 0 ==> (maxCont, prevLabel, count) == RunsOf(ls, j)
    {
      var s, flag := ps[j].0, ps[j].1;
      assert ps[..j + 1][..j] == ps[..j];
      if |s| > GetOrZero(maxLength, flag) {
        maxLength := maxLength[flag := |s|];
      }
      if j > 0 {
        if prevLabel != flag {
          if count > GetOrZero(maxCont, prevLabel) {
            maxCont := maxCont[prevLabel := count];
          }
          prevLabel := flag;
          count := 1;
        } else {
          count := count + 1;
        }
      } else {
        prevLabel := flag;
        count := 1;
      }
    }
    if count > GetOrZero(maxCont, prevLabel) {
      maxCont := maxCont[prevLabel := count];
    }
    assert ps[..|ps|] == ps;
    r := Ok((maxLength, maxCont));
  }

  /** The three segmenters of the `create_*` class methods. */
  datatype Segmenter = LenSlided(fixedLen: int) | LenSeparated(fixedLen: int) | FlagSeparated

  /** The rewriting stages a SeqDocument appends to its generator list. */
  datatype SeqStage =
    | MergeStage(flagTokens: seq<Token>)
    | ReplaceStage(newFlags: seq<Token>)
    | TransformFlagsStage(fts: seq<TokenTransformer<Token, Token>>)

  /** A separated segmenter with a non-positive length never stops gathering. */
  predicate Terminates(seg: Segmenter) {
    seg.LenSeparated? ==> seg.fixedLen >= 1
  }

  /** The pad of the last separated chunk: the word PAD for a word-typed document, the
      PAD id otherwise. */
  function PadFor(tokenType: string, pad: Token, padId: Token): (r: Token)
    ensures r == pad <==> tokenType == "word_type" || pad == padId
    ensures tokenType != "word_type" ==> r == padId
  {
    if tokenType == "word_type" then pad else padId
  }

  /** The pairs a segmenter cuts from a token stream. */
  function Segment(seg: Segmenter, ts: seq<Token>, flags: seq<Token>, pad: Token): seq<SeqFlag>
    requires Terminates(seg)
  {
    match seg
    case LenSlided(l) => Slided(ts, l)
    case LenSeparated(l) => Separated(ts, l, pad)
    case FlagSeparated => FlagSplit(ts, flags, [])
  }

  /** One rewriting stage; flags are transformed over paired buffers. */
  function ApplySeqStage(stage: SeqStage, ps: seq<SeqFlag>): seq<SeqFlag> {
    match stage
    case MergeStage(ft) => Merged(ps, ft, [])
    case ReplaceStage(nf) => Replaced(ps, nf)
    case TransformFlagsStage(fts) => FlagsOut(Trace(LiftAll<seq<Token>, Token>(fts), ps))
  }

  /** The stages in the order they were appended, the first applied first. */
  function RunSeqStages(stages: seq<SeqStage>, ps: seq<SeqFlag>): seq<SeqFlag> {
    if stages == [] then ps
    else ApplySeqStage(stages[|stages| - 1], RunSeqStages(stages[..|stages| - 1], ps))
  }

  /** A stream of pairs that a separated segmenter with a non-positive length starts:
      its loop takes no token and never stops (see Gather with n <= 0), so it yields the
      empty chunk flagged with the length, forever. The rewriting stages turn it into: */
  datatype Flow =
      /** a finite stream; */
    | Ends(ps: seq<SeqFlag>)
      /** the empty chunk with this flag, forever; */
    | Repeats(flag: Token)
      /** empty chunks forever, with flags the model does not follow; */
    | Untracked
      /** a generator that loops without yielding anything. */
    | Hangs

  /** One rewriting stage on a flow. A merge yields an empty chunk at every pair whose
      flag it merges on, and loops for ever when there is none; a replace zips the stream
      with the finite list of new flags; a flag transform keeps the empty chunks. */
  function ApplyFlow(stage: SeqStage, f: Flow): (r: Flow)
    ensures f.Ends? ==> r == Ends(ApplySeqStage(stage, f.ps))
    ensures f.Hangs? ==> r.Hangs?
    ensures !f.Ends? && !f.Hangs? && stage.ReplaceStage? ==>
      r.Ends? && |r.ps| == |stage.newFlags| && Labels(r.ps) == stage.newFlags && forall i :: 0 <= i < |r.ps| ==> r.ps[i].0 == []
    ensures f.Repeats? && stage.MergeStage? ==> (r == f <==> f.flag in stage.flagTokens) && (r.Hangs? <==> f.flag !in stage.flagTokens)
    ensures !f.Ends? && !stage.ReplaceStage? ==> !r.Ends?
  {
    match f
    case Ends(ps) => Ends(ApplySeqStage(stage, ps))
    case Hangs => Hangs
    case Repeats(l) =>
      (match stage
       case MergeStage(ft) => if l in ft then f else Hangs
       case ReplaceStage(nf) => Ends(EmptyChunks(nf))
       case TransformFlagsStage(_) => Untracked)
    case Untracked =>
      match stage
      case MergeStage(_) => Untracked
      case ReplaceStage(nf) => Ends(EmptyChunks(nf))
      case TransformFlagsStage(_) => Untracked
  }

  /** An empty chunk with each of the flags. */
  function EmptyChunks(flags: seq<Token>): (r: seq<SeqFlag>)
    ensures |r| == |flags| && forall i :: 0 <= i < |r| ==> r[i] == ([], flags[i])
  {
    seq(|flags|, i requires 0 <= i < |flags| => ([], flags[i]))
  }

  /** The stages over a flow, the first appended applied first. */
  function RunFlow(stages: seq<SeqStage>, f: Flow): Flow {
    if stages == [] then f
    else ApplyFlow(stages[|stages| - 1], RunFlow(stages[..|stages| - 1], f))
  }

  /** The `for seq_flag_gen_f in self._seq_flag_gen_fs` loop of `__iter__` over a
      finite stream of pairs. */
  method PairsThrough(stages: seq<SeqStage>, seg: seq<SeqFlag>) returns (ps: seq<SeqFlag>)
    ensures ps == RunSeqStages(stages, seg)
  {
    ps := seg;
    for i := 0 to |stages|
      invariant ps == RunSeqStages(stages[..i], seg)
    {
      assert stages[..i + 1][..i] == stages[..i];
      match stages[i] {
        case MergeStage(ft) =>
          ps := MergeSeqGen(ps, ft);
        case ReplaceStage(nf) =>
          ps := ReplacedFlagGen(ps, nf);
        case TransformFlagsStage(fts) =>
          ps := TransformFlags<seq<Token>, Token>(fts, ps);
      }
    }
    assert stages[..|stages|] == stages;
  }

  /** The same loop over a stream without end. */
  method FlowThrough(stages: seq<SeqStage>, f0: Flow) returns (f: Flow)
    ensures f == RunFlow(stages, f0)
  {
    f := f0;
    for i := 0 to |stages|
      invariant f == RunFlow(stages[..i], f0)
    {
      assert stages[..i + 1][..i] == stages[..i];
      f := ApplyFlow(stages[i], f);
    }
    assert stages[..|stages|] == stages;
  }

  /** The pairs of a separated segmenter of non-positive length l through the stages,
      read to the end: finite only if the stages end the stream. */
  function EndlessIter(stages: seq<SeqStage>, l: int): Result<seq<SeqFlag>> {
    match RunFlow(stages, Repeats(Int(l)))
    case Ends(ps) => Ok(ps)
    case _ => Err(Endless)
  }

  /** Once a flow has ended, the stages run on it as on any finite stream. */
  lemma {:induction false} RunFlowEnds(stages: seq<SeqStage>, ps: seq<SeqFlag>)
    ensures RunFlow(stages, Ends(ps)) == Ends(RunSeqStages(stages, ps))
  {
    if stages != [] {
      RunFlowEnds(stages[..|stages| - 1], ps);
    }
  }

  /** An endless flow ends only through a replace stage. */
  lemma {:induction false} EndsOnlyByReplace(stages: seq<SeqStage>, f: Flow)
    requires !f.Ends?
    ensures RunFlow(stages, f).Ends? ==> exists i :: 0 <= i < |stages| && stages[i].ReplaceStage?
  {
    if stages != [] && RunFlow(stages, f).Ends? && !stages[|stages| - 1].ReplaceStage? {
      var init := stages[..|stages| - 1];
      EndsOnlyByReplace(init, f);
      var i :| 0 <= i < |init| && init[i].ReplaceStage?;
      assert stages[i] == init[i];
    }
  }

  /** A sequence document: a locked Document, a segmenter and the rewriting stages. */
  class SeqDocument {
    const doc: Document
    const segmenter: Segmenter
    /** The vocabulary module's PAD and PAD_ID sentinels. */
    const pad: Token
    const padId: Token
    var stages: seq<SeqStage>

    /** Construction locks the document. */
    constructor (doc: Document, segmenter: Segmenter, pad: Token, padId: Token)
      modifies doc
      ensures this.doc == doc && this.segmenter == segmenter && this.pad == pad && this.padId == padId
      ensures stages == [] && doc.locked
      ensures doc.stages == old(doc.stages) && doc.tokenType == old(doc.tokenType) && doc.flags == old(doc.flags)
      ensures doc.vocab == old(doc.vocab) && doc.source == old(doc.source)
      ensures doc.labels == old(doc.labels) && doc.docLen == old(doc.docLen)
    {
      doc.Lock();
      this.doc := doc;
      this.segmenter := segmenter;
      this.pad := pad;
      this.padId := padId;
      stages := [];
    }

    /** `create_len_slided_seq_doc`: refused when flag tokens were applied. */
    static method CreateLenSlidedSeqDoc(doc: Document, fixedLen: int, pad: Token, padId: Token)
      returns (r: Result<SeqDocument>)
      modifies doc
      ensures r.Err? <==> old(doc.IsFlagTokenApplied())
      ensures r.Err? ==> r.error == AssertionError && unchanged(doc)
      ensures r.Ok? ==> (fresh(r.value) && r.value.doc == doc && r.value.segmenter == LenSlided(fixedLen)
        && r.value.stages == [] && r.value.pad == pad && r.value.padId == padId && doc.locked)
      ensures doc.stages == old(doc.stages) && doc.tokenType == old(doc.tokenType) && doc.flags == old(doc.flags)
      ensures doc.vocab == old(doc.vocab) && doc.source == old(doc.source)
    {
      if doc.IsFlagTokenApplied() {
        return Err(AssertionError);
      }
      var sd := new SeqDocument(doc, LenSlided(fixedLen), pad, padId);
      r := Ok(sd);
    }

    /** `create_len_separated_seq_doc`: refused when flag tokens were applied. */
    static method CreateLenSeparatedSeqDoc(doc: Document, fixedLen: int, pad: Token, padId: Token)
      returns (r: Result<SeqDocument>)
      modifies doc
      ensures r.Err? <==> old(doc.IsFlagTokenApplied())
      ensures r.Err? ==> r.error == AssertionError && unchanged(doc)
      ensures r.Ok? ==> (fresh(r.value) && r.value.doc == doc && r.value.segmenter == LenSeparated(fixedLen)
        && r.value.stages == [] && r.value.pad == pad && r.value.padId == padId && doc.locked)
      ensures doc.stages == old(doc.stages) && doc.tokenType == old(doc.tokenType) && doc.flags == old(doc.flags)
      ensures doc.vocab == old(doc.vocab) && doc.source == old(doc.source)
    {
      if doc.IsFlagTokenApplied() {
        return Err(AssertionError);
      }
      var sd := new SeqDocument(doc, LenSeparated(fixedLen), pad, padId);
      r := Ok(sd);
    }

    /** `create_flag_separated_seq_doc`: refused unless flag tokens were applied. */
    static method CreateFlagSeparatedSeqDoc(doc: Document, pad: Token, padId: Token)
      returns (r: Result<SeqDocument>)
      modifies doc
      ensures r.Err? <==> !old(doc.IsFlagTokenApplied())
      ensures r.Err? ==> r.error == AssertionError && unchanged(doc)
      ensures r.Ok? ==> (fresh(r.value) && r.value.doc == doc && r.value.segmenter == FlagSeparated
        && r.value.stages == [] && r.value.pad == pad && r.value.padId == padId && doc.locked)
      ensures doc.stages == old(doc.stages) && doc.tokenType == old(doc.tokenType) && doc.flags == old(doc.flags)
      ensures doc.vocab == old(doc.vocab) && doc.source == old(doc.source)
    {
      if !doc.IsFlagTokenApplied() {
        return Err(AssertionError);
      }
      var sd := new SeqDocument(doc, FlagSeparated, pad, padId);
      r := Ok(sd);
    }

    /** `iter(seq_doc)` read to the end, as a value: the document's tokens, segmented,
        then rewritten. A separated segmenter with a non-positive length never asks the
        document for a token, so the document's own errors cannot surface; its stream
        ends only if the stages end it. */
    function Iter(): Result<seq<SeqFlag>>
      reads this, doc
    {
      if !Terminates(segmenter) then EndlessIter(stages, segmenter.fixedLen)
      else
        match doc.Iter()
        case Err(e) => Err(e)
        case Ok(ts) => Ok(RunSeqStages(stages, Segment(segmenter, ts, doc.flags, PadFor(doc.tokenType, pad, padId))))
    }

    /** `__iter__`: runs the segmenter generator over the document's tokens, then each
        appended generator in turn. */
    method Pairs() returns (r: Result<seq<SeqFlag>>)
      ensures r == Iter()
    {
      if !Terminates(segmenter) {
        var f := FlowThrough(stages, Repeats(Int(segmenter.fixedLen)));
        return if f.Ends? then Ok(f.ps) else Err(Endless);
      }
      var src := doc.Iter();
      if src.Err? {
        return Err(src.error);
      }
      var ps: seq<SeqFlag>;
      match segmenter {
        case LenSlided(l) =>
          ps := SlidedSegments(src.value, l);
        case LenSeparated(l) =>
          var p := PadFor(doc.tokenType, pad, padId);
          ps := SeparatedSegments(src.value, l, p);
        case FlagSeparated =>
          ps := FlagSegments(src.value, doc.flags);
      }
      ps := PairsThrough(stages, ps);
      r := Ok(ps);
    }

    /** `merge_seq_by_flag_tokens`. */
    method MergeSeqByFlagTokens(flagTokens: seq<Token>)
      modifies this
      ensures stages == old(stages) + [MergeStage(flagTokens)]
    {
      stages := stages + [MergeStage(flagTokens)];
    }

    /** `replace_flag_tokens`, with the new flag stream given as a sequence. */
    method ReplaceFlagTokens(newFlags: seq<Token>)
      modifies this
      ensures stages == old(stages) + [ReplaceStage(newFlags)]
    {
      stages := stages + [ReplaceStage(newFlags)];
    }

    /** `transform_flags`: the widest windows are computed when the stage is appended. */
    method TransformFlagsOfPairs(fts: seq<TokenTransformer<Token, Token>>)
      modifies this
      ensures stages == old(stages) + [TransformFlagsStage(fts)]
    {
      var mL, mR := GetTransformersMaxNumTokens(fts);
      stages := stages + [TransformFlagsStage(fts)];
    }

    /** `get_max_len_dict` over this document's pairs. */
    method GetMaxLenDict() returns (r: Result<(map<Token, int>, map<Token, int>)>)
      ensures Iter().Err? ==> r.Err? && r.error == Iter().error
      ensures Iter().Ok? ==> (r.Err? <==> Iter().value == [])
      ensures Iter().Ok? && r.Err? ==> r.error == TypeError
      ensures r.Ok? ==> (Iter().Ok? && Iter().value != [] && r.value == (LengthsOf(Iter().value), MaxConts(Labels(Iter().value))))
    {
      var ps := Pairs();
      if ps.Err? {
        return Err(ps.error);
      }
      r := MaxLenDict(ps.value);
    }
  }

  /** A separated sequence document with a non-positive length and no replace stage
      never ends, whatever its document holds. */
  lemma EndlessWithoutReplace(sd: SeqDocument)
    requires sd.segmenter.LenSeparated? && sd.segmenter.fixedLen <= 0
    requires forall i :: 0 <= i < |sd.stages| ==> !sd.stages[i].ReplaceStage?
    ensures sd.Iter() == Err(Endless)
  {
    EndsOnlyByReplace(sd.stages, Repeats(Int(sd.segmenter.fixedLen)));
  }

  /** The documents under a list of sequence documents. */
  function DocsOf(sds: seq<SeqDocument>): (r: seq<Document>)
    ensures |r| == |sds| && forall i :: 0 <= i < |sds| ==> r[i] == sds[i].doc
  {
    seq(|sds|, i requires 0 <= i < |sds| => sds[i].doc)
  }
}

=== FILE: strings.dfy ===
/** The few Python `str` operations the pipeline relies on, with Python's semantics:
    `strip`, `lstrip(c)`, `replace`, `split(sep)`, `sep.join`, `isdigit`, `str(int)`,
    `rfind`, and the `posixpath` helpers `basename` and `splitext`. */
module PyStrings {

  /** Python's `str.isspace` for one character (the Unicode White_Space set it uses). */
  predicate IsSpace(c: char) {
    || ('\t' <= c <= '\r')
    || ('\U{1C}' <= c <= '\U{1F}')
    || c == ' ' || c == '\U{85}' || c == '\U{A0}' || c == '\U{1680}'
    || ('\U{2000}' <= c <= '\U{200A}')
    || c == '\U{2028}' || c == '\U{2029}' || c == '\U{202F}' || c == '\U{205F}' || c == '\U{3000}'
  }

  predicate IsDigit(c: char) {
    '0' <= c <= '9'
  }

  /** `s.isdigit()`: non-empty and made of digits only. */
  predicate IsDigits(s: string) {
    |s| > 0 && forall i :: 0 <= i < |s| ==> IsDigit(s[i])
  }

  /** Whitespace only. */
  predicate AllSpace(t: string) {
    forall i :: 0 <= i < |t| ==> IsSpace(t[i])
  }

  /** Whitespace in front of whitespace is whitespace. */
  lemma SpaceCons(c: char, t: string)
    requires IsSpace(c) && AllSpace(t)
    ensures AllSpace([c] + t)
  {
    assert forall i :: 1 <= i < |t| + 1 ==> ([c] + t)[i] == t[i - 1];
  }

  /** Whitespace after whitespace is whitespace. */
  lemma SpaceSnoc(t: string, c: char)
    requires AllSpace(t) && IsSpace(c)
    ensures AllSpace(t + [c])
  {
  }

  /** `s.lstrip()` with no argument. */
  function LStrip(s: string): (r: string)
    ensures |r| <= |s| && r == s[|s| - |r|..]
    ensures r == [] || !IsSpace(r[0])
    ensures AllSpace(s[..|s| - |r|])
  {
    if s != [] && IsSpace(s[0]) then
      var r := LStrip(s[1..]);
      SpaceCons(s[0], s[1..][..|s| - 1 - |r|]);
      assert s[..|s| - |r|] == [s[0]] + s[1..][..|s| - 1 - |r|];
      r
    else s
  }

  /** `s.rstrip()` with no argument. */
  function RStrip(s: string): (r: string)
    ensures |r| <= |s| && r == s[..|r|]
    ensures r == [] || !IsSpace(r[|r| - 1])
    ensures AllSpace(s[|r|..])
  {
    if s != [] && IsSpace(s[|s| - 1]) then
      var r := RStrip(s[..|s| - 1]);
      SpaceSnoc(s[..|s| - 1][|r|..], s[|s| - 1]);
      assert s[|r|..] == s[..|s| - 1][|r|..] + [s[|s| - 1]];
      r
    else s
  }

  /** `s.strip()`: the input with its leading and trailing whitespace removed, which
      leaves an infix that neither starts nor ends with whitespace (see StripInfix). */
  function Strip(s: string): (r: string)
    ensures |r| <= |s|
    ensures r == [] || (!IsSpace(r[0]) && !IsSpace(r[|r| - 1]))
    ensures forall i :: 0 <= i < |s| && !IsSpace(s[i]) ==> s[i] in r
  {
    var l := LStrip(s);
    var r := RStrip(l);
    StripSlice(s, l, r);
    r
  }

  /** `strip` removes exactly the leading and the trailing whitespace: what it keeps is
      the infix that starts after the leading whitespace and is followed by whitespace
      only. */
  lemma StripInfix(s: string)
    ensures var a := |s| - |LStrip(s)|;
      a + |Strip(s)| <= |s| && Strip(s) == s[a..a + |Strip(s)|] && AllSpace(s[..a]) && AllSpace(s[a + |Strip(s)|..])
  {
    var l := LStrip(s);
    var r := RStrip(l);
    assert Strip(s) == r;
    StripSlice(s, l, r);
  }

  /** A prefix of a suffix of a string, with whitespace only around it, keeps every
      character of the string that is not whitespace. */
  lemma StripSlice(s: string, l: string, r: string)
    requires |l| <= |s| && l == s[|s| - |l|..] && AllSpace(s[..|s| - |l|])
    requires |r| <= |l| && r == l[..|r|] && AllSpace(l[|r|..])
    ensures forall i :: 0 <= i < |s| && !IsSpace(s[i]) ==> s[i] in r
    ensures var a := |s| - |l|;
      a + |r| <= |s| && r == s[a..a + |r|] && AllSpace(s[..a]) && AllSpace(s[a + |r|..])
  {
    var a := |s| - |l|;
    assert s[a + |r|..] == l[|r|..];
    forall i | 0 <= i < |s| && !IsSpace(s[i]) ensures s[i] in r {
      if a <= i < a + |r| {
        assert s[i] == r[i - a];
      }
    }
  }

  /** `s.lstrip(c)` for one character `c`. */
  function LStripChar(s: string, c: char): (r: string)
    ensures |r| <= |s| && r == s[|s| - |r|..]
    ensures r == [] || r[0] != c
    ensures forall i :: 0 <= i < |s| - |r| ==> s[i] == c
  {
    if s != [] && s[0] == c then LStripChar(s[1..], c) else s
  }

  /** `s.find(c)`: the first index of `c`, or -1. */
  function Find(s: string, c: char): (i: int)
    ensures -1 <= i < |s|
    ensures i >= 0 ==> s[i] == c && c !in s[..i]
    ensures i == -1 ==> c !in s
  {
    if s == [] then -1
    else if s[0] == c then 0
    else
      var i := Find(s[1..], c);
      assert s == [s[0]] + s[1..];
      if i >= 0 then assert s[..i + 1] == [s[0]] + s[1..][..i]; i + 1 else -1
  }

  /** `s.replace(c, "", 1)` for one character `c`: drops the first occurrence. */
  function RemoveFirst(s: string, c: char): string {
    var i := Find(s, c);
    if i < 0 then s else s[..i] + s[i + 1..]
  }

  /** `s.replace(p, r)`: every non-overlapping occurrence, left to right. With an empty
      `p`, Python inserts `r` before every character and at the end. */
  function ReplaceAll(s: string, p: string, r: string): string
    decreases |s|
  {
    if p == [] then
      (if s == [] then r else r + [s[0]] + ReplaceAll(s[1..], p, r))
    else if |s| < |p| then s
    else if s[..|p|] == p then r + ReplaceAll(s[|p|..], p, r)
    else [s[0]] + ReplaceAll(s[1..], p, r)
  }

  /** `p in s` for strings: `p` occurs as an infix. */
  predicate Occurs(p: string, s: string) {
    exists i :: 0 <= i <= |s| && p <= s[i..]
  }

  lemma {:induction false} ReplaceAllAbsent(s: string, p: string, r: string)
    requires p != [] && !Occurs(p, s)
    ensures ReplaceAll(s, p, r) == s
    decreases |s|
  {
    if |s| < |p| {
    } else {
      assert s[0..] == s;
      assert !Occurs(p, s[1..]) by {
        forall i | 0 <= i <= |s[1..]| ensures !(p <= s[1..][i..]) {
          assert s[1..][i..] == s[i + 1..];
        }
      }
      ReplaceAllAbsent(s[1..], p, r);
    }
  }

  /** `s.split(c)` with an explicit one-character separator: the pieces between
      separators, empty ones included; there is always at least one piece. */
  function Split(s: string, c: char): (r: seq<string>)
    ensures |r| >= 1
    ensures forall k :: 0 <= k < |r| ==> c !in r[k]
  {
    if s == [] then [[]]
    else if s[0] == c then [[]] + Split(s[1..], c)
    else
      var rest := Split(s[1..], c);
      [[s[0]] + rest[0]] + rest[1..]
  }

  /** `sep.join(ps)`. */
  function Join(ps: seq<string>, sep: string): string {
    if ps == [] then []
    else if |ps| == 1 then ps[0]
    else ps[0] + sep + Join(ps[1..], sep)
  }

  /** Joining the pieces of a split gives the string back. */
  lemma {:induction false} JoinSplit(s: string, c: char)
    ensures Join(Split(s, c), [c]) == s
  {
    if s == [] {
    } else if s[0] == c {
      JoinSplit(s[1..], c);
      assert Split(s, c) == [[]] + Split(s[1..], c);
    } else {
      JoinSplit(s[1..], c);
      var rest := Split(s[1..], c);
      if |rest| == 1 {
      } else {
        assert Join(rest, [c]) == rest[0] + [c] + Join(rest[1..], [c]);
        assert Split(s, c)[1..] == rest[1..];
      }
    }
  }

  /** Splitting a join of separator-free pieces gives the pieces back. */
  lemma {:induction false} SplitJoin(ps: seq<string>, c: char)
    requires |ps| >= 1
    requires forall k :: 0 <= k < |ps| ==> c !in ps[k]
    ensures Split(Join(ps, [c]), c) == ps
    decreases |ps|, |ps[0]|
  {
    if |ps| == 1 {
      SplitNoSep(ps[0], c);
    } else if ps[0] == [] {
      SplitJoin(ps[1..], c);
      assert Join(ps, [c]) == [c] + Join(ps[1..], [c]);
    } else {
      var tail := [ps[0][1..]] + ps[1..];
      SplitJoin(tail, c);
      assert Join(tail, [c]) == ps[0][1..] + [c] + Join(ps[1..], [c]);
      assert Join(ps, [c]) == [ps[0][0]] + Join(tail, [c]);
      assert [ps[0][0]] + ps[0][1..] == ps[0];
    }
  }

  lemma {:induction false} SplitNoSep(s: string, c: char)
    requires c !in s
    ensures Split(s, c) == [s]
  {
    if s != [] {
      SplitNoSep(s[1..], c);
      assert [s[0]] + s[1..] == s;
    }
  }

  /** Splitting around one separator splits each side on its own. */
  lemma {:induction false} SplitAround(x: string, y: string, c: char)
    ensures Split(x + [c] + y, c) == Split(x, c) + Split(y, c)
  {
    if x == [] {
      assert x + [c] + y == [c] + y;
      assert ([c] + y)[1..] == y;
    } else {
      assert (x + [c] + y)[0] == x[0];
      assert (x + [c] + y)[1..] == x[1..] + [c] + y;
      SplitAround(x[1..], y, c);
    }
  }

  /** Replacing a character that does not occur changes nothing. */
  lemma {:induction false} ReplaceCharAbsent(s: string, c: char, r: string)
    requires c !in s
    ensures ReplaceAll(s, [c], r) == s
  {
    if s != [] {
      assert s[..1] == [s[0]];
      ReplaceCharAbsent(s[1..], c, r);
      assert [s[0]] + s[1..] == s;
    }
  }

  /** Replacing a character works piece by piece over a concatenation. */
  lemma {:induction false} ReplaceCharConcat(x: string, y: string, c: char, r: string)
    ensures ReplaceAll(x + y, [c], r) == ReplaceAll(x, [c], r) + ReplaceAll(y, [c], r)
  {
    if x == [] {
      assert x + y == y;
    } else {
      assert (x + y)[..1] == x[..1] && (x + y)[0] == x[0];
      assert (x + y)[1..] == x[1..] + y;
      ReplaceCharConcat(x[1..], y, c, r);
    }
  }

  /** Trailing whitespace is what `rstrip` removes. */
  lemma {:induction false} RStripSpaces(s: string, t: string)
    requires forall i :: 0 <= i < |t| ==> IsSpace(t[i])
    ensures RStrip(s + t) == RStrip(s)
    decreases |t|
  {
    if t == [] {
      assert s + t == s;
    } else {
      assert (s + t)[..|s + t| - 1] == s + t[..|t| - 1];
      RStripSpaces(s, t[..|t| - 1]);
    }
  }

  /** Stripping a string that starts and ends with non-whitespace, followed by
      whitespace, gives that string. */
  lemma StripTrailing(s: string, t: string)
    requires s != [] && !IsSpace(s[0]) && !IsSpace(s[|s| - 1])
    requires forall i :: 0 <= i < |t| ==> IsSpace(t[i])
    ensures Strip(s + t) == s
  {
    assert (s + t)[0] == s[0];
    assert LStrip(s + t) == s + t;
    RStripSpaces(s, t);
  }

  /** The character of a digit value. */
  function DigitChar(d: nat): (c: char)
    requires d < 10
    ensures IsDigit(c)
  {
    ['0', '1', '2', '3', '4', '5', '6', '7', '8', '9'][d]
  }

  function DigitValue(c: char): nat
    requires IsDigit(c)
  {
    (c as int) - ('0' as int)
  }

  /** `str(n)` for a natural number: its decimal digits, most significant first. */
  function ShowNat(n: nat): (r: string)
    ensures IsDigits(r)
    decreases n
  {
    if n < 10 then [DigitChar(n)] else ShowNat(n / 10) + [DigitChar(n % 10)]
  }

  /** `str(n)` for any integer. */
  function ShowInt(n: int): (r: string)
    ensures r != [] && ' ' !in r && '\t' !in r && '\n' !in r
  {
    if n < 0 then "-" + ShowNat(-n) else ShowNat(n)
  }

  /** `int(s)` for a string of decimal digits. */
  function ParseNat(s: string): nat
    requires forall i :: 0 <= i < |s| ==> IsDigit(s[i])
  {
    if s == [] then 0 else 10 * ParseNat(s[..|s| - 1]) + DigitValue(s[|s| - 1])
  }

  /** Printing a number and reading it back gives the number. */
  lemma {:induction false} ParseShowNat(n: nat)
    ensures ParseNat(ShowNat(n)) == n
    decreases n
  {
    var s := ShowNat(n);
    if n >= 10 {
      ParseShowNat(n / 10);
      assert s[..|s| - 1] == ShowNat(n / 10);
    }
    assert DigitValue(DigitChar(n % 10)) == n % 10;
  }

  /** `s.rfind(c)`: the last index of `c`, or -1. */
  function RFind(s: string, c: char): (i: int)
    ensures -1 <= i < |s|
    ensures i >= 0 ==> s[i] == c && c !in s[i + 1..]
    ensures i == -1 ==> c !in s
  {
    if s == [] then -1
    else if s[|s| - 1] == c then |s| - 1
    else
      var i := RFind(s[..|s| - 1], c);
      assert s[..|s| - 1] + [s[|s| - 1]] == s;
      if i >= 0 then assert s[i + 1..] == s[..|s| - 1][i + 1..] + [s[|s| - 1]]; i else i
  }

  /** An index holding `c` with no `c` after it is what `rfind` returns. */
  lemma RFindAt(s: string, j: int, c: char)
    requires 0 <= j < |s| && s[j] == c && c !in s[j + 1..]
    ensures RFind(s, c) == j
  {
    assert s[j] in s;
    forall k | j < k < |s| ensures s[k] != c {
      assert s[k] == s[j + 1..][k - j - 1];
    }
    forall k | 0 <= k <= j ensures c in s[k..] {
      assert s[k..][j - k] == s[j];
    }
  }

  /** Appending text without `c` does not move the last `c`. */
  lemma RFindAppend(x: string, y: string, c: char)
    requires c !in y
    ensures RFind(x + y, c) == RFind(x, c)
  {
    var i := RFind(x, c);
    if i >= 0 {
      assert (x + y)[i + 1..] == x[i + 1..] + y;
      RFindAt(x + y, i, c);
    } else {
      forall k | 0 <= k < |x + y| ensures (x + y)[k] != c {
        if k < |x| {
          assert x[k] in x;
        } else {
          assert y[k - |x|] in y;
        }
      }
    }
  }

  /** The base name of a directory part ending in '/' followed by a slash-free name is
      that name. */
  lemma BasenameAfterDir(d: string, b: string)
    requires '/' !in b && (d == [] || d[|d| - 1] == '/')
    ensures Basename(d + b) == b
  {
    RFindAppend(d, b, '/');
    if d != [] {
      assert d[|d| - 1 + 1..] == [];
      RFindAt(d, |d| - 1, '/');
    }
    assert (d + b)[|d|..] == b;
  }

  /** `os.path.basename(p)` on POSIX: what follows the last '/'. */
  function Basename(p: string): (b: string)
    ensures '/' !in b
    ensures exists i :: 0 <= i <= |p| && p[i..] == b
  {
    var i := RFind(p, '/') + 1;
    p[i..]
  }

  /** `os.path.splitext(p)` on POSIX: the extension starts at the last '.' of the last
      path component, unless every character before that dot in the component is a '.'. */
  function SplitExt(p: string): (string, string) {
    var sepIndex := RFind(p, '/');
    var dotIndex := RFind(p, '.');
    if dotIndex > sepIndex && exists k :: sepIndex + 1 <= k < dotIndex && p[k] != '.' then
      (p[..dotIndex], p[dotIndex..])
    else
      (p, [])
  }

  /** Nothing after the last '/' is a '/'. */
  lemma NoSlashAfter(p: string, from: int)
    requires RFind(p, '/') < from <= |p|
    ensures '/' !in p[from..]
  {
    var sepIndex := RFind(p, '/');
    forall j | from <= j < |p| ensures p[j] != '/' {
      if sepIndex >= 0 {
        assert p[j] == p[sepIndex + 1..][j - sepIndex - 1];
      } else {
        assert p[j] in p;
      }
    }
  }

  /** The root and the extension put back together give the path; a non-empty extension
      is one '.' followed by a dot-free, slash-free tail. */
  lemma SplitExtParts(p: string)
    ensures SplitExt(p).0 + SplitExt(p).1 == p
    ensures var ext := SplitExt(p).1;
      ext == [] || (ext[0] == '.' && '.' !in ext[1..] && '/' !in ext)
    ensures var ext := SplitExt(p).1; '.' !in p ==> ext == []
  {
    var sepIndex := RFind(p, '/');
    var dotIndex := RFind(p, '.');
    if dotIndex > sepIndex && exists k :: sepIndex + 1 <= k < dotIndex && p[k] != '.' {
      var ext := p[dotIndex..];
      assert SplitExt(p) == (p[..dotIndex], ext);
      assert p[..dotIndex] + ext == p;
      assert ext[1..] == p[dotIndex + 1..];
      NoSlashAfter(p, dotIndex);
    } else {
      assert SplitExt(p) == (p, []);
    }
  }
}

=== FILE: tfrecords.dfy ===
/** serializers/tfrecords.py: the schema of a transformer (its `ListStat` nodes) picks one
    encoder per output field; every record the transformer yields is then encoded field
    by field and grouped into the context dict or the feature-list dict of one
    `SequenceExample`. Features are kept abstract: a feature is a kind (bytes, int64 or
    float list) and the tokens it holds. */
module TfRecords {
  import opened Wrappers
  import opened Tokens
  import opened Documents
  import opened Iterators
  import opened TransformerInterface
  import Qa
  import Sentiment

  /** Which list of a `tf.train.Feature` is filled. */
  datatype Kind = BytesKind | Int64Kind | FloatKind

  /** A `tf.train.Feature`, kept abstract: which list it fills and the values it holds
      (the conversion of strings to bytes and the value checks of the protocol buffer
      library are not part of this model). */
  datatype Feature = Feature(kind: Kind, values: seq<Value>)

  /** A `tf.train.FeatureList`. */
  datatype FeatureList = FeatureList(features: seq<Feature>)

  /** A field of a yielded record, as Python sees it: a token or a list of such values. */
  datatype Value = Scalar(token: Token) | List(items: seq<Value>)

  /** `_bytes_feature`, `_int64_feature`, `_float64_feature`: the value wrapped in a
      one-element list. */
  function SingleFeature(k: Kind, v: Value): (r: Feature)
    ensures |r.values| == 1 && r.values[0] == v && r.kind == k
  {
    Feature(k, [v])
  }

  /** `_bytes_features`, `_int64_features`, `_float64_features`: the list kept as it is,
      in order; iterating a lone token raises TypeError. */
  function Features(k: Kind, v: Value): (r: Result<Feature>)
    ensures r.Ok? <==> v.List?
    ensures r.Ok? ==> r.value.kind == k && r.value.values == v.items
    ensures r.Err? ==> r.error == TypeError
  {
    match v
    case Scalar(_) => Err(TypeError)
    case List(vs) => Ok(Feature(k, vs))
  }

  /** A singular builder is the plural builder applied to the one-element list. */
  lemma SingleIsPlural(k: Kind, v: Value)
    ensures Features(k, List([v])) == Ok(SingleFeature(k, v))
  {
  }

  /** The feature of each value, refused at the first value f refuses. */
  function FeaturesOf(vs: seq<Value>, f: Value -> Result<Feature>): (r: Result<seq<Feature>>)
    ensures r.Ok? <==> forall i :: 0 <= i < |vs| ==> f(vs[i]).Ok?
    ensures r.Ok? ==> |r.value| == |vs| && forall i :: 0 <= i < |vs| ==> r.value[i] == f(vs[i]).value
    ensures r.Err? ==> exists i :: 0 <= i < |vs| && f(vs[i]) == Err(r.error) && forall j :: 0 <= j < i ==> f(vs[j]).Ok?
  {
    if vs == [] then Ok([])
    else
      match f(vs[0])
      case Err(e) => Err(e)
      case Ok(x) =>
        assert forall i :: 1 <= i < |vs| ==> vs[i] == vs[1..][i - 1];
        match FeaturesOf(vs[1..], f)
        case Err(e) =>
          var i :| 0 <= i < |vs| - 1 && f(vs[1..][i]) == Err(e) && forall j :: 0 <= j < i ==> f(vs[1..][j]).Ok?;
          assert f(vs[i + 1]) == Err(e);
          Err(e)
        case Ok(xs) => Ok([x] + xs)
  }

  /** `_feature_list(value_list, feature_func)`: one feature per element, same length and
      order; a lone token is not iterable. */
  function FeatureListOf(v: Value, f: Value -> Result<Feature>): (r: Result<FeatureList>)
    ensures r.Ok? <==> v.List? && forall i :: 0 <= i < |v.items| ==> f(v.items[i]).Ok?
    ensures r.Ok? ==> |r.value.features| == |v.items|
    ensures r.Ok? ==> forall i :: 0 <= i < |v.items| ==> r.value.features[i] == f(v.items[i]).value
  {
    match v
    case Scalar(_) => Err(TypeError)
    case List(vs) =>
      match FeaturesOf(vs, f)
      case Err(e) => Err(e)
      case Ok(fs) => Ok(FeatureList(fs))
  }

  /** The four encoder shapes of the dispatch: a singular or plural builder, or
      `_feature_list` over one of them. */
  datatype Encoder = Single(kind: Kind) | Plural(kind: Kind) | ListOfSingle(kind: Kind) | ListOfPlural(kind: Kind)

  /** `context_type` (0) and `feature_list_type` (1). */
  datatype Group = ContextGroup | FeatureListGroup

  /** One `(feature_f, group, name)` tuple of `feature_fs`. */
  datatype Entry = Entry(encoder: Encoder, group: Group, name: string)

  /** What an encoder returns. */
  datatype Encoded = AsFeature(feature: Feature) | AsFeatureList(list: FeatureList)

  /** The list kind the dispatch uses for a token type. */
  function KindOf(tokenType: string): (k: Option<Kind>)
  {
    if tokenType == "word_type" then Some(BytesKind)
    else if tokenType == "id_type" || tokenType == "value_int_type" then Some(Int64Kind)
    else if tokenType == "value_float_type" then Some(FloatKind)
    else None
  }

  /** Words are bytes, ids and integer values int64, float values floats; embeddings and
      nested lists have no kind. */
  lemma KindOfTypes(t: TokenType)
    ensures KindOf(TypeName(t)) == match t
      case WordType => Some(BytesKind)
      case IdType => Some(Int64Kind)
      case ValueIntType => Some(Int64Kind)
      case ValueFloatType => Some(FloatKind)
      case EmbedType => None
      case ListType => None
  {
  }

  /** The encoder for the inner lists of a "list_type" node, as the branch at line 155
      is written: it tests the outer type, which is always "list_type" there. */
  function SubEncoderAsWritten(tokenType: string, subType: string): (r: Result<Encoder>)
    ensures r.Ok? ==> r.value.ListOfPlural?
  {
    if subType == "list_type" then Err(ValueError)
    else if subType == "word_type" then Ok(ListOfPlural(BytesKind))
    else if subType == "id_type" || tokenType == "value_int_type" then Ok(ListOfPlural(Int64Kind))
    else if subType == "value_float_type" then Ok(ListOfPlural(FloatKind))
    else Err(ValueError)
  }

  /** The encoder for the inner lists of a "list_type" node, testing the inner type as
      the other branches do: a feature list of plural features of the inner kind. */
  function SubEncoder(subType: string): (r: Result<Encoder>)
    ensures r.Ok? <==> KindOf(subType).Some?
    ensures r.Ok? ==> r.value == ListOfPlural(KindOf(subType).value)
    ensures r.Err? ==> r.error == ValueError
  {
    if subType == "list_type" then Err(ValueError)
    else if subType == "word_type" then Ok(ListOfPlural(BytesKind))
    else if subType == "id_type" || subType == "value_int_type" then Ok(ListOfPlural(Int64Kind))
    else if subType == "value_float_type" then Ok(ListOfPlural(FloatKind))
    else Err(ValueError)
  }

  /** Under a "list_type" node, the written test refuses integer-valued inner lists,
      which the corrected one encodes as int64 lists; on every other inner type the two
      agree. */
  lemma SubEncoderAsWrittenRefusesInts(subType: string)
    ensures SubEncoderAsWritten("list_type", "value_int_type") == Err(ValueError)
    ensures SubEncoder("value_int_type") == Ok(ListOfPlural(Int64Kind))
    ensures subType != "value_int_type" ==> SubEncoderAsWritten("list_type", subType) == SubEncoder(subType)
  {
  }

  /** The type whose kind a node's encoder uses: the inner node's for "list_type". */
  function InnerType(s: ListStat): string {
    if s.tokenType == "list_type" && s.sub.Some? then s.sub.value.tokenType else s.tokenType
  }

  /** The nodes the dispatch accepts. */
  predicate Supported(s: ListStat) {
    (s.tokenType == "list_type" ==> s.sub.Some?) && KindOf(InnerType(s)).Some?
  }

  /** One turn of the dispatch loop: the entry for a schema node. A "list_type" node and
      a sequence node go to the feature lists, any other node to the context; a node
      without the inner node it needs fails on the missing attribute, any other refused
      node with ValueError. */
  function EntryFor(s: ListStat): (r: Result<Entry>)
    ensures r.Ok? <==> Supported(s)
    ensures r.Err? ==> r.error == if s.tokenType == "list_type" && s.sub.None? then AttributeError else ValueError
    ensures r.Ok? ==> r.value.name == s.name
  {
    if s.tokenType == "list_type" then
      if s.sub.None? then Err(AttributeError)
      else if s.sub.value.tokenType == "list_type" then Err(ValueError)
      else
        match SubEncoder(s.sub.value.tokenType)
        case Err(e) => Err(e)
        case Ok(enc) => Ok(Entry(enc, FeatureListGroup, s.name))
    else if s.isSeq then
      match KindOf(s.tokenType)
      case None => Err(ValueError)
      case Some(k) => Ok(Entry(if k == FloatKind then ListOfPlural(k) else ListOfSingle(k), FeatureListGroup, s.name))
    else
      match KindOf(s.tokenType)
      case None => Err(ValueError)
      case Some(k) => Ok(Entry(if s.listLen > 1 then Plural(k) else Single(k), ContextGroup, s.name))
  }

  /** The entry of an accepted node: the kind of its (inner) type; a "list_type" node
      and a sequence node go to the feature lists as lists of features (plural ones for
      "list_type" and for float sequences), any other node to the context as one plural
      feature when its list is longer than one and a singular one otherwise. */
  lemma EntryForShape(s: ListStat)
    requires EntryFor(s).Ok?
    ensures var e := EntryFor(s).value;
      && e.encoder.kind == KindOf(InnerType(s)).value
      && (e.group == ContextGroup <==> s.tokenType != "list_type" && !s.isSeq)
      && (e.group == ContextGroup <==> e.encoder.Single? || e.encoder.Plural?)
      && (s.tokenType == "list_type" ==> e.encoder.ListOfPlural?)
      && (s.tokenType != "list_type" && s.isSeq ==> (e.encoder.ListOfPlural? <==> e.encoder.kind == FloatKind))
      && (e.group == ContextGroup ==> (e.encoder.Plural? <==> s.listLen > 1))
  {
  }

  /** A "list_type" node over a "list_type" node is refused. */
  lemma NoDoubleNesting(s: ListStat)
    requires s.tokenType == "list_type" && s.sub.Some? && s.sub.value.tokenType == "list_type"
    ensures EntryFor(s) == Err(ValueError)
  {
  }

  /** `feature_fs`: one entry per node in schema order, or the first node's failure. */
  function Entries(stats: seq<ListStat>): (r: Result<seq<Entry>>)
    ensures r.Ok? <==> forall i :: 0 <= i < |stats| ==> EntryFor(stats[i]).Ok?
    ensures r.Ok? ==> |r.value| == |stats| && forall i :: 0 <= i < |stats| ==> r.value[i] == EntryFor(stats[i]).value
  {
    if stats == [] then Ok([])
    else
      var init := Entries(stats[..|stats| - 1]);
      var last := EntryFor(stats[|stats| - 1]);
      assert forall i :: 0 <= i < |stats| - 1 ==> stats[..|stats| - 1][i] == stats[i];
      if init.Err? then init
      else if last.Err? then Err(last.error)
      else Ok(init.value + [last.value])
  }

  /** A failure of the dispatch is the failure of its first refused node. */
  lemma {:induction false} EntriesErr(stats: seq<ListStat>)
    requires Entries(stats).Err?
    ensures exists i :: (0 <= i < |stats| && EntryFor(stats[i]) == Err(Entries(stats).error)
                         && forall j :: 0 <= j < i ==> EntryFor(stats[j]).Ok?)
  {
    var init := stats[..|stats| - 1];
    assert forall i :: 0 <= i < |init| ==> init[i] == stats[i];
    if Entries(init).Err? {
      EntriesErr(init);
    }
  }

  /** The dispatch loop over the schema. */
  method FeatureFns(stats: seq<ListStat>) returns (r: Result<seq<Entry>>)
    ensures r == Entries(stats)
  {
    var fs: seq<Entry> := [];
    for i := 0 to |stats|
      invariant Entries(stats[..i]) == Ok(fs)
    {
      assert stats[..i + 1][..i] == stats[..i];
      var e := EntryFor(stats[i]);
      if e.Err? {
        EntriesErrStays(stats, i + 1);
        return Err(e.error);
      }
      fs := fs + [e.value];
    }
    assert stats[..|stats|] == stats;
    r := Ok(fs);
  }

  /** Once a prefix of the schema is refused, the whole schema is refused the same way. */
  lemma {:induction false} EntriesErrStays(stats: seq<ListStat>, i: nat)
    requires i <= |stats| && Entries(stats[..i]).Err?
    ensures Entries(stats) == Entries(stats[..i])
    decreases |stats| - i
  {
    if i < |stats| {
      assert stats[..i + 1][..i] == stats[..i];
      EntriesErrStays(stats, i + 1);
    } else {
      assert stats[..i] == stats;
    }
  }

  /** The values an encoder accepts: every builder but the singular one iterates its
      value, and a feature list of plural features iterates each element too. */
  predicate Fits(e: Encoder, v: Value) {
    match e
    case Single(_) => true
    case Plural(_) => v.List?
    case ListOfSingle(_) => v.List?
    case ListOfPlural(_) => v.List? && forall i :: 0 <= i < |v.items| ==> v.items[i].List?
  }

  /** `feature_f_tuple[0](t_list)`: one field encoded. */
  function Encode(e: Encoder, v: Value): (r: Result<Encoded>)
    ensures r.Ok? <==> Fits(e, v)
    ensures r.Err? ==> r.error == TypeError
    ensures r.Ok? ==> (r.value.AsFeature? <==> e.Single? || e.Plural?)
    ensures r.Ok? && r.value.AsFeature? ==> r.value.feature.kind == e.kind
  {
    match e
    case Single(k) => Ok(AsFeature(SingleFeature(k, v)))
    case Plural(k) =>
      (match Features(k, v) case Err(x) => Err(x) case Ok(f) => Ok(AsFeature(f)))
    case ListOfSingle(k) =>
      (match FeatureListOf(v, x => Ok(SingleFeature(k, x))) case Err(x) => Err(x) case Ok(l) => Ok(AsFeatureList(l)))
    case ListOfPlural(k) =>
      (match FeatureListOf(v, x => Features(k, x)) case Err(x) => Err(x) case Ok(l) => Ok(AsFeatureList(l)))
  }

  /** The value a feature holds: its one value for a singular feature, its list
      otherwise. */
  function Held(single: bool, f: Feature): Value {
    if single && |f.values| == 1 then f.values[0] else List(f.values)
  }

  /** How a reader of the schema gets a field back from what was written. */
  function Decode(e: Encoder, x: Encoded): Value {
    match x
    case AsFeature(f) => Held(e.Single?, f)
    case AsFeatureList(l) =>
      List(seq(|l.features|, i requires 0 <= i < |l.features| => Held(e.ListOfSingle?, l.features[i])))
  }

  /** Every field an encoder accepts is read back unchanged. */
  lemma DecodeEncode(e: Encoder, v: Value)
    requires Encode(e, v).Ok?
    ensures Decode(e, Encode(e, v).value) == v
  {
    match e
    case Single(k) =>
    case Plural(k) =>
    case ListOfSingle(k) =>
      var l := FeatureListOf(v, x => Ok(SingleFeature(k, x))).value;
      assert Decode(e, AsFeatureList(l)).items == v.items;
    case ListOfPlural(k) =>
      var l := FeatureListOf(v, x => Features(k, x)).value;
      assert Decode(e, AsFeatureList(l)).items == v.items;
  }

  /** The two dicts of one `SequenceExample`. */
  datatype SequenceExample = SequenceExample(context: map<string, Encoded>, featureLists: map<string, Encoded>)

  /** The dict of the given group. */
  function Dict(ex: SequenceExample, g: Group): map<string, Encoded> {
    if g == ContextGroup then ex.context else ex.featureLists
  }

  /** The dicts after the first n pairs of `zip(lists, feature_fs)`, or the first
      encoding failure; a later field overwrites an earlier one of the same name and
      group. */
  function Dicts(rec: seq<Value>, entries: seq<Entry>, n: nat): (r: Result<SequenceExample>)
    requires n <= |rec| && n <= |entries|
    ensures r.Ok? <==> forall i :: 0 <= i < n ==> Encode(entries[i].encoder, rec[i]).Ok?
  {
    if n == 0 then Ok(SequenceExample(map[], map[]))
    else
      match Dicts(rec, entries, n - 1)
      case Err(e) => Err(e)
      case Ok(ex) =>
        var e := entries[n - 1];
        match Encode(e.encoder, rec[n - 1])
        case Err(x) => Err(x)
        case Ok(x) =>
          if e.group == ContextGroup then Ok(ex.(context := ex.context[e.name := x]))
          else Ok(ex.(featureLists := ex.featureLists[e.name := x]))
  }

  /** The shorter of the record and the schema, as `zip` stops. */
  function Zipped(rec: seq<Value>, entries: seq<Entry>): (n: nat)
    ensures n <= |rec| && n <= |entries| && (n == |rec| || n == |entries|)
  {
    if |rec| < |entries| then |rec| else |entries|
  }

  /** The `SequenceExample` of one record. */
  function Example(rec: seq<Value>, entries: seq<Entry>): Result<SequenceExample> {
    Dicts(rec, entries, Zipped(rec, entries))
  }

  /** Each dict holds exactly the names of its group's fields. */
  lemma {:induction false} DictsKeys(rec: seq<Value>, entries: seq<Entry>, n: nat, g: Group)
    requires n <= |rec| && n <= |entries| && Dicts(rec, entries, n).Ok?
    ensures Dict(Dicts(rec, entries, n).value, g).Keys == set i | 0 <= i < n && entries[i].group == g :: entries[i].name
  {
    if n > 0 {
      DictsKeys(rec, entries, n - 1, g);
    }
  }

  /** A field whose name and group no later field repeats sits under its name in its
      group's dict, encoded by its entry. */
  lemma {:induction false} DictsAt(rec: seq<Value>, entries: seq<Entry>, n: nat, i: nat)
    requires i < n <= |rec| && n <= |entries| && Dicts(rec, entries, n).Ok?
    requires forall j :: i < j < n ==> entries[j].name != entries[i].name || entries[j].group != entries[i].group
    ensures entries[i].name in Dict(Dicts(rec, entries, n).value, entries[i].group)
    ensures Dict(Dicts(rec, entries, n).value, entries[i].group)[entries[i].name] == Encode(entries[i].encoder, rec[i]).value
  {
    if i < n - 1 {
      DictsAt(rec, entries, n - 1, i);
    }
  }

  /** Once the first i fields have failed, the whole record fails the same way. */
  lemma {:induction false} DictsErrStays(rec: seq<Value>, entries: seq<Entry>, i: nat, n: nat)
    requires i <= n <= |rec| && n <= |entries| && Dicts(rec, entries, i).Err?
    ensures Dicts(rec, entries, n) == Dicts(rec, entries, i)
    decreases n - i
  {
    if i < n {
      DictsErrStays(rec, entries, i, n - 1);
    }
  }

  /** The grouping loop over `zip(lists, feature_fs)`. */
  method RecordExample(rec: seq<Value>, entries: seq<Entry>) returns (r: Result<SequenceExample>)
    ensures r == Example(rec, entries)
  {
    var n := Zipped(rec, entries);
    var context: map<string, Encoded> := map[];
    var lists: map<string, Encoded> := map[];
    for i := 0 to n
      invariant Dicts(rec, entries, i) == Ok(SequenceExample(context, lists))
    {
      var x := Encode(entries[i].encoder, rec[i]);
      if x.Err? {
        DictsErrStays(rec, entries, i + 1, n);
        return Err(x.error);
      }
      if entries[i].group == ContextGroup {
        context := context[entries[i].name := x.value];
      } else {
        lists := lists[entries[i].name := x.value];
      }
    }
    r := Ok(SequenceExample(context, lists));
  }

  /** No two fields share a name within a group. */
  predicate Distinct(entries: seq<Entry>) {
    forall i, j :: 0 <= i < j < |entries| ==> entries[i].name != entries[j].name || entries[i].group != entries[j].group
  }

  /** Every field's name is in its group's dict. */
  predicate Covers(ex: SequenceExample, entries: seq<Entry>) {
    forall i :: 0 <= i < |entries| ==> entries[i].name in Dict(ex, entries[i].group)
  }

  /** How a reader of the schema gets a record back from an example. */
  function DecodeRecord(ex: SequenceExample, entries: seq<Entry>): (rec: seq<Value>)
    requires Covers(ex, entries)
    ensures |rec| == |entries|
  {
    seq(|entries|, i requires 0 <= i < |entries| => Decode(entries[i].encoder, Dict(ex, entries[i].group)[entries[i].name]))
  }

  /** With one field per schema node and distinct names, a written record is read back
      unchanged. */
  lemma RoundTrip(rec: seq<Value>, entries: seq<Entry>)
    requires |rec| == |entries| && Distinct(entries) && Example(rec, entries).Ok?
    ensures Covers(Example(rec, entries).value, entries)
    ensures DecodeRecord(Example(rec, entries).value, entries) == rec
  {
    var n := |rec|;
    var ex := Example(rec, entries).value;
    forall i | 0 <= i < n
      ensures entries[i].name in Dict(ex, entries[i].group)
      ensures Decode(entries[i].encoder, Dict(ex, entries[i].group)[entries[i].name]) == rec[i]
    {
      DictsAt(rec, entries, n, i);
      DecodeEncode(entries[i].encoder, rec[i]);
    }
  }

  /** The examples written for a run of records and the outcome: records are written in
      order until the first that fails to encode. */
  function Saved(records: seq<seq<Value>>, entries: seq<Entry>): (r: (seq<SequenceExample>, Outcome))
    ensures |r.0| <= |records|
    ensures forall i :: 0 <= i < |r.0| ==> Example(records[i], entries) == Ok(r.0[i])
    ensures r.1.Pass? ==> |r.0| == |records|
    ensures r.1.Fail? ==> |r.0| < |records| && Example(records[|r.0|], entries) == Err(r.1.error)
  {
    if records == [] then ([], Pass)
    else
      var init := Saved(records[..|records| - 1], entries);
      assert forall i :: 0 <= i < |init.0| ==> records[..|records| - 1][i] == records[i];
      if init.1.Fail? then init
      else
        match Example(records[|records| - 1], entries)
        case Err(e) => (init.0, Fail(e))
        case Ok(ex) => (init.0 + [ex], Pass)
  }

  /** Once a prefix fails, the run stops there. */
  lemma {:induction false} SavedFailStays(records: seq<seq<Value>>, entries: seq<Entry>, i: nat)
    requires i <= |records| && Saved(records[..i], entries).1.Fail?
    ensures Saved(records, entries) == Saved(records[..i], entries)
    decreases |records| - i
  {
    if i < |records| {
      assert records[..i + 1][..i] == records[..i];
      SavedFailStays(records, entries, i + 1);
    } else {
      assert records[..i] == records;
    }
  }

  /** The records `limit_iter` lets through when a size is given. */
  function Written<T>(records: seq<T>, size: Option<int>): (r: seq<T>)
    ensures r <= records
    ensures size.None? ==> r == records
    ensures size.Some? ==> |r| == if size.value <= 1 then (if records == [] then 0 else 1)
                                  else (if |records| < size.value then |records| else size.value)
  {
    match size
    case None => records
    case Some(n) => records[..if n <= 1 then (if records == [] then 0 else 1) else (if |records| < n then |records| else n)]
  }

  /** `_transformed_save`: the dispatch over the schema, then one example per record
      (at most `size` of them when a size is given) until a record fails to encode.
      `warned` is the message `limit_iter` prints when fewer records came than the size. */
  method TransformedSave(records: seq<seq<Value>>, stats: seq<ListStat>, size: Option<int>)
    returns (written: seq<SequenceExample>, o: Outcome, warned: bool)
    ensures Entries(stats).Err? ==> written == [] && o == Fail(Entries(stats).error) && !warned
    ensures Entries(stats).Ok? ==> (written, o) == Saved(Written(records, size), Entries(stats).value)
    ensures size.Some? && size.value >= 1 ==> |written| <= size.value
    ensures warned <==> Entries(stats).Ok? && o.Pass? && size.Some? && |written| < size.value
  {
    var entries := FeatureFns(stats);
    if entries.Err? {
      return [], Fail(entries.error), false;
    }
    var items := records;
    warned := false;
    if size.Some? {
      items, warned := LimitIter(records, size.value);
    }
    assert items == Written(records, size);
    written, o := [], Pass;
    for i := 0 to |items|
      invariant (written, o) == Saved(items[..i], entries.value) && o.Pass?
    {
      written, o := SaveRecord(items, i, entries.value, written);
      if o.Fail? {
        SavedFailStays(items, entries.value, i + 1);
        return written, o, false;
      }
    }
    assert items[..|items|] == items;
  }

  /** One turn of the writing loop: the example of record i, or its failure. */
  method SaveRecord(items: seq<seq<Value>>, i: nat, entries: seq<Entry>, written: seq<SequenceExample>)
    returns (written': seq<SequenceExample>, o: Outcome)
    requires i < |items| && Saved(items[..i], entries) == (written, Pass)
    ensures (written', o) == Saved(items[..i + 1], entries)
  {
    assert items[..i + 1][..i] == items[..i];
    var ex := RecordExample(items[i], entries);
    if ex.Err? {
      return written, Fail(ex.error);
    }
    return written + [ex.value], Pass;
  }

  /** The schema of the sentiment transformer is accepted: a feature list of the
      documents' tokens, and three int64 context scalars. */
  lemma SentimentSchema(t: Sentiment.DocLabelsTransformer, docs: seq<Document>)
    requires |docs| >= 1 && t.seqLen.Some? && Sentiment.GetListsStats(t, docs).Ok?
    requires docs[0].tokenType in {"word_type", "id_type"}
    ensures var k := if docs[0].tokenType == "word_type" then BytesKind else Int64Kind;
      Entries(Sentiment.GetListsStats(t, docs).value) ==
        Ok([Entry(ListOfSingle(k), FeatureListGroup, "src"), Entry(Single(Int64Kind), ContextGroup, "src_len"),
            Entry(Single(Int64Kind), ContextGroup, "label"), Entry(Single(Int64Kind), ContextGroup, "eod_flag")])
  {
    var stats := Sentiment.GetListsStats(t, docs).value;
    var es := Entries(stats).value;
    var k := if docs[0].tokenType == "word_type" then BytesKind else Int64Kind;
    assert es == [Entry(ListOfSingle(k), FeatureListGroup, "src"), Entry(Single(Int64Kind), ContextGroup, "src_len"),
                  Entry(Single(Int64Kind), ContextGroup, "label"), Entry(Single(Int64Kind), ContextGroup, "eod_flag")];
  }

  /** The question/answer schema of embedding documents is refused: the question is an
      embedding sequence, and the contexts nest a "list_type" node under another. */
  lemma QaEmbedSchemaRefused(t: Qa.QueAnsTransformer, docs: seq<Document>, embedSize: int)
    requires |docs| >= 1 && Qa.GetListsStats(t, docs, embedSize).Ok? && docs[0].tokenType == "embed_type"
    ensures Entries(Qa.GetListsStats(t, docs, embedSize).value) == Err(ValueError)
    ensures EntryFor(Qa.GetListsStats(t, docs, embedSize).value[1]) == Err(ValueError)
  {
    var stats := Qa.GetListsStats(t, docs, embedSize).value;
    assert EntryFor(stats[0]) == Err(ValueError);
    EntriesErr(stats);
  }
}

=== FILE: tokens.dfy ===
/** Tokens, token types, the numeric-token test and the vocabulary converters of token.py. */
module Tokens {
  import opened Wrappers
  import opened PyStrings

  /** A token as the pipeline passes it around: words and flag tokens are strings,
      ids and lengths are integers, embeddings are vectors. */
  datatype Token = Str(s: string) | Int(n: int) | Vec(v: seq<real>)

  /** The closed set of token types; the source spells them as the strings of TypeName. */
  datatype TokenType = WordType | IdType | EmbedType | ValueIntType | ValueFloatType | ListType

  function TypeName(t: TokenType): string {
    match t
    case WordType => "word_type"
    case IdType => "id_type"
    case EmbedType => "embed_type"
    case ValueIntType => "value_int_type"
    case ValueFloatType => "value_float_type"
    case ListType => "list_type"
  }

  /** The type a type-name string stands for, if any. */
  function ParseTokenType(name: string): (r: Option<TokenType>)
    ensures r.Some? ==> TypeName(r.value) == name
  {
    if name == "word_type" then Some(WordType)
    else if name == "id_type" then Some(IdType)
    else if name == "embed_type" then Some(EmbedType)
    else if name == "value_int_type" then Some(ValueIntType)
    else if name == "value_float_type" then Some(ValueFloatType)
    else if name == "list_type" then Some(ListType)
    else None
  }

  /** Every type name parses back to its type, so the names are distinct. */
  lemma ParseTypeName(t: TokenType)
    ensures ParseTokenType(TypeName(t)) == Some(t)
  {
  }

  /** `assert_type_valid`: the name is one of the six token types. */
  function AssertTypeValid(name: string): (r: Outcome)
    ensures r.Pass? <==> ParseTokenType(name).Some?
  {
    if name == "word_type" || name == "id_type" || name == "value_int_type"
       || name == "embed_type" || name == "value_float_type" || name == "list_type"
    then Pass
    else Fail(AssertionError)
  }

  /** `assert_type_doc_valid`: a Document holds words, ids or embeddings only. */
  function AssertTypeDocValid(name: string): (r: Outcome)
    ensures r.Pass? <==> ParseTokenType(name) in {Some(WordType), Some(IdType), Some(EmbedType)}
  {
    if name == "word_type" || name == "id_type" || name == "embed_type" then Pass
    else Fail(AssertionError)
  }

  /** `is_num`: after dropping every leading '-' and the first '.', a digit string. */
  predicate IsNum(token: string) {
    IsDigits(RemoveFirst(LStripChar(token, '-'), '.'))
  }

  function Dashes(k: nat): (r: string)
    ensures |r| == k && forall i :: 0 <= i < k ==> r[i] == '-'
  {
    if k == 0 then [] else "-" + Dashes(k - 1)
  }

  predicate AllDigits(s: string) {
    forall i :: 0 <= i < |s| ==> IsDigit(s[i])
  }

  /** A numeric token is made of '-', '.' and digits, holds a digit, has at most one '.',
      and its '-' signs all come first. */
  lemma IsNumSound(token: string)
    requires IsNum(token)
    ensures forall i :: 0 <= i < |token| ==> token[i] == '-' || token[i] == '.' || IsDigit(token[i])
    ensures exists i :: 0 <= i < |token| && IsDigit(token[i])
    ensures forall i, j :: 0 <= i < j < |token| && token[i] == '.' ==> token[j] != '.'
    ensures forall i, j :: 0 <= i < j < |token| && token[j] == '-' ==> token[i] == '-'
  {
    var r := LStripChar(token, '-');
    DigitsAroundDot(r);
    var d := |token| - |r|;
    AfterDashesChars(token, d);
    AfterDashesDots(token, d);
  }

  /** Dashes up to `d`, then dots and digits only with some digit. */
  lemma AfterDashesChars(token: string, d: nat)
    requires d <= |token|
    requires forall i :: 0 <= i < d ==> token[i] == '-'
    requires forall i :: 0 <= i < |token[d..]| ==> token[d..][i] == '.' || IsDigit(token[d..][i])
    requires exists i :: 0 <= i < |token[d..]| && IsDigit(token[d..][i])
    ensures forall i :: 0 <= i < |token| ==> token[i] == '-' || token[i] == '.' || IsDigit(token[i])
    ensures exists i :: 0 <= i < |token| && IsDigit(token[i])
    ensures forall i, j :: 0 <= i < j < |token| && token[j] == '-' ==> token[i] == '-'
  {
    var r := token[d..];
    forall i | d <= i < |token| ensures token[i] == '.' || IsDigit(token[i]) {
      assert token[i] == r[i - d];
    }
    var w :| 0 <= w < |r| && IsDigit(r[w]);
    assert IsDigit(token[d + w]);
  }

  /** At most one '.' after position `d`, and none before it, means at most one '.'. */
  lemma AfterDashesDots(token: string, d: nat)
    requires d <= |token|
    requires forall i :: 0 <= i < d ==> token[i] == '-'
    requires forall i, j :: 0 <= i < j < |token[d..]| && token[d..][i] == '.' ==> token[d..][j] != '.'
    ensures forall i, j :: 0 <= i < j < |token| && token[i] == '.' ==> token[j] != '.'
  {
    var r := token[d..];
    forall i, j | 0 <= i < j < |token| && token[i] == '.' ensures token[j] != '.' {
      assert token[i] == r[i - d] && token[j] == r[j - d];
    }
  }

  /** A string that is a digit string once its first '.' is dropped. */
  lemma DigitsAroundDot(r: string)
    requires IsDigits(RemoveFirst(r, '.'))
    ensures forall i :: 0 <= i < |r| ==> r[i] == '.' || IsDigit(r[i])
    ensures exists i :: 0 <= i < |r| && IsDigit(r[i])
    ensures forall i, j :: 0 <= i < j < |r| && r[i] == '.' ==> r[j] != '.'
  {
    var k := Find(r, '.');
    var q := RemoveFirst(r, '.');
    if k < 0 {
      assert IsDigit(r[0]);
    } else {
      assert q == r[..k] + r[k + 1..];
      assert forall i :: 0 <= i < k ==> r[i] == q[i];
      assert forall i :: k < i < |r| ==> r[i] == q[i - 1];
      assert forall i :: 0 <= i < k ==> r[i] != '.' by {
        forall i | 0 <= i < k ensures r[i] != '.' { assert r[i] == r[..k][i]; }
      }
      if k > 0 {
        assert IsDigit(r[0]);
      } else {
        assert IsDigit(r[1]);
      }
    }
  }

  /** Dashes, then digits, then optionally a '.' and more digits, with at least one digit,
      is numeric. */
  lemma IsNumComplete(k: nat, a: string, b: string)
    requires AllDigits(a) && AllDigits(b) && |a| + |b| > 0
    ensures IsNum(Dashes(k) + a + "." + b)
    ensures b == [] ==> IsNum(Dashes(k) + a)
  {
    IsNumWithDot(k, a, b);
    if b == [] {
      IsNumWithoutDot(k, a);
    }
  }

  lemma IsNumWithDot(k: nat, a: string, b: string)
    requires AllDigits(a) && AllDigits(b) && |a| + |b| > 0
    ensures IsNum(Dashes(k) + a + "." + b)
  {
    var r := a + ("." + b);
    var t := Dashes(k) + a + "." + b;
    assert t == Dashes(k) + r;
    RemoveDotAfterDigits(a, b);
    NoLeadingDash(a, b);
    DashesThenDigits(k, r);
  }

  lemma NoLeadingDash(a: string, b: string)
    requires AllDigits(a)
    ensures (a + ("." + b))[0] != '-'
  {
    if a != [] { assert IsDigit(a[0]); }
  }

  lemma RemoveDotAfterDigits(a: string, b: string)
    requires AllDigits(a) && AllDigits(b) && |a| + |b| > 0
    ensures IsDigits(RemoveFirst(a + ("." + b), '.'))
  {
    var r := a + ("." + b);
    FindAfterDigits(a, "." + b);
    assert r[..|a|] == a && r[|a| + 1..] == b;
    assert RemoveFirst(r, '.') == a + b;
    forall i | 0 <= i < |a + b| ensures IsDigit((a + b)[i]) {
      if i < |a| { assert (a + b)[i] == a[i]; } else { assert (a + b)[i] == b[i - |a|]; }
    }
  }

  lemma IsNumWithoutDot(k: nat, a: string)
    requires AllDigits(a) && |a| > 0
    ensures IsNum(Dashes(k) + a)
  {
    assert '.' !in a by {
      forall i | 0 <= i < |a| ensures a[i] != '.' { assert IsDigit(a[i]); }
    }
    assert IsDigit(a[0]);
    DashesThenDigits(k, a);
  }

  lemma {:induction false} FindAfterDigits(a: string, rest: string)
    requires AllDigits(a) && rest != [] && rest[0] == '.'
    ensures Find(a + rest, '.') == |a|
  {
    if a != [] {
      assert (a + rest)[1..] == a[1..] + rest;
      assert IsDigit(a[0]);
      FindAfterDigits(a[1..], rest);
    }
  }

  lemma LStripCharCons(t: string, c: char)
    ensures LStripChar([c] + t, c) == LStripChar(t, c)
  {
    assert ([c] + t)[1..] == t;
  }

  lemma DashesCons(k: nat, s: string)
    requires k > 0
    ensures Dashes(k) + s == ['-'] + (Dashes(k - 1) + s)
  {
  }

  lemma {:induction false} DashesThenDigits(k: nat, s: string)
    requires s == [] || s[0] != '-'
    ensures LStripChar(Dashes(k) + s, '-') == s
    decreases k
  {
    if k > 0 {
      DashesThenDigits(k - 1, s);
      DashesCons(k, s);
      LStripCharCons(Dashes(k - 1) + s, '-');
    } else {
      assert Dashes(k) + s == s;
    }
  }

  /** The vocabulary and embedding reader, an external read-only collaborator: its
      lookups and its PAD/UNK/EOS sentinels in word and id form. */
  datatype Vocab = Vocab(
    word2id: Token -> Token,
    id2word: Token -> Token,
    word2embed: Token -> Token,
    id2embed: Token -> Token,
    checkWordExist: Token -> bool,
    pad: Token, unk: Token, eos: Token,
    padId: Token, unkId: Token, eosId: Token)

  /** The shared body of the four converters: flag tokens pass, every other token goes
      through `f`, one output per input, in order. */
  function MapNonFlag(ts: seq<Token>, flags: seq<Token>, f: Token -> Token): (r: seq<Token>)
    ensures |r| == |ts|
    ensures forall i :: 0 <= i < |ts| ==> r[i] == (if ts[i] in flags then ts[i] else f(ts[i]))
  {
    if ts == [] then []
    else [if ts[0] in flags then ts[0] else f(ts[0])] + MapNonFlag(ts[1..], flags, f)
  }

  /** `create_word2id_gen_f` applied to a stream. */
  function Word2IdGen(vocab: Vocab, flags: seq<Token>, ts: seq<Token>): (r: seq<Token>)
    ensures |r| == |ts|
    ensures forall i :: 0 <= i < |ts| ==> r[i] == (if ts[i] in flags then ts[i] else vocab.word2id(ts[i]))
  {
    MapNonFlag(ts, flags, vocab.word2id)
  }

  /** `create_id2word_gen_f` applied to a stream. */
  function Id2WordGen(vocab: Vocab, flags: seq<Token>, ts: seq<Token>): (r: seq<Token>)
    ensures |r| == |ts|
    ensures forall i :: 0 <= i < |ts| ==> r[i] == (if ts[i] in flags then ts[i] else vocab.id2word(ts[i]))
  {
    MapNonFlag(ts, flags, vocab.id2word)
  }

  /** `create_word2embed_gen_f` applied to a stream. */
  function Word2EmbedGen(vocab: Vocab, flags: seq<Token>, ts: seq<Token>): (r: seq<Token>)
    ensures |r| == |ts|
    ensures forall i :: 0 <= i < |ts| ==> r[i] == (if ts[i] in flags then ts[i] else vocab.word2embed(ts[i]))
  {
    MapNonFlag(ts, flags, vocab.word2embed)
  }

  /** `create_id2embed_gen_f` applied to a stream. */
  function Id2EmbedGen(vocab: Vocab, flags: seq<Token>, ts: seq<Token>): (r: seq<Token>)
    ensures |r| == |ts|
    ensures forall i :: 0 <= i < |ts| ==> r[i] == (if ts[i] in flags then ts[i] else vocab.id2embed(ts[i]))
  {
    MapNonFlag(ts, flags, vocab.id2embed)
  }

  /** With a vocabulary whose id and word lookups invert each other on the words of a
      stream, converting to ids and back gives the stream again (flags untouched). */
  lemma {:induction false} Word2IdRoundTrip(vocab: Vocab, flags: seq<Token>, ts: seq<Token>)
    requires forall i :: 0 <= i < |ts| && ts[i] !in flags ==>
      vocab.word2id(ts[i]) !in flags && vocab.id2word(vocab.word2id(ts[i])) == ts[i]
    ensures Id2WordGen(vocab, flags, Word2IdGen(vocab, flags, ts)) == ts
  {
    var ids := Word2IdGen(vocab, flags, ts);
    var back := Id2WordGen(vocab, flags, ids);
    forall i | 0 <= i < |ts| ensures back[i] == ts[i] {
    }
  }
}

=== FILE: torch_wrap.dfy ===
/** utils/torch_wrap.py: the same batch padding as utils/np_wrap.py, for tensors, but
    rows longer than the target are left as they are, and the ids are built as a tensor,
    which needs rows of one length. The device is left out. */
module TorchWrap {
  import opened Wrappers
  import NpWrap

  /** The length `batch_pad_` pads to: the given one, or the longest row's. `max` of no
      rows raises ValueError and `torch.ones` of a negative size RuntimeError. */
  function Target<T>(rows: seq<seq<T>>, maxNum: Option<int>): (r: Result<nat>)
    ensures maxNum.None? ==> (r.Ok? <==> rows != []) && (r.Err? ==> r.error == ValueError)
    ensures maxNum.Some? ==>
      (r.Ok? <==> maxNum.value >= 0) && (r.Ok? ==> r.value == maxNum.value) && (r.Err? ==> r.error == RuntimeError)
  {
    match maxNum
    case None => if rows == [] then Err(ValueError) else Ok(NpWrap.Longest(rows))
    case Some(n) => if n < 0 then Err(RuntimeError) else Ok(n)
  }

  /** A row after `batch_pad_`: extended with the pad token up to `n`; a row that already
      has `n` tokens or more keeps all of them. */
  function Grown<T>(row: seq<T>, pad: T, n: nat): (r: seq<T>)
    ensures |r| == if |row| < n then n else |row|
    ensures row <= r && forall j :: |row| <= j < |r| ==> r[j] == pad
  {
    if |row| < n then row + NpWrap.Pads(pad, n - |row|) else row
  }

  /** Growing agrees with the NumPy fitting exactly when the row is not longer than the
      target; otherwise the NumPy version cuts the row and this one keeps it. */
  lemma GrownFitted<T>(row: seq<T>, pad: T, n: nat)
    ensures |row| <= n <==> Grown(row, pad, n) == NpWrap.Fitted(row, pad, n)
  {
    if |row| > n {
      assert |NpWrap.Fitted(row, pad, n)| != |Grown(row, pad, n)|;
    }
  }

  /** Every row grown to `n`. */
  function GrownRows<T>(rows: seq<seq<T>>, pad: T, n: nat): (r: seq<seq<T>>)
    ensures |r| == |rows| && forall i :: 0 <= i < |rows| ==> r[i] == Grown(rows[i], pad, n)
  {
    seq(|rows|, i requires 0 <= i < |rows| => Grown(rows[i], pad, n))
  }

  /** One turn of the `batch_pad_` loop: a short row extended with pad tokens and its mask
      row zeroed after the real tokens; any other row left alone. */
  method GrowRow<T>(a: array<seq<T>>, mask: seq<seq<int>>, i: nat, pad: T, n: nat) returns (mask': seq<seq<int>>)
    requires i < a.Length && i < |mask| && mask[i] == NpWrap.MaskRow(n, n)
    modifies a
    ensures a[..] == old(a[..])[i := Grown(old(a[i]), pad, n)]
    ensures mask' == mask[i := NpWrap.MaskRow(|old(a[i])|, n)]
  {
    var len := |a[i]|;
    mask' := mask;
    if len < n {
      mask' := mask[i := mask[i][..len] + seq(n - len, _ => 0)];
      assert mask'[i] == NpWrap.MaskRow(len, n);
      a[i] := a[i] + NpWrap.Pads(pad, n - len);
    } else {
      assert NpWrap.MaskRow(len, n) == NpWrap.MaskRow(n, n);
    }
  }

  /** `batch_pad_`: every short row grown in place to the target length, and the mask
      returned; with no target, nothing changes. */
  method BatchPad<T>(a: array<seq<T>>, pad: T, maxNum: Option<int>) returns (mask: Result<seq<seq<int>>>)
    modifies a
    ensures Target(old(a[..]), maxNum).Err? ==> mask == Err(Target(old(a[..]), maxNum).error) && a[..] == old(a[..])
    ensures Target(old(a[..]), maxNum).Ok? ==>
      var n := Target(old(a[..]), maxNum).value;
      mask == Ok(NpWrap.Mask(old(a[..]), n)) && a[..] == GrownRows(old(a[..]), pad, n)
  {
    var t := Target(a[..], maxNum);
    if t.Err? {
      return Err(t.error);
    }
    var n := t.value;
    ghost var rows := a[..];
    var m := seq(a.Length, _ => NpWrap.MaskRow(n, n));
    for i := 0 to a.Length
      invariant |m| == a.Length
      invariant forall k :: 0 <= k < i ==> a[k] == Grown(rows[k], pad, n) && m[k] == NpWrap.MaskRow(|rows[k]|, n)
      invariant forall k :: i <= k < a.Length ==> a[k] == rows[k] && m[k] == NpWrap.MaskRow(n, n)
    {
      m := GrowRow(a, m, i, pad, n);
    }
    assert m == NpWrap.Mask(rows, n);
    assert a[..] == GrownRows(rows, pad, n);
    return Ok(m);
  }

  /** Without a given length every grown row has the target length, so the ids always
      form a tensor. */
  lemma GrownToLongest<T>(rows: seq<seq<T>>, pad: T)
    requires rows != []
    ensures Target(rows, None).Ok?
    ensures forall i :: 0 <= i < |rows| ==> |GrownRows(rows, pad, Target(rows, None).value)[i]| == Target(rows, None).value
    ensures NpWrap.Rectangular(GrownRows(rows, pad, Target(rows, None).value))
  {
  }

  /** With a given length no row exceeds, the grown rows are the NumPy-fitted rows, all
      of that length. */
  lemma GrownWithinTarget<T>(rows: seq<seq<T>>, pad: T, n: nat)
    requires forall i :: 0 <= i < |rows| ==> |rows[i]| <= n
    ensures GrownRows(rows, pad, n) == NpWrap.FittedRows(rows, pad, n)
    ensures NpWrap.Rectangular(GrownRows(rows, pad, n))
  {
    forall i | 0 <= i < |rows| ensures Grown(rows[i], pad, n) == NpWrap.Fitted(rows[i], pad, n) {
      GrownFitted(rows[i], pad, n);
    }
  }

  /** `batch_pad_lookup_`: the batch grown in place with the vocabulary's pad token, then
      the ids of the grown rows as a tensor, which rows of different lengths cannot form
      (ValueError), and the mask. */
  method BatchPadLookup<T>(a: array<seq<T>>, lookup: T -> int, pad: T, maxNum: Option<int>)
    returns (r: Result<(seq<seq<int>>, seq<seq<int>>)>)
    modifies a
    ensures Target(old(a[..]), maxNum).Err? ==> r == Err(Target(old(a[..]), maxNum).error) && a[..] == old(a[..])
    ensures Target(old(a[..]), maxNum).Ok? ==>
      var n := Target(old(a[..]), maxNum).value;
      && a[..] == GrownRows(old(a[..]), pad, n)
      && (NpWrap.Rectangular(a[..]) ==> r == Ok((NpWrap.Ids(a[..], lookup), NpWrap.Mask(old(a[..]), n))))
      && (!NpWrap.Rectangular(a[..]) ==> r == Err(ValueError))
  {
    var mask := BatchPad(a, pad, maxNum);
    if mask.Err? {
      return Err(mask.error);
    }
    var rows := a[..];
    var ids := NpWrap.LookupRows(rows, lookup);
    if !NpWrap.Rectangular(rows) {
      return Err(ValueError);
    }
    return Ok((ids, mask.value));
  }
}

=== FILE: txt.dfy ===
/** serializers/txt.py: the text side of the pipeline. The generator half reads a text
    file line by line into tokens (isolating chosen substrings, splitting on spaces, and
    ending each line with an optional eol token); the saver half formats documents,
    (sequence, flag) documents and transformer records as text. A file's lines are given
    as strings and a written file is the string written to it. */
module Txt {
  import opened Wrappers
  import opened Arith
  import opened Tokens
  import opened PyStrings
  import opened Iterators
  import opened TransformerInterface
  import TfRecords

  /** The three `doc_gen_f_*` selectors with an eol choice. */
  datatype EolMode = YieldEol | IgnoreEol | KeepEolNl

  /** The eol a selector hands to `_doc_gen_f`: EOS or EOS_ID by token type, none, or the
      newline itself. */
  function EolFor(mode: EolMode, tokenType: string, vocab: Vocab): (r: Result<Option<Token>>)
    ensures r.Err? <==> mode == YieldEol && tokenType != "word_type" && tokenType != "id_type"
    ensures r.Err? ==> r.error == NotImplementedError
    ensures r.Ok? ==> (r.value.None? <==> mode == IgnoreEol)
    ensures r.Ok? && mode == YieldEol ==> r.value.value in {vocab.eos, vocab.eosId}
    ensures mode == KeepEolNl ==> r == Ok(Some(Str("\n")))
  {
    match mode
    case YieldEol =>
      if tokenType == "word_type" then Ok(Some(vocab.eos))
      else if tokenType == "id_type" then Ok(Some(vocab.eosId))
      else Err(NotImplementedError)
    case IgnoreEol => Ok(None)
    case KeepEolNl => Ok(Some(Str("\n")))
  }

  /** The line after `line.replace(t, " " + t + " ")` for each isolating token in turn. */
  function Isolate(line: string, isolating: seq<string>): string {
    if isolating == [] then line
    else
      var t := isolating[|isolating| - 1];
      ReplaceAll(Isolate(line, isolating[..|isolating| - 1]), t, " " + t + " ")
  }

  /** The loop over the isolating tokens. */
  method IsolateLine(line: string, isolating: seq<string>) returns (r: string)
    ensures r == Isolate(line, isolating)
  {
    r := line;
    for k := 0 to |isolating|
      invariant r == Isolate(line, isolating[..k])
    {
      assert isolating[..k + 1][..k] == isolating[..k];
      r := ReplaceAll(r, isolating[k], " " + isolating[k] + " ");
    }
    assert isolating[..|isolating|] == isolating;
  }

  /** The pieces that are not empty, in order. */
  function NonEmpty(ps: seq<string>): (r: seq<string>)
    ensures |r| <= |ps|
    ensures forall k :: 0 <= k < |r| ==> r[k] != [] && r[k] in ps
  {
    if ps == [] then []
    else NonEmpty(ps[..|ps| - 1]) + (if ps[|ps| - 1] == [] then [] else [ps[|ps| - 1]])
  }

  /** Pieces that are all non-empty are kept as they are. */
  lemma {:induction false} NonEmptyKeeps(ps: seq<string>)
    requires forall k :: 0 <= k < |ps| ==> ps[k] != []
    ensures NonEmpty(ps) == ps
  {
    if ps != [] {
      NonEmptyKeeps(ps[..|ps| - 1]);
    }
  }

  /** The words of a line: isolate, strip, split on single spaces, drop empty pieces.
      None is empty and none holds a space. */
  function Words(line: string, isolating: seq<string>): (ws: seq<string>)
    ensures forall k :: 0 <= k < |ws| ==> ws[k] != [] && ' ' !in ws[k]
  {
    NonEmpty(Split(Strip(Isolate(line, isolating)), ' '))
  }

  /** The converter applied to every word. */
  function Converted(ws: seq<string>, convert: string -> Token): (ts: seq<Token>)
    ensures |ts| == |ws| && forall k :: 0 <= k < |ws| ==> ts[k] == convert(ws[k])
  {
    seq(|ws|, k requires 0 <= k < |ws| => convert(ws[k]))
  }

  /** The tokens one line yields: its converted words, then the eol if there is one. */
  function LineTokens(line: string, eol: Option<Token>, isolating: seq<string>, convert: string -> Token): seq<Token> {
    Converted(Words(line, isolating), convert) + (if eol.Some? then [eol.value] else [])
  }

  /** What `doc_gen()` yields for the lines of the file. */
  function DocTokens(lines: seq<string>, eol: Option<Token>, isolating: seq<string>, convert: string -> Token): seq<Token> {
    if lines == [] then []
    else DocTokens(lines[..|lines| - 1], eol, isolating, convert) + LineTokens(lines[|lines| - 1], eol, isolating, convert)
  }

  lemma ConvertedSnoc(ws: seq<string>, w: string, convert: string -> Token)
    ensures Converted(ws + [w], convert) == Converted(ws, convert) + [convert(w)]
  {
    assert Converted(ws + [w], convert)[..|ws|] == Converted(ws, convert);
  }

  /** Dropping empty pieces from one more piece. */
  lemma NonEmptySnoc(ps: seq<string>, p: string)
    ensures NonEmpty(ps + [p]) == NonEmpty(ps) + (if p == [] then [] else [p])
  {
    assert (ps + [p])[..|ps|] == ps;
  }

  /** The inner loop of `doc_gen`: every non-empty piece converted, in order. */
  method ConvertPieces(tokens: seq<string>, convert: string -> Token) returns (out: seq<Token>)
    ensures out == Converted(NonEmpty(tokens), convert)
  {
    out := [];
    for k := 0 to |tokens|
      invariant out == Converted(NonEmpty(tokens[..k]), convert)
    {
      assert tokens[..k + 1] == tokens[..k] + [tokens[k]];
      NonEmptySnoc(tokens[..k], tokens[k]);
      if tokens[k] == [] {
        continue;
      }
      ConvertedSnoc(NonEmpty(tokens[..k]), tokens[k], convert);
      out := out + [convert(tokens[k])];
    }
    assert tokens[..|tokens|] == tokens;
  }

  /** One line of `doc_gen`: the inner loop over the pieces, then the eol. */
  method LineGen(line: string, eol: Option<Token>, isolating: seq<string>, convert: string -> Token) returns (out: seq<Token>)
    ensures out == LineTokens(line, eol, isolating, convert)
  {
    var l := IsolateLine(line, isolating);
    var tokens := Split(Strip(l), ' ');
    out := ConvertPieces(tokens, convert);
    if eol.Some? && |tokens| > 0 {
      out := out + [eol.value];
    }
  }

  /** `_doc_gen_f(...)()`: the tokens of every line, in order. */
  method DocGen(lines: seq<string>, eol: Option<Token>, isolating: seq<string>, convert: string -> Token) returns (out: seq<Token>)
    ensures out == DocTokens(lines, eol, isolating, convert)
  {
    out := [];
    for i := 0 to |lines|
      invariant out == DocTokens(lines[..i], eol, isolating, convert)
    {
      assert lines[..i + 1][..i] == lines[..i];
      var ts := LineGen(lines[i], eol, isolating, convert);
      out := out + ts;
    }
    assert lines[..|lines|] == lines;
  }

  /** With an eol the converter never produces, the document holds exactly one eol per
      line, blank lines included. */
  lemma {:induction false} EolPerLine(lines: seq<string>, eol: Token, isolating: seq<string>, convert: string -> Token)
    requires forall w :: convert(w) != eol
    ensures multiset(DocTokens(lines, Some(eol), isolating, convert))[eol] == |lines|
  {
    if lines != [] {
      EolPerLine(lines[..|lines| - 1], eol, isolating, convert);
      var ws := Converted(Words(lines[|lines| - 1], isolating), convert);
      assert eol !in ws;
      assert multiset(ws)[eol] == 0;
    }
  }

  /** A line of whitespace only, such as an empty line or a lone newline, yields no word,
      so with an eol it yields the eol alone. */
  lemma BlankLine(line: string, eol: Option<Token>, convert: string -> Token)
    requires forall i :: 0 <= i < |line| ==> IsSpace(line[i])
    ensures Words(line, []) == []
    ensures LineTokens(line, eol, [], convert) == if eol.Some? then [eol.value] else []
  {
    assert Strip(line) == [];
    assert Split([], ' ') == [[]];
    assert NonEmpty([[]]) == [];
  }

  /** A word: not empty and free of whitespace. */
  predicate Plain(w: string) {
    w != [] && forall i :: 0 <= i < |w| ==> !IsSpace(w[i])
  }

  /** Isolating a single token is one replacement. */
  lemma IsolateOne(line: string, tok: string)
    ensures Isolate(line, [tok]) == ReplaceAll(line, tok, " " + tok + " ")
  {
    assert [tok][..0] == [];
  }

  /** With no whitespace inside, a word is a single piece with no tab in it. */
  lemma PlainPieces(w: string)
    requires Plain(w)
    ensures ' ' !in w && '\t' !in w && Split(w, ' ') == [w]
    ensures ReplaceAll(w, "\t", " \t ") == w
  {
    assert IsSpace(' ') && IsSpace('\t');
    SplitNoSep(w, ' ');
    ReplaceCharAbsent(w, '\t', " \t ");
  }

  /** The isolating tab, surrounded by spaces. */
  lemma ReplaceTab()
    ensures ReplaceAll("\t", "\t", " \t ") == " \t "
    ensures ReplaceAll("\n", "\t", " \t ") == "\n"
  {
    assert "\t"[..1] == "\t" && "\t"[1..] == [];
    ReplaceCharAbsent("\n", '\t', " \t ");
  }

  /** When the pieces of the stripped, isolated line are all non-empty, they are its words. */
  lemma WordsArePieces(line: string, isolating: seq<string>, ps: seq<string>)
    requires Split(Strip(Isolate(line, isolating)), ' ') == ps
    requires forall k :: 0 <= k < |ps| ==> ps[k] != []
    ensures Words(line, isolating) == ps
  {
    NonEmptyKeeps(ps);
  }

  lemma ReplaceTabTail(b: string)
    requires Plain(b)
    ensures ReplaceAll("\t" + (b + "\n"), "\t", " \t ") == " \t " + (b + "\n")
  {
    PlainPieces(b);
    ReplaceTab();
    ReplaceCharConcat(b, "\n", '\t', " \t ");
    ReplaceCharConcat("\t", b + "\n", '\t', " \t ");
  }

  lemma IsolateTabBetween(a: string, b: string)
    requires Plain(a) && Plain(b)
    ensures Isolate(a + "\t" + b + "\n", ["\t"]) == a + " \t " + b + "\n"
  {
    var line := a + "\t" + b + "\n";
    IsolateOne(line, "\t");
    assert " " + "\t" + " " == " \t ";
    PlainPieces(a);
    ReplaceTabTail(b);
    assert line == a + ("\t" + (b + "\n"));
    ReplaceCharConcat(a, "\t" + (b + "\n"), '\t', " \t ");
  }

  lemma SplitTabBetween(a: string, b: string)
    requires Plain(a) && Plain(b)
    ensures Split(a + " \t " + b, ' ') == [a, "\t", b]
  {
    PlainPieces(a);
    PlainPieces(b);
    assert a + " \t " + b == a + [' '] + ("\t" + [' '] + b);
    SplitAround(a, "\t" + [' '] + b, ' ');
    SplitAround("\t", b, ' ');
    SplitNoSep("\t", ' ');
  }

  lemma StripTabBetween(a: string, b: string)
    requires Plain(a) && Plain(b)
    ensures Strip(a + " \t " + b + "\n") == a + " \t " + b
  {
    var kept := a + " \t " + b;
    assert kept[0] == a[0] && kept[|kept| - 1] == b[|b| - 1];
    StripTrailing(kept, "\n");
  }

  /** An isolating tab between two words becomes a word of its own. */
  lemma IsolatedTabInside(a: string, b: string)
    requires Plain(a) && Plain(b)
    ensures Words(a + "\t" + b + "\n", ["\t"]) == [a, "\t", b]
  {
    IsolateTabBetween(a, b);
    StripTabBetween(a, b);
    SplitTabBetween(a, b);
    WordsArePieces(a + "\t" + b + "\n", ["\t"], [a, "\t", b]);
  }

  /** An isolating tab at the end of a line is removed by the strip. */
  lemma IsolatedTabAtEnd(a: string)
    requires Plain(a)
    ensures Words(a + "\t\n", ["\t"]) == [a]
  {
    var line := a + "\t\n";
    IsolateOne(line, "\t");
    assert " " + "\t" + " " == " \t ";
    PlainPieces(a);
    ReplaceTab();
    assert "\t\n" == "\t" + "\n";
    ReplaceCharConcat(a, "\t\n", '\t', " \t ");
    ReplaceCharConcat("\t", "\n", '\t', " \t ");
    assert Isolate(line, ["\t"]) == a + " \t \n";
    StripTrailing(a, " \t \n");
    WordsArePieces(line, ["\t"], [a]);
  }

  /** `doc_save`: every token followed by a space, except the newline token. */
  function DocText(ts: seq<string>): string {
    if ts == [] then []
    else
      var t := ts[|ts| - 1];
      DocText(ts[..|ts| - 1]) + t + (if t != "\n" then " " else "")
  }

  /** The writing loop of `doc_save`. */
  method DocSave(ts: seq<string>) returns (text: string)
    ensures text == DocText(ts)
  {
    text := [];
    for i := 0 to |ts|
      invariant text == DocText(ts[..i])
    {
      assert ts[..i + 1][..i] == ts[..i];
      text := text + ts[i];
      if ts[i] != "\n" {
        text := text + " ";
      }
    }
    assert ts[..|ts|] == ts;
  }

  lemma JoinSnoc(ps: seq<string>, x: string, sep: string)
    ensures Join(ps + [x], sep) == if ps == [] then x else Join(ps, sep) + sep + x
    decreases |ps|
  {
    if |ps| > 1 {
      JoinSnoc(ps[1..], x, sep);
      assert (ps + [x])[1..] == ps[1..] + [x];
    }
  }

  /** Joining words gives a string that starts and ends with a word character. */
  lemma {:induction false} JoinPlain(ws: seq<string>)
    requires |ws| >= 1 && forall k :: 0 <= k < |ws| ==> Plain(ws[k])
    ensures var j := Join(ws, " "); |j| >= 1 && !IsSpace(j[0]) && !IsSpace(j[|j| - 1])
    decreases |ws|
  {
    if |ws| > 1 {
      JoinPlain(ws[1..]);
      var last := ws[|ws| - 1];
      assert Join(ws, " ") == ws[0] + " " + Join(ws[1..], " ");
    }
  }

  lemma {:induction false} DocTextJoin(ts: seq<string>)
    requires |ts| >= 1 && forall k :: 0 <= k < |ts| ==> Plain(ts[k])
    ensures DocText(ts) == Join(ts, " ") + " "
  {
    var init, last := ts[..|ts| - 1], ts[|ts| - 1];
    assert ts == init + [last];
    assert last != "\n" by {
      assert IsSpace('\n');
      assert !IsSpace(last[0]);
    }
    assert DocText(ts) == DocText(init) + last + " ";
    JoinSnoc(init, last, " ");
    if init != [] {
      assert forall k :: 0 <= k < |init| ==> init[k] == ts[k];
      DocTextJoin(init);
    }
  }

  /** Words hold no space. */
  lemma PlainNoSpace(ts: seq<string>)
    requires forall k :: 0 <= k < |ts| ==> Plain(ts[k])
    ensures forall k :: 0 <= k < |ts| ==> ' ' !in ts[k]
  {
    forall k | 0 <= k < |ts| ensures ' ' !in ts[k] {
      PlainPieces(ts[k]);
    }
  }

  /** Words joined by spaces, plus a trailing space, strip back to the joined words. */
  lemma StripJoined(ts: seq<string>)
    requires |ts| >= 1 && forall k :: 0 <= k < |ts| ==> Plain(ts[k])
    ensures Strip(Join(ts, " ") + " ") == Join(ts, " ")
  {
    JoinPlain(ts);
    StripOneTrailing(Join(ts, " "));
  }

  /** A single trailing space strips off a string with non-space ends. */
  lemma StripOneTrailing(j: string)
    requires j != [] && !IsSpace(j[0]) && !IsSpace(j[|j| - 1])
    ensures Strip(j + " ") == j
  {
    StripTrailing(j, " ");
  }

  /** Words joined by spaces split back into the words. */
  lemma SplitJoined(ts: seq<string>)
    requires |ts| >= 1 && forall k :: 0 <= k < |ts| ==> Plain(ts[k])
    ensures Split(Join(ts, " "), ' ') == ts
  {
    PlainNoSpace(ts);
    SplitJoin(ts, ' ');
  }

  lemma DocSaveReadBackNonEmpty(ts: seq<string>)
    requires |ts| >= 1 && forall k :: 0 <= k < |ts| ==> Plain(ts[k])
    ensures Split(Strip(Isolate(DocText(ts), [])), ' ') == ts
  {
    DocTextJoin(ts);
    StripJoined(ts);
    SplitJoined(ts);
  }

  /** Reading a saved document back: the words of the text `doc_save` writes for plain
      tokens are those tokens. */
  lemma DocSaveReadBack(ts: seq<string>)
    requires forall k :: 0 <= k < |ts| ==> Plain(ts[k])
    ensures Words(DocText(ts), []) == ts
  {
    if ts == [] {
      var empty: seq<string> := [[]];
      assert Split(Strip(Isolate([], [])), ' ') == empty;
      assert empty[..0] == [];
    } else {
      DocSaveReadBackNonEmpty(ts);
      WordsArePieces(DocText(ts), [], ts);
    }
  }

  /** What `doc_save_by_line` writes for the newline token: EOS or EOS_ID by token type;
      writing anything but a string fails. */
  function EosText(tokenType: string, vocab: Vocab): (r: Result<string>)
    ensures r.Err? ==> r.error in {ValueError, TypeError}
    ensures r.Err? && r.error == ValueError <==> tokenType != "word_type" && tokenType != "id_type"
    ensures r.Ok? ==> Str(r.value) in {vocab.eos, vocab.eosId}
  {
    var eos := if tokenType == "word_type" then Ok(vocab.eos)
               else if tokenType == "id_type" then Ok(vocab.eosId)
               else Err(ValueError);
    match eos
    case Err(e) => Err(e)
    case Ok(t) => if t.Str? then Ok(t.s) else Err(TypeError)
  }

  /** The text `doc_save_by_line` writes for a run of tokens, and how it ends: each token
      (EOS for the newline token) and a space, then a newline after token i when
      (i + offset) is a multiple of n. The source tests i itself (offset 0). */
  function ByLine(ts: seq<string>, n: int, tokenType: string, vocab: Vocab, offset: nat): (r: (string, Outcome))
  {
    if ts == [] then ([], Pass)
    else
      var init := ByLine(ts[..|ts| - 1], n, tokenType, vocab, offset);
      var i := |ts| - 1;
      if init.1.Fail? then init
      else
        var tok := if ts[i] == "\n" then EosText(tokenType, vocab) else Ok(ts[i]);
        if tok.Err? then (init.0, Fail(tok.error))
        else
          var text := init.0 + tok.value + " ";
          if n == 0 then (text, Fail(ZeroDivisionError))
          else if (i + offset) % n == 0 then (text + "\n", Pass)
          else (text, Pass)
  }

  /** `doc_save_by_line` as written: a line break after the first token, then after
      every n more. */
  function ByLineAsWritten(ts: seq<string>, n: int, tokenType: string, vocab: Vocab): (r: (string, Outcome))
  {
    ByLine(ts, n, tokenType, vocab, 0)
  }

  /** As written, four words at two per line come out as lines of one, two and one
      words; counting from one they come out as two lines of two. */
  lemma ByLineAsWrittenFirstLineShort(vocab: Vocab)
    ensures ByLineAsWritten(["a", "b", "c", "d"], 2, "word_type", vocab) == ("a \nb c \nd ", Pass)
    ensures ByLine(["a", "b", "c", "d"], 2, "word_type", vocab, 1) == ("a b \nc d \n", Pass)
  {
    assert ["a", "b", "c", "d"][..3] == ["a", "b", "c"] && ["a", "b", "c"][..2] == ["a", "b"];
    assert ["a", "b"][..1] == ["a"] && ["a"][..0] == [];
    assert [] + "a" + " " + "\n" == "a \n";
    assert "a \n" + "b" + " " == "a \nb ";
    assert "a \nb " + "c" + " " + "\n" == "a \nb c \n";
    assert "a \nb c \n" + "d" + " " == "a \nb c \nd ";
    assert [] + "a" + " " == "a ";
    assert "a " + "b" + " " + "\n" == "a b \n";
    assert "a b \n" + "c" + " " == "a b \nc ";
    assert "a b \nc " + "d" + " " + "\n" == "a b \nc d \n";
    assert ByLine([], 2, "word_type", vocab, 0) == ([], Pass);
    assert ByLine(["a"], 2, "word_type", vocab, 0) == ("a \n", Pass);
    assert ByLine(["a", "b"], 2, "word_type", vocab, 0) == ("a \nb ", Pass);
    assert ByLine(["a", "b", "c"], 2, "word_type", vocab, 0) == ("a \nb c \n", Pass);
    assert ByLine([], 2, "word_type", vocab, 1) == ([], Pass);
    assert ByLine(["a"], 2, "word_type", vocab, 1) == ("a ", Pass);
    assert ByLine(["a", "b"], 2, "word_type", vocab, 1) == ("a b \n", Pass);
    assert ByLine(["a", "b", "c"], 2, "word_type", vocab, 1) == ("a b \nc ", Pass);
  }

  /** A run that succeeds with n >= 1 and tokens without newline characters holds one
      line break per n tokens (counting from one): every finished line holds n tokens. */
  lemma {:induction false} ByLineBreaks(ts: seq<string>, n: int, tokenType: string, vocab: Vocab)
    requires n >= 1 && ByLine(ts, n, tokenType, vocab, 1).1.Pass?
    requires forall k :: 0 <= k < |ts| ==> ts[k] == "\n" || '\n' !in ts[k]
    requires !(vocab.eos.Str? && '\n' in vocab.eos.s) && !(vocab.eosId.Str? && '\n' in vocab.eosId.s)
    ensures multiset(ByLine(ts, n, tokenType, vocab, 1).0)['\n'] == |ts| / n
  {
    if ts != [] {
      var i := |ts| - 1;
      ByLineBreaks(ts[..i], n, tokenType, vocab);
      DivSucc(i, n);
      var tok := if ts[i] == "\n" then EosText(tokenType, vocab) else Ok(ts[i]);
      assert '\n' !in tok.value;
      assert multiset(tok.value)['\n'] == 0;
    }
  }

  /** `doc_save_by_line` with the line count taken from one. */
  method DocSaveByLine(ts: seq<string>, n: int, tokenType: string, vocab: Vocab) returns (text: string, o: Outcome)
    ensures (text, o) == ByLine(ts, n, tokenType, vocab, 1)
  {
    text, o := [], Pass;
    for i := 0 to |ts|
      invariant (text, o) == ByLine(ts[..i], n, tokenType, vocab, 1) && o.Pass?
    {
      assert ts[..i + 1][..i] == ts[..i];
      var tok := if ts[i] == "\n" then EosText(tokenType, vocab) else Ok(ts[i]);
      if tok.Err? {
        o := Fail(tok.error);
        ByLineFailStays(ts, n, tokenType, vocab, i + 1);
        return;
      }
      text := text + tok.value + " ";
      if n == 0 {
        o := Fail(ZeroDivisionError);
        ByLineFailStays(ts, n, tokenType, vocab, i + 1);
        return;
      }
      if (i + 1) % n == 0 {
        text := text + "\n";
      }
    }
    assert ts[..|ts|] == ts;
  }

  lemma {:induction false} ByLineFailStays(ts: seq<string>, n: int, tokenType: string, vocab: Vocab, i: nat)
    requires i <= |ts| && ByLine(ts[..i], n, tokenType, vocab, 1).1.Fail?
    ensures ByLine(ts, n, tokenType, vocab, 1) == ByLine(ts[..i], n, tokenType, vocab, 1)
    decreases |ts| - i
  {
    if i < |ts| {
      assert ts[..i + 1][..i] == ts[..i];
      ByLineFailStays(ts, n, tokenType, vocab, i + 1);
    } else {
      assert ts[..i] == ts;
    }
  }

  /** Pieces written one after the other, each ended by the character `c`: lines for a
      newline, tab-ended cells for a tab. */
  function Terminated(ps: seq<string>, c: char): string {
    if ps == [] then [] else Terminated(ps[..|ps| - 1], c) + ps[|ps| - 1] + [c]
  }

  lemma {:induction false} TerminatedJoin(ps: seq<string>, c: char)
    ensures Terminated(ps, c) == Join(ps + [[]], [c])
  {
    if ps != [] {
      var init := ps[..|ps| - 1];
      var p := ps[|ps| - 1];
      TerminatedJoin(init, c);
      assert ps == init + [p];
      JoinSnoc(init, [], [c]);
      JoinSnoc(ps, [], [c]);
      if init == [] {
        assert Terminated(ps, c) == p + [c];
      } else {
        JoinSnoc(init, p, [c]);
        assert Join(init + [[]], [c]) == Join(init, [c]) + [c];
      }
    }
  }

  /** Reading the pieces back: splitting what `Terminated` writes on its terminator gives
      the pieces and an empty last piece. */
  lemma TerminatedSplit(ps: seq<string>, c: char)
    requires forall k :: 0 <= k < |ps| ==> c !in ps[k]
    ensures Split(Terminated(ps, c), c) == ps + [[]]
  {
    TerminatedJoin(ps, c);
    SplitJoin(ps + [[]], c);
  }

  /** `str(token)`: a string as it is, an integer in decimal, an embedding by the given
      printer. */
  function Shown(t: Token, repr: TfRecords.Value -> string): string {
    match t
    case Str(s) => s
    case Int(n) => ShowInt(n)
    case Vec(_) => repr(TfRecords.Scalar(t))
  }

  /** The line `seq_doc_save` writes for a sequence. */
  function SeqLine(ts: seq<Token>, repr: TfRecords.Value -> string): string {
    Join(seq(|ts|, k requires 0 <= k < |ts| => Shown(ts[k], repr)), " ")
  }

  /** The flag line: the newline and the tab escaped, other strings as they are;
      anything but a string cannot be written. */
  function Escaped(flag: Token): (r: Result<string>)
    ensures r.Ok? <==> flag.Str?
    ensures r.Err? ==> r.error == TypeError
    ensures r.Ok? ==> ('\n' !in r.value <==> '\n' !in flag.s || flag.s == "\n")
    ensures r.Ok? && flag.s != "\n" && flag.s != "\t" ==> r.value == flag.s
  {
    if flag == Str("\n") then Ok("\\n")
    else if flag == Str("\t") then Ok("\\t")
    else if flag.Str? then Ok(flag.s)
    else Err(TypeError)
  }

  /** What `seq_doc_save` writes to the sequence file and to the flag file, and how it
      ends: the sequence line of a pair is written before its flag is. */
  function SeqDocTexts(pairs: seq<(seq<Token>, Token)>, repr: TfRecords.Value -> string): (r: (string, string, Outcome))
  {
    if pairs == [] then ([], [], Pass)
    else
      var init := SeqDocTexts(pairs[..|pairs| - 1], repr);
      var p := pairs[|pairs| - 1];
      if init.2.Fail? then init
      else
        var s := init.0 + SeqLine(p.0, repr) + "\n";
        match Escaped(p.1)
        case Err(e) => (s, init.1, Fail(e))
        case Ok(f) => (s, init.1 + f + "\n", Pass)
  }

  /** When every flag can be written, the sequence file holds one line per pair and the
      flag file the escaped flag of each pair. */
  lemma {:induction false} SeqDocLines(pairs: seq<(seq<Token>, Token)>, repr: TfRecords.Value -> string)
    requires forall k :: 0 <= k < |pairs| ==> pairs[k].1.Str?
    ensures SeqDocTexts(pairs, repr).2.Pass?
    ensures SeqDocTexts(pairs, repr).0 == Terminated(seq(|pairs|, k requires 0 <= k < |pairs| => SeqLine(pairs[k].0, repr)), '\n')
    ensures SeqDocTexts(pairs, repr).1 == Terminated(seq(|pairs|, k requires 0 <= k < |pairs| => Escaped(pairs[k].1).value), '\n')
  {
    if pairs != [] {
      var init := pairs[..|pairs| - 1];
      SeqDocLines(init, repr);
      var ls := seq(|pairs|, k requires 0 <= k < |pairs| => SeqLine(pairs[k].0, repr));
      var fs := seq(|pairs|, k requires 0 <= k < |pairs| => Escaped(pairs[k].1).value);
      assert ls[..|ls| - 1] == seq(|init|, k requires 0 <= k < |init| => SeqLine(init[k].0, repr));
      assert fs[..|fs| - 1] == seq(|init|, k requires 0 <= k < |init| => Escaped(init[k].1).value);
    }
  }

  /** Reading the flag file back: with string flags that hold no newline except the
      newline flag itself, line k of the flag file is flag k escaped. */
  lemma FlagFileReadBack(pairs: seq<(seq<Token>, Token)>, repr: TfRecords.Value -> string)
    requires forall k :: 0 <= k < |pairs| ==> pairs[k].1.Str? && ('\n' !in pairs[k].1.s || pairs[k].1.s == "\n")
    ensures var lines := Split(SeqDocTexts(pairs, repr).1, '\n');
      |lines| == |pairs| + 1 && forall k :: 0 <= k < |pairs| ==> Ok(lines[k]) == Escaped(pairs[k].1)
  {
    SeqDocLines(pairs, repr);
    var fs := seq(|pairs|, k requires 0 <= k < |pairs| => Escaped(pairs[k].1).value);
    TerminatedSplit(fs, '\n');
  }

  /** The loop of `seq_doc_save`. */
  method SeqDocSave(pairs: seq<(seq<Token>, Token)>, repr: TfRecords.Value -> string)
    returns (seqText: string, flagText: string, o: Outcome)
    ensures (seqText, flagText, o) == SeqDocTexts(pairs, repr)
  {
    seqText, flagText, o := [], [], Pass;
    for i := 0 to |pairs|
      invariant (seqText, flagText, o) == SeqDocTexts(pairs[..i], repr) && o.Pass?
    {
      assert pairs[..i + 1][..i] == pairs[..i];
      seqText := seqText + SeqLine(pairs[i].0, repr) + "\n";
      var f := Escaped(pairs[i].1);
      if f.Err? {
        o := Fail(f.error);
        SeqDocFailStays(pairs, repr, i + 1);
        return;
      }
      flagText := flagText + f.value + "\n";
    }
    assert pairs[..|pairs|] == pairs;
  }

  lemma {:induction false} SeqDocFailStays(pairs: seq<(seq<Token>, Token)>, repr: TfRecords.Value -> string, i: nat)
    requires i <= |pairs| && SeqDocTexts(pairs[..i], repr).2.Fail?
    ensures SeqDocTexts(pairs, repr) == SeqDocTexts(pairs[..i], repr)
    decreases |pairs| - i
  {
    if i < |pairs| {
      assert pairs[..i + 1][..i] == pairs[..i];
      SeqDocFailStays(pairs, repr, i + 1);
    } else {
      assert pairs[..i] == pairs;
    }
  }

  /** A string token. */
  predicate IsWordValue(v: TfRecords.Value) {
    v.Scalar? && v.token.Str?
  }

  /** `str(x)` for an element of a record list: a token as `Shown` prints it, a nested
      list by the given printer. */
  function ShownValue(v: TfRecords.Value, repr: TfRecords.Value -> string): string {
    match v
    case Scalar(t) => Shown(t, repr)
    case List(_) => repr(v)
  }

  /** The printed elements of a list. */
  function ShownItems(items: seq<TfRecords.Value>, repr: TfRecords.Value -> string): (r: seq<string>)
    ensures |r| == |items|
  {
    seq(|items|, k requires 0 <= k < |items| => ShownValue(items[k], repr))
  }

  /** `" ".join(...)` over one list of a record: the strings themselves for "word_type",
      where joining anything but strings fails, and the printed elements otherwise;
      a single token is not a list. */
  function ListText(v: TfRecords.Value, word: bool, repr: TfRecords.Value -> string): (r: Result<string>)
    ensures r.Err? ==> r.error == TypeError
    ensures r.Ok? <==> v.List? && (word ==> forall i :: 0 <= i < |v.items| ==> IsWordValue(v.items[i]))
  {
    if !v.List? then Err(TypeError)
    else if word && exists i :: 0 <= i < |v.items| && !IsWordValue(v.items[i]) then Err(TypeError)
    else Ok(Join(ShownItems(v.items, repr), " "))
  }

  /** Reading a list back: splitting its text on spaces gives the printed elements, which
      for a word list are the words themselves. */
  lemma ListTextReadBack(v: TfRecords.Value, word: bool, repr: TfRecords.Value -> string)
    requires ListText(v, word, repr).Ok? && |v.items| >= 1
    requires forall k :: 0 <= k < |v.items| ==> ' ' !in ShownValue(v.items[k], repr)
    ensures Split(ListText(v, word, repr).value, ' ') == ShownItems(v.items, repr)
    ensures word ==> forall k :: 0 <= k < |v.items| ==> ShownItems(v.items, repr)[k] == v.items[k].token.s
  {
    SplitJoin(ShownItems(v.items, repr), ' ');
  }

  /** The inner loop for a "list_type" field: each inner list joined and followed by a
      tab. The inner schema is consulted at each inner list, so a missing one
      (AttributeError) or a nested "list_type" (ValueError) fails only when there is an
      inner list; the cells written before a failure stay written. */
  function SubTexts(subs: seq<TfRecords.Value>, sub: Option<ListStat>, repr: TfRecords.Value -> string): (r: (string, Outcome))
    ensures r.1.Pass? <==> (subs == [] || (sub.Some? && sub.value.tokenType != "list_type"
      && forall i :: 0 <= i < |subs| ==> ListText(subs[i], sub.value.tokenType == "word_type", repr).Ok?))
    ensures r.1.Fail? && sub.None? ==> r.1.error == AttributeError && r.0 == []
    ensures r.1.Fail? && sub.Some? && sub.value.tokenType == "list_type" ==> r.1.error == ValueError && r.0 == []
    ensures r.1.Fail? && sub.Some? && sub.value.tokenType != "list_type" ==> r.1.error == TypeError
  {
    if subs == [] then ([], Pass)
    else
      var init := SubTexts(subs[..|subs| - 1], sub, repr);
      var last := subs[|subs| - 1];
      assert forall i :: 0 <= i < |subs| - 1 ==> subs[..|subs| - 1][i] == subs[i];
      if init.1.Fail? then init
      else if sub.None? then (init.0, Fail(AttributeError))
      else if sub.value.tokenType == "list_type" then (init.0, Fail(ValueError))
      else
        match ListText(last, sub.value.tokenType == "word_type", repr)
        case Err(e) => (init.0, Fail(e))
        case Ok(s) => (init.0 + s + "\t", Pass)
  }

  /** The texts of the inner lists under an inner schema. */
  function Cells(subs: seq<TfRecords.Value>, subType: string, repr: TfRecords.Value -> string): (r: seq<string>)
    requires forall i :: 0 <= i < |subs| ==> ListText(subs[i], subType == "word_type", repr).Ok?
    ensures |r| == |subs|
  {
    seq(|subs|, k requires 0 <= k < |subs| => ListText(subs[k], subType == "word_type", repr).value)
  }

  /** A "list_type" field that is written whole is its inner lists' texts, each ended by
      a tab. */
  lemma {:induction false} SubTextsCells(subs: seq<TfRecords.Value>, sub: Option<ListStat>, repr: TfRecords.Value -> string)
    requires sub.Some? && SubTexts(subs, sub, repr).1.Pass?
    ensures SubTexts(subs, sub, repr).0 == Terminated(Cells(subs, sub.value.tokenType, repr), '\t')
  {
    if subs != [] {
      var init := subs[..|subs| - 1];
      assert forall i :: 0 <= i < |init| ==> init[i] == subs[i];
      SubTextsCells(init, sub, repr);
      assert Cells(subs, sub.value.tokenType, repr)[..|init|] == Cells(init, sub.value.tokenType, repr);
    }
  }

  /** Reading a "list_type" field back: splitting it on tabs gives the inner lists'
      texts and an empty last piece. */
  lemma SubTextsReadBack(subs: seq<TfRecords.Value>, sub: Option<ListStat>, repr: TfRecords.Value -> string)
    requires sub.Some? && SubTexts(subs, sub, repr).1.Pass?
    requires forall k :: 0 <= k < |subs| ==> '\t' !in ListText(subs[k], sub.value.tokenType == "word_type", repr).value
    ensures Split(SubTexts(subs, sub, repr).0, '\t') == Cells(subs, sub.value.tokenType, repr) + [[]]
  {
    SubTextsCells(subs, sub, repr);
    TerminatedSplit(Cells(subs, sub.value.tokenType, repr), '\t');
  }

  lemma {:induction false} SubTextsFailStays(subs: seq<TfRecords.Value>, sub: Option<ListStat>, repr: TfRecords.Value -> string, i: nat)
    requires i <= |subs| && SubTexts(subs[..i], sub, repr).1.Fail?
    ensures SubTexts(subs, sub, repr) == SubTexts(subs[..i], sub, repr)
    decreases |subs| - i
  {
    if i < |subs| {
      assert subs[..i + 1][..i] == subs[..i];
      SubTextsFailStays(subs, sub, repr, i + 1);
    } else {
      assert subs[..i] == subs;
    }
  }

  /** The loop over the inner lists of a "list_type" field. */
  method WriteSubLists(subs: seq<TfRecords.Value>, sub: Option<ListStat>, repr: TfRecords.Value -> string)
    returns (text: string, o: Outcome)
    ensures (text, o) == SubTexts(subs, sub, repr)
  {
    text, o := [], Pass;
    for i := 0 to |subs|
      invariant (text, o) == SubTexts(subs[..i], sub, repr) && o.Pass?
    {
      assert subs[..i + 1][..i] == subs[..i];
      if sub.None? {
        o := Fail(AttributeError);
      } else if sub.value.tokenType == "list_type" {
        o := Fail(ValueError);
      } else {
        var r := ListText(subs[i], sub.value.tokenType == "word_type", repr);
        if r.Err? {
          o := Fail(r.error);
        } else {
          text := text + r.value + "\t";
        }
      }
      if o.Fail? {
        SubTextsFailStays(subs, sub, repr, i + 1);
        return;
      }
    }
    assert subs[..|subs|] == subs;
  }

  /** What one field of a record writes before its newline, and how it ends. */
  function FieldText(v: TfRecords.Value, stat: ListStat, repr: TfRecords.Value -> string): (r: (string, Outcome))
    ensures stat.tokenType != "list_type" ==> (r.1.Pass? <==> ListText(v, stat.tokenType == "word_type", repr).Ok?)
    ensures r.1.Fail? && stat.tokenType != "list_type" ==> r.1.error == TypeError && r.0 == []
    ensures r.1.Pass? && stat.tokenType != "list_type" ==> Ok(r.0) == ListText(v, stat.tokenType == "word_type", repr)
    ensures stat.tokenType == "list_type" && !v.List? ==> r == ([], Fail(TypeError))
  {
    if stat.tokenType == "list_type" then
      if v.List? then SubTexts(v.items, stat.sub, repr) else ([], Fail(TypeError))
    else
      match ListText(v, stat.tokenType == "word_type", repr)
      case Err(e) => ([], Fail(e))
      case Ok(s) => (s, Pass)
  }

  /** One field: the inner loop for "list_type", a join otherwise. */
  method WriteField(v: TfRecords.Value, stat: ListStat, repr: TfRecords.Value -> string)
    returns (text: string, o: Outcome)
    ensures (text, o) == FieldText(v, stat, repr)
  {
    if stat.tokenType == "list_type" {
      if !v.List? {
        return [], Fail(TypeError);
      }
      text, o := WriteSubLists(v.items, stat.sub, repr);
    } else {
      var r := ListText(v, stat.tokenType == "word_type", repr);
      if r.Err? {
        return [], Fail(r.error);
      }
      text, o := r.value, Pass;
    }
  }

  /** The files after the first `n` of one record's field texts are appended, each text
      and a newline to its own file, stopping at the first text that fails, whose
      partial text stays. */
  function Appended(files: seq<string>, texts: seq<(string, Outcome)>, n: nat): (r: (seq<string>, Outcome))
    requires n <= |texts| <= |files|
    ensures |r.0| == |files|
    decreases n
  {
    if n == 0 then (files, Pass)
    else
      var init := Appended(files, texts, n - 1);
      if init.1.Fail? then init
      else
        var f := texts[n - 1];
        if f.1.Fail? then (init.0[n - 1 := init.0[n - 1] + f.0], f.1)
        else (init.0[n - 1 := init.0[n - 1] + f.0 + "\n"], Pass)
  }

  /** Appending leaves the files of the later texts alone. */
  lemma {:induction false} AppendedKeeps(files: seq<string>, texts: seq<(string, Outcome)>, n: nat)
    requires n <= |texts| <= |files|
    ensures forall j :: n <= j < |files| ==> Appended(files, texts, n).0[j] == files[j]
  {
    if n > 0 {
      AppendedKeeps(files, texts, n - 1);
    }
  }

  /** The record passes exactly when every text appended so far does. */
  lemma {:induction false} AppendedPasses(files: seq<string>, texts: seq<(string, Outcome)>, n: nat)
    requires n <= |texts| <= |files|
    ensures Appended(files, texts, n).1.Pass? <==> forall j :: 0 <= j < n ==> texts[j].1.Pass?
  {
    if n > 0 {
      AppendedPasses(files, texts, n - 1);
    }
  }

  /** When the record passes, file `j` holds text `j` and a newline after what it had. */
  lemma {:induction false} AppendedTexts(files: seq<string>, texts: seq<(string, Outcome)>, n: nat)
    requires n <= |texts| <= |files|
    requires Appended(files, texts, n).1.Pass?
    ensures forall j :: 0 <= j < n ==> Appended(files, texts, n).0[j] == files[j] + texts[j].0 + "\n"
  {
    if n > 0 {
      AppendedTexts(files, texts, n - 1);
      AppendedKeeps(files, texts, n - 1);
    }
  }

  /** A failed text ends the record: later texts change nothing. */
  lemma {:induction false} AppendedFailStays(files: seq<string>, texts: seq<(string, Outcome)>, n: nat, m: nat)
    requires n <= m <= |texts| <= |files|
    requires Appended(files, texts, n).1.Fail?
    ensures Appended(files, texts, m) == Appended(files, texts, n)
    decreases m - n
  {
    if n < m {
      AppendedFailStays(files, texts, n, m - 1);
    }
  }

  /** The text and outcome of each field `zip` pairs with a schema node. */
  function FieldTexts(rec: seq<TfRecords.Value>, stats: seq<ListStat>, repr: TfRecords.Value -> string): (r: seq<(string, Outcome)>)
    ensures |r| == Zipped(rec, stats)
    ensures forall j :: 0 <= j < |r| ==> r[j] == FieldText(rec[j], stats[j], repr)
  {
    seq(Zipped(rec, stats), j requires 0 <= j < Zipped(rec, stats) => FieldText(rec[j], stats[j], repr))
  }

  /** The files after the first `n` fields of one record are written. */
  function FieldsWritten(files: seq<string>, rec: seq<TfRecords.Value>, stats: seq<ListStat>, n: nat,
                         repr: TfRecords.Value -> string): (r: (seq<string>, Outcome))
    requires n <= |rec| && n <= |stats| && |files| == |stats|
  {
    Appended(files, FieldTexts(rec, stats, repr), n)
  }

  /** The number of fields `zip` pairs up: the shorter of the record and the schema. */
  function Zipped(rec: seq<TfRecords.Value>, stats: seq<ListStat>): (n: nat)
    ensures n <= |rec| && n <= |stats| && (n == |rec| || n == |stats|)
  {
    if |rec| < |stats| then |rec| else |stats|
  }

  /** The loop over the fields of one record. */
  method WriteRecord(files: seq<string>, rec: seq<TfRecords.Value>, stats: seq<ListStat>, repr: TfRecords.Value -> string)
    returns (files': seq<string>, o: Outcome)
    requires |files| == |stats|
    ensures (files', o) == FieldsWritten(files, rec, stats, Zipped(rec, stats), repr)
  {
    files', o := files, Pass;
    var n := Zipped(rec, stats);
    for j := 0 to n
      invariant (files', o) == FieldsWritten(files, rec, stats, j, repr) && o.Pass?
    {
      var text, fo := WriteField(rec[j], stats[j], repr);
      if fo.Fail? {
        files', o := files'[j := files'[j] + text], fo;
        AppendedFailStays(files, FieldTexts(rec, stats, repr), j + 1, n);
        return;
      }
      files' := files'[j := files'[j] + text + "\n"];
    }
  }

  /** The files after whole records are written, stopping at the first record with a
      failing field; each of the `|stats|` files starts empty. */
  function AllWritten(records: seq<seq<TfRecords.Value>>, stats: seq<ListStat>, repr: TfRecords.Value -> string): (r: (seq<string>, Outcome))
    ensures |r.0| == |stats|
  {
    if records == [] then (seq(|stats|, _ => []), Pass)
    else
      var init := AllWritten(records[..|records| - 1], stats, repr);
      var rec := records[|records| - 1];
      if init.1.Fail? then init
      else FieldsWritten(init.0, rec, stats, Zipped(rec, stats), repr)
  }

  lemma {:induction false} AllWrittenFailStays(records: seq<seq<TfRecords.Value>>, stats: seq<ListStat>,
                                               repr: TfRecords.Value -> string, i: nat)
    requires i <= |records| && AllWritten(records[..i], stats, repr).1.Fail?
    ensures AllWritten(records, stats, repr) == AllWritten(records[..i], stats, repr)
    decreases |records| - i
  {
    if i < |records| {
      assert records[..i + 1][..i] == records[..i];
      AllWrittenFailStays(records, stats, repr, i + 1);
    } else {
      assert records[..i] == records;
    }
  }

  lemma AllWrittenNext(records: seq<seq<TfRecords.Value>>, stats: seq<ListStat>, repr: TfRecords.Value -> string, i: nat)
    requires i < |records| && AllWritten(records[..i], stats, repr).1.Pass?
    ensures AllWritten(records[..i + 1], stats, repr)
      == FieldsWritten(AllWritten(records[..i], stats, repr).0, records[i], stats, Zipped(records[i], stats), repr)
  {
    assert records[..i + 1][..i] == records[..i];
  }

  /** Record `i`'s text for field `j`. */
  function Column(records: seq<seq<TfRecords.Value>>, stats: seq<ListStat>, j: nat, repr: TfRecords.Value -> string): (c: seq<string>)
    requires j < |stats| && forall i :: 0 <= i < |records| ==> j < |records[i]|
    ensures |c| == |records|
  {
    seq(|records|, i requires 0 <= i < |records| => FieldText(records[i][j], stats[j], repr).0)
  }

  /** One line per record in every file: when every record has a value for every field
      and nothing fails, file `j` holds field `j` of each record, in order, each ended by
      a newline. */
  lemma {:induction false} FilesAreColumns(records: seq<seq<TfRecords.Value>>, stats: seq<ListStat>, repr: TfRecords.Value -> string)
    requires forall i :: 0 <= i < |records| ==> |records[i]| >= |stats|
    requires AllWritten(records, stats, repr).1.Pass?
    ensures forall j :: 0 <= j < |stats| ==> AllWritten(records, stats, repr).0[j] == Terminated(Column(records, stats, j, repr), '\n')
  {
    if records != [] {
      var init := records[..|records| - 1];
      assert forall i :: 0 <= i < |init| ==> init[i] == records[i];
      FilesAreColumns(init, stats, repr);
      var before := AllWritten(init, stats, repr);
      var rec := records[|records| - 1];
      var texts := FieldTexts(rec, stats, repr);
      AppendedTexts(before.0, texts, |texts|);
      forall j | 0 <= j < |stats|
        ensures AllWritten(records, stats, repr).0[j] == Terminated(Column(records, stats, j, repr), '\n')
      {
        assert Column(records, stats, j, repr)[..|init|] == Column(init, stats, j, repr);
      }
    }
  }

  /** Reading a file back: with no newline in any field text, line `i` of file `j` is
      record `i`'s text for field `j`. */
  lemma FileReadBack(records: seq<seq<TfRecords.Value>>, stats: seq<ListStat>, repr: TfRecords.Value -> string, j: nat)
    requires forall i :: 0 <= i < |records| ==> |records[i]| >= |stats|
    requires AllWritten(records, stats, repr).1.Pass? && j < |stats|
    requires forall i :: 0 <= i < |records| ==> '\n' !in FieldText(records[i][j], stats[j], repr).0
    ensures Split(AllWritten(records, stats, repr).0[j], '\n') == Column(records, stats, j, repr) + [[]]
  {
    FilesAreColumns(records, stats, repr);
    TerminatedSplit(Column(records, stats, j, repr), '\n');
  }

  /** The records `limit_iter(records, size)` hands out in `_transformed_save`, which
      does not test for a missing size first, and how the iteration ends: Python refuses
      to compare the count with None, once the first record is handed out, or at once
      when there is none. */
  function LimitedAsWritten<T>(records: seq<T>, size: Option<int>): (r: (seq<T>, Outcome))
    ensures size.Some? ==> r == (TfRecords.Written(records, size), Pass)
  {
    match size
    case None => (if records == [] then [] else records[..1], Fail(TypeError))
    case Some(_) => (TfRecords.Written(records, size), Pass)
  }

  /** Without a size, the text saver as written stops after the first record with a
      TypeError, where the TFRecord saver, which tests for a missing size, writes every
      record. */
  lemma LimitNoneStopsEarly<T>(records: seq<T>)
    requires |records| >= 2
    ensures LimitedAsWritten(records, None) == (records[..1], Fail(TypeError))
    ensures TfRecords.Written(records, None) == records
  {
  }

  /** `_transformed_save` for text files: the schema must have one node per path; then
      each record (at most `size` of them when a size is given) writes one line per file
      until a field fails. A missing size means no limit, as in the TFRecord saver. */
  method TransformedSave(records: seq<seq<TfRecords.Value>>, stats: seq<ListStat>, paths: seq<string>,
                         size: Option<int>, repr: TfRecords.Value -> string)
    returns (files: seq<string>, o: Outcome, warned: bool)
    ensures |stats| != |paths| ==> files == [] && o == Fail(ValueError) && !warned
    ensures |stats| == |paths| ==> (files, o) == AllWritten(TfRecords.Written(records, size), stats, repr)
    ensures |stats| == |paths| ==> |files| == |paths|
    ensures warned <==> |stats| == |paths| && o.Pass? && size.Some? && |TfRecords.Written(records, size)| < size.value
  {
    if |stats| != |paths| {
      return [], Fail(ValueError), false;
    }
    var items := records;
    warned := false;
    if size.Some? {
      items, warned := LimitIter(records, size.value);
    }
    assert items == TfRecords.Written(records, size);
    files, o := seq(|stats|, _ => []), Pass;
    for i := 0 to |items|
      invariant (files, o) == AllWritten(items[..i], stats, repr) && o.Pass?
    {
      AllWrittenNext(items, stats, repr, i);
      files, o := WriteRecord(files, items[i], stats, repr);
      if o.Fail? {
        AllWrittenFailStays(items, stats, repr, i + 1);
        return files, o, false;
      }
    }
    assert items[..|items|] == items;
  }
}

=== FILE: window.dfy ===
/** The context-window engine of token.py: token transformers, their applicability
    test and slicing, the buffer sizing, and the in-place shift of a center through
    a stream with a left and a right buffer. */
module ContextWindow {
  import opened Wrappers

  /** A transformer over tokens of type T: a function of (left context, center, right
      context) and the two context widths it declares. `None` is Python's `None` (or a
      falsy result, for the skipping transformers). */
  datatype TokenTransformer<!T, R> =
    TokenTransformer(f: (seq<T>, T, seq<T>) -> Option<R>, numLeft: nat, numRight: nat)

  /** `is_applicable`: both buffer lengths equal the declared widths exactly. */
  predicate IsApplicable<T, R>(t: TokenTransformer<T, R>, leftLen: nat, rightLen: nat) {
    leftLen == t.numLeft && rightLen == t.numRight
  }

  /** `s[i:]` with Python's index rules: a negative start counts from the end and is
      clamped at 0. */
  function PySliceFrom<T>(s: seq<T>, i: int): (r: seq<T>)
    requires i <= |s|
    ensures |r| <= |s| && r == s[|s| - |r|..]
    ensures i >= 0 ==> |r| == |s| - i
    ensures -|s| <= i < 0 ==> |r| == -i
    ensures i < -|s| ==> r == s
  {
    if i >= 0 then s[i..]
    else if i + |s| >= 0 then s[i + |s|..]
    else s
  }

  /** How many of the newest left tokens `__getitem__` hands over: all of the
      `numLeft + 1` newest once the buffer is longer than `numLeft`, and only the newest
      one when the buffer holds exactly `numLeft` tokens. */
  function PassedLeftWidth(leftLen: nat, numLeft: nat): nat {
    if leftLen > numLeft then numLeft + 1 else if leftLen == 0 then 0 else 1
  }

  /** `__getitem__`: the asserted lengths become the requires; the function sees the
      left buffer sliced from `len(left) - numLeft - 1` and the first `numRight` right
      tokens. */
  function GetItem<T, R>(t: TokenTransformer<T, R>, left: seq<T>, center: T, right: seq<T>): (r: Option<R>)
    requires |left| >= t.numLeft && |right| >= t.numRight
    ensures var w := PassedLeftWidth(|left|, t.numLeft);
      w <= |left| && r == t.f(left[|left| - w..], center, right[..t.numRight])
  {
    var l := PySliceFrom(left, |left| - t.numLeft - 1);
    t.f(l, center, right[..t.numRight])
  }

  /** The widest declared left width of a list of transformers, 0 for none. */
  function MaxLeft<T, R>(ts: seq<TokenTransformer<T, R>>): (m: nat)
    ensures forall i :: 0 <= i < |ts| ==> ts[i].numLeft <= m
    ensures m == 0 || exists i :: 0 <= i < |ts| && ts[i].numLeft == m
  {
    if ts == [] then 0
    else
      var m := MaxLeft(ts[..|ts| - 1]);
      assert forall i :: 0 <= i < |ts| - 1 ==> ts[..|ts| - 1][i] == ts[i];
      if ts[|ts| - 1].numLeft > m then ts[|ts| - 1].numLeft else m
  }

  /** The widest declared right width of a list of transformers, 0 for none. */
  function MaxRight<T, R>(ts: seq<TokenTransformer<T, R>>): (m: nat)
    ensures forall i :: 0 <= i < |ts| ==> ts[i].numRight <= m
    ensures m == 0 || exists i :: 0 <= i < |ts| && ts[i].numRight == m
  {
    if ts == [] then 0
    else
      var m := MaxRight(ts[..|ts| - 1]);
      assert forall i :: 0 <= i < |ts| - 1 ==> ts[..|ts| - 1][i] == ts[i];
      if ts[|ts| - 1].numRight > m then ts[|ts| - 1].numRight else m
  }

  /** Every transformer fits in buffers of widths `mL` and `mR`. */
  predicate Fits<T, R>(ts: seq<TokenTransformer<T, R>>, mL: nat, mR: nat) {
    forall i :: 0 <= i < |ts| ==> ts[i].numLeft <= mL && ts[i].numRight <= mR
  }

  /** `get_transformers_max_num_tokens`: the componentwise maximum of the declared
      widths, (0, 0) for no transformers. */
  method GetTransformersMaxNumTokens<T, R>(ts: seq<TokenTransformer<T, R>>) returns (mL: nat, mR: nat)
    ensures mL == MaxLeft(ts) && mR == MaxRight(ts)
    ensures Fits(ts, mL, mR)
    ensures ts == [] ==> mL == 0 && mR == 0
  {
    mL, mR := 0, 0;
    var i := 0;
    while i < |ts|
      invariant 0 <= i <= |ts|
      invariant mL == MaxLeft(ts[..i]) && mR == MaxRight(ts[..i])
    {
      assert ts[..i + 1][..i] == ts[..i];
      if ts[i].numLeft > mL {
        mL := ts[i].numLeft;
      }
      if ts[i].numRight > mR {
        mR := ts[i].numRight;
      }
      i := i + 1;
    }
    assert ts[..|ts|] == ts;
  }

  /** The left buffer after one shift: the center is appended when `m > 0`, and the
      oldest token is dropped when the buffer was longer than `m` before the append. */
  function ShiftLeft<T>(left: seq<T>, center: T, m: nat): seq<T> {
    var grown := if m > 0 then left + [center] else left;
    if |left| > m then grown[1..] else grown
  }

  /** The new center and right buffer after one shift, and what is left of the source:
      the center is taken from the right buffer when it is non-empty (which is then
      refilled from the source if possible), and from the source otherwise. */
  function ShiftRight<T>(right: seq<T>, rest: seq<T>): (r: (Option<T>, seq<T>, seq<T>))
    ensures r.0.None? <==> right == [] && rest == []
    ensures r.0.Some? ==> right + rest == [r.0.value] + r.1 + r.2
    ensures right != [] ==> r.0 == Some(right[0])
    ensures right != [] && rest != [] ==> |r.1| == |right|
    ensures right != [] && rest == [] ==> |r.1| == |right| - 1
    ensures right == [] ==> r.1 == [] && r.0 == (if rest == [] then None else Some(rest[0]))
  {
    if right == [] then
      (if rest == [] then (None, [], []) else (Some(rest[0]), [], rest[1..]))
    else if rest == [] then (Some(right[0]), right[1..], [])
    else (Some(right[0]), right[1..] + [rest[0]], rest[1..])
  }

  /** The left buffer after the centers `done` went through it, starting empty: empty
      when `m == 0`, and otherwise the newest min(|done|, m + 1) of them in order. */
  function LeftWindow<T>(done: seq<T>, m: nat): (r: seq<T>)
    ensures m == 0 ==> r == []
    ensures m > 0 ==> |r| == (if |done| <= m + 1 then |done| else m + 1)
  {
    if m == 0 then []
    else if |done| <= m + 1 then done
    else done[|done| - (m + 1)..]
  }

  /** Shifting a center into the left window gives the window of one more center; so
      the left buffer grows 0, 1, ..., m, m + 1 and then stays at m + 1. */
  lemma ShiftLeftWindow<T>(done: seq<T>, center: T, m: nat)
    ensures ShiftLeft(LeftWindow(done, m), center, m) == LeftWindow(done + [center], m)
  {
    if m > 0 && |done| > m + 1 {
      var l := LeftWindow(done, m);
      assert l[1..] + [center] == (done + [center])[|done| + 1 - (m + 1)..];
    }
  }

  /** The left buffer of the shifts over a whole list of centers, from an empty start. */
  function LeftAfter<T>(centers: seq<T>, m: nat): seq<T> {
    if centers == [] then []
    else ShiftLeft(LeftAfter(centers[..|centers| - 1], m), centers[|centers| - 1], m)
  }

  /** Repeated shifting from an empty left buffer keeps exactly the left window: at most
      m + 1 of the most recent centers in order, and nothing when m == 0. */
  lemma {:induction false} LeftAfterIsWindow<T>(centers: seq<T>, m: nat)
    ensures LeftAfter(centers, m) == LeftWindow(centers, m)
  {
    if centers != [] {
      var init := centers[..|centers| - 1];
      LeftAfterIsWindow(init, m);
      ShiftLeftWindow(init, centers[|centers| - 1], m);
      assert init + [centers[|centers| - 1]] == centers;
    }
  }

  /** The two buffers that the dispatch loops pass to the shift and update in place. */
  class Window<T> {
    var left: seq<T>
    var right: seq<T>

    constructor ()
      ensures left == [] && right == []
    {
      left := [];
      right := [];
    }
  }

  /** A Python iterator over a finite list: what it has not produced yet. */
  class TokenStream<T> {
    var rest: seq<T>

    constructor (s: seq<T>)
      ensures rest == s
    {
      rest := s;
    }

    /** `next()`, with `None` for StopIteration. */
    method Next() returns (t: Option<T>)
      modifies this
      ensures old(rest) == [] ==> t == None && rest == []
      ensures old(rest) != [] ==> t == Some(old(rest)[0]) && rest == old(rest)[1..]
    {
      if rest == [] {
        t := None;
      } else {
        t := Some(rest[0]);
        rest := rest[1..];
      }
    }
  }

  /** `shift_context_center_tokens`: moves the center into the left buffer and takes
      the next center, updating both buffers and the stream in place. */
  method ShiftContextCenterTokens<T>(w: Window<T>, center: T, src: TokenStream<T>, m: nat)
    returns (next: Option<T>)
    modifies w, src
    ensures w.left == ShiftLeft(old(w.left), center, m)
    ensures (next, w.right, src.rest) == ShiftRight(old(w.right), old(src.rest))
  {
    var leftLen, rightLen := |w.left|, |w.right|;
    if m > 0 {
      w.left := w.left + [center];
    }
    if leftLen > m {
      w.left := w.left[1..];
    }
    if rightLen == 0 {
      next := src.Next();
    } else {
      next := Some(w.right[0]);
      w.right := w.right[1..];
      var t := src.Next();
      if t.Some? {
        w.right := w.right + [t.value];
      }
    }
  }

  /** The k-th component of every row of a stream of rows. */
  function Column<T>(rows: seq<seq<T>>, k: nat): (c: seq<T>)
    requires forall i :: 0 <= i < |rows| ==> k < |rows[i]|
    ensures |c| == |rows| && forall i :: 0 <= i < |rows| ==> c[i] == rows[i][k]
  {
    seq(|rows|, i requires 0 <= i < |rows| => rows[i][k])
  }

  /** Parallel buffers of `shift_context_center_list_tokens`: one left and one right
      list per component, all advanced together. */
  class ListWindow<T> {
    var left: seq<seq<T>>
    var right: seq<seq<T>>

    constructor (n: nat)
      ensures |left| == n && |right| == n
      ensures forall k :: 0 <= k < n ==> left[k] == [] && right[k] == []
    {
      left := seq(n, _ => []);
      right := seq(n, _ => []);
    }

    /** The parallel lists are as many as the components and of one common length. */
    predicate Uniform(n: nat)
      reads this
    {
      |left| == n && |right| == n && n > 0
      && (forall k :: 0 <= k < n ==> |left[k]| == |left[0]|)
      && (forall k :: 0 <= k < n ==> |right[k]| == |right[0]|)
    }
  }

  /** `shift_context_center_list_tokens`: the shift applied to parallel buffers, pulling
      one row of components at a time. Each component moves exactly as the scalar shift
      moves it over that component's column of the stream. */
  method ShiftContextCenterListTokens<T>(w: ListWindow<T>, center: seq<T>, src: TokenStream<seq<T>>, m: nat)
    returns (next: Option<seq<T>>)
    requires w.Uniform(|center|)
    requires forall i :: 0 <= i < |src.rest| ==> |src.rest[i]| == |center|
    modifies w, src
    ensures w.Uniform(|center|)
    ensures forall i :: 0 <= i < |src.rest| ==> |src.rest[i]| == |center|
    ensures next.Some? ==> |next.value| == |center|
    ensures src.rest == if old(src.rest) == [] then [] else old(src.rest)[1..]
    ensures forall k :: 0 <= k < |center| ==> w.left[k] == ShiftLeft(old(w.left[k]), center[k], m)
    ensures forall k :: 0 <= k < |center| ==>
      ShiftRight(old(w.right[k]), Column(old(src.rest), k))
        == (if next.Some? then Some(next.value[k]) else None, w.right[k], Column(src.rest, k))
  {
    ShiftLeftLists(w, center, m);
    next := ShiftRightLists(w, src, |center|);
  }

  /** The left half of the parallel shift: append each center component, then drop the
      oldest of every list when the first list was longer than `m`. */
  method ShiftLeftLists<T>(w: ListWindow<T>, center: seq<T>, m: nat)
    requires w.Uniform(|center|)
    modifies w
    ensures w.Uniform(|center|) && w.right == old(w.right)
    ensures forall k :: 0 <= k < |center| ==> w.left[k] == ShiftLeft(old(w.left[k]), center[k], m)
  {
    var n := |center|;
    var left0 := w.left;
    var leftLen := |left0[0]|;
    var grown := if m > 0 then seq(n, k requires 0 <= k < n => left0[k] + [center[k]]) else left0;
    if leftLen > m {
      w.left := seq(n, k requires 0 <= k < n => grown[k][1..]);
    } else {
      w.left := grown;
    }
  }

  /** The right half of the parallel shift: the new center row comes from the heads of
      the right lists, or from the stream when they are empty. */
  method ShiftRightLists<T>(w: ListWindow<T>, src: TokenStream<seq<T>>, n: nat)
    returns (next: Option<seq<T>>)
    requires w.Uniform(n)
    requires forall i :: 0 <= i < |src.rest| ==> |src.rest[i]| == n
    modifies w, src
    ensures w.Uniform(n) && w.left == old(w.left)
    ensures forall i :: 0 <= i < |src.rest| ==> |src.rest[i]| == n
    ensures next.Some? ==> |next.value| == n
    ensures src.rest == if old(src.rest) == [] then [] else old(src.rest)[1..]
    ensures forall k :: 0 <= k < n ==>
      ShiftRight(old(w.right[k]), Column(old(src.rest), k))
        == (if next.Some? then Some(next.value[k]) else None, w.right[k], Column(src.rest, k))
  {
    var right0, rest0 := w.right, src.rest;
    if |right0[0]| == 0 {
      next := src.Next();
      forall k | 0 <= k < n
        ensures ShiftRight(right0[k], Column(rest0, k))
          == (if next.Some? then Some(next.value[k]) else None, w.right[k], Column(src.rest, k))
      {
        if rest0 != [] {
          assert Column(src.rest, k) == Column(rest0, k)[1..];
        }
      }
    } else {
      next := Some(seq(n, k requires 0 <= k < n => right0[k][0]));
      var t := src.Next();
      if t.Some? {
        var row := t.value;
        w.right := seq(n, k requires 0 <= k < n => right0[k][1..] + [row[k]]);
        forall k | 0 <= k < n
          ensures ShiftRight(right0[k], Column(rest0, k))
            == (Some(next.value[k]), w.right[k], Column(src.rest, k))
        {
          assert Column(src.rest, k) == Column(rest0, k)[1..];
        }
      } else {
        w.right := seq(n, k requires 0 <= k < n => right0[k][1..]);
      }
    }
  }
}

=== FILE: word2vec.dfy ===
/** transformers/embeddings.py, first half: the word2vec transformer, which turns each
    document into (center, context) pairs by driving the context-window shift over the
    token stream. */
module Word2vec {
  import opened Wrappers
  import opened Tokens
  import opened ContextWindow
  import opened Documents
  import opened SeqDocs
  import opened Iterators
  import opened TransformerInterface
  import opened Dispatch

  function Min(a: int, b: int): int {
    if a < b then a else b
  }

  /** The right buffer while token i is the center: the next w tokens, fewer at the end. */
  function RightWindow(ts: seq<Token>, i: nat, w: nat): (r: seq<Token>)
    requires i < |ts|
    ensures |r| == Min(w, |ts| - 1 - i)
  {
    ts[i + 1..Min(i + 1 + w, |ts|)]
  }

  /** The context words of center i: the left buffer (min(i, w + 1) preceding tokens,
      oldest first, none when w == 0) then the right buffer (nearest first). */
  function Contexts(ts: seq<Token>, i: nat, w: nat): seq<Token>
    requires i < |ts|
  {
    LeftWindow(ts[..i], w) + RightWindow(ts, i, w)
  }

  /** The pairs of one center with each of its contexts that is not unk. */
  function ContextPairs(c: Token, ctx: seq<Token>, unk: Token): (r: seq<(Token, Token)>) {
    if ctx == [] then []
    else
      ContextPairs(c, ctx[..|ctx| - 1], unk)
      + (if ctx[|ctx| - 1] != unk then [(c, ctx[|ctx| - 1])] else [])
  }

  /** An unk center yields nothing. */
  function CenterPairs(c: Token, ctx: seq<Token>, unk: Token): seq<(Token, Token)> {
    if c == unk then [] else ContextPairs(c, ctx, unk)
  }

  /** The pairs of the first n centers, grouped by center in stream order. */
  function PairsUpTo(ts: seq<Token>, w: nat, unk: Token, n: nat): seq<(Token, Token)>
    requires n <= |ts|
  {
    if n == 0 then []
    else PairsUpTo(ts, w, unk, n - 1) + CenterPairs(ts[n - 1], Contexts(ts, n - 1, w), unk)
  }

  /** What `_word2vec_gen` yields for a stream and a window size. */
  function Word2VecPairs(ts: seq<Token>, w: nat, unk: Token): seq<(Token, Token)> {
    PairsUpTo(ts, w, unk, |ts|)
  }

  /** A pair of a center holds that center and one of its contexts that is not unk;
      every such context gives a pair. */
  lemma {:induction false} ContextPairsSpec(c: Token, ctx: seq<Token>, unk: Token, p: (Token, Token))
    ensures p in ContextPairs(c, ctx, unk) <==> p.0 == c && p.1 in ctx && p.1 != unk
  {
    if ctx != [] {
      var init := ctx[..|ctx| - 1];
      ContextPairsSpec(c, init, unk, p);
      assert ctx == init + [ctx[|ctx| - 1]];
    }
  }

  /** Every pair comes from one center of the stream and one of its contexts, and
      neither side is unk. */
  lemma {:induction false} PairsUpToOrigin(ts: seq<Token>, w: nat, unk: Token, n: nat, p: (Token, Token))
    requires n <= |ts| && p in PairsUpTo(ts, w, unk, n)
    ensures p.0 != unk && p.1 != unk
    ensures exists i :: 0 <= i < n && p.0 == ts[i] && p.1 in Contexts(ts, i, w)
  {
    if p in PairsUpTo(ts, w, unk, n - 1) {
      PairsUpToOrigin(ts, w, unk, n - 1, p);
    } else {
      ContextPairsSpec(ts[n - 1], Contexts(ts, n - 1, w), unk, p);
    }
  }

  /** No yielded pair has unk on either side, and every pair is a center and one of
      its contexts. */
  lemma NoUnkPairs(ts: seq<Token>, w: nat, unk: Token, p: (Token, Token))
    requires p in Word2VecPairs(ts, w, unk)
    ensures p.0 != unk && p.1 != unk
    ensures exists i :: 0 <= i < |ts| && p.0 == ts[i] && p.1 in Contexts(ts, i, w)
  {
    PairsUpToOrigin(ts, w, unk, |ts|, p);
  }

  /** Conversely, a center that is not unk is paired with each of its contexts that
      is not unk. */
  lemma {:induction false} PairsComplete(ts: seq<Token>, w: nat, unk: Token, n: nat, i: nat, x: Token)
    requires i < n <= |ts| && ts[i] != unk && x in Contexts(ts, i, w) && x != unk
    ensures (ts[i], x) in PairsUpTo(ts, w, unk, n)
  {
    if i < n - 1 {
      PairsComplete(ts, w, unk, n - 1, i, x);
    } else {
      ContextPairsSpec(ts[i], Contexts(ts, i, w), unk, (ts[i], x));
    }
  }

  /** A window of size 0 yields no pair: the left buffer never grows and the right
      buffer is never filled. */
  lemma {:induction false} ZeroWindowNoPairs(ts: seq<Token>, unk: Token, n: nat)
    requires n <= |ts|
    ensures PairsUpTo(ts, 0, unk, n) == []
  {
    if n > 0 {
      ZeroWindowNoPairs(ts, unk, n - 1);
      assert Contexts(ts, n - 1, 0) == [];
    }
  }

  /** The buffers and the rest of the stream while token k is the center. */
  ghost predicate W2VState(ts: seq<Token>, w: nat, k: nat, left: seq<Token>, right: seq<Token>, rest: seq<Token>) {
    k < |ts| && left == LeftWindow(ts[..k], w) && right == RightWindow(ts, k, w)
    && rest == ts[Min(k + 1 + w, |ts|)..]
  }

  /** One shift moves the state from center k to center k + 1, or ends the stream. */
  lemma W2VShift(ts: seq<Token>, w: nat, k: nat, left: seq<Token>, right: seq<Token>, rest: seq<Token>)
    requires W2VState(ts, w, k, left, right, rest)
    ensures ShiftLeft(left, ts[k], w) == LeftWindow(ts[..k + 1], w)
    ensures ShiftRight(right, rest).0.None? <==> k + 1 == |ts|
    ensures ShiftRight(right, rest).0.Some? ==>
      ShiftRight(right, rest).0.value == ts[k + 1]
      && W2VState(ts, w, k + 1, ShiftLeft(left, ts[k], w), ShiftRight(right, rest).1, ShiftRight(right, rest).2)
  {
    ShiftLeftWindow(ts[..k], ts[k], w);
    assert ts[..k] + [ts[k]] == ts[..k + 1];
    if right != [] && rest != [] {
      assert right[1..] + [rest[0]] == RightWindow(ts, k + 1, w);
    }
  }

  /** The inner `for context_word in context_words` loop. */
  method EmitContextPairs(c: Token, ctx: seq<Token>, unk: Token) returns (ps: seq<(Token, Token)>)
    ensures ps == ContextPairs(c, ctx, unk)
  {
    ps := [];
    for j := 0 to |ctx|
      invariant ps == ContextPairs(c, ctx[..j], unk)
    {
      assert ctx[..j + 1][..j] == ctx[..j];
      if ctx[j] != unk {
        ps := ps + [(c, ctx[j])];
      }
    }
    assert ctx[..|ctx|] == ctx;
  }

  /** Prefilling the right buffer with up to w tokens after the first center. */
  method FillRight(ts: seq<Token>, w: nat, win: Window<Token>, src: TokenStream<Token>)
    requires |ts| >= 1 && src.rest == ts[1..] && win.left == [] && win.right == []
    modifies win, src
    ensures W2VState(ts, w, 0, win.left, win.right, src.rest)
  {
    var i := 0;
    while i < w
      invariant 0 <= i <= w && 1 + i <= |ts| && win.right == ts[1..1 + i] && src.rest == ts[1 + i..] && win.left == []
      decreases w - i
    {
      var t := src.Next();
      if t.None? {
        break;
      }
      win.right := win.right + [t.value];
      i := i + 1;
    }
    assert ts[..0] == [];
  }

  /** `_word2vec_gen`: the first token is the center, up to w more fill the right
      buffer, then every center is paired with its contexts and the shift moves on.
      A negative window size makes the first shift pop an empty left buffer. */
  method Word2VecGen(ts: seq<Token>, unk: Token, windowSize: int) returns (r: Result<seq<(Token, Token)>>)
    ensures windowSize < 0 && ts != [] ==> r == Err(IndexError)
    ensures windowSize < 0 && ts == [] ==> r == Ok([])
    ensures windowSize >= 0 ==> r == Ok(Word2VecPairs(ts, windowSize, unk))
  {
    if ts == [] {
      return Ok([]);
    }
    if windowSize < 0 {
      return Err(IndexError);
    }
    var w: nat := windowSize;
    var src := new TokenStream(ts);
    var first := src.Next();
    var win := new Window<Token>();
    FillRight(ts, w, win, src);
    var cur: Option<Token> := first;
    var out: seq<(Token, Token)> := [];
    ghost var k: nat := 0;
    while cur.Some?
      invariant cur.Some? ==> k < |ts| && cur.value == ts[k] && W2VState(ts, w, k, win.left, win.right, src.rest)
      invariant cur.None? ==> k == |ts|
      invariant k <= |ts| && out == PairsUpTo(ts, w, unk, k)
      decreases |ts| - k
    {
      cur, out := W2VRound(ts, w, unk, win, src, cur.value, k, out);
      k := k + 1;
    }
    r := Ok(out);
  }

  /** One pass of the main loop of `_word2vec_gen`: center k is paired with its
      contexts, then the window shifts to the next center, if any. */
  method W2VRound(ts: seq<Token>, w: nat, unk: Token, win: Window<Token>, src: TokenStream<Token>, c: Token,
                  ghost k: nat, out: seq<(Token, Token)>)
    returns (cur: Option<Token>, out': seq<(Token, Token)>)
    requires W2VState(ts, w, k, win.left, win.right, src.rest) && c == ts[k] && out == PairsUpTo(ts, w, unk, k)
    modifies win, src
    ensures out' == PairsUpTo(ts, w, unk, k + 1)
    ensures cur.None? <==> k + 1 == |ts|
    ensures cur.Some? ==> cur.value == ts[k + 1] && W2VState(ts, w, k + 1, win.left, win.right, src.rest)
  {
    out' := out;
    if c != unk {
      var ps := EmitContextPairs(c, win.left + win.right, unk);
      out' := out + ps;
    }
    W2VShift(ts, w, k, win.left, win.right, src.rest);
    cur := ShiftContextCenterTokens(win, c, src, w);
  }

  /** `Word2vecTransformer(window_size, round_iter)`. */
  datatype Word2vecTransformer = Word2vecTransformer(windowSize: int, roundIter: bool)

  /** The unk sentinel of the document type; only word and id documents are supported. */
  function UnkFor(tokenType: string, vocab: Vocab): (r: Result<Token>)
    ensures r.Ok? <==> tokenType == "word_type" || tokenType == "id_type"
    ensures r.Err? ==> r.error == NotImplementedError
    ensures r.Ok? ==> r.value == if tokenType == "word_type" then vocab.unk else vocab.unkId
  {
    if tokenType == "word_type" then Ok(vocab.unk)
    else if tokenType == "id_type" then Ok(vocab.unkId)
    else Err(NotImplementedError)
  }

  /** `get_lists_stats`: a "center" and a "context" field of the documents' type. */
  function GetListsStats(docs: seq<Document>): (r: Result<(ListStat, ListStat)>)
    requires |docs| >= 1
    reads set d | d in docs
    ensures r.Ok? <==> ((docs[0].tokenType == "word_type" || docs[0].tokenType == "id_type")
      && forall i :: 0 <= i < |docs| ==> docs[i].tokenType == docs[0].tokenType)
    ensures r.Err? ==> r.error == NotImplementedError || r.error == AssertionError
    ensures r.Ok? ==> r.value == (ListStat("center", docs[0].tokenType, 1, false, None),
                                  ListStat("context", docs[0].tokenType, 1, false, None))
  {
    var tokenType := docs[0].tokenType;
    if tokenType != "word_type" && tokenType != "id_type" then Err(NotImplementedError)
    else
      var check := AssertDocsTokenType(tokenType, docs[1..]);
      if check.Fail? then Err(check.error)
      else
        var center := PlainListStat("center", tokenType, 1);
        var context := PlainListStat("context", tokenType, 1);
        Ok((center.value, context.value))
  }

  /** The pair streams of several documents, one per document. */
  function PairStreams(streams: seq<seq<Token>>, w: nat, unk: Token): (r: seq<seq<(Token, Token)>>)
    ensures |r| == |streams| && forall i :: 0 <= i < |streams| ==> r[i] == Word2VecPairs(streams[i], w, unk)
  {
    seq(|streams|, i requires 0 <= i < |streams| => Word2VecPairs(streams[i], w, unk))
  }

  /** The type checks every transform entry point makes before any pull. */
  function CheckDocs(docs: seq<Document>, vocab: Vocab): (r: Result<Token>)
    requires |docs| >= 1
    reads set d | d in docs
    ensures r.Ok? <==> ((docs[0].tokenType == "word_type" || docs[0].tokenType == "id_type")
      && forall i :: 0 <= i < |docs| ==> docs[i].tokenType == docs[0].tokenType)
    ensures r.Ok? ==> r.value == if docs[0].tokenType == "word_type" then vocab.unk else vocab.unkId
  {
    var unk := UnkFor(docs[0].tokenType, vocab);
    if unk.Err? then unk
    else
      var check := AssertDocsTokenType(docs[0].tokenType, docs[1..]);
      if check.Fail? then Err(check.error) else unk
  }

  /** The token streams of the documents, or the first error one of them raises. */
  function DocStreams(docs: seq<Document>): (r: Result<seq<seq<Token>>>)
    reads set d | d in docs
    ensures r.Ok? ==> |r.value| == |docs| && forall i :: 0 <= i < |docs| ==> docs[i].Iter() == Ok(r.value[i])
    ensures r.Err? ==> exists i :: 0 <= i < |docs| && docs[i].Iter() == Err(r.error)
  {
    if docs == [] then Ok([])
    else
      var init := DocStreams(docs[..|docs| - 1]);
      var last := docs[|docs| - 1].Iter();
      if init.Err? then
        var i :| 0 <= i < |docs| - 1 && docs[..|docs| - 1][i].Iter() == Err(init.error);
        assert docs[i] == docs[..|docs| - 1][i];
        init
      else if last.Err? then Err(last.error)
      else Ok(init.value + [last.value])
  }

  /** The `_word2vec_gen` of every stream, in document order. */
  method PerDocPairs(streams: seq<seq<Token>>, unk: Token, windowSize: int) returns (r: Result<seq<seq<(Token, Token)>>>)
    ensures windowSize >= 0 ==> r == Ok(PairStreams(streams, windowSize, unk))
    ensures windowSize < 0 && Concat(streams) != [] ==> r == Err(IndexError)
    ensures windowSize < 0 && Concat(streams) == [] ==> r.Ok? && MergedRound(r.value) == [] && Concat(r.value) == []
  {
    if windowSize < 0 {
      // every non-empty stream fails on its first shift, and empty ones yield nothing
      if Concat(streams) != [] {
        return Err(IndexError);
      }
      var none: seq<seq<(Token, Token)>> := seq(|streams|, _ => []);
      AllEmptyMerged(none);
      AllEmptyConcat(none);
      return Ok(none);
    }
    var perDoc: seq<seq<(Token, Token)>> := [];
    for i := 0 to |streams|
      invariant perDoc == PairStreams(streams[..i], windowSize, unk)
    {
      var ps := Word2VecGen(streams[i], unk, windowSize);
      assert streams[..i + 1] == streams[..i] + [streams[i]];
      perDoc := perDoc + [ps.value];
    }
    assert streams[..|streams|] == streams;
    r := Ok(perDoc);
  }

  /** `transform_docs`: the pairs of every document, one document after the other, or
      interleaved round by round with `merged_round_iter` when `round_iter` is set. */
  method TransformDocs(t: Word2vecTransformer, docs: seq<Document>, vocab: Vocab) returns (r: Result<seq<(Token, Token)>>)
    requires |docs| >= 1
    ensures CheckDocs(docs, vocab).Err? ==> r == Err(CheckDocs(docs, vocab).error)
    ensures CheckDocs(docs, vocab).Ok? && DocStreams(docs).Err? ==> r == Err(DocStreams(docs).error)
    ensures CheckDocs(docs, vocab).Ok? && DocStreams(docs).Ok? ==>
      var unk := CheckDocs(docs, vocab).value;
      var streams := DocStreams(docs).value;
      if t.windowSize < 0 && Concat(streams) != [] then r == Err(IndexError)
      else if t.windowSize < 0 then r == Ok([])
      else if t.roundIter then r == Ok(MergedRound(PairStreams(streams, t.windowSize, unk)))
      else r == Ok(Concat(PairStreams(streams, t.windowSize, unk)))
  {
    var unk := CheckDocs(docs, vocab);
    if unk.Err? {
      return Err(unk.error);
    }
    var streams := DocStreams(docs);
    if streams.Err? {
      return Err(streams.error);
    }
    r := PairsOfStreams(t, streams.value, unk.value);
  }

  /** What `transform_docs` yields once the streams are read: per-document pairs,
      interleaved or one document after the other. */
  method PairsOfStreams(t: Word2vecTransformer, streams: seq<seq<Token>>, unk: Token) returns (r: Result<seq<(Token, Token)>>)
    ensures if t.windowSize < 0 && Concat(streams) != [] then r == Err(IndexError)
      else if t.windowSize < 0 then r == Ok([])
      else if t.roundIter then r == Ok(MergedRound(PairStreams(streams, t.windowSize, unk)))
      else r == Ok(Concat(PairStreams(streams, t.windowSize, unk)))
  {
    var perDoc := PerDocPairs(streams, unk, t.windowSize);
    if perDoc.Err? {
      return Err(perDoc.error);
    }
    if t.roundIter {
      var out := MergedRoundIter(perDoc.value);
      r := Ok(out);
    } else {
      var out := ConcatOf(perDoc.value);
      r := Ok(out);
    }
  }

  lemma {:induction false} AllEmptyConcat<T>(ss: seq<seq<T>>)
    requires forall j :: 0 <= j < |ss| ==> ss[j] == []
    ensures Concat(ss) == []
  {
    if ss != [] {
      AllEmptyConcat(ss[..|ss| - 1]);
    }
  }

  lemma AllEmptyMerged<T>(ss: seq<seq<T>>)
    requires forall j :: 0 <= j < |ss| ==> ss[j] == []
    ensures MergedRound(ss) == []
  {
    MergedLength(ss);
    AllEmptyTotal(ss);
  }

  lemma {:induction false} AllEmptyTotal<T>(ss: seq<seq<T>>)
    requires forall j :: 0 <= j < |ss| ==> ss[j] == []
    ensures TotalLen(ss) == 0
  {
    if ss != [] {
      AllEmptyTotal(ss[..|ss| - 1]);
    }
  }

  /** The sequential mode as a loop over the per-document streams. */
  method ConcatOf<T>(ss: seq<seq<T>>) returns (out: seq<T>)
    ensures out == Concat(ss)
  {
    out := [];
    for i := 0 to |ss|
      invariant out == Concat(ss[..i])
    {
      assert ss[..i + 1] == ss[..i] + [ss[i]];
      ConcatSnoc(ss[..i], ss[i]);
      out := out + ss[i];
    }
    assert ss[..|ss|] == ss;
  }

  /** The sequences of every sequence document in order, flags dropped, or the first
      error one of them raises. */
  function SeqStreams(sds: seq<SeqDocument>): (r: Result<seq<seq<Token>>>)
    reads set sd | sd in sds, set sd | sd in sds :: sd.doc
  {
    if sds == [] then Ok([])
    else
      var init := SeqStreams(sds[..|sds| - 1]);
      var last := sds[|sds| - 1].Iter();
      if init.Err? then init
      else if last.Err? then Err(last.error)
      else Ok(init.value + SeqColumn(last.value))
  }

  /** `transform_seq_docs`: the pairs of every sequence of every sequence document,
      one sequence after the other. */
  method TransformSeqDocs(t: Word2vecTransformer, sds: seq<SeqDocument>, vocab: Vocab) returns (r: Result<seq<(Token, Token)>>)
    requires |sds| >= 1
    ensures CheckDocs(DocsOf(sds), vocab).Err? ==> r == Err(CheckDocs(DocsOf(sds), vocab).error)
    ensures CheckDocs(DocsOf(sds), vocab).Ok? && SeqStreams(sds).Err? ==> r == Err(SeqStreams(sds).error)
    ensures CheckDocs(DocsOf(sds), vocab).Ok? && SeqStreams(sds).Ok? ==>
      var unk := CheckDocs(DocsOf(sds), vocab).value;
      var seqs := SeqStreams(sds).value;
      if t.windowSize < 0 && Concat(seqs) != [] then r == Err(IndexError)
      else if t.windowSize < 0 then r == Ok([])
      else r == Ok(Concat(PairStreams(seqs, t.windowSize, unk)))
  {
    var unk := CheckDocs(DocsOf(sds), vocab);
    if unk.Err? {
      return Err(unk.error);
    }
    var seqs := SeqStreams(sds);
    if seqs.Err? {
      return Err(seqs.error);
    }
    var perSeq := PerDocPairs(seqs.value, unk.value, t.windowSize);
    if perSeq.Err? {
      return Err(perSeq.error);
    }
    var out := ConcatOf(perSeq.value);
    r := Ok(out);
  }

  /** `estimate_docs_transformed_size` over the documents' lengths: 2 w (n - 1) per
      document of n tokens. */
  function EstimateDocsTransformedSize(windowSize: int, lens: seq<int>): (r: int)
    ensures r == 2 * windowSize * (Sum(lens) - |lens|)
  {
    if lens == [] then 0
    else
      var init := lens[..|lens| - 1];
      EstimateDocsTransformedSize(windowSize, init) + 2 * windowSize * (lens[|lens| - 1] - 1)
  }

  /** Because the left buffer settles one wider than the window, the estimate is not
      an upper bound: three known words with window 1 give 5 pairs, estimated as 4. */
  lemma EstimateBelowPairCount()
    ensures var ts := [Str("a"), Str("b"), Str("c")];
      |Word2VecPairs(ts, 1, Str("<unk>"))| == 5 && EstimateDocsTransformedSize(1, [|ts|]) == 4
  {
    var ts := [Str("a"), Str("b"), Str("c")];
    var unk := Str("<unk>");
    assert Contexts(ts, 0, 1) == [Str("b")];
    assert Contexts(ts, 1, 1) == [Str("a"), Str("c")];
    assert Contexts(ts, 2, 1) == [Str("a"), Str("b")];
    assert ContextPairs(Str("a"), [Str("b")], unk) == [(Str("a"), Str("b"))] by {
      assert [Str("b")][..0] == [];
    }
    assert |ContextPairs(Str("b"), [Str("a"), Str("c")], unk)| == 2 by {
      assert [Str("a"), Str("c")][..1] == [Str("a")];
      assert [Str("a")][..0] == [];
    }
    assert |ContextPairs(Str("c"), [Str("a"), Str("b")], unk)| == 2 by {
      assert [Str("a"), Str("b")][..1] == [Str("a")];
      assert [Str("a")][..0] == [];
    }
    assert Sum([3]) == 3 by {
      assert [3][..0] == [];
    }
  }

  function Sum(xs: seq<int>): int {
    if xs == [] then 0 else Sum(xs[..|xs| - 1]) + xs[|xs| - 1]
  }

  /** Both modes yield the same pairs, each as often, only in another order. */
  lemma ModesSamePairs(streams: seq<seq<Token>>, w: nat, unk: Token)
    ensures multiset(MergedRound(PairStreams(streams, w, unk))) == multiset(Concat(PairStreams(streams, w, unk)))
  {
    MergedComplete(PairStreams(streams, w, unk));
  }
}

=== FILE: wrappers.dfy ===
/** Option, Result and the Python exception kinds that the pipeline raises. */
module Wrappers {

  datatype Option<T> = None | Some(value: T) {
    function GetOr(default: T): T {
      match this
      case Some(v) => v
      case None => default
    }
  }

  /** The exceptions the modelled code raises, by Python class. */
  datatype Error =
    | AssertionError
    | ValueError
    | NotImplementedError
    | IndexError
    | TypeError
    | ZeroDivisionError
    | AttributeError
    | KeyError
    | RuntimeError
      /** Not an exception: the stream has no end, so a loop that reads it to the end
          never returns. */
    | Endless

  datatype Result<T> = Ok(value: T) | Err(error: Error) {
    predicate IsFailure() { Err? }
    function PropagateFailure<U>(): Result<U>
      requires Err?
    {
      Err(error)
    }
    function Extract(): T
      requires Ok?
    {
      value
    }
  }

  /** The outcome of an operation that returns nothing or raises. */
  datatype Outcome = Pass | Fail(error: Error)
}
